=== FILE: README.md ===
# Roslynator symbol-definition listing, modelled in Dafny

This project models the engine behind Roslynator's `list-symbols` command. The engine decides which symbols of a compilation are shown, renders each definition as a stream of display parts, and writes the definitions as one of three layouts: a namespace list, a namespace hierarchy or a type hierarchy. The model has five parts.

- **Filters.** The rule chains of `FilterRule`, the small rule classes, both `SymbolFilterOptions` classes, `SymbolFinderOptions` and the ignored-name matching of `DefinitionListOptions`. Outcomes, including the source's misspelt `WithAttibute` and `WithoutAttibute`, are a datatype. A thrown exception is a `Result` failure.
- **Display-part transforms.** These are the rewrites `SymbolDefinitionDisplay` applies to a `seq<Part>`:
  - the base list placed before the `where` clauses;
  - attribute brackets, separators and arguments;
  - `|`-joined enum flags;
  - the parameter-list scan with its four depth counters;
  - one parameter per line;
  - parameter and accessor attributes;
  - `= default(T)` rewritten to `= default`.
- **Type hierarchy.** `SymbolHierarchy` builds an inheritance forest over an arena of types. Index order makes every base type come before the types derived from it, since C# forbids cyclic inheritance.
- **Writers as event traces.** `SymbolDefinitionWriter` emits a sequence of writer calls (`WriterEvents.Event`). The model proves the following for all inputs:
  - every start call is closed by its own end call (`Balanced`, `Nest`);
  - the depth counter of `SymbolDefinitionWriter` and `AbstractSymbolDefinitionTextWriter` never goes below zero and ends where it began;
  - n items get n-1 separators.

  The text writer's own text around attributes and assemblies is rendered from the same trace.
- **Plain-text list writer.** `DefinitionListWriter` is modelled with the following:
  - its visibility rules;
  - the pending-indentation state machine;
  - its member, enum-member, type and namespace listings.

  Its calls into the display are opaque part sequences.

`DefinitionListFormat`'s `Includes` and `Update` are modelled over sets of flags. Every bit-flag enum is a `set` of its flags: `(a & b) == b` becomes `b <= a`.

The compiler services are inputs, not models. These include display of a symbol as parts, formatting of primitive constants, constituent fields of an enum value, accessibility, metadata-name sets and declaration kinds. Symbols, attributes and types are plain datatypes whose fields carry what those services would answer. Throughout, `SymbolDefinitionComparer`, which is not part of this model, is an integer rank. Ordering by a rank is a total preorder, and every total preorder on a finite set arises this way.

## Model

| member | source | states |
|---|---|---|
| Sequences.Sort | src/Documentation/SymbolDefinitionWriter.cs:552-553 | `OrderBy(f => f, comparer)` yields a permutation of its input that is sorted by the comparer |
| Sequences.Filter | src/Documentation/SymbolDefinitionWriter.cs:623-625 | `Where(p)` keeps exactly the elements that satisfy `p`, drops at least one element when some element fails `p`, and keeps distinct elements distinct |
| Sequences.FilterAppend | src/Documentation/SymbolDefinitionWriter.cs:666-670 | `Where` keeps the order of its input: it distributes over concatenation |
| Sequences.FilterCount | src/Documentation/SymbolDefinitionWriter.cs:700-703 | `Where` keeps every copy of an element it keeps, and no copy of one it drops |
| Sequences.JoinCount | src/Documentation/SymbolDefinitionWriter.cs:711-725 | a "write the item, then a separator if another follows" loop over `n >= 1` items writes the separator's elements `n - 1` more times than the items hold them |
| Sequences.Dedup | src/Documentation/SymbolDefinitionWriter.cs:457-459 | a set of namespaces, like the keys of `GroupBy`, holds every element of its input exactly once |
| Sequences.SortedPositions | src/Documentation/SymbolDefinitionWriter.cs:550-554 | the positions of the selected items, each once, ordered by the comparer's key |
| FilterRules.HasAttributeIn | src/Workspaces.Core/FilterSymbols/WithAttributeFilterRule.cs:19-28 | the loop answers true exactly when some attribute of the symbol has a class in the name set |
| FilterRules.Invert | src/Workspaces.Core/FilterSymbols/PredicateSymbolFilterRule.cs:26-29 | the inverted rule is again a predicate rule, keeps the outcome, and succeeds on a symbol exactly when the original fails |
| FilterRules.Chain | src/Workspaces.Core/FilterSymbols/FilterRule.cs:10-30 | the outcome of the first rule the value fails, and `Success` when it passes every rule (also for no rules) |
| FilterRules.GetResult | src/Workspaces.Core/FilterSymbols/FilterRule.cs:10-19 | over symbol rules: `Success` when all pass; otherwise the outcome of the first failing rule |
| FilterRules.GetAttributeResult | src/Workspaces.Core/FilterSymbols/FilterRule.cs:21-30 | the attribute chain has the same first-failure outcome |
| FilterRules.ChainIgnoresRulesAfterFailure | src/Workspaces.Core/FilterSymbols/FilterRule.cs:12-16 | once a prefix holds a failing rule, appending rules after it leaves the outcome unchanged |
| FilterRules.ChainOutcomeComesFromARule | src/Workspaces.Core/FilterSymbols/FilterRule.cs:10-19 | every non-success outcome is the outcome of a rule in the list that the value fails |
| FilterRules.SymbolChainIgnoresRulesAfterFailure | src/Workspaces.Core/FilterSymbols/FilterRule.cs:12-16 | symbol rules after the first failing one are never consulted |
| FilterRules.SymbolChainOutcomeComesFromARule | src/Workspaces.Core/FilterSymbols/FilterRule.cs:10-19 | a non-success symbol outcome is the `Result` of some failing rule in the list |
| FilterRules.AttributeChainIgnoresRulesAfterFailure | src/Workspaces.Core/FilterSymbols/FilterRule.cs:23-27 | attribute rules after the first failing one are never consulted |
| FilterRules.IgnoredNameRuleDecision | src/Workspaces.Core/FilterSymbols/IgnoredNameSymbolFilterRule.cs:10-43 | outcome `Ignored`; fails on a listed containing namespace for every kind, on its own listed name for namespaces and types, and succeeds otherwise |
| FilterRules.IgnoredNameRuleIgnoresMemberName | src/Workspaces.Core/FilterSymbols/IgnoredNameSymbolFilterRule.cs:34-40 | events, fields, methods and properties get the same decision whatever their own name |
| FilterRules.IgnoredAttributeRuleDependsOnClassOnly | src/Workspaces.Core/FilterSymbols/IgnoredAttributeNameFilterRule.cs:12-22 | two attributes with the same class get the same decision; an empty name set passes every attribute; the outcome is `Ignored` |
| FilterRules.WithAttributeRuleIsExistential | src/Workspaces.Core/FilterSymbols/WithAttributeFilterRule.cs:10-28 | the decision depends only on the set of attribute classes (order and duplicates do not matter); no attributes or an empty name set fails |
| FilterRules.WithoutIsNegationOfWith | src/Workspaces.Core/FilterSymbols/WithoutAttributeFilterRule.cs:8-19 | the without-rule holds the same name set as the with-rule, decides the opposite, passes a symbol with no attributes, and reports `WithoutAttibute` (the with-rule `WithAttibute`) |
| FilterRules.PredicateRuleInversion | src/Workspaces.Core/FilterSymbols/PredicateSymbolFilterRule.cs:13-29 | the rule decides by its predicate and reports its fixed outcome; inverting twice gives back the same decisions and outcome |
| SymbolFilter.SuccessIffAdmissible | src/Workspaces.Core/SymbolFilterOptions.cs:121-315 | `IsSuccess` holds exactly when the symbol meets every per-kind condition (stated apart from the check order); `GetResult` throws exactly for unhandled kinds and for a type whose kind has no symbol group |
| SymbolFilter.SuccessIsMonotone | src/Workspaces.Core/SymbolFilterOptions.cs:116-315 | more groups, more visibilities or fewer ignored names never reject a symbol that was accepted |
| SymbolFilter.NullIgnoredSetIsEmptySet | src/Workspaces.Core/SymbolFilterOptions.cs:90-114 | options built without ignored names decide like options with empty name sets, and hide no attribute |
| SymbolFilter.CheckOrderOfTypesAndMembers | src/Workspaces.Core/SymbolFilterOptions.cs:185-315 | an implicitly declared type is reported `ImplicitlyDeclared`, but an implicitly declared member of an excluded group is reported `UnsupportedSymbolGroup` |
| SymbolFilter.TypeCheckOrder | src/Workspaces.Core/SymbolFilterOptions.cs:185-203 | each outcome for a type (implicit, unsupported group, not visible, ignored by own name or by container) is reported exactly when every earlier check passed and its own fails |
| SymbolFilter.MemberCheckOrder | src/Workspaces.Core/SymbolFilterOptions.cs:205-265 | events, fields and properties: the group check (Event, the field's group, Indexer or Property) comes first, then implicit declaration, visibility and container, each reported exactly when the earlier ones passed |
| SymbolFilter.FieldGroups | src/Workspaces.Core/SymbolFilterOptions.cs:224-233 | a const field of an enum is an enum field, any other const is a constant, a non-const field is a field |
| SymbolFilter.MethodCheckOrder | src/Workspaces.Core/SymbolFilterOptions.cs:267-315 | methods: group, then listed kind (else `Other`), then implicit declaration unless a parameterless class constructor, then visibility |
| SymbolFilter.NamespaceOutcomes | src/Workspaces.Core/SymbolFilterOptions.cs:177-183 | a namespace is `Ignored` exactly when its name is in the ignored set and `Success` otherwise; no group or visibility check |
| SymbolFilter.UnlistedMethodKindsAreOther | src/Workspaces.Core/SymbolFilterOptions.cs:274-302 | accessors, local functions and the other unlisted method kinds are reported `Other` |
| SymbolFilter.AttributeVisibleUnlessIgnored | src/Workspaces.Core/SymbolFilterOptions.cs:317-341 | without the debug-only branch, an attribute is hidden exactly when its class is in the ignored attribute names |
| SymbolFilter.NewSymbolFinderOptions | src/Workspaces.Core/FindSymbols/SymbolFinderOptions.cs:11-26 | a missing with- or without-set becomes the empty set; a given one holds exactly the given names |
| SymbolFilter.VerifyAttributes | src/Workspaces.Core/FindSymbols/SymbolFinderOptions.cs:98-135 | `Success` without requirements; `HasNotAttribute` when a with-set is given and no attribute matches it; otherwise `HasAttribute` when an attribute is in the without-set; agrees with the functional verdict |
| SymbolFilter.FinderResult | src/Workspaces.Core/FindSymbols/SymbolFinderOptions.cs:38-96 | a failing or throwing base result is returned unchanged; after a base success the attribute verdict decides |
| SymbolFilter.FinderAttributeOrder | src/Workspaces.Core/FindSymbols/SymbolFinderOptions.cs:98-132 | with no attribute requirements the finder decides like the base filter; a symbol failing both attribute tests gets `HasNotAttribute` |
| DocumentationFilter.MemberVisibilityCharacterized | src/Documentation/SymbolFilterOptions.cs:153-265 | a member is shown exactly when it is an event, field, property or method, has every group its kind needs, is a listable method if a method, is not implicitly declared unless a parameterless class constructor, and is visible |
| DocumentationFilter.MemberGroupExemptions | src/Documentation/SymbolFilterOptions.cs:166-201 | a named type is never a visible member; a non-const field and a non-indexer property need no group |
| DocumentationFilter.RejectedMethods | src/Documentation/SymbolFilterOptions.cs:211-251 | explicit interface implementations, static constructors, destructors, accessors, enum constructors and parameterless struct constructors are never shown |
| DocumentationFilter.TypeAndNamespaceVisibility | src/Documentation/SymbolFilterOptions.cs:139-151 | a type is shown exactly when not implicit, its kind's group is included, it is visible and not ignored (throwing for a kind without a group); a namespace needs its group and must not be ignored |
| DocumentationFilter.VisibilityDispatch | src/Documentation/SymbolFilterOptions.cs:120-137 | the dispatch throws only where the type check does, sends the four member kinds to the member check, and lets any other kind through |
| DocumentationFilter.MemberVisibilityIsMonotone | src/Documentation/SymbolFilterOptions.cs:153-265 | more groups and more visibilities never hide a member that was shown |
| DocumentationFilter.AttributeVisibility | src/Documentation/SymbolFilterOptions.cs:267-291 | without the debug-only branch an attribute is hidden exactly when its class is among the ignored attribute names |
| TypeKindMapping.ToSymbolGroupFilter | src/Documentation/Extensions/Extensions.cs:10-27 | succeeds exactly on the five declarable kinds (class, delegate, enum, interface, struct); every other kind is an `ArgumentException` |
| TypeKindMapping.ToNamespaceDocumentationPart | src/Documentation/Extensions/Extensions.cs:29-46 | succeeds exactly on the five declarable kinds; every other kind is an `InvalidOperationException` whose message names the unknown kind |
| TypeKindMapping.MappingsRoundTrip | src/Documentation/Extensions/Extensions.cs:10-46 | both mappings are undone by the inverse mapping from group or part back to kind, and the group is always a type group |
| TypeKindMapping.MappingsInjective | src/Documentation/Extensions/Extensions.cs:10-46 | two different declarable kinds never map to the same group nor to the same documentation part |
| TypeKindMapping.GroupMappingOnto | src/Documentation/Extensions/Extensions.cs:10-27 | every type group is reached, from the kind it stands for |
| ListFormat.Update | src/Documentation/DefinitionListFormat.cs:51-85 | type parameters and variance, type, explicit interface, parameters, constant value, ref, `this`, params/ref/out and parameter type are always on; constraints, modifiers, accessibility, parameter name and default value are on exactly when the matching part is included |
| ListFormat.IncludesIsSubset | src/Documentation/DefinitionListFormat.cs:41-49 | both `Includes` overloads hold exactly when the requested bits are a subset of the format's bits |
| ListFormat.UpdateIsMonotone | src/Documentation/DefinitionListFormat.cs:51-85 | including more parts never removes a display option, and equal part filters give equal display options |
| ListFormat.DefaultFormatValues | src/Documentation/DefinitionListFormat.cs:25 | the default format lists namespaces, includes every part, formats nothing over several lines, indents by two spaces, omits `IEnumerable` and prefers the `default` literal |
| ListOptions.NewOptions | src/Documentation/DefinitionListOptions.cs:14-52 | a missing name list becomes empty; otherwise the names are kept and each is parsed, in order, into the ignored metadata names; visibility, depth, namespace style and indentation are stored as given |
| ListOptions.ShouldBeIgnored | src/Documentation/DefinitionListOptions.cs:90-112 | ignored exactly when some entry is the type's own metadata name, or names no containing types and is the name of a namespace on the type's containing chain, the global namespace included |
| ListOptions.EntryWithContainingTypesMatchesExactly | src/Documentation/DefinitionListOptions.cs:94-97 | an entry naming containing types matches only the type with exactly that name |
| ListOptions.NamespaceEntryMatchesNestedTypes | src/Documentation/DefinitionListOptions.cs:97-107 | an entry naming a namespace matches every type anywhere below that namespace |
| ListOptions.NothingIgnoredWithoutNames | src/Documentation/DefinitionListOptions.cs:33 | options built without a name list ignore no type |
| ListOptions.DefaultOptionValues | src/Documentation/DefinitionListOptions.cs:114-132 | the defaults: private visibility, member depth, indentation by two spaces, `System` first, no nesting, split attributes with arguments, omitted `IEnumerable`, `default` literal, no assembly attributes, no ignored names |
| AttributeDisplay.WithoutSuffix | src/Documentation/SymbolDefinitionDisplay.cs:1226-1240 | a part changes exactly when it is a class name ending in `Attribute`, and then only by losing that suffix; its kind is kept |
| AttributeDisplay.StripAttributeSuffix | src/Documentation/SymbolDefinitionDisplay.cs:1226-1240 | fails exactly on an empty builder (`Last()` of nothing); otherwise only the last part is replaced, by itself without the suffix |
| AttributeDisplay.DisplayParts | src/Documentation/SymbolDefinitionDisplay.cs:1211-1276 | the symbol's own parts come first; a symbol that is not a named type, or has no type arguments, shows nothing else |
| AttributeDisplay.AddDisplayParts | src/Documentation/SymbolDefinitionDisplay.cs:1211-1276 | fails exactly when the suffix is to be removed from a named type and nothing has been written; without suffix removal it appends the symbol's display parts to the builder |
| AttributeDisplay.PrimitiveKind | src/Documentation/SymbolDefinitionDisplay.cs:570-593 | booleans are keywords, characters and strings are string literals, the other numeric types numeric literals; `decimal`, `object` and non-special types throw |
| AttributeDisplay.ConstantValue | src/Documentation/SymbolDefinitionDisplay.cs:470-568 | fails exactly on an erroneous constant, a primitive without a part kind, or an array holding such a value; a primitive shows its formatted text with the kind of its type |
| AttributeDisplay.EnumFlagsJoined | src/Documentation/SymbolDefinitionDisplay.cs:483-506 | an enum value with `n` constituent fields shows them separated by exactly `n - 1` bars |
| AttributeDisplay.NamedArgumentParts | src/Documentation/SymbolDefinitionDisplay.cs:448-454 | a named argument fails exactly when its value cannot be rendered |
| AttributeDisplay.ArgumentsTextJoined | src/Documentation/SymbolDefinitionDisplay.cs:391-468 | the constructor and named arguments together form one parenthesised list separated by `, `, and nothing when both lists are empty |
| AttributeDisplay.ArgumentListShape | src/Documentation/SymbolDefinitionDisplay.cs:391-468 | the arguments of an attribute are `(` + joined constructor-then-named arguments + `)`, and are empty exactly when the attribute has no argument of either kind |
| AttributeDisplay.ArgumentErrors | src/Documentation/SymbolDefinitionDisplay.cs:391-568 | rendering the arguments fails exactly when some constructor argument or some named argument's value cannot be rendered |
| AttributeDisplay.ClassNameAppends | src/Documentation/SymbolDefinitionDisplay.cs:386 | after `[` or a separator, the suffix removal touches only the attribute class just appended |
| AttributeDisplay.AddAttributeAppends | src/Documentation/SymbolDefinitionDisplay.cs:381-390 | `AddAttribute` appends the class name and, when asked for, the arguments, leaving earlier parts alone, and fails exactly when the attribute's own parts fail |
| AttributeDisplay.Separator | src/Documentation/SymbolDefinitionDisplay.cs:344-366 | between two attributes the only visible parts are `]` and `[` when attributes are formatted and `,` otherwise; a line break stands between them exactly when they are formatted one per line, and the separator never ends in a class name |
| AttributeDisplay.ByRank | src/Documentation/SymbolDefinitionDisplay.cs:325-332 | the comparer the attributes are sorted with is a total preorder |
| AttributeDisplay.AttributeLoopIsJoin | src/Documentation/SymbolDefinitionDisplay.cs:334-372 | the loop writes the attributes' own parts joined by the separator |
| AttributeDisplay.AttributesShape | src/Documentation/SymbolDefinitionDisplay.cs:318-377 | non-empty attributes render as `[`, the sorted attributes joined by the separator, `]`, and a line break when a trailing one is asked for |
| AttributeDisplay.AttributeLoopFails | src/Documentation/SymbolDefinitionDisplay.cs:334-366 | the attribute loop fails when any one attribute cannot be rendered |
| AttributeDisplay.AttributesOutcome | src/Documentation/SymbolDefinitionDisplay.cs:318-366 | a non-empty attribute list fails exactly when one of its attributes cannot be rendered, and otherwise is `[`, the sorted attributes joined by the separator, `]` and the optional line break |
| AttributeDisplay.NoAttributesNoParts | src/Documentation/SymbolDefinitionDisplay.cs:334-336 | no attributes add nothing to the builder |
| AttributeDisplay.AttributesAreSortedByRank | src/Documentation/SymbolDefinitionDisplay.cs:325-332 | the sorted attributes are a permutation of the given ones in non-decreasing comparer order |
| ParameterScan.ParameterListStartAsWritten | src/Documentation/SymbolDefinitionDisplay.cs:956-1046 | the index of the first `(` (methods, named types) or `[` (properties) that brings every counter to its value just inside a parameter list, or -1; always -1 for other kinds |
| ParameterScan.ParameterListStart | src/Documentation/SymbolDefinitionDisplay.cs:956-1046 | the same search, also requiring the opening to follow a visible part and, for an indexer, the keyword `this`; no earlier part qualifies |
| ParameterScan.FormatScan | src/Documentation/SymbolDefinitionDisplay.cs:866-953 | the in-place loop over the builder produces exactly the recursive formatter's result: the space after each top-level comma becomes a line break and an indentation, up to the part that closes the list |
| ParameterScan.FormatFromKeepsVisibleParts | src/Documentation/SymbolDefinitionDisplay.cs:866-953 | the formatter only replaces and inserts white space: the visible parts come out unchanged and in order |
| ParameterScan.FormatParametersKeepsVisibleParts | src/Documentation/SymbolDefinitionDisplay.cs:842-954 | formatting the parameters, first line break included, leaves the visible parts unchanged, both as written and corrected |
| ParameterScan.OpenLineKeepsVisibleParts | src/Documentation/SymbolDefinitionDisplay.cs:855-862 | the line break and indentation after the opening of the list are white space only |
| ParameterScan.ArrayIndexerListStart | src/Documentation/SymbolDefinitionDisplay.cs:996-1007 | on `public int[] this[int a, int b]` the search as written stops at the array's `[` (index 3); the corrected search finds the indexer's `[` (index 7) |
| ParameterScan.TupleIndexerListStart | src/Documentation/SymbolDefinitionDisplay.cs:956-1046 | on `public (int[], int) this[int a, int b]` both searches find the indexer's `[` |
| ParameterScan.StopsInReturnType | src/Documentation/SymbolDefinitionDisplay.cs:914-923 | a scan started at zero before `(int[]` closes on the array's `]` and changes nothing |
| ParameterScan.TupleIndexerFormattedAsWritten | src/Documentation/SymbolDefinitionDisplay.cs:847-864 | the formatter as written, which rescans from the second part with every counter at zero, adds only the first line break to the tuple-returning indexer |
| ParameterScan.IndexerParametersFormatted | src/Documentation/SymbolDefinitionDisplay.cs:874-925 | inside an indexer's brackets the comma between two parameters is followed by a line break and an indentation, and the `]` ends the scan |
| ParameterScan.TupleIndexerFormatted | src/Documentation/SymbolDefinitionDisplay.cs:842-954 | the corrected formatter puts each parameter of the tuple-returning indexer on its own line |
| ParameterAttributes.Block | src/Documentation/SymbolDefinitionDisplay.cs:712-727 | indexing past the last parameter fails before anything is rendered; otherwise the parameter's attributes are rendered then and there, and a failed rendering is the block's failure; an empty attribute block inserts nothing, any other block is inserted followed by one space |
| ParameterAttributes.InsertFromRendersReached | src/Documentation/SymbolDefinitionDisplay.cs:620-727 | the scan renders only the parameters after the commas it passes: two renderings that agree on those give the same result |
| ParameterAttributes.AddParameterAttributesRendersReached | src/Documentation/SymbolDefinitionDisplay.cs:597-727 | the insertion renders the first parameter and those after the commas its scan passes, and none at all when there is no parameter list to open |
| ParameterAttributes.InsertFromFailure | src/Documentation/SymbolDefinitionDisplay.cs:620-727 | a failing scan fails on an index past the last parameter or with the error of rendering a parameter it reached |
| ParameterAttributes.AddParameterAttributesFailure | src/Documentation/SymbolDefinitionDisplay.cs:597-727 | the insertion fails only on an index past the last parameter or with the error of rendering some parameter's attributes |
| ParameterAttributes.InsertFromWithoutAttributes | src/Documentation/SymbolDefinitionDisplay.cs:620-710 | when no parameter has attributes, the scan leaves the parts unchanged |
| ParameterAttributes.AddParameterAttributesWithoutAttributes | src/Documentation/SymbolDefinitionDisplay.cs:597-728 | when no parameter has attributes, the definition is unchanged |
| ParameterAttributes.EraseInsertFrom | src/Documentation/SymbolDefinitionDisplay.cs:615-728 | the scan that inserts a block after each separating comma is undone by the same scan dropping those blocks |
| ParameterAttributes.ParameterAttributesRoundTrip | src/Documentation/SymbolDefinitionDisplay.cs:597-728 | whenever the insertion succeeds, taking each parameter's block out again gives back exactly the compiler's definition: nothing but the blocks is added, and nothing is lost or reordered |
| ParameterAttributes.CorrectionOnlyAffectsIndexers | src/Documentation/SymbolDefinitionDisplay.cs:604-618 | for methods and named types whose list opening both searches agree on, the corrected insertion equals the source's |
| ParameterAttributes.ArrayParameterIndexerStart | src/Documentation/SymbolDefinitionDisplay.cs:996-1007 | on `int this[int[] a, string b]` both searches find the indexer's `[` |
| ParameterAttributes.ArrayParameterAttributeLost | src/Documentation/SymbolDefinitionDisplay.cs:615-683 | with the counters started at one parenthesis, the scan of that indexer ends at the `]` of `int[]`, so the attribute of the second parameter is never inserted |
| ParameterAttributes.ArrayParameterAttributeInserted | src/Documentation/SymbolDefinitionDisplay.cs:597-728 | started at one bracket, the scan inserts `[A] ` before the second parameter |
| DefaultLiteral.ClosingFrom | src/Documentation/SymbolDefinitionDisplay.cs:1162-1195 | the index of a `)` at which the parenthesis depth, counted from the one already open, first returns to zero, or -1 when the parts end first |
| DefaultLiteral.ClosingFromIsFirst | src/Documentation/SymbolDefinitionDisplay.cs:1162-1195 | before the index found, and everywhere when none is found, some parenthesis is still open |
| DefaultLiteral.RewriteKeepsParenthesesBalanced | src/Documentation/SymbolDefinitionDisplay.cs:1066-1160 | the scan removes only balanced parenthesised text: the parts it leaves open and close as many parentheses as before |
| DefaultLiteral.RewriteNeverLonger | src/Documentation/SymbolDefinitionDisplay.cs:1151-1159 | the rewrite only drops parts, never adds them |
| DefaultLiteral.RewriteWithoutDefault | src/Documentation/SymbolDefinitionDisplay.cs:1123-1149 | where no `= default(` follows, the scan copies the parts unchanged |
| DefaultLiteral.ReplaceDefaultWithoutDefault | src/Documentation/SymbolDefinitionDisplay.cs:1048-1121 | a definition without `= default(` is returned as it is; a definition that changes held such an expression |
| DefaultLiteral.ReplaceDefaultKeepsParenthesesBalanced | src/Documentation/SymbolDefinitionDisplay.cs:1048-1209 | the replacement keeps the definition's parenthesis balance and never makes it longer |
| DefaultLiteral.DefaultParameterReplaced | src/Documentation/SymbolDefinitionDisplay.cs:1048-1209 | `void M(object o = default(object))` becomes `void M(object o = default)` |
| DefinitionDisplay.HasOptionIsSubset | src/Documentation/SymbolDefinitionDisplay.cs:1311-1314 | `HasOption` holds exactly when the requested bits are a subset of the options; the empty request and the options themselves always hold |
| DefinitionDisplay.Shown | src/Documentation/SymbolDefinitionDisplay.cs:37-43 | the shown attributes are exactly the symbol's attributes that pass the filter, all of them without a filter |
| DefinitionDisplay.AttributesParts | src/Documentation/SymbolDefinitionDisplay.cs:291-316 | no shown attribute gives no parts; otherwise the parts fail exactly when a shown attribute cannot be rendered, and are `[`, the shown attributes sorted by the comparer and joined by the separator, `]` and the optional line break |
| DefinitionDisplay.ListedBaseType | src/Documentation/SymbolDefinitionDisplay.cs:49-59 | a base type is listed exactly for a named class or interface whose base type is asked for, exists and is not `System.Object` |
| DefinitionDisplay.ListedInterfaces | src/Documentation/SymbolDefinitionDisplay.cs:61-72 | no interfaces unless asked for on a named type; otherwise the type's interfaces, of which only the non-generic `IEnumerable` may be dropped, and only when `OmitIEnumerable` is set and `IEnumerable<T>` is among them |
| DefinitionDisplay.BaseListAsWritten | src/Documentation/SymbolDefinitionDisplay.cs:45-76 | the base list as written fails exactly when a base type is listed but interfaces were not asked for |
| DefinitionDisplay.ByInterfaceRank | src/Documentation/SymbolDefinitionDisplay.cs:146-156 | the interface comparer chosen by the namespace option is a total preorder |
| DefinitionDisplay.BaseListIsJoin | src/Documentation/SymbolDefinitionDisplay.cs:123-185 | the base-list loop writes `: ` and the base type and the interfaces with one separator between each two |
| DefinitionDisplay.BaseListOfType | src/Documentation/SymbolDefinitionDisplay.cs:111-185 | the base list is `: ` followed by the base type then the comparer-sorted interfaces, joined by `, ` or by a comma, a line break and an indentation; it has one entry per listed type |
| DefinitionDisplay.WhereIndexIsFirst | src/Documentation/SymbolDefinitionDisplay.cs:78-90 | the `where` index is -1 exactly when there is no `where` keyword; otherwise no `where` comes before it |
| DefinitionDisplay.ConstraintCount | src/Documentation/SymbolDefinitionDisplay.cs:78-90 | no constraint is counted exactly when no `where` is found |
| DefinitionDisplay.WhereTail | src/Documentation/SymbolDefinitionDisplay.cs:205-230 | the constraint clauses keep their visible parts; they are copied as they are unless lines are broken before each `where` |
| DefinitionDisplay.ConstraintGap | src/Documentation/SymbolDefinitionDisplay.cs:187-194 | what separates the base list from the constraints is white space only |
| DefinitionDisplay.BaseListPlacement | src/Documentation/SymbolDefinitionDisplay.cs:111-203 | the base list goes right before the first `where`, keeping the visible parts of the definition around it, or after the definition and a space when there is none |
| DefinitionDisplay.HeadWithoutBaseList | src/Documentation/SymbolDefinitionDisplay.cs:196-203 | without base list or formatted constraints the definition's parts are copied unchanged |
| DefinitionDisplay.AccessorKeyword | src/Documentation/SymbolDefinitionDisplay.cs:759-774 | the keyword is `add`, `remove`, `get` or `set` for the four accessor kinds; any other kind throws an invalid-operation error |
| DefinitionDisplay.FirstKeywordIsFirst | src/Documentation/SymbolDefinitionDisplay.cs:746 | the keyword search finds the first matching keyword and reports -1 exactly when there is none |
| DefinitionDisplay.InsertBeforeKeyword | src/Documentation/SymbolDefinitionDisplay.cs:742-757 | no attribute parts leave the builder as it is; otherwise the insertion fails exactly for an accessor kind without a keyword |
| DefinitionDisplay.InsertBeforeKeywordPlaces | src/Documentation/SymbolDefinitionDisplay.cs:742-757 | the attributes and a space are inserted right before the first accessor keyword, with the parts before and after kept in place; without the keyword nothing changes |
| DefinitionDisplay.AddAccessorAttributes | src/Documentation/SymbolDefinitionDisplay.cs:730-757 | a missing accessor or one without shown attributes changes nothing; otherwise its unformatted attributes are inserted before its keyword, and rendering failures propagate |
| DefinitionDisplay.EventFlags | src/Documentation/SymbolDefinitionDisplay.cs:783-827 | the corrected flags say whether each accessor exists and has an attribute the filter shows; as written, the remove flag is the corrected one without a filter and false with one, and the add flag is the corrected remove flag when there is a remove accessor, otherwise the corrected add flag without a filter and false with one |
| DefinitionDisplay.EventAccessorParts | src/Documentation/SymbolDefinitionDisplay.cs:786-807 | with neither flag set the event display is unchanged; with a flag set it fails exactly when an accessor block fails, and otherwise appends ` { `, the add block, `add; `, the remove block and `remove; }` |
| DefinitionDisplay.AccessorBlock | src/Documentation/SymbolDefinitionDisplay.cs:793-801 | an accessor whose flag is not set contributes nothing; a flagged missing accessor is a null reference; a flagged accessor contributes its attribute parts and a space, and fails exactly when they fail |
| DefinitionDisplay.EventAccessorsShownIffAttributes | src/Documentation/SymbolDefinitionDisplay.cs:783-807 | with the corrected flags the accessor list is written exactly when one of the accessors has shown attributes |
| DefinitionDisplay.AddAccessorAttributeLost | src/Documentation/SymbolDefinitionDisplay.cs:809-827 | an event with an attribute on its add accessor only gets both flags false as written, so the attribute is not shown |
| DefinitionDisplay.AddAccessorAttributeShown | src/Documentation/SymbolDefinitionDisplay.cs:777-840 | with the corrected flags that event gets ` { [A] add; remove; }` |
| DefinitionDisplay.UntouchedPath | src/Documentation/SymbolDefinitionDisplay.cs:92-101 | when there are no attributes, base list or constraints and no step applies, the compiler's parts are returned unchanged |
| DefinitionDisplay.OnlyDefaultLiteral | src/Documentation/SymbolDefinitionDisplay.cs:270-274 | when the default-literal rewrite is the only step that applies, the display is exactly that rewrite of the compiler's parts |
| DefinitionDisplay.GetDisplayParts | src/Documentation/SymbolDefinitionDisplay.cs:16-276 | without the attribute, accessor-attribute and parameter-attribute options the display never fails |
| DefinitionDisplay.UnopenedListIgnoresParameterAttributes | src/Documentation/SymbolDefinitionDisplay.cs:250-261 | a definition with no parameter list to open and nothing else to change is displayed as the compiler rendered it, whatever its parameters' attributes, because the scan stops at SymbolDefinitionDisplay.cs:604-607 before rendering any |
| DefinitionDisplay.UnreachedParameterNotRendered | src/Documentation/SymbolDefinitionDisplay.cs:597-727 | a method shown without a parameter list, whose one parameter's attribute has an erroneous argument and cannot be rendered, is still displayed unchanged |
| DefinitionDisplay.PlainDisplay | src/Documentation/SymbolDefinitionDisplay.cs:16-276 | a symbol with nothing to insert is displayed as its parts with formatted constraints, then the parameter list formatted and the default literal rewritten when those options apply |
| DefinitionDisplay.DisplayKeepsVisibleParts | src/Documentation/SymbolDefinitionDisplay.cs:16-276 | a symbol with nothing to insert and no default literal to rewrite is displayed with exactly the compiler's visible parts, in order |
| DefinitionDisplay.BaseListCorrection | src/Documentation/SymbolDefinitionDisplay.cs:45-76 | wherever the base list as written succeeds, it lists exactly the base type and interfaces the corrected one does |
| DefinitionDisplay.BaseTypeWithoutInterfaces | src/Documentation/SymbolDefinitionDisplay.cs:47-130 | `class C : B` shown with its base type but not its interfaces fails as written, reading the unset interface array; corrected, the definition ends in ` : B` |
| SymbolHierarchy.ObjectOnChain | src/Documentation/SymbolHierarchy.cs:172-181 | the `object` type on a type's base chain, the type included; none exactly when no type on the chain is `object` |
| SymbolHierarchy.FindObjectType | src/Documentation/SymbolHierarchy.cs:168-185 | an `object` type on the base chain of some input, found in input order; none exactly when no input's chain reaches `object` |
| SymbolHierarchy.AddAncestors | src/Documentation/SymbolHierarchy.cs:55-63 | walking one base chain adds each ancestor that is not yet a key, marked external, keeps the earlier keys in place and adds nothing else |
| SymbolHierarchy.AddAllAncestors | src/Documentation/SymbolHierarchy.cs:53-64 | the keys become the old keys plus every type on any input's base chain; the new keys are exactly the new external items |
| SymbolHierarchy.ItemsAndExternals | src/Documentation/SymbolHierarchy.cs:48-64 | the items are `object` and the types on the inputs' base chains; the external ones are `object` and every such ancestor that is not an input |
| SymbolHierarchy.InterfacesNeverExternal | src/Documentation/SymbolHierarchy.cs:48-64 | an external item that is not an input is never an interface |
| SymbolHierarchy.Derived | src/Documentation/SymbolHierarchy.cs:99-112 | the items, in dictionary order, whose base type is the class or whose interfaces include the interface; no item twice |
| SymbolHierarchy.Without | src/Documentation/SymbolHierarchy.cs:96-97 | removing a key keeps every other key and only those |
| SymbolHierarchy.ByCompare | src/Documentation/SymbolHierarchy.cs:201-204 | `Compare` is the comparer negated, a total preorder in which greater types come first |
| SymbolHierarchy.StaticFirst | src/Documentation/SymbolHierarchy.cs:116-133 | below `object`, a static type comes before every non-static one, and types of the same kind are in `Compare` order; the order is a total preorder |
| SymbolHierarchy.AfterAttach | src/Documentation/SymbolHierarchy.cs:96-97 | a class leaves the dictionary when it is attached; an interface stays |
| SymbolHierarchy.SortedChildren | src/Documentation/SymbolHierarchy.cs:99-138 | the derived items of a type are exactly the dictionary items deriving from it, each once, sorted in that type's child order, and all come after it in the arena |
| SymbolHierarchy.Fill | src/Documentation/SymbolHierarchy.cs:87-144 | the filled item keeps its id and external flag, its children are its sorted derived items, and the dictionary left behind is a subset without the item when it is a class |
| SymbolHierarchy.FillChildren | src/Documentation/SymbolHierarchy.cs:87-144 | the children of a filled item are the dictionary items deriving from it, each once, in the negated comparer order (static types first under `object`) |
| SymbolHierarchy.FillItems | src/Documentation/SymbolHierarchy.cs:146-166 | each item is filled in turn, keeping the items' order, and the dictionary only shrinks |
| SymbolHierarchy.RootInterfaces | src/Documentation/SymbolHierarchy.cs:187-199 | a key is a root interface exactly when none of its interfaces is itself a key |
| SymbolHierarchy.SortedRoots | src/Documentation/SymbolHierarchy.cs:72-80 | the root interfaces, sorted by the negated comparer |
| SymbolHierarchy.Create | src/Documentation/SymbolHierarchy.cs:38-85 | fails with "Object type not found." exactly when no input reaches `object`, with an argument error exactly when some type is given twice, and otherwise is rooted at the external `object` with a class tree under it |
| SymbolHierarchy.Build | src/Documentation/SymbolHierarchy.cs:48-85 | the class tree is rooted at `object`, marked external, and holds every type at most once, each a class descending from `object` |
| SymbolHierarchy.ClassTreeOfClass | src/Documentation/SymbolHierarchy.cs:87-144 | the tree filled under a class holds each type once, and each is a non-interface type on whose base chain that class lies |
| SymbolHierarchy.FillLeaves | src/Documentation/SymbolHierarchy.cs:87-144 | filling a class takes out of the item dictionary exactly the types it attaches |
| SymbolHierarchy.FillAttaches | src/Documentation/SymbolHierarchy.cs:87-144 | filling a class attaches every type below it whose base chain up to it is in the item dictionary |
| SymbolHierarchy.CreateIsComplete | src/Documentation/SymbolHierarchy.cs:38-144 | every input, and every ancestor of an input, whose base chain reaches the root `object` is attached in the class tree; with the tree's ids distinct, each is attached exactly once |
| SymbolHierarchy.ClassItems | src/Documentation/SymbolHierarchy.cs:146-166 | the subtrees of the children of a class are disjoint: every type occurs once and reaches the parent through one of the children |
| SymbolHierarchy.RingVisitsAllReversed | src/Documentation/SymbolHierarchy.cs:146-166 | walking the sibling ring from `lastChild.next` visits all `n` children once, from last to first, and ends at `lastChild` |
| SymbolHierarchy.EnumeratedFollowsRing | src/Documentation/SymbolHierarchy.cs:146-166 | the enumeration of the children is the walk round the sibling ring |
| SymbolHierarchy.EnumeratedInComparerOrder | src/Documentation/SymbolHierarchy.cs:114-166 | enumerated last to first, the children come out in comparer order below any type but `object`, and below `object` no static type comes before a non-static one |
| TextWriter.IncreaseDepth | src/Documentation/SymbolDefinitionWriter.cs:119-122 | entering a level gives a positive depth that leaving the level takes back to the depth before |
| TextWriter.DecreaseDepth | src/Documentation/SymbolDefinitionWriter.cs:124-130 | leaving a level fails with `InvalidOperationException("Cannot decrease depth.")` exactly at depth zero, and otherwise lowers the depth by one |
| TextWriter.DepthStep | src/Documentation/AbstractSymbolDefinitionTextWriter.cs:36-152 | the definitions of assemblies, non-global namespaces, types, members and enum members raise the depth, their end calls lower it (and fail at zero), every other call leaves it alone |
| TextWriter.DepthBlocksAreSound | src/Documentation/AbstractSymbolDefinitionTextWriter.cs:20-134 | every start/end pair of the document, assembly, namespace, type, member and enum-member sections leaves the depth as it found it |
| TextWriter.DepthSeparatorsAreSound | src/Documentation/AbstractSymbolDefinitionTextWriter.cs:53-156 | no separator changes the depth |
| TextWriter.DepthWrapsNamespace | src/Documentation/AbstractSymbolDefinitionTextWriter.cs:63-85 | a namespace's start, definition and end leave the depth unchanged, the global namespace included, which opens no level |
| TextWriter.DepthWrapsAttribute | src/Documentation/AbstractSymbolDefinitionTextWriter.cs:158-198 | an attribute's calls and the attribute list's brackets and separators never change the depth |
| TextWriter.DepthSymbolsAreSound | src/Documentation/AbstractSymbolDefinitionTextWriter.cs:36-152 | every assembly, namespace, type, member, enum member and attribute the traversal writes leaves the depth as it found it |
| TextWriter.DepthIsSound | src/Documentation/AbstractSymbolDefinitionTextWriter.cs:20-198 | the depth this writer keeps is sound for every pairing of calls the traversal makes, so a whole listing never fails to decrease the depth |
| TextWriter.RenderJoin | src/Documentation/AbstractSymbolDefinitionTextWriter.cs:185-198 | the text of blocks joined by a separator is the blocks' texts joined by the separator's text |
| TextWriter.AttributeListText | src/Documentation/AbstractSymbolDefinitionTextWriter.cs:158-198 | a symbol's attribute list reads `[`, the shown attributes' names joined by the separator text, then `]` with a line break or a space; with no shown attribute it reads nothing |
| TextWriter.AttributesOnOwnLines | src/Documentation/AbstractSymbolDefinitionTextWriter.cs:163-198 | assembly attributes, and formatted attributes of a multi-line writer, each stand in brackets of their own on a line of their own |
| TextWriter.AttributesInOneBracket | src/Documentation/AbstractSymbolDefinitionTextWriter.cs:163-198 | otherwise the attributes share one bracket, separated by `, ` |
| TextWriter.SymbolText | src/Documentation/AbstractSymbolDefinitionTextWriter.cs:200-206 | a symbol's text is its definition alone unless attributes are included and some are shown; then it starts with `[` and ends with the definition |
| TextWriter.AttributesKeepDepth | src/Documentation/AbstractSymbolDefinitionTextWriter.cs:158-183 | writing a symbol's attribute list returns the writer to the depth it started at |
| WriterEvents.RunAppend | src/Documentation/SymbolDefinitionWriter.cs:284-302 | replaying two runs of calls one after the other is replaying the first, then the second from where the first left off |
| WriterEvents.BalancedJoin | src/Documentation/SymbolDefinitionWriter.cs:304-354 | blocks that each leave the writer's state unchanged, joined by a separator that does too, leave it unchanged as a whole |
| WriterEvents.BalancedWrappedJoin | src/Documentation/SymbolDefinitionWriter.cs:550-586 | a start call, balanced blocks joined by a neutral separator, and the matching end call leave the writer's state unchanged |
| WriterEvents.AvoidBalanced | src/Documentation/SymbolDefinitionWriter.cs:132-204 | a run of calls is balanced for the machine that refuses a kind of call exactly when no call of that kind occurs in it |
| WriterEvents.Nest | src/Documentation/SymbolDefinitionWriter.cs:132-204 | a start call pushes its bracket; an end call succeeds exactly when it closes the bracket opened last; any other call leaves the stack alone |
| WriterEvents.NestBlocksAreSound | src/Documentation/SymbolDefinitionWriter.cs:132-194 | every section's start call is closed by its own end call, and no separator touches the open brackets |
| WriterEvents.NestSymbolsAreSound | src/Documentation/SymbolDefinitionWriter.cs:140-204 | every assembly, namespace, type, member, enum member and attribute is opened and closed by its own pair of calls |
| WriterEvents.NestIsSound | src/Documentation/SymbolDefinitionWriter.cs:132-204 | the bracket stack is sound for every pairing of calls the traversal makes, so every listing the traversal writes is properly nested |
| WriterTypes.ShownAttributes | src/Documentation/SymbolDefinitionWriter.cs:698-703 | the attributes written are sorted by the comparer's order of their classes |
| WriterTypes.ShownAttributesAreVisible | src/Documentation/SymbolDefinitionWriter.cs:700-703 | an attribute is written exactly when it is on the symbol and the filter shows its class, each as often as it occurs |
| WriterTypes.WriteAttributesShowsEach | src/Documentation/SymbolDefinitionWriter.cs:698-730 | the attribute definitions written are exactly the shown attributes, in order |
| WriterTypes.WriteAttributesSeparators | src/Documentation/SymbolDefinitionWriter.cs:711-727 | one attribute separator stands between each two shown attributes, none when fewer than two are shown |
| WriterTypes.WriteAttributesBalanced | src/Documentation/SymbolDefinitionWriter.cs:698-730 | for every sound writer state, writing a symbol's attributes leaves the state as it found it |
| WriterTypes.ShownMembers | src/Documentation/SymbolDefinitionWriter.cs:621-627 | the members written are exactly the type's members the filter shows, in the comparer's order |
| WriterTypes.MemberLoopChunks | src/Documentation/SymbolDefinitionWriter.cs:635-657 | the member loop is each member followed by a separator exactly when an empty line goes between it and the next member |
| WriterTypes.MemberLoopShowsEach | src/Documentation/SymbolDefinitionWriter.cs:635-657 | the member loop writes the definitions of the shown members, in order |
| WriterTypes.MemberLoopSeparators | src/Documentation/SymbolDefinitionWriter.cs:641-649 | with an empty line between all members a separator stands between each two; with neither empty-line option there is none |
| WriterTypes.MemberLoopBalanced | src/Documentation/SymbolDefinitionWriter.cs:621-662 | for every sound writer state the member loop leaves the state as it found it |
| WriterTypes.EnumFields | src/Documentation/SymbolDefinitionWriter.cs:664-670 | the enum members written are exactly the public fields, unsorted |
| WriterTypes.WriteEnumMembersShowsEach | src/Documentation/SymbolDefinitionWriter.cs:664-695 | the enum member definitions written are the public fields in declaration order |
| WriterTypes.WriteEnumMembersSeparators | src/Documentation/SymbolDefinitionWriter.cs:676-690 | one separator stands between each two public fields |
| WriterTypes.EnumFieldsKeepDeclarationOrder | src/Documentation/SymbolDefinitionWriter.cs:666-670 | the public fields of members declared in two runs are those of the first run followed by those of the second |
| WriterTypes.WriteEnumMembersBalanced | src/Documentation/SymbolDefinitionWriter.cs:664-695 | for every sound writer state the enum members leave the state as they found it |
| WriterTypes.TypeOrder | src/Documentation/SymbolDefinitionWriter.cs:550-554 | the types are listed in the comparer's order, each at most once, and a type is listed exactly when it is shown (all of a namespace's types, the visible ones among nested types) |
| WriterTypes.NestedTypesShown | src/Documentation/SymbolDefinitionWriter.cs:599-603 | outside the type hierarchy, with the type group shown, a class, struct or interface lists a nested type block exactly when some nested type is visible |
| WriterTypes.HierarchyContentsHoldNoType | src/Documentation/SymbolDefinitionWriter.cs:588-619 | under the type-hierarchy layout a type's contents are member and enum-member calls only |
| WriterTypes.TypeBlockBalanced | src/Documentation/SymbolDefinitionWriter.cs:564-571 | for every sound writer state a type, its members and its nested types leave the state as they found it |
| WriterTypes.TypeContentsBalanced | src/Documentation/SymbolDefinitionWriter.cs:588-619 | for every sound writer state a type's members, enum fields or nested types leave the state as they found it; a delegate writes nothing |
| WriterTypes.WriteTypesBalanced | src/Documentation/SymbolDefinitionWriter.cs:550-586 | for every sound writer state the types of a namespace leave the state as they found it |
| WriterTypes.TypeBlockEvents | src/Documentation/SymbolDefinitionWriter.cs:564-619 | a type's block holds type and member calls only, never a namespace, assembly or attribute call |
| DocumentWriter.TypeDeclarationOptions | src/Documentation/SymbolDefinitionWriter.cs:208-225 | each type declaration option is asked for exactly when the format includes its part (accessibility, modifiers, base type, interfaces) |
| DocumentWriter.BaseListDisplayed | src/Documentation/SymbolDefinitionWriter.cs:208-225 | a type's base list is displayed exactly when the format includes its base type or its interfaces |
| DocumentWriter.AdditionalOptions | src/Documentation/SymbolDefinitionWriter.cs:227-262 | the writer never asks the display to add a symbol's own attributes |
| DocumentWriter.AdditionalOptionsFromParts | src/Documentation/SymbolDefinitionWriter.cs:231-238 | the containing namespace is omitted exactly when that part is not included; parameter and accessor attributes are asked for exactly when attributes are; attribute arguments exactly when they are included |
| DocumentWriter.AdditionalOptionsLayout | src/Documentation/SymbolDefinitionWriter.cs:240-253 | each multi-line option (base list, constraints, parameters, attributes) is asked for exactly when the writer supports multi-line definitions and the format asks for it |
| DocumentWriter.AdditionalOptionsLiteral | src/Documentation/SymbolDefinitionWriter.cs:255-259 | `OmitIEnumerable` and `PreferDefaultLiteral` are asked for exactly when the format's flags are set |
| DocumentWriter.HierarchyIsSingleLine | src/Documentation/SymbolDefinitionWriter.cs:41 | under the type-hierarchy layout the base writer asks for no multi-line option, whatever the format says |
| DocumentWriter.DisplayLeavesAttributesToWriter | src/Documentation/SymbolDefinitionWriter.cs:227-262 | with the writer's options a symbol with nothing else to change is displayed as its parts unchanged |
| DocumentWriter.ListedTypes | src/Documentation/SymbolDefinitionWriter.cs:293-335 | the types listed for an assembly are visible types of it; every visible top-level type is listed, and under the type hierarchy every visible nested type too |
| DocumentWriter.WriteNamespaces | src/Documentation/SymbolDefinitionWriter.cs:356-377 | the namespaces are written between `StartNamespaces` and `EndNamespaces`, with the corrected namespace hierarchy |
| DocumentWriter.Contents | src/Documentation/SymbolDefinitionWriter.cs:291-298 | with the corrected namespace hierarchy, a layout's contents fail exactly when the layout is the type hierarchy and the hierarchy of the types cannot be built |
| DocumentWriter.ContentsAsWritten | src/Documentation/SymbolDefinitionWriter.cs:356-377 | as written, a layout's contents also fail when the layout is the namespace hierarchy and the lookup of a namespace's own types finds no key; wherever they do not fail they are the corrected contents |
| DocumentWriter.ContentsWithoutTypes | src/Documentation/SymbolDefinitionWriter.cs:510-520 | when types are not shown the failing lookup is never reached and the contents as written are the corrected ones |
| DocumentWriter.SortedAssemblies | src/Documentation/SymbolDefinitionWriter.cs:308-311 | the assemblies are a permutation of the given ones, ordered by name and then by version |
| DocumentWriter.ContentsBalanced | src/Documentation/SymbolDefinitionWriter.cs:356-420 | for every sound writer state, whatever a layout writes leaves the state as it found it |
| DocumentWriter.AssemblyBlockBalanced | src/Documentation/SymbolDefinitionWriter.cs:319-339 | for every sound writer state an assembly with its attributes and types leaves the state as it found it |
| DocumentWriter.WriteAssembliesBalanced | src/Documentation/SymbolDefinitionWriter.cs:304-354 | for every sound writer state the assembly listing leaves the state as it found it |
| DocumentWriter.DocumentBalanced | src/Documentation/SymbolDefinitionWriter.cs:284-302 | for every sound writer state a written document leaves the state as it found it |
| DocumentWriter.DocumentKeepsDepth | src/Documentation/SymbolDefinitionWriter.cs:119-130 | the text writer never fails to decrease its depth while writing a document, and ends at the depth it started from |
| DocumentWriter.DocumentNests | src/Documentation/SymbolDefinitionWriter.cs:284-302 | every end call of a document closes the bracket its own start call opened, and nothing stays open |
| DocumentWriter.AssemblyBlockShows | src/Documentation/SymbolDefinitionWriter.cs:319-339 | an assembly block shows its assembly once, holds no assembly separator, and lists the assembly's shown attributes exactly when assembly attributes are included |
| DocumentWriter.AssemblyAttributesListed | src/Documentation/SymbolDefinitionWriter.cs:324-325 | an assembly's attribute calls are attribute calls only, and list its shown attributes exactly when assembly attributes are included |
| DocumentWriter.WriteAssembliesShows | src/Documentation/SymbolDefinitionWriter.cs:304-354 | the assembly listing shows every assembly once in name and version order, with the attributes listed for each in that order, and one separator between each two |
| DocumentWriter.DocumentShows | src/Documentation/SymbolDefinitionWriter.cs:289-301 | the types written after the assemblies add no assembly, attribute or assembly separator |
| DocumentWriter.DocumentListsAssemblies | src/Documentation/SymbolDefinitionWriter.cs:284-354 | a written document shows every assembly once in name and version order, with the listed attributes of each, and one separator between each two |
| DocumentWriter.DocumentFailure | src/Documentation/SymbolDefinitionWriter.cs:284-302 | with the corrected namespace hierarchy, a document fails exactly when the layout is the type hierarchy and the hierarchy of one grouped assembly, or of all assemblies' types, cannot be built; the namespace layouts then always succeed |
| DocumentWriter.AssembliesFailure | src/Documentation/SymbolDefinitionWriter.cs:304-354 | with the corrected namespace hierarchy, the assembly listing fails exactly when it is grouped by assembly, the layout is the type hierarchy and the hierarchy of one assembly's types cannot be built |
| DocumentWriter.FailureHasCause | src/Documentation/SymbolDefinitionWriter.cs:327-336 | with the corrected namespace hierarchy, a failed assembly listing was grouped, under the type hierarchy, and failed at an assembly whose hierarchy cannot be built |
| DocumentWriter.CauseFails | src/Documentation/SymbolDefinitionWriter.cs:327-336 | one assembly whose hierarchy cannot be built makes a grouped type-hierarchy listing fail |
| NamespaceWriter.NamespaceKeys | src/Documentation/SymbolDefinitionWriter.cs:358-359 | the groups are keyed by each namespace of the types, each namespace once |
| NamespaceWriter.TypesIn | src/Documentation/SymbolDefinitionWriter.cs:358-359 | a namespace's group holds exactly the types declared in it |
| NamespaceWriter.VisibleKeys | src/Documentation/SymbolDefinitionWriter.cs:358-361 | the namespaces listed are those of the types that the filter shows, each once, in the comparer's order |
| NamespaceWriter.NamespaceTypes | src/Documentation/SymbolDefinitionWriter.cs:437-438 | the types written in a namespace are type and member calls only |
| NamespaceWriter.NamespaceTypesBalanced | src/Documentation/SymbolDefinitionWriter.cs:437-438 | for every sound writer state a namespace's types leave the state as they found it |
| NamespaceWriter.NamespaceBlockShows | src/Documentation/SymbolDefinitionWriter.cs:432-440 | a namespace block defines its own namespace once and holds no namespace separator |
| NamespaceWriter.NamespaceListShowsEach | src/Documentation/SymbolDefinitionWriter.cs:422-453 | the namespace list defines every shown namespace once, in the comparer's order |
| NamespaceWriter.NamespaceListSeparators | src/Documentation/SymbolDefinitionWriter.cs:442-449 | one separator stands between each two namespaces of the list |
| NamespaceWriter.NamespaceListBalanced | src/Documentation/SymbolDefinitionWriter.cs:422-453 | for every sound writer state the namespace list leaves the state as it found it |
| NamespaceWriter.RootOf | src/Documentation/SymbolDefinitionWriter.cs:461-486 | the walk up the containing namespaces ends at the global namespace for the global namespace and at the top-level prefix of any other namespace |
| NamespaceWriter.NestedOf | src/Documentation/SymbolDefinitionWriter.cs:469-484 | the walk adds to the nested set exactly the namespace's ancestors-or-self that are two or more names long |
| NamespaceWriter.Roots | src/Documentation/SymbolDefinitionWriter.cs:457-486 | the root set holds exactly the roots of the keys, each once |
| NamespaceWriter.NestedPool | src/Documentation/SymbolDefinitionWriter.cs:459-486 | the nested set holds exactly the nested namespaces of the keys, each once |
| NamespaceWriter.Remove | src/Documentation/SymbolDefinitionWriter.cs:530 | removing a namespace from the nested set keeps every other namespace |
| NamespaceWriter.Children | src/Documentation/SymbolDefinitionWriter.cs:519-524 | the namespaces written inside a namespace are exactly those of the nested set directly inside it, in the comparer's order, each once |
| NamespaceWriter.TypesOf | src/Documentation/SymbolDefinitionWriter.cs:516-517 | the lookup of a namespace's types throws `KeyNotFoundException` exactly when the type group is shown and the namespace has no types of its own |
| NamespaceWriter.SortedRoots | src/Documentation/SymbolDefinitionWriter.cs:488-490 | the roots are written each once, in the comparer's order |
| NamespaceWriter.WriteNamespaceHierarchy | src/Documentation/SymbolDefinitionWriter.cs:455-548 | wherever the source's hierarchy is written, the corrected hierarchy writes the same calls |
| NamespaceWriter.HierarchyLenient | src/Documentation/SymbolDefinitionWriter.cs:510-547 | with a lookup that finds no types for a namespace without types of its own the hierarchy is always written, and it agrees with the source's wherever that does not throw |
| NamespaceWriter.HierarchyWithoutTypes | src/Documentation/SymbolDefinitionWriter.cs:516-517 | when the type group is not shown nothing is looked up and the source writes the corrected hierarchy |
| NamespaceWriter.NamespaceHierarchyBalanced | src/Documentation/SymbolDefinitionWriter.cs:455-548 | for every sound writer state the namespace hierarchy leaves the state as it found it |
| NamespaceWriter.NamespaceHierarchyEvents | src/Documentation/SymbolDefinitionWriter.cs:510-547 | the namespace hierarchy holds namespace, type and member calls only |
| NamespaceWriter.NamespaceListEvents | src/Documentation/SymbolDefinitionWriter.cs:422-453 | the namespace list holds namespace, type and member calls only |
| NamespaceWriter.NestedOnlyLenient | src/Documentation/SymbolDefinitionWriter.cs:510-547 | with the corrected lookup, one class in namespace `A.B` is written as `A` around `A.B` around the class |
| NamespaceWriter.NestedOnlyNamespaceThrows | src/Documentation/SymbolDefinitionWriter.cs:461-517 | one class in namespace `A.B` makes the source's hierarchy throw `KeyNotFoundException`, since `A` is a root but has no types of its own, while the corrected hierarchy writes `A` and then `A.B` |
| HierarchyWriter.FindType | src/Documentation/SymbolDefinitionWriter.cs:400 | an item's symbol is found among the written types exactly when one of them has its identity |
| HierarchyWriter.WriteHierarchy | src/Documentation/SymbolDefinitionWriter.cs:386-420 | the hierarchy is written between `StartTypes` and `EndTypes` |
| HierarchyWriter.WriteTypeHierarchy | src/Documentation/SymbolDefinitionWriter.cs:379-384 | writing the type hierarchy fails exactly when building the hierarchy of the types fails, and with the same error |
| HierarchyWriter.OwnMembersEvents | src/Documentation/SymbolDefinitionWriter.cs:406-410 | under the type-hierarchy layout an item's own contents are member calls only |
| HierarchyWriter.ItemShowsVisited | src/Documentation/SymbolDefinitionWriter.cs:396-419 | an item writes the types of its tree in depth-first order over the enumerated children, with one type separator fewer than types |
| HierarchyWriter.DerivedShowsVisited | src/Documentation/SymbolDefinitionWriter.cs:412-416 | the loop over derived items writes their trees in order, each preceded by one type separator |
| HierarchyWriter.VisitedIsPermutation | src/Documentation/SymbolDefinitionWriter.cs:396-419 | the walk meets exactly the types of the tree, as often as the tree holds them |
| HierarchyWriter.ClassTreeWrittenOnce | src/Documentation/SymbolDefinitionWriter.cs:386-420 | the class tree is written with every one of its types exactly once, and one type separator fewer than types |
| HierarchyWriter.ItemBalanced | src/Documentation/SymbolDefinitionWriter.cs:396-419 | for every sound writer state an item with its members and derived items leaves the state as it found it |
| HierarchyWriter.WriteHierarchyBalanced | src/Documentation/SymbolDefinitionWriter.cs:386-420 | for every sound writer state the type hierarchy leaves the state as it found it |
| HierarchyWriter.WriteHierarchyEvents | src/Documentation/SymbolDefinitionWriter.cs:386-420 | the type hierarchy holds type and member calls only |
| HierarchyWriter.InterfaceRootWritten | src/Documentation/SymbolDefinitionWriter.cs:391-392 | the symbol-less interface root is written exactly when the hierarchy has root interfaces |
| HierarchyWriter.ItemOpensNoRoot | src/Documentation/SymbolDefinitionWriter.cs:396-419 | within the class tree every written item stands for a type |
| ListWriter.IsVisibleType | src/Documentation/DefinitionListWriter.cs:34-39 | a type is listed exactly when it is not implicitly declared, is visible at the options' visibility, and its name is not ignored |
| ListWriter.MemberVisibility | src/Documentation/DefinitionListWriter.cs:41-108 | a member is listed exactly when it is visible, is an event, field, property or listable method, and is not implicitly declared unless it is the parameterless constructor of a class |
| ListWriter.HiddenMembers | src/Documentation/DefinitionListWriter.cs:86-106 | explicit interface implementations, static constructors, destructors, accessors, other method kinds and symbols that are not members are never listed |
| ListWriter.AgreesWithDocumentationFilter | src/Documentation/DefinitionListWriter.cs:41-108 | with every member group shown and the same visibility, every member the documentation filter shows is listed, and the only members listed that it hides are constructors of enums |
| ListWriter.ExecAppend | src/Documentation/DefinitionListWriter.cs:516-565 | running two runs of calls is running the first, then the second from where the first left the writer |
| ListWriter.PartsWithoutIndentation | src/Documentation/DefinitionListWriter.cs:516-528 | without the `Indent` option display parts append exactly their texts and leave nothing pending |
| ListWriter.WithoutIndentation | src/Documentation/DefinitionListWriter.cs:536-542 | without the `Indent` option nothing is ever pending and the output is exactly the calls' text, at any level |
| ListWriter.PendingIndentationOnce | src/Documentation/DefinitionListWriter.cs:530-565 | after a line break the next string is indented by the current level and the one after it is not indented again |
| ListWriter.LineBreakPartIndents | src/Documentation/DefinitionListWriter.cs:516-528 | a line-break part inside a display makes the next part start indented |
| ListWriter.ContentIndented | src/Documentation/DefinitionListWriter.cs:349-361 | type contents are a line break, then the contents indented one level deeper, and the level back where it was |
| ListWriter.ExecFollowsLevel | src/Documentation/DefinitionListWriter.cs:349-361 | whenever the calls never end more type contents than they began, the writer's level ends where the counter does and never goes below zero |
| ListWriter.VisibleMembers | src/Documentation/DefinitionListWriter.cs:365-370 | the members written are exactly the type's members `IsVisibleMember` keeps, in the comparer's order |
| ListWriter.WriteMemberList | src/Documentation/DefinitionListWriter.cs:372-475 | the enumerator-driven member loop writes the same calls as the member list: a line break, then each member with an empty line before it when its declaration kind differs from the previous one's or every member is set apart |
| ListWriter.MemberListLines | src/Documentation/DefinitionListWriter.cs:372-475 | a member list has one line break before the members, one after each member, and one more before each member set apart from the previous |
| ListWriter.EmptyLinesBetweenMembers | src/Documentation/DefinitionListWriter.cs:462-466 | with `EmptyLineBetweenMembers` each member takes two lines; without it, members of one declaration kind follow each other with no empty line |
| ListWriter.MemberListSemicolons | src/Documentation/DefinitionListWriter.cs:453-454 | every member but a property ends with `;`, and nothing else in the member list writes one |
| ListWriter.MemberListDisplays | src/Documentation/DefinitionListWriter.cs:380-451 | the members are written in the order given, each once, its attributes before its definition |
| ListWriter.EnumFields | src/Documentation/DefinitionListWriter.cs:490-493 | the enum members written are exactly the fields declared public, in declaration order |
| ListWriter.EnumMembersListed | src/Documentation/DefinitionListWriter.cs:485-509 | at member depth each public field is written once, in declaration order, each followed by `,`; at any other depth nothing is written; the level is never changed |
| ListWriter.TypeBlockNeutral | src/Documentation/DefinitionListWriter.cs:264-347 | listing a type begins and ends its contents in pairs and leaves the level where it found it |
| ListWriter.TypeListNeutral | src/Documentation/DefinitionListWriter.cs:264-347 | listing a sequence of types leaves the level where it found it |
| ListWriter.SortedKeys | src/Documentation/DefinitionListWriter.cs:151-153 | the namespace groups are keyed by each namespace of the types, each once, in the comparer's order |
| ListWriter.TypesIn | src/Documentation/DefinitionListWriter.cs:151-152 | a namespace's group holds exactly the types declared in it |
| ListWriter.GroupsPartitionTypes | src/Documentation/DefinitionListWriter.cs:151-175 | the namespace groups split the types: each type is in exactly one group, as often as it is among the types |
| ListWriter.NamespaceListNeutral | src/Documentation/DefinitionListWriter.cs:151-175 | the namespace list leaves the level where it found it |
| ListWriter.NestedAbove | src/Documentation/DefinitionListWriter.cs:193-208 | the walk adds to the nested set exactly the namespace's ancestors-or-self that are two or more names long |
| ListWriter.RootNamespacesListed | src/Documentation/DefinitionListWriter.cs:181-217 | the roots written are exactly the roots of the types' namespaces, each once, in the comparer's order |
| ListWriter.NestedNamespacesAre | src/Documentation/DefinitionListWriter.cs:183-210 | the nested set holds exactly the containing namespaces of the types at least two levels below the global one |
| ListWriter.Children | src/Documentation/DefinitionListWriter.cs:244-248 | the namespaces written inside a namespace are exactly the nested namespaces directly inside it, each once, sorted by the namespace comparer |
| ListWriter.WriteNamespace | src/Documentation/DefinitionListWriter.cs:219-261 | a namespace with its types and its nested namespaces leaves the level where it found it |
| ListWriter.NamespaceHierarchyNeutral | src/Documentation/DefinitionListWriter.cs:179-262 | the namespace hierarchy leaves the level where it found it |
| ListWriter.SortedAssemblies | src/Documentation/DefinitionListWriter.cs:117-119 | the assemblies are a permutation of the given ones, ordered by name and then by version |
| ListWriter.AssemblyHeaderShows | src/Documentation/DefinitionListWriter.cs:121-136 | an assembly writes its identity, its attributes when they are listed and there are any, and one line break more when attributes are listed |
| ListWriter.HeaderShows | src/Documentation/DefinitionListWriter.cs:115-140 | the head of the listing writes every assembly's identity once in name and version order, the attributes of each when listed, and a closing empty line when they are not |
| ListWriter.ListedTypesAre | src/Documentation/DefinitionListWriter.cs:142-143 | a type is listed exactly when some assembly has it at top level and `IsVisibleType` accepts it |
| ListWriter.ListingBalanced | src/Documentation/DefinitionListWriter.cs:115-177 | the whole listing begins and ends type contents in pairs, ends at level zero, and without `Indent` writes exactly the calls' text |
| ListWriter.ListingGroupsTypes | src/Documentation/DefinitionListWriter.cs:142-176 | grouped by namespace, the listing writes each listed type in exactly one group |

## Left out

- Output I/O: the `TextWriter`, `StringBuilder` and `XmlWriter` targets, and the platform newline. The text writer renders to a string with `"\n"`.
- `SymbolDefinitionXmlWriter`, the command-line layer, `SymbolFinder` and the lines-of-code executor. They are I/O, argument plumbing and asynchronous traversal over a compilation.
- The lazy caching of formats with `Interlocked.CompareExchange` in `SymbolDefinitionWriter`. The formats are plain values derived from the list format.
- Cancellation: `ThrowIfCancellationRequested` (SymbolDefinitionWriter.cs:317, 398, 430, 512, 562) throws `OperationCanceledException` when cancellation is requested; cancellation is not modelled.
- `DocumentationFilterOptions` and the `#if DEBUG` branches of both `SymbolFilterOptions` classes and of the writers, including `Debug.Assert`. Only release behaviour is modelled.
- Compiler services are fields or function parameters with no internals:
  - `ToDisplayParts` and `SymbolDisplay.FormatPrimitive`;
  - `EnumUtility.GetConstituentFields`;
  - `MetadataNameSet.Contains` and `HasMetadataName`;
  - `IsVisible` and `GetMemberDeclarationKind`;
  - writing documentation comments.
- `SymbolDefinitionComparer` is not part of this model. It is an integer rank: a total preorder and nothing more.
- Sequences.Sort: the stability of `OrderBy` is not stated. Equal-rank elements may come out in any order, since nothing in the model depends on their order.
- The type hierarchy's item class (`next`, `lastChild`, `Children()`) is not part of this model. `SymbolHierarchy.Enumerated` assumes that `Children()` walks the sibling ring from the item after `lastChild` back round to `lastChild`.
- Five format properties that the writers read are not declared by `DefinitionListFormat` (DefinitionListFormat.cs:7-39). The model makes an assumption about each:
  - `IncludeAssemblyAttributes`, `IncludeAttributes` and `FormatAttributes`, read at AbstractSymbolDefinitionTextWriter.cs:55, 202 and 188, are derived from the format, not free booleans. `TextWriter.TextFormat` defines them as `AssemblyAttributes in parts`, `Attributes in parts` and `FormatAttributes in formatOptions`. These are the same tests `Format.Includes(SymbolDefinitionPartFilter.AssemblyAttributes)`, `Format.Includes(SymbolDefinitionPartFilter.Attributes)` and `Format.Includes(SymbolDefinitionFormatOptions.Attributes)` that SymbolDefinitionWriter.cs:324, 234 and 251 make. That the text writer's properties mean exactly these tests is an assumption of the model.
  - `GroupByAssembly` and `EmptyLineBetweenMemberGroups` are plain booleans. They are fields `groupByAssembly` and `emptyLineBetweenMemberGroups` of `WriterTypes.Writer`, not of the format.
- `DefinitionListDepth` is declared in none of the modelled source files. Its order is taken to be Member < Type < Namespace. Then `Options.Depth <= DefinitionListDepth.Type` (DefinitionListWriter.cs:165, 239, 479) holds exactly for the member and type depths, and `ListWriter.WritesTypes` models it as `depth != NamespaceDepth`. The default depth `Member` (DefinitionListOptions.cs:117) must list types, which supports this order. `ListOptions.ListDepth` declares its cases from namespace to member, and no ordering of them is used.
- The calls of `DefinitionListWriter` into the display use signatures the display does not declare. Their results are opaque part sequences.
- The text of one attribute written by the text writer (its class name without the `Attribute` suffix, and its arguments) is a function parameter `name` of the renderer. How the display renders an attribute is modelled in `AttributeDisplay`.
- DefinitionDisplay.WhereTail: the source re-renders the type names inside constraint clauses. The model copies those parts as they are and states only where the clauses go and how lines break.
- ParameterAttributes.AddParameterAttributes and DefaultLiteral.ReplaceDefault run on the corrected parameter-list start, `ParameterScan.ParameterListStart`, not the start as written. See the findings below.
- DefinitionDisplay.GetDisplayParts composes the corrected pieces only: the corrected base list (`ListedInterfaces`), the corrected `EventFlags`, the corrected `AddParameterAttributes` and the corrected `ParameterScan.FormatParameters`. Its contract, and those of the lemmas about it (`UntouchedPath`, `OnlyDefaultLiteral`, `PlainDisplay`, `DisplayKeepsVisibleParts`, `DocumentWriter.DisplayLeavesAttributesToWriter`), describe the display with those corrections, not the display as written. Each as-written piece is modelled and related to its correction on its own (see the findings below).
- DocumentWriter.WriteNamespaces composes the corrected namespace hierarchy, `NamespaceWriter.WriteNamespaceHierarchy`, and never fails. The source's `typesByNamespace[namespaceSymbol]` lookup (SymbolDefinitionWriter.cs:516-517) throws `KeyNotFoundException` for a namespace that has nested namespaces but no types of its own. `DocumentWriter.ContentsAsWritten` models that failure.
- DocumentWriter.Contents, DocumentWriter.DocumentFailure, DocumentWriter.AssembliesFailure and DocumentWriter.FailureHasCause characterise failure with the corrected namespace hierarchy. They leave out the `KeyNotFoundException` that the namespace-hierarchy layout throws as written.

## Findings

| source | as written | input that shows it | evidently intended | confidence | as-written member | corrected member |
|---|---|---|---|---|---|---|
| src/Documentation/SymbolDefinitionDisplay.cs:615-683 | `AddParameterAttributes` starts its scan with one parenthesis open, even for an indexer, whose list opens with `[` | `public int this[int[] a, [A] string b]`: the `]` of `int[]` closes the scan, so the attribute of `b` is never inserted | start with one bracket open for an indexer, so `[A] ` is inserted before `string b` | high, not executed | ParameterAttributes.ArrayParameterAttributeLost | ParameterAttributes.ArrayParameterAttributeInserted |
| src/Documentation/SymbolDefinitionWriter.cs:461-517 | `WriteNamespaceHierarchy` indexes the types-by-namespace lookup for every root and nested namespace | one class in namespace `A.B`: `A` is a root with no types of its own, and the lookup throws `KeyNotFoundException` | a namespace without types lists no types, as `DefinitionListWriter` does | high, not executed | NamespaceWriter.NestedOnlyNamespaceThrows | NamespaceWriter.HierarchyLenient |
| src/Documentation/SymbolDefinitionDisplay.cs:996-1007 | `FindParameterListStart` (modelled by `ParameterScan.ParameterListStartAsWritten`) accepts the first `[` at depth zero for a property | `public int[] this[int a, int b]`: the scan stops at the `[` of the return type (index 3) | the `[` after `this` (index 7) | high, not executed | ParameterScan.ArrayIndexerListStart | ParameterScan.ParameterListStart |
| src/Documentation/SymbolDefinitionDisplay.cs:847-864 | `FormatParameters` inserts the first line break after the list start but then rescans from the second part with every counter at zero | an indexer returning `(int[] x, int y)`: the rescan ends at the array's `]` before the parameters | every parameter on its own line | high, not executed | ParameterScan.TupleIndexerFormattedAsWritten | ParameterScan.TupleIndexerFormatted |
| src/Documentation/SymbolDefinitionDisplay.cs:809-827 | the local `HasAttributes` of `AddEventAccessorAttributes` assigns `addMethodHasAttributes` and returns false when a filter is given | an event whose add accessor carries a shown attribute `[A]`: both flags end false and the attribute is not shown | return whether a shown attribute exists: ` { [A] add; remove; }` | high, not executed | DefinitionDisplay.AddAccessorAttributeLost | DefinitionDisplay.AddAccessorAttributeShown |
| src/Documentation/SymbolDefinitionDisplay.cs:47-130 | `interfaces` stays `default` when interfaces are not asked for, but the base list still calls `interfaces.Any()` | `class C : B` displayed with `BaseType` but without `Interfaces`: reading the unset array throws | an unset interface list is empty and the definition ends in ` : B` | medium, not executed | DefinitionDisplay.BaseTypeWithoutInterfaces | DefinitionDisplay.BaseListCorrection |

=== FILE: attribute_display.dfy ===
/**
 Rendering of attributes and of the names and constant values that appear
 in them: `[A, B(1, Name = "x")]`, or one bracketed attribute per line when
 attributes are formatted.
 */
module AttributeDisplay {
  import opened Wrappers
  import opened Parts
  import opened Symbols
  import opened Sequences

  const Suffix: string := "Attribute"

  const CommaSpace: seq<Part> := [Punct(","), SpacePart]

  predicate EndsWith(s: string, suffix: string)
  {
    |suffix| <= |s| && s[|s| - |suffix|..] == suffix
  }

  /** The part with the "Attribute" suffix taken off its text when it is a
      class name that ends with it; any other part is kept. */
  function WithoutSuffix(p: Part): (r: Part)
    ensures r.kind == p.kind
    ensures r != p <==> p.kind == ClassName && EndsWith(p.text, Suffix)
    ensures r != p ==> r.text + Suffix == p.text
  {
    if p.kind == ClassName && EndsWith(p.text, Suffix) then
      assert p.text == p.text[..|p.text| - |Suffix|] + Suffix;
      Part(ClassName, p.text[..|p.text| - |Suffix|])
    else p
  }

  /** The suffix removal of `AddDisplayParts`: it reads the last part
      written so far, which fails on an empty builder. */
  function StripAttributeSuffix(parts: seq<Part>): (r: Result<seq<Part>>)
    ensures r.Err? <==> parts == []
    ensures r.Ok? ==> |r.value| == |parts| && r.value[..|parts| - 1] == parts[..|parts| - 1]
    ensures r.Ok? ==> r.value[|parts| - 1] == WithoutSuffix(parts[|parts| - 1])
  {
    if |parts| == 0 then Err(InvalidOperationException("Sequence contains no elements"))
    else Ok(parts[..|parts| - 1] + [WithoutSuffix(parts[|parts| - 1])])
  }

  /** The name of a symbol followed, for a named type with type arguments,
      by `<T1, T2>`: a named argument in full, any other as a type
      parameter name. */
  function DisplayParts(d: SymbolDisplay, omit: bool): (r: seq<Part>)
    ensures |r| >= |d.PartsFor(omit)| && r[..|d.PartsFor(omit)|] == d.PartsFor(omit)
    ensures d.OtherSymbolDisplay? || d.typeArguments == [] ==> r == d.PartsFor(omit)
    decreases d
  {
    d.PartsFor(omit) + TypeArgumentParts(d, omit)
  }

  function TypeArgumentParts(d: SymbolDisplay, omit: bool): seq<Part>
    decreases d, 0
  {
    if d.OtherSymbolDisplay? || d.typeArguments == [] then []
    else
      var args := d.typeArguments;
      [Punct("<")]
      + Join(seq(|args|, i requires 0 <= i < |args| =>
               if args[i].NamedTypeDisplay? then DisplayParts(args[i], omit)
               else [Part(TypeParameterName, args[i].name)]),
             CommaSpace)
      + [Punct(">")]
  }

  /** `AddDisplayParts`: appends the symbol's name to `builder`; for a named
      type, first strips the suffix from the last part written if asked to,
      then adds the type arguments. */
  function AddDisplayParts(builder: seq<Part>, d: SymbolDisplay, omit: bool, removeSuffix: bool): (r: Result<seq<Part>>)
    ensures r.Err? <==> removeSuffix && d.NamedTypeDisplay? && builder + d.PartsFor(omit) == []
    ensures !removeSuffix ==> r == Ok(builder + DisplayParts(d, omit))
  {
    var parts := builder + d.PartsFor(omit);
    if d.OtherSymbolDisplay? then Ok(parts)
    else
      var stripped :- if removeSuffix then StripAttributeSuffix(parts) else Ok(parts);
      assert !removeSuffix ==> stripped + TypeArgumentParts(d, omit) == builder + DisplayParts(d, omit);
      Ok(stripped + TypeArgumentParts(d, omit))
  }

  /** The part kind a primitive constant is shown with. */
  function PrimitiveKind(t: SpecialType): (r: Result<PartKind>)
    ensures r.Ok? <==> !(t.Decimal? || t.Object? || t.NoSpecialType?)
    ensures r == Ok(Keyword) <==> t == Boolean
    ensures r == Ok(StringLiteral) <==> t == Char || t == String
  {
    match t
    case Boolean => Ok(Keyword)
    case SByte => Ok(NumericLiteral)
    case Byte => Ok(NumericLiteral)
    case Int16 => Ok(NumericLiteral)
    case UInt16 => Ok(NumericLiteral)
    case Int32 => Ok(NumericLiteral)
    case UInt32 => Ok(NumericLiteral)
    case Int64 => Ok(NumericLiteral)
    case UInt64 => Ok(NumericLiteral)
    case Single => Ok(NumericLiteral)
    case Double => Ok(NumericLiteral)
    case Char => Ok(StringLiteral)
    case String => Ok(StringLiteral)
    case _ => Err(InvalidOperationException(""))
  }

  /** The values of a list of results, or the first failure. */
  function Collect<T>(rs: seq<Result<T>>): (r: Result<seq<T>>)
    ensures r.Err? <==> exists i :: 0 <= i < |rs| && rs[i].Err?
    ensures r.Ok? ==> |r.value| == |rs| && forall i :: 0 <= i < |rs| ==> rs[i] == Ok(r.value[i])
  {
    if |rs| == 0 then Ok([])
    else if rs[0].Err? then Err(rs[0].error)
    else
      var rest :- Collect(rs[1..]);
      assert forall i :: 1 <= i < |rs| ==> rs[i] == rs[1..][i - 1];
      Ok([rs[0].value] + rest)
  }

  /** A constant the display code cannot render: an erroneous constant, a
      primitive of a type it has no part kind for, or an array holding
      one. */
  predicate Unrenderable(c: TypedConstant)
  {
    match c
    case PrimitiveValue(t, _) => PrimitiveKind(t).Err?
    case EnumValue(_, _, _) => false
    case TypeValue(_) => false
    case ArrayValue(_, values) => exists i :: 0 <= i < |values| && Unrenderable(values[i])
    case ErrorValue => true
  }

  /** `AddConstantValue`. */
  function ConstantValue(c: TypedConstant, omit: bool): (r: Result<seq<Part>>)
    ensures r.Err? <==> Unrenderable(c)
    ensures c.PrimitiveValue? && r.Ok? ==> r.value == [Part(PrimitiveKind(c.specialType).value, c.formatted)]
    decreases c
  {
    match c
    case PrimitiveValue(t, formatted) =>
      var k :- PrimitiveKind(t);
      Ok([Part(k, formatted)])
    case EnumValue(enumType, raw, constituents) =>
      if |constituents| > 0 then
        Ok(Join(seq(|constituents|, i requires 0 <= i < |constituents| => DisplayParts(constituents[i], omit)),
                [SpacePart, Punct("|"), SpacePart]))
      else
        Ok([Punct("(")] + DisplayParts(enumType, omit) + [Punct(")"), Part(NumericLiteral, raw)])
    case TypeValue(v) =>
      Ok([Kw("typeof"), Punct("(")] + DisplayParts(v, omit) + [Punct(")")])
    case ArrayValue(elementType, values) =>
      var rs := seq(|values|, i requires 0 <= i < |values| => ConstantValue(values[i], omit));
      assert forall i :: 0 <= i < |values| ==> (rs[i].Err? <==> Unrenderable(values[i]));
      var items :- Collect(rs);
      Ok([Kw("new"), SpacePart] + DisplayParts(elementType, omit)
         + [Punct("["), Punct("]"), SpacePart, Punct("{"), SpacePart]
         + Join(items, CommaSpace)
         + [SpacePart, Punct("}")])
    case ErrorValue => Err(InvalidOperationException(""))
  }

  /** A flags value renders as its constituent fields with one " | "
      between each two: for `n` constituent names free of "|", exactly
      `n - 1` bars. */
  lemma EnumFlagsJoined(c: TypedConstant, omit: bool)
    requires c.EnumValue? && |c.constituents| > 0
    requires forall i :: 0 <= i < |c.constituents| ==> Punct("|") !in DisplayParts(c.constituents[i], omit)
    ensures ConstantValue(c, omit).Ok?
    ensures Count(Punct("|"), ConstantValue(c, omit).value) == |c.constituents| - 1
  {
    var cs := c.constituents;
    var items := seq(|cs|, i requires 0 <= i < |cs| => DisplayParts(cs[i], omit));
    var sep := [SpacePart, Punct("|"), SpacePart];
    assert ConstantValue(c, omit) == Ok(Join(items, sep));
    JoinCount(Punct("|"), items, sep);
    CountInZero(Punct("|"), items);
    assert Count(Punct("|"), sep) == 1 by {
      assert sep[1..][1..] == [SpacePart];
      CountAbsent(Punct("|"), sep[1..][1..]);
    }
  }

  /** A named argument: `Name = value`. */
  function NamedArgumentParts(a: NamedArgument, omit: bool): (r: Result<seq<Part>>)
    ensures r.Err? <==> Unrenderable(a.value)
  {
    var v :- ConstantValue(a.value, omit);
    Ok([Part(PropertyName, a.name), SpacePart, Punct("="), SpacePart] + v)
  }

  function ConstructorArgumentList(a: AttributeData, omit: bool): (r: Result<seq<seq<Part>>>)
    ensures r.Ok? ==> |r.value| == |a.constructorArguments|
  {
    var args := a.constructorArguments;
    Collect(seq(|args|, i requires 0 <= i < |args| => ConstantValue(args[i], omit)))
  }

  function NamedArgumentList(a: AttributeData, omit: bool): (r: Result<seq<seq<Part>>>)
    ensures r.Ok? ==> |r.value| == |a.namedArguments|
  {
    var args := a.namedArguments;
    Collect(seq(|args|, i requires 0 <= i < |args| => NamedArgumentParts(args[i], omit)))
  }

  /** `AddAttributeArguments` as written: the constructor arguments after
      "(", then the named ones after ", " or, when there was no constructor
      argument, after "("; ")" when either list was non-empty. */
  function ArgumentParts(a: AttributeData, omit: bool): Result<seq<Part>>
  {
    var ctor :- ConstructorArgumentList(a, omit);
    var named :- NamedArgumentList(a, omit);
    Ok(ArgumentsText(ctor, named))
  }

  /** The text `AddAttributeArguments` writes for rendered constructor and
      named arguments. */
  function ArgumentsText(ctor: seq<seq<Part>>, named: seq<seq<Part>>): seq<Part>
  {
    var hasConstructorArgument := |ctor| > 0;
    var hasNamedArgument := |named| > 0;
    (if hasConstructorArgument then [Punct("(")] + Join(ctor, CommaSpace) else [])
    + (if hasNamedArgument then (if hasConstructorArgument then CommaSpace else [Punct("(")]) + Join(named, CommaSpace) else [])
    + (if hasConstructorArgument || hasNamedArgument then [Punct(")")] else [])
  }

  /** Both lists together form one parenthesised, comma-separated list. */
  lemma ArgumentsTextJoined(ctor: seq<seq<Part>>, named: seq<seq<Part>>)
    ensures ArgumentsText(ctor, named)
      == if |ctor + named| == 0 then [] else [Punct("(")] + Join(ctor + named, CommaSpace) + [Punct(")")]
  {
    if |ctor| > 0 && |named| > 0 {
      JoinAppend(ctor, named, CommaSpace);
    } else if |ctor| > 0 {
      assert ctor + named == ctor;
    } else {
      assert ctor + named == named;
    }
  }

  lemma {:induction false} JoinAppend<T>(a: seq<seq<T>>, b: seq<seq<T>>, sep: seq<T>)
    requires |a| > 0 && |b| > 0
    ensures Join(a + b, sep) == Join(a, sep) + sep + Join(b, sep)
  {
    if |a| == 1 {
      assert (a + b)[1..] == b;
    } else {
      assert (a + b)[1..] == a[1..] + b;
      JoinAppend(a[1..], b, sep);
    }
  }

  /** The argument list is one parenthesised, comma-separated list of the
      constructor arguments followed by the named ones: "(" appears exactly
      when there is an argument, and ")" closes exactly then. */
  lemma ArgumentListShape(a: AttributeData, omit: bool)
    requires ArgumentParts(a, omit).Ok?
    ensures var all := ConstructorArgumentList(a, omit).value + NamedArgumentList(a, omit).value;
      ArgumentParts(a, omit).value == if |all| == 0 then [] else [Punct("(")] + Join(all, CommaSpace) + [Punct(")")]
    ensures ArgumentParts(a, omit).value == [] <==> a.constructorArguments == [] && a.namedArguments == []
  {
    var ctor := ConstructorArgumentList(a, omit).value;
    var named := NamedArgumentList(a, omit).value;
    assert ArgumentParts(a, omit).value == ArgumentsText(ctor, named);
    ArgumentsTextJoined(ctor, named);
  }

  /** An attribute whose arguments render fails exactly when one of them
      cannot be rendered. */
  lemma ArgumentErrors(a: AttributeData, omit: bool)
    ensures ArgumentParts(a, omit).Err? <==>
      (exists i :: 0 <= i < |a.constructorArguments| && Unrenderable(a.constructorArguments[i]))
      || (exists i :: 0 <= i < |a.namedArguments| && Unrenderable(a.namedArguments[i].value))
  {
    var ca := a.constructorArguments;
    var na := a.namedArguments;
    var cs := seq(|ca|, i requires 0 <= i < |ca| => ConstantValue(ca[i], omit));
    var ns := seq(|na|, i requires 0 <= i < |na| => NamedArgumentParts(na[i], omit));
    assert forall i :: 0 <= i < |ca| ==> (cs[i].Err? <==> Unrenderable(ca[i]));
    assert forall i :: 0 <= i < |na| ==> (ns[i].Err? <==> Unrenderable(na[i].value));
  }

  /** The arguments written after the class name: none unless asked for. */
  function IncludedArguments(a: AttributeData, omit: bool, includeArguments: bool): Result<seq<Part>>
  {
    if includeArguments then ArgumentParts(a, omit) else Ok([])
  }

  /** `AddAttribute`: the attribute class without its suffix, then its
      arguments when they are included. */
  function AddAttribute(builder: seq<Part>, a: AttributeData, omit: bool, includeArguments: bool): Result<seq<Part>>
  {
    var b :- AddDisplayParts(builder, a.classDisplay, omit, true);
    var args :- IncludedArguments(a, omit, includeArguments);
    Ok(b + args)
  }

  /** The attribute class as shown: a named type loses the suffix of its
      last name part and gets its type arguments. */
  function ClassNameParts(d: SymbolDisplay, omit: bool): seq<Part>
  {
    var name := d.PartsFor(omit);
    if d.OtherSymbolDisplay? then name
    else if name == [] then TypeArgumentParts(d, omit)
    else StripAttributeSuffix(name).value + TypeArgumentParts(d, omit)
  }

  /** The parts one attribute adds, independently of what was written before
      it. */
  function AttributeParts(a: AttributeData, omit: bool, includeArguments: bool): Result<seq<Part>>
  {
    var args :- IncludedArguments(a, omit, includeArguments);
    Ok(ClassNameParts(a.classDisplay, omit) + args)
  }

  /** What is written before an attribute: never a class name. */
  predicate OpenBuilder(builder: seq<Part>)
  {
    |builder| > 0 && builder[|builder| - 1].kind != ClassName
  }

  /** After "[" or a separator, the class name is appended and the earlier
      parts are left alone: the suffix removal reaches back into them only
      when the name has no parts, and then finds no class name there. */
  lemma ClassNameAppends(builder: seq<Part>, d: SymbolDisplay, omit: bool)
    requires OpenBuilder(builder)
    ensures AddDisplayParts(builder, d, omit, true) == Ok(builder + ClassNameParts(d, omit))
  {
    var name := d.PartsFor(omit);
    if d.NamedTypeDisplay? {
      var t := TypeArgumentParts(d, omit);
      if name == [] {
        assert builder + name == builder;
        StripOpenBuilder(builder);
      } else {
        StripAfterBuilder(builder, name);
        assert (builder + StripAttributeSuffix(name).value) + t == builder + (StripAttributeSuffix(name).value + t);
      }
    }
  }

  /** Stripping what was written before an attribute changes nothing. */
  lemma StripOpenBuilder(builder: seq<Part>)
    requires OpenBuilder(builder)
    ensures StripAttributeSuffix(builder) == Ok(builder)
  {
    assert WithoutSuffix(builder[|builder| - 1]) == builder[|builder| - 1];
    assert builder[..|builder| - 1] + [builder[|builder| - 1]] == builder;
  }

  /** The suffix removal only touches the name just appended. */
  lemma StripAfterBuilder(builder: seq<Part>, name: seq<Part>)
    requires name != []
    ensures StripAttributeSuffix(builder + name) == Ok(builder + StripAttributeSuffix(name).value)
  {
    var parts := builder + name;
    var w := WithoutSuffix(name[|name| - 1]);
    assert parts[..|parts| - 1] == builder + name[..|name| - 1];
    assert parts[|parts| - 1] == name[|name| - 1];
    assert (builder + name[..|name| - 1]) + [w] == builder + (name[..|name| - 1] + [w]);
  }

  lemma AddAttributeAppends(builder: seq<Part>, a: AttributeData, omit: bool, includeArguments: bool)
    requires OpenBuilder(builder)
    ensures AddAttribute(builder, a, omit, includeArguments).Err? <==> AttributeParts(a, omit, includeArguments).Err?
    ensures AttributeParts(a, omit, includeArguments).Ok? ==>
      AddAttribute(builder, a, omit, includeArguments) == Ok(builder + AttributeParts(a, omit, includeArguments).value)
  {
    ClassNameAppends(builder, a.classDisplay, omit);
    AppendsAfter(builder, ClassNameParts(a.classDisplay, omit), IncludedArguments(a, omit, includeArguments));
  }

  /** What follows the class name comes after the builder and the name. */
  lemma AppendsAfter(builder: seq<Part>, x: seq<Part>, args: Result<seq<Part>>)
    ensures args.Ok? ==> (builder + x) + args.value == builder + (x + args.value)
  {
  }

  /** The separator between two attributes: `] [` (or a line break between
      them) when attributes are formatted, `, ` otherwise. */
  function Separator(formatAttributes: bool, includeTrailingNewLine: bool): (r: seq<Part>)
    ensures OpenSeparator(r)
    ensures Visible(r) == if formatAttributes then [Punct("]"), Punct("[")] else [Punct(",")]
    ensures LineBreakPart in r <==> formatAttributes && includeTrailingNewLine
  {
    if formatAttributes then
      var r := [Punct("]"), if includeTrailingNewLine then LineBreakPart else SpacePart, Punct("[")];
      assert r[1..][1..] == [r[2]] && [r[2]][1..] == [];
      assert Visible([r[2]]) == [r[2]] + Visible([]);
      assert Visible(r[1..]) == Visible([r[2]]);
      assert Visible(r) == [r[0]] + Visible(r[1..]);
      r
    else
      assert CommaSpace[1..] == [SpacePart] && [SpacePart][1..] == [];
      assert Visible([SpacePart]) == Visible([]);
      assert Visible(CommaSpace) == [Punct(",")] + Visible([SpacePart]);
      CommaSpace
  }

  /** The rank an attribute is sorted by under each comparer. */
  function Rank(a: AttributeData, omit: bool): int
  {
    if omit then a.rankWithoutNamespace else a.rankWithNamespace
  }

  function ByRank(omit: bool): (le: (AttributeData, AttributeData) -> bool)
    ensures TotalPreorder(le)
  {
    (x: AttributeData, y: AttributeData) => Rank(x, omit) <= Rank(y, omit)
  }

  /** The loop of `AddAttributes`: each attribute after the first is
      preceded by the separator. */
  function AttributeLoop(builder: seq<Part>, attributes: seq<AttributeData>, omit: bool, includeArguments: bool, sep: seq<Part>): Result<seq<Part>>
    requires |attributes| > 0
    decreases |attributes|
  {
    var b :- AddAttribute(builder, attributes[0], omit, includeArguments);
    if |attributes| == 1 then Ok(b)
    else AttributeLoop(b + sep, attributes[1..], omit, includeArguments, sep)
  }

  /** `AddAttributes`: the attributes sorted by the comparer chosen by
      `omit`, in one bracket pair or one pair each, followed by a line break
      when asked for. No attributes add nothing. */
  function AddAttributes(builder: seq<Part>, attributes: seq<AttributeData>, omit: bool, includeArguments: bool,
                         formatAttributes: bool, includeTrailingNewLine: bool): Result<seq<Part>>
  {
    var sorted := Sort(attributes, ByRank(omit));
    if |sorted| == 0 then Ok(builder)
    else
      var b :- AttributeLoop(builder + [Punct("[")], sorted, omit, includeArguments, Separator(formatAttributes, includeTrailingNewLine));
      Ok(b + [Punct("]")] + (if includeTrailingNewLine then [LineBreakPart] else []))
  }

  /** The parts of each attribute, or the first failure. */
  function RenderAll(attributes: seq<AttributeData>, omit: bool, includeArguments: bool): (r: Result<seq<seq<Part>>>)
    ensures r.Ok? ==> |r.value| == |attributes|
    ensures r.Err? <==> exists i :: 0 <= i < |attributes| && AttributeParts(attributes[i], omit, includeArguments).Err?
  {
    if |attributes| == 0 then Ok([])
    else
      assert forall i :: 1 <= i < |attributes| ==> attributes[i] == attributes[1..][i - 1];
      var first :- AttributeParts(attributes[0], omit, includeArguments);
      var rest :- RenderAll(attributes[1..], omit, includeArguments);
      Ok([first] + rest)
  }

  /** A separator ends with "[" or a space, so what follows it is written
      into an open builder. */
  predicate OpenSeparator(sep: seq<Part>)
  {
    |sep| > 0 && sep[|sep| - 1].kind != ClassName
  }

  /** The loop writes the attributes' own parts joined by the separator. */
  lemma {:induction false} AttributeLoopIsJoin(builder: seq<Part>, attributes: seq<AttributeData>, omit: bool,
                                               includeArguments: bool, sep: seq<Part>)
    requires |attributes| > 0 && OpenBuilder(builder) && OpenSeparator(sep)
    requires RenderAll(attributes, omit, includeArguments).Ok?
    ensures AttributeLoop(builder, attributes, omit, includeArguments, sep)
         == Ok(builder + Join(RenderAll(attributes, omit, includeArguments).value, sep))
    decreases |attributes|
  {
    var all := RenderAll(attributes, omit, includeArguments).value;
    var rest := RenderAll(attributes[1..], omit, includeArguments);
    assert rest.Ok? && all == [AttributeParts(attributes[0], omit, includeArguments).value] + rest.value;
    AddAttributeAppends(builder, attributes[0], omit, includeArguments);
    var b := builder + all[0];
    assert AttributeLoop(builder, attributes, omit, includeArguments, sep)
        == if |attributes| == 1 then Ok(b) else AttributeLoop(b + sep, attributes[1..], omit, includeArguments, sep);
    if |attributes| > 1 {
      var j := Join(rest.value, sep);
      assert (b + sep)[|b + sep| - 1] == sep[|sep| - 1];
      AttributeLoopIsJoin(b + sep, attributes[1..], omit, includeArguments, sep);
      assert all[1..] == rest.value;
      assert Join(all, sep) == all[0] + sep + j;
      ConcatAssoc(builder, all[0], sep, j);
    }
  }

  /** The loop fails when one of the attributes cannot be rendered. */
  lemma {:induction false} AttributeLoopFails(builder: seq<Part>, attributes: seq<AttributeData>, omit: bool,
                                              includeArguments: bool, sep: seq<Part>)
    requires |attributes| > 0 && OpenBuilder(builder) && OpenSeparator(sep)
    requires RenderAll(attributes, omit, includeArguments).Err?
    ensures AttributeLoop(builder, attributes, omit, includeArguments, sep).Err?
    decreases |attributes|
  {
    AddAttributeAppends(builder, attributes[0], omit, includeArguments);
    if AttributeParts(attributes[0], omit, includeArguments).Ok? {
      var b := builder + AttributeParts(attributes[0], omit, includeArguments).value;
      assert (b + sep)[|b + sep| - 1] == sep[|sep| - 1];
      AttributeLoopFails(b + sep, attributes[1..], omit, includeArguments, sep);
    }
  }

  /** Attributes render as `[A, B]` (or `[A] [B]`, one per line when there
      is a trailing line break, when formatted), sorted by the comparer. */
  lemma AttributesShape(builder: seq<Part>, attributes: seq<AttributeData>, omit: bool, includeArguments: bool,
                        formatAttributes: bool, includeTrailingNewLine: bool)
    requires |attributes| > 0
    requires RenderAll(Sort(attributes, ByRank(omit)), omit, includeArguments).Ok?
    ensures var sorted := Sort(attributes, ByRank(omit));
      AddAttributes(builder, attributes, omit, includeArguments, formatAttributes, includeTrailingNewLine)
      == Ok(builder + [Punct("[")]
            + Join(RenderAll(sorted, omit, includeArguments).value, Separator(formatAttributes, includeTrailingNewLine))
            + [Punct("]")] + (if includeTrailingNewLine then [LineBreakPart] else []))
  {
    var sorted := Sort(attributes, ByRank(omit));
    AttributeLoopIsJoin(builder + [Punct("[")], sorted, omit, includeArguments, Separator(formatAttributes, includeTrailingNewLine));
  }

  /** Some attribute that cannot be rendered makes the whole list fail. */
  lemma AttributesFail(builder: seq<Part>, attributes: seq<AttributeData>, omit: bool, includeArguments: bool,
                       formatAttributes: bool, includeTrailingNewLine: bool)
    requires |attributes| > 0
    requires RenderAll(Sort(attributes, ByRank(omit)), omit, includeArguments).Err?
    ensures AddAttributes(builder, attributes, omit, includeArguments, formatAttributes, includeTrailingNewLine).Err?
  {
    AttributeLoopFails(builder + [Punct("[")], Sort(attributes, ByRank(omit)), omit, includeArguments,
                       Separator(formatAttributes, includeTrailingNewLine));
  }

  /** A non-empty attribute list fails exactly when one of its attributes
      cannot be rendered, and otherwise has the bracketed shape. */
  lemma AttributesOutcome(builder: seq<Part>, attributes: seq<AttributeData>, omit: bool, includeArguments: bool,
                          formatAttributes: bool, includeTrailingNewLine: bool)
    requires |attributes| > 0
    ensures var all := RenderAll(Sort(attributes, ByRank(omit)), omit, includeArguments);
      var r := AddAttributes(builder, attributes, omit, includeArguments, formatAttributes, includeTrailingNewLine);
      && (r.Err? <==> all.Err?)
      && (all.Ok? ==> r == Ok(builder + [Punct("[")] + Join(all.value, Separator(formatAttributes, includeTrailingNewLine))
                              + [Punct("]")] + (if includeTrailingNewLine then [LineBreakPart] else [])))
  {
    if RenderAll(Sort(attributes, ByRank(omit)), omit, includeArguments).Ok? {
      AttributesShape(builder, attributes, omit, includeArguments, formatAttributes, includeTrailingNewLine);
    } else {
      AttributesFail(builder, attributes, omit, includeArguments, formatAttributes, includeTrailingNewLine);
    }
  }

  /** No attributes, no parts; and the sort keeps every attribute. */
  lemma NoAttributesNoParts(builder: seq<Part>, omit: bool, includeArguments: bool, formatAttributes: bool, includeTrailingNewLine: bool)
    ensures AddAttributes(builder, [], omit, includeArguments, formatAttributes, includeTrailingNewLine) == Ok(builder)
  {
  }

  lemma AttributesAreSortedByRank(attributes: seq<AttributeData>, omit: bool)
    ensures var sorted := Sort(attributes, ByRank(omit));
      multiset(sorted) == multiset(attributes)
      && forall i, j :: 0 <= i < j < |sorted| ==> Rank(sorted[i], omit) <= Rank(sorted[j], omit)
  {
    var le := ByRank(omit);
    var sorted := Sort(attributes, le);
    assert SortedBy(sorted, le);
    forall i, j | 0 <= i < j < |sorted| ensures Rank(sorted[i], omit) <= Rank(sorted[j], omit) {
      assert le(sorted[i], sorted[j]);
    }
  }
}

=== FILE: default_literal.dfy ===
/**
 Replacement of `default(T)` expressions in parameter default values by
 the `default` literal: inside the parameter list, every `= default(`
 whose parenthesis is closed later loses the parenthesised type, up to and
 including its closing parenthesis.
 */
module DefaultLiteral {
  import opened Parts
  import opened Symbols
  import opened ParameterScan

  /** The change a part makes to the parenthesis depth. */
  function Delta(p: Part): int
  {
    if IsPunct(p, "(") then 1 else if IsPunct(p, ")") then -1 else 0
  }

  /** Opened minus closed parentheses in `s`. */
  function Net(s: seq<Part>): int
  {
    if |s| == 0 then 0 else Delta(s[0]) + Net(s[1..])
  }

  lemma {:induction false} NetAppend(a: seq<Part>, b: seq<Part>)
    ensures Net(a + b) == Net(a) + Net(b)
  {
    if |a| == 0 {
      assert a + b == b;
    } else {
      assert (a + b)[1..] == a[1..] + b;
      NetAppend(a[1..], b);
    }
  }

  /** Opened minus closed parentheses among `parts[j..e]`. */
  function NetBetween(parts: seq<Part>, j: nat, e: nat): int
    requires j <= e <= |parts|
    decreases e - j
  {
    if j == e then 0 else Delta(parts[j]) + NetBetween(parts, j + 1, e)
  }

  lemma {:induction false} NetSlice(parts: seq<Part>, j: nat, e: nat)
    requires j <= e <= |parts|
    ensures Net(parts[j..e]) == NetBetween(parts, j, e)
    decreases e - j
  {
    if j < e {
      assert parts[j..e][1..] == parts[j + 1..e];
      NetSlice(parts, j + 1, e);
    }
  }

  /** The scan for the parenthesis that closes one opened before `j`, with
      `depth` parentheses open: the first index at which the depth drops to
      zero, or -1 when the parts end first. */
  function ClosingFrom(parts: seq<Part>, j: nat, depth: int): (r: int)
    requires j <= |parts| && depth >= 1
    ensures r == -1 || (j <= r < |parts| && IsPunct(parts[r], ")"))
    ensures r != -1 ==> depth + NetBetween(parts, j, r + 1) == 0
    decreases |parts| - j
  {
    if j == |parts| then -1
    else if IsPunct(parts[j], "(") then ClosingFrom(parts, j + 1, depth + 1)
    else if IsPunct(parts[j], ")") then
      if depth - 1 == 0 then j else ClosingFrom(parts, j + 1, depth - 1)
    else ClosingFrom(parts, j + 1, depth)
  }

  /** The scan stops at the first parenthesis that closes: before it, and
      everywhere when it finds none, some parenthesis is still open. */
  lemma {:induction false} ClosingFromIsFirst(parts: seq<Part>, j: nat, depth: int)
    requires j <= |parts| && depth >= 1
    ensures var r := ClosingFrom(parts, j, depth);
      r != -1 ==> forall e :: j < e <= r ==> depth + NetBetween(parts, j, e) > 0
    ensures ClosingFrom(parts, j, depth) == -1 ==> forall e :: j < e <= |parts| ==> depth + NetBetween(parts, j, e) > 0
    decreases |parts| - j
  {
    if j < |parts| {
      var d := depth + Delta(parts[j]);
      if !(IsPunct(parts[j], ")") && depth - 1 == 0) {
        ClosingFromIsFirst(parts, j + 1, d);
        forall e | j + 1 < e <= |parts| ensures depth + NetBetween(parts, j, e) == d + NetBetween(parts, j + 1, e) {
        }
      }
    }
  }

  /** `= default(` starting at `i`. */
  predicate DefaultAt(parts: seq<Part>, i: nat)
  {
    i + 3 < |parts| && IsPunct(parts[i], "=") && parts[i + 1].kind == Space
    && IsKeyword(parts[i + 2], "default") && IsPunct(parts[i + 3], "(")
  }

  /** The parenthesis and bracket counters after part `p`. */
  function NextParens(p: Part, parens: int): int
  {
    if IsPunct(p, "(") then parens + 1 else if IsPunct(p, ")") then parens - 1 else parens
  }

  function NextBrackets(p: Part, brackets: int): int
  {
    if IsPunct(p, "[") then brackets + 1 else if IsPunct(p, "]") then brackets - 1 else brackets
  }

  /** The ")" or "]" that brings both counters back to zero ends the scan. */
  predicate EndsScan(p: Part, parens: int, brackets: int)
  {
    (IsPunct(p, ")") && parens - 1 == 0 && brackets == 0)
    || (IsPunct(p, "]") && brackets - 1 == 0 && parens == 0)
  }

  /** The parts from `i` on as the scan leaves them, with `parens` and
      `brackets` open: everything from the part that ends the scan on is
      copied. */
  function Rewrite(parts: seq<Part>, i: nat, parens: int, brackets: int): seq<Part>
    requires i <= |parts|
    decreases |parts| - i
  {
    if i == |parts| then []
    else if EndsScan(parts[i], parens, brackets) then parts[i..]
    else if DefaultAt(parts, i) && ClosingFrom(parts, i + 4, 1) != -1 then
      parts[i..i + 3] + Rewrite(parts, ClosingFrom(parts, i + 4, 1) + 1, parens, brackets)
    else
      [parts[i]] + Rewrite(parts, i + 1, NextParens(parts[i], parens), NextBrackets(parts[i], brackets))
  }

  /** `ReplaceDefaultExpressionWithDefaultLiteral`: the scan starts on the
      part that opens the parameter list, with no parenthesis or bracket
      open; a symbol without a parameter list keeps its parts. */
  function ReplaceDefault(kind: SymbolKind, parts: seq<Part>): seq<Part>
  {
    var s := ParameterListStart(kind, parts);
    if s == -1 then parts else parts[..s] + Rewrite(parts, s, 0, 0)
  }

  /** The rewrite removes only balanced parenthesised text. */
  lemma {:induction false} RewriteKeepsParenthesesBalanced(parts: seq<Part>, i: nat, parens: int, brackets: int)
    requires i <= |parts|
    ensures Net(Rewrite(parts, i, parens, brackets)) == Net(parts[i..])
    decreases |parts| - i, 1
  {
    if i == |parts| || EndsScan(parts[i], parens, brackets) {
      RewriteStops(parts, i, parens, brackets);
    } else if DefaultAt(parts, i) && ClosingFrom(parts, i + 4, 1) != -1 {
      var k := ClosingFrom(parts, i + 4, 1);
      RewriteKeepsParenthesesBalanced(parts, k + 1, parens, brackets);
      RewriteSkipsDefault(parts, i, k, parens, brackets);
    } else {
      RewriteCopies(parts, i, parens, brackets);
    }
  }

  /** The step of the rewrite that drops a `default(...)` argument. */
  lemma RewriteSkipsDefault(parts: seq<Part>, i: nat, k: int, parens: int, brackets: int)
    requires i < |parts| && !EndsScan(parts[i], parens, brackets)
    requires DefaultAt(parts, i) && k == ClosingFrom(parts, i + 4, 1) && k != -1
    requires Net(Rewrite(parts, k + 1, parens, brackets)) == Net(parts[k + 1..])
    ensures Net(Rewrite(parts, i, parens, brackets)) == Net(parts[i..])
  {
    var tail := Rewrite(parts, k + 1, parens, brackets);
    RewriteDropsDefault(parts, i, k, parens, brackets);
    NetAppend(parts[i..i + 3], tail);
    DefaultArgumentIsBalanced(parts, i, k);
  }

  lemma RewriteStops(parts: seq<Part>, i: nat, parens: int, brackets: int)
    requires i == |parts| || (i < |parts| && EndsScan(parts[i], parens, brackets))
    ensures Rewrite(parts, i, parens, brackets) == parts[i..]
  {
  }

  lemma RewriteDropsDefault(parts: seq<Part>, i: nat, k: int, parens: int, brackets: int)
    requires i < |parts| && !EndsScan(parts[i], parens, brackets)
    requires DefaultAt(parts, i) && k == ClosingFrom(parts, i + 4, 1) && k != -1
    ensures Rewrite(parts, i, parens, brackets) == parts[i..i + 3] + Rewrite(parts, k + 1, parens, brackets)
  {
  }

  /** The step of the rewrite that copies a part. */
  lemma {:induction false} RewriteCopies(parts: seq<Part>, i: nat, parens: int, brackets: int)
    requires i < |parts| && !EndsScan(parts[i], parens, brackets)
    requires !(DefaultAt(parts, i) && ClosingFrom(parts, i + 4, 1) != -1)
    ensures Net(Rewrite(parts, i, parens, brackets)) == Net(parts[i..])
    decreases |parts| - i, 0
  {
    var p := parts[i];
    var tail := Rewrite(parts, i + 1, NextParens(p, parens), NextBrackets(p, brackets));
    RewriteKeepsParenthesesBalanced(parts, i + 1, NextParens(p, parens), NextBrackets(p, brackets));
    assert parts[i..] == [p] + parts[i + 1..];
    assert Rewrite(parts, i, parens, brackets) == [p] + tail;
    NetAppend([p], parts[i + 1..]);
    NetAppend([p], tail);
  }

  /** The rewrite never adds a part. */
  lemma {:induction false} RewriteNeverLonger(parts: seq<Part>, i: nat, parens: int, brackets: int)
    requires i <= |parts|
    ensures |Rewrite(parts, i, parens, brackets)| <= |parts| - i
    decreases |parts| - i
  {
    if i == |parts| || EndsScan(parts[i], parens, brackets) {
    } else if DefaultAt(parts, i) && ClosingFrom(parts, i + 4, 1) != -1 {
      RewriteNeverLonger(parts, ClosingFrom(parts, i + 4, 1) + 1, parens, brackets);
    } else {
      RewriteNeverLonger(parts, i + 1, NextParens(parts[i], parens), NextBrackets(parts[i], brackets));
    }
  }

  /** The text `default` loses, from its "(" to the matching ")", opens as
      many parentheses as it closes. */
  lemma DefaultArgumentIsBalanced(parts: seq<Part>, i: nat, k: int)
    requires i + 3 < k < |parts| && IsPunct(parts[i + 3], "(")
    requires 1 + NetBetween(parts, i + 4, k + 1) == 0
    ensures Net(parts[i..]) == Net(parts[i..i + 3]) + Net(parts[k + 1..])
  {
    var open := parts[i + 3..k + 1];
    var rest := parts[k + 1..];
    assert Net(open) == 0 by {
      OpenedArgumentIsBalanced(parts, i + 3, k);
    }
    assert Net(open + rest) == Net(rest) by {
      NetAppend(open, rest);
    }
    assert parts[i..] == parts[i..i + 3] + (open + rest);
    NetAppend(parts[i..i + 3], open + rest);
  }

  /** From an opening parenthesis to the one that closes it, the depth
      returns to where it was. */
  lemma OpenedArgumentIsBalanced(parts: seq<Part>, j: nat, k: int)
    requires j < k < |parts| && IsPunct(parts[j], "(")
    requires 1 + NetBetween(parts, j + 1, k + 1) == 0
    ensures Net(parts[j..k + 1]) == 0
  {
    NetSlice(parts, j, k + 1);
  }

  /** Without `= default(` there is nothing to replace. */
  lemma {:induction false} RewriteWithoutDefault(parts: seq<Part>, i: nat, parens: int, brackets: int)
    requires i <= |parts|
    requires forall m :: i <= m < |parts| ==> !DefaultAt(parts, m)
    ensures Rewrite(parts, i, parens, brackets) == parts[i..]
    decreases |parts| - i
  {
    if i < |parts| && !EndsScan(parts[i], parens, brackets) {
      var p := parts[i];
      RewriteWithoutDefault(parts, i + 1, NextParens(p, parens), NextBrackets(p, brackets));
      assert parts[i..] == [p] + parts[i + 1..];
    }
  }

  /** A definition without `= default(` keeps its parts; one that changes
      therefore held such an expression. */
  lemma ReplaceDefaultWithoutDefault(kind: SymbolKind, parts: seq<Part>)
    ensures (forall m :: 0 <= m < |parts| ==> !DefaultAt(parts, m)) ==> ReplaceDefault(kind, parts) == parts
    ensures ReplaceDefault(kind, parts) != parts ==> exists m :: 0 <= m < |parts| && DefaultAt(parts, m)
  {
    var s := ParameterListStart(kind, parts);
    if s != -1 && forall m :: 0 <= m < |parts| ==> !DefaultAt(parts, m) {
      RewriteWithoutDefault(parts, s, 0, 0);
      assert parts == parts[..s] + parts[s..];
    }
  }

  /** The replacement keeps the definition's parentheses balanced and never
      makes it longer. */
  lemma ReplaceDefaultKeepsParenthesesBalanced(kind: SymbolKind, parts: seq<Part>)
    ensures Net(ReplaceDefault(kind, parts)) == Net(parts)
    ensures |ReplaceDefault(kind, parts)| <= |parts|
  {
    var s := ParameterListStart(kind, parts);
    if s != -1 {
      RewriteKeepsParenthesesBalanced(parts, s, 0, 0);
      RewriteNeverLonger(parts, s, 0, 0);
      assert parts == parts[..s] + parts[s..];
      NetAppend(parts[..s], parts[s..]);
      NetAppend(parts[..s], Rewrite(parts, s, 0, 0));
    }
  }

  /** `void M(object o = default(object))`. */
  predicate IsDefaultParameter(p: seq<Part>)
  {
    && |p| == 15
    && p[0] == Kw("void") && p[1] == SpacePart && p[2] == Part(MethodName, "M") && p[3] == Punct("(")
    && p[4] == Kw("object") && p[5] == SpacePart && p[6] == Part(ParameterName, "o") && p[7] == SpacePart
    && p[8] == Punct("=") && p[9] == SpacePart && p[10] == Kw("default") && p[11] == Punct("(")
    && p[12] == Kw("object") && p[13] == Punct(")") && p[14] == Punct(")")
  }

  lemma DefaultParameterStart(p: seq<Part>)
    requires IsDefaultParameter(p)
    ensures ParameterListStart(SymbolKind.Method, p) == 3
  {
    var k := SymbolKind.Method;
    assert DepthsOf(p[..3]) == Zero by {
      DepthsOfSnoc(p, 0); DepthsOfSnoc(p, 1); DepthsOfSnoc(p, 2);
    }
    assert Opens(k, p, 3, true);
    forall j | 0 <= j < 3 ensures !Opens(k, p, j, true) {
      assert p[j].kind != Punctuation;
    }
  }

  lemma DefaultParameterScan(p: seq<Part>)
    requires IsDefaultParameter(p)
    ensures Rewrite(p, 8, 1, 0) == p[8..11] + [Punct(")")]
  {
    assert ClosingFrom(p, 12, 1) == 13 by {
      assert ClosingFrom(p, 13, 1) == 13;
    }
    assert DefaultAt(p, 8);
    assert Rewrite(p, 14, 1, 0) == p[14..];
  }

  /** A part that neither ends the scan nor starts `= default(` is copied. */
  lemma RewriteCopiesPart(parts: seq<Part>, i: nat, parens: int, brackets: int)
    requires i < |parts| && !EndsScan(parts[i], parens, brackets) && !DefaultAt(parts, i)
    ensures Rewrite(parts, i, parens, brackets)
            == [parts[i]] + Rewrite(parts, i + 1, NextParens(parts[i], parens), NextBrackets(parts[i], brackets))
  {
  }

  lemma SliceJoin(s: seq<Part>, i: nat, j: nat, k: nat)
    requires i <= j <= k <= |s|
    ensures s[i..j] + s[j..k] == s[i..k]
  {
  }

  lemma DefaultParameterNames(p: seq<Part>)
    requires IsDefaultParameter(p)
    ensures Rewrite(p, 5, 1, 0) == p[5..11] + [Punct(")")]
  {
    RewriteCopiesPart(p, 5, 1, 0);
    RewriteCopiesPart(p, 6, 1, 0);
    RewriteCopiesPart(p, 7, 1, 0);
    DefaultParameterScan(p);
    assert p[5..11] == [p[5], p[6], p[7]] + p[8..11];
  }

  lemma DefaultParameterOpens(p: seq<Part>)
    requires IsDefaultParameter(p)
    ensures Rewrite(p, 3, 0, 0) == p[3..11] + [Punct(")")]
  {
    RewriteCopiesPart(p, 3, 0, 0);
    RewriteCopiesPart(p, 4, 1, 0);
    DefaultParameterNames(p);
    assert p[3..11] == [p[3], p[4]] + p[5..11];
  }

  /** `void M(object o = default(object))` becomes `void M(object o = default)`. */
  lemma DefaultParameterReplaced(p: seq<Part>)
    requires IsDefaultParameter(p)
    ensures ReplaceDefault(SymbolKind.Method, p) == p[..11] + [Punct(")")]
  {
    DefaultParameterStart(p);
    DefaultParameterOpens(p);
    SliceJoin(p, 0, 3, 11);
    assert p[..3] + (p[3..11] + [Punct(")")]) == p[..11] + [Punct(")")];
  }
}

=== FILE: definition_display.dfy ===
/**
 The rendered definition of a symbol: the compiler's display parts with the
 symbol's attributes in front, its base list before any `where` clause,
 attributes on accessors and parameters, one parameter per line, and
 `default` literals, each applied only when the options ask for it.
 */
module DefinitionDisplay {
  import opened Wrappers
  import opened Parts
  import opened Symbols
  import opened Sequences
  import opened ParameterScan
  import opened ParameterAttributes
  import opened DefaultLiteral
  import opened AttributeDisplay

  /** Bits of the additional display options. */
  datatype AdditionalOption =
    | OmitContainingNamespace
    | IncludeAttributes
    | IncludeAttributeArguments
    | IncludeParameterAttributes
    | IncludeAccessorAttributes
    | OmitIEnumerable
    | PreferDefaultLiteral
    | FormatAttributes
    | FormatBaseList
    | FormatConstraints
    | FormatParameters

  /** Bits of the type declaration options that concern the base list. */
  datatype TypeDeclarationOption = IncludeAccessibility | IncludeModifiers | IncludeBaseType | IncludeInterfaces

  /** `HasOption`: every bit of `option` is set in `options`. */
  predicate HasOption(options: set<AdditionalOption>, option: set<AdditionalOption>)
  {
    options * option == option
  }

  lemma HasOptionIsSubset(options: set<AdditionalOption>, option: set<AdditionalOption>)
    ensures HasOption(options, option) <==> option <= options
    ensures HasOption(options, {}) && HasOption(options, options)
  {
    if option <= options {
      assert options * option == option;
    }
  }

  /** The factory's indentation part for multi-line base lists and
      constraints. */
  const DefaultIndentation: Part := IndentationPart("  ")

  datatype BaseTypeRef = BaseTypeRef(display: SymbolDisplay, isObject: bool)

  /** A direct interface: whether it is the non-generic `IEnumerable`,
      whether its original definition is `IEnumerable<T>`, and its ranks
      under the two comparers. */
  datatype InterfaceRef = InterfaceRef(
    display: SymbolDisplay,
    isNonGenericEnumerable: bool,
    isGenericEnumerable: bool,
    rankWithNamespace: int,
    rankWithoutNamespace: int)

  datatype Accessor = Accessor(methodKind: MethodKind, attributes: seq<AttributeData>)

  datatype Parameter = Parameter(attributes: seq<AttributeData>, hasExplicitDefaultValue: bool)

  /** What the display code reads from a symbol: the compiler's parts, its
      attributes, base type and interfaces, parameters and accessors. */
  datatype DefinitionSymbol = DefinitionSymbol(
    kind: SymbolKind,
    typeKind: TypeKind,
    parts: seq<Part>,
    attributes: seq<AttributeData>,
    baseType: Option<BaseTypeRef>,
    interfaces: seq<InterfaceRef>,
    parameters: seq<Parameter>,
    getMethod: Option<Accessor>,
    setMethod: Option<Accessor>,
    addMethod: Option<Accessor>,
    removeMethod: Option<Accessor>)

  /** The attributes that pass the optional display filter, in order. */
  function Shown(attributes: seq<AttributeData>, filter: Option<MetadataName -> bool>): (r: seq<AttributeData>)
    ensures |r| <= |attributes|
    ensures filter.None? ==> r == attributes
    ensures forall a :: a in r <==> a in attributes && (filter.None? || filter.value(a.attributeClass))
  {
    if |attributes| == 0 then []
    else
      var rest := Shown(attributes[1..], filter);
      assert forall a :: a in attributes <==> a == attributes[0] || a in attributes[1..];
      if filter.None? || filter.value(attributes[0].attributeClass) then [attributes[0]] + rest else rest
  }

  /** `GetAttributesParts`: the shown attributes, or nothing when none is
      shown. Unless told otherwise, they are formatted as the options say. */
  function AttributesParts(attributes: seq<AttributeData>, options: set<AdditionalOption>, filter: Option<MetadataName -> bool>,
                           includeTrailingNewLine: bool, formatAttributes: Option<bool>): (r: Result<seq<Part>>)
    ensures Shown(attributes, filter) == [] ==> r == Ok([])
    ensures var shown := Shown(attributes, filter);
      var omit := OmitContainingNamespace in options;
      var all := RenderAll(Sort(shown, ByRank(omit)), omit, IncludeAttributeArguments in options);
      var format := if formatAttributes.Some? then formatAttributes.value else FormatAttributes in options;
      shown != [] ==>
        && (r.Err? <==> all.Err?)
        && (all.Ok? ==> r == Ok([Punct("[")] + Join(all.value, Separator(format, includeTrailingNewLine))
                                + [Punct("]")] + (if includeTrailingNewLine then [LineBreakPart] else [])))
  {
    var shown := Shown(attributes, filter);
    if shown == [] then Ok([])
    else
      var omit := OmitContainingNamespace in options;
      var format := if formatAttributes.Some? then formatAttributes.value else FormatAttributes in options;
      AttributesOutcome([], shown, omit, IncludeAttributeArguments in options, format, includeTrailingNewLine);
      assert [] + [Punct("[")] == [Punct("[")];
      AddAttributes([], shown, omit, IncludeAttributeArguments in options, format, includeTrailingNewLine)
  }

  /* ---------------- base list ---------------- */

  /** `(options & BaseList) != 0`, where `BaseList` is the base-type bit
      together with the interfaces bit. */
  predicate IncludesBaseList(declaration: set<TypeDeclarationOption>)
    ensures IncludeBaseType in declaration || IncludeInterfaces in declaration ==> IncludesBaseList(declaration)
  {
    var both := declaration * {IncludeBaseType, IncludeInterfaces};
    assert IncludeBaseType in declaration ==> IncludeBaseType in both;
    assert IncludeInterfaces in declaration ==> IncludeInterfaces in both;
    both != {}
  }

  /** The base type the base list shows: only for classes and interfaces,
      and never `System.Object`. */
  function ListedBaseType(s: DefinitionSymbol, declaration: set<TypeDeclarationOption>): (r: Option<SymbolDisplay>)
    ensures r.Some? <==>
      s.kind.NamedType? && IncludeBaseType in declaration && (s.typeKind == TypeKind.Class || s.typeKind == TypeKind.Interface)
      && s.baseType.Some? && !s.baseType.value.isObject
  {
    if s.kind.NamedType? && IncludesBaseList(declaration) && IncludeBaseType in declaration
       && (s.typeKind == TypeKind.Class || s.typeKind == TypeKind.Interface)
       && s.baseType.Some? && !s.baseType.value.isObject
    then Some(s.baseType.value.display)
    else None
  }

  predicate HasGenericEnumerable(interfaces: seq<InterfaceRef>)
  {
    exists i :: 0 <= i < |interfaces| && interfaces[i].isGenericEnumerable
  }

  function WithoutNonGenericEnumerable(interfaces: seq<InterfaceRef>): (r: seq<InterfaceRef>)
    ensures forall x :: x in r <==> x in interfaces && !x.isNonGenericEnumerable
  {
    if |interfaces| == 0 then []
    else
      var rest := WithoutNonGenericEnumerable(interfaces[1..]);
      assert forall x :: x in interfaces <==> x == interfaces[0] || x in interfaces[1..];
      if interfaces[0].isNonGenericEnumerable then rest else [interfaces[0]] + rest
  }

  /** The interfaces the base list shows: with `OmitIEnumerable`, the
      non-generic `IEnumerable` is dropped when `IEnumerable<T>` is there
      too. */
  function ListedInterfaces(s: DefinitionSymbol, declaration: set<TypeDeclarationOption>, options: set<AdditionalOption>): (r: seq<InterfaceRef>)
    ensures IncludeInterfaces !in declaration || !s.kind.NamedType? ==> r == []
    ensures forall x :: x in r ==> x in s.interfaces
    ensures s.kind.NamedType? && IncludeInterfaces in declaration ==> forall x :: x in s.interfaces && x !in r ==>
      x.isNonGenericEnumerable && OmitIEnumerable in options && HasGenericEnumerable(s.interfaces)
  {
    if !(s.kind.NamedType? && IncludesBaseList(declaration) && IncludeInterfaces in declaration) then []
    else if OmitIEnumerable in options && HasGenericEnumerable(s.interfaces) then WithoutNonGenericEnumerable(s.interfaces)
    else s.interfaces
  }

  /** The base list as written: the interfaces are read even when they were
      not asked for, and then they are the default (null) array, which
      fails as soon as a base type is listed. */
  function BaseListAsWritten(s: DefinitionSymbol, declaration: set<TypeDeclarationOption>, options: set<AdditionalOption>)
    : (r: Result<(Option<SymbolDisplay>, seq<InterfaceRef>)>)
    ensures r.Err? <==> ListedBaseType(s, declaration).Some? && IncludeInterfaces !in declaration
  {
    var baseType := ListedBaseType(s, declaration);
    if baseType.Some? && IncludeInterfaces !in declaration then Err(NullReferenceException)
    else Ok((baseType, ListedInterfaces(s, declaration, options)))
  }

  function ByInterfaceRank(omit: bool): (le: (InterfaceRef, InterfaceRef) -> bool)
    ensures TotalPreorder(le)
  {
    (x: InterfaceRef, y: InterfaceRef) =>
      if omit then x.rankWithoutNamespace <= y.rankWithoutNamespace else x.rankWithNamespace <= y.rankWithNamespace
  }

  /** The separator between entries of the base list. */
  function BaseListSeparator(options: set<AdditionalOption>): seq<Part>
  {
    [Punct(",")] + (if FormatBaseList in options then [LineBreakPart, DefaultIndentation] else [SpacePart])
  }

  function InterfaceDisplays(interfaces: seq<InterfaceRef>, omit: bool): (r: seq<seq<Part>>)
    ensures |r| == |interfaces|
  {
    seq(|interfaces|, i requires 0 <= i < |interfaces| => DisplayParts(interfaces[i].display, omit))
  }

  /** `: B, I1, I2` as the loop writes it: the base type, a separator when
      interfaces follow, and the interfaces with a separator between each
      two. */
  function BaseListFrom(first: Option<seq<Part>>, shown: seq<seq<Part>>, sep: seq<Part>): seq<Part>
  {
    [Punct(":"), SpacePart]
    + (if first.Some? then first.value + (if |shown| > 0 then sep else []) else [])
    + Join(shown, sep)
  }

  /** The base list of a type: its base type, then its interfaces in
      comparer order. */
  function BaseListParts(baseType: Option<SymbolDisplay>, interfaces: seq<InterfaceRef>, options: set<AdditionalOption>): seq<Part>
  {
    var omit := OmitContainingNamespace in options;
    BaseListFrom(if baseType.Some? then Some(DisplayParts(baseType.value, omit)) else None,
                 InterfaceDisplays(Sort(interfaces, ByInterfaceRank(omit)), omit),
                 BaseListSeparator(options))
  }

  /** The loop writes one separator between each two entries of the base
      list. */
  lemma BaseListIsJoin(first: Option<seq<Part>>, shown: seq<seq<Part>>, sep: seq<Part>)
    ensures BaseListFrom(first, shown, sep) == [Punct(":"), SpacePart] + Join((if first.Some? then [first.value] else []) + shown, sep)
  {
    var head := [Punct(":"), SpacePart];
    if first.Some? {
      var f := first.value;
      var gap: seq<Part> := if |shown| > 0 then sep else [];
      assert BaseListFrom(first, shown, sep) == head + (f + gap + Join(shown, sep));
      JoinAfterFirst(f, shown, sep);
    } else {
      assert [] + shown == shown;
      assert BaseListFrom(first, shown, sep) == head + Join(shown, sep);
    }
  }

  /** A type's base list is its base type followed by its interfaces sorted
      by the comparer, with the separator between each two. */
  lemma BaseListOfType(baseType: Option<SymbolDisplay>, interfaces: seq<InterfaceRef>, options: set<AdditionalOption>)
    ensures var omit := OmitContainingNamespace in options;
      var entries := (if baseType.Some? then [DisplayParts(baseType.value, omit)] else [])
                     + InterfaceDisplays(Sort(interfaces, ByInterfaceRank(omit)), omit);
      BaseListParts(baseType, interfaces, options) == [Punct(":"), SpacePart] + Join(entries, BaseListSeparator(options))
      && |entries| == |interfaces| + (if baseType.Some? then 1 else 0)
  {
    var omit := OmitContainingNamespace in options;
    BaseListIsJoin(if baseType.Some? then Some(DisplayParts(baseType.value, omit)) else None,
                   InterfaceDisplays(Sort(interfaces, ByInterfaceRank(omit)), omit), BaseListSeparator(options));
  }

  /** An entry written before a joined list, with a separator when the list
      is not empty, is one more entry of that list. */
  lemma JoinAfterFirst<T>(first: seq<T>, rest: seq<seq<T>>, sep: seq<T>)
    ensures first + (if |rest| > 0 then sep else []) + Join(rest, sep) == Join([first] + rest, sep)
  {
    if |rest| > 0 {
      JoinAppend([first], rest, sep);
    } else {
      assert [first] + rest == [first];
    }
  }

  /* ---------------- where clauses ---------------- */

  predicate IsWhere(p: Part) { IsKeyword(p, "where") }

  /** The index of the first `where`, or -1. */
  function WhereIndex(parts: seq<Part>): (r: int)
    ensures r == -1 || (0 <= r < |parts| && IsWhere(parts[r]))
  {
    if |parts| == 0 then -1
    else if IsWhere(parts[0]) then 0
    else
      var r := WhereIndex(parts[1..]);
      if r == -1 then -1 else r + 1
  }

  /** No `where` comes before the one found, and none is missed. */
  lemma {:induction false} WhereIndexIsFirst(parts: seq<Part>)
    ensures WhereIndex(parts) == -1 <==> forall i :: 0 <= i < |parts| ==> !IsWhere(parts[i])
    ensures WhereIndex(parts) != -1 ==> forall i :: 0 <= i < WhereIndex(parts) ==> !IsWhere(parts[i])
  {
    if |parts| > 0 && !IsWhere(parts[0]) {
      WhereIndexIsFirst(parts[1..]);
      assert forall i :: 1 <= i < |parts| ==> parts[i] == parts[1..][i - 1];
    }
  }

  function ConstraintCount(parts: seq<Part>): (n: nat)
    ensures n == 0 <==> WhereIndex(parts) == -1
  {
    if |parts| == 0 then 0
    else (if IsWhere(parts[0]) then 1 else 0) + ConstraintCount(parts[1..])
  }

  /** The constraint clauses as copied, each `where` on a line of its own
      when they are formatted and more than one entry or clause is shown. */
  function WhereTail(rest: seq<Part>, breakLines: bool): (r: seq<Part>)
    ensures Visible(r) == Visible(rest)
    ensures !breakLines ==> r == rest
  {
    if |rest| == 0 then []
    else
      var tail := WhereTail(rest[1..], breakLines);
      var head := if IsWhere(rest[0]) && breakLines then [LineBreakPart, DefaultIndentation, rest[0]] else [rest[0]];
      assert rest == [rest[0]] + rest[1..];
      VisibleAppend(head, tail);
      VisibleAppend([rest[0]], rest[1..]);
      assert Visible(head) == Visible([rest[0]]) by {
        if IsWhere(rest[0]) && breakLines {
          assert head[1..][1..] == [rest[0]];
        }
      }
      head + tail
  }

  /** Constraints go on lines of their own when they are formatted and more
      than one base-list entry or constraint is shown. */
  predicate BreakConstraints(parts: seq<Part>, baseListCount: nat, options: set<AdditionalOption>)
  {
    FormatConstraints in options && (baseListCount > 1 || ConstraintCount(parts) > 1)
  }

  /** The space between the base list and a `where` on the same line. */
  function ConstraintGap(parts: seq<Part>, baseListCount: nat, options: set<AdditionalOption>): (r: seq<Part>)
    ensures Visible(r) == []
  {
    if FormatConstraints !in options || (baseListCount == 1 && ConstraintCount(parts) == 1) then [SpacePart] else []
  }

  /** The definition up to the accessor and parameter steps: the attributes,
      the parts before `where`, the base list `list` of `baseListCount`
      entries, and the constraints. */
  function Head(parts: seq<Part>, attributeParts: seq<Part>, list: seq<Part>, baseListCount: nat,
                options: set<AdditionalOption>): seq<Part>
  {
    var w := WhereIndex(parts);
    if w == -1 then attributeParts + (if baseListCount > 0 then parts + [SpacePart] + list else parts)
    else
      attributeParts + parts[..w]
      + (if baseListCount > 0 then list + ConstraintGap(parts, baseListCount, options) else [])
      + WhereTail(parts[w..], BreakConstraints(parts, baseListCount, options))
  }

  /** `h` holds the definition's parts before `w`, then `list`, then the
      rest of the definition with only white space changed. */
  predicate BaseListBefore(h: seq<Part>, parts: seq<Part>, list: seq<Part>, w: nat)
  {
    && w <= |parts| && w + |list| <= |h|
    && h[..w] == parts[..w] && h[w..w + |list|] == list
    && Visible(h[w + |list|..]) == Visible(parts[w..])
  }

  /** The base list goes right before the first `where`, or after the
      definition and a space when there is none; the visible parts of the
      definition are kept around it. */
  lemma BaseListPlacement(parts: seq<Part>, list: seq<Part>, baseListCount: nat, options: set<AdditionalOption>)
    requires baseListCount > 0
    ensures var w := WhereIndex(parts);
      var h := Head(parts, [], list, baseListCount, options);
      (w == -1 ==> h == parts + [SpacePart] + list)
      && (w != -1 ==> BaseListBefore(h, parts, list, w))
  {
    var w := WhereIndex(parts);
    if w == -1 {
      assert [] + (parts + [SpacePart] + list) == parts + [SpacePart] + list;
    } else {
      var gap := ConstraintGap(parts, baseListCount, options);
      var tail := WhereTail(parts[w..], BreakConstraints(parts, baseListCount, options));
      HeadAtWhere(parts, list, baseListCount, options, w);
      PiecesPlaced(parts, list, gap, tail, w);
    }
  }

  lemma HeadAtWhere(parts: seq<Part>, list: seq<Part>, baseListCount: nat, options: set<AdditionalOption>, w: int)
    requires baseListCount > 0 && w == WhereIndex(parts) && w != -1
    ensures Head(parts, [], list, baseListCount, options)
            == parts[..w] + (list + ConstraintGap(parts, baseListCount, options))
               + WhereTail(parts[w..], BreakConstraints(parts, baseListCount, options))
  {
    assert [] + parts[..w] == parts[..w];
  }

  lemma PiecesPlaced(parts: seq<Part>, list: seq<Part>, gap: seq<Part>, tail: seq<Part>, w: nat)
    requires w <= |parts| && Visible(gap) == [] && Visible(tail) == Visible(parts[w..])
    ensures BaseListBefore(parts[..w] + (list + gap) + tail, parts, list, w)
  {
    var front := parts[..w];
    var h := front + (list + gap) + tail;
    PiecesOf(front, list, gap, tail);
    assert |front| == w;
    assert Visible(h[w + |list|..]) == Visible(parts[w..]) by {
      assert h[w + |list|..] == gap + tail;
      VisibleAppend(gap, tail);
    }
  }

  lemma PiecesOf<T>(front: seq<T>, list: seq<T>, gap: seq<T>, tail: seq<T>)
    ensures var h := front + (list + gap) + tail;
      h[..|front|] == front && h[|front|..|front| + |list|] == list && h[|front| + |list|..] == gap + tail
  {
  }

  /** Without a base list, attributes or formatted constraints, the head is
      the compiler's parts. */
  lemma HeadWithoutBaseList(parts: seq<Part>, options: set<AdditionalOption>)
    requires FormatConstraints !in options
    ensures forall list :: Head(parts, [], list, 0, options) == parts
  {
    var w := WhereIndex(parts);
    if w != -1 {
      assert parts[..w] + parts[w..] == parts;
    }
  }

  /* ---------------- accessor attributes ---------------- */

  /** The keyword an accessor's attributes go before. */
  function AccessorKeyword(k: MethodKind): (r: Result<string>)
    ensures r.Ok? <==> k == MethodKind.EventAdd || k == MethodKind.EventRemove || k == MethodKind.PropertyGet || k == MethodKind.PropertySet
    ensures k == MethodKind.EventAdd ==> r == Ok("add")
    ensures k == MethodKind.EventRemove ==> r == Ok("remove")
    ensures k == MethodKind.PropertyGet ==> r == Ok("get")
    ensures k == MethodKind.PropertySet ==> r == Ok("set")
    ensures r.Err? ==> r.error == InvalidOperationException("")
  {
    match k
    case EventAdd => Ok("add")
    case EventRemove => Ok("remove")
    case PropertyGet => Ok("get")
    case PropertySet => Ok("set")
    case _ => Err(InvalidOperationException(""))
  }

  function FirstKeyword(parts: seq<Part>, text: string): (r: int)
    ensures r == -1 || (0 <= r < |parts| && IsKeyword(parts[r], text))
  {
    if |parts| == 0 then -1
    else if IsKeyword(parts[0], text) then 0
    else
      var r := FirstKeyword(parts[1..], text);
      if r == -1 then -1 else r + 1
  }

  /** No such keyword comes before the one found, and none is missed. */
  lemma {:induction false} FirstKeywordIsFirst(parts: seq<Part>, text: string)
    ensures FirstKeyword(parts, text) == -1 <==> forall i :: 0 <= i < |parts| ==> !IsKeyword(parts[i], text)
    ensures FirstKeyword(parts, text) != -1 ==> forall i :: 0 <= i < FirstKeyword(parts, text) ==> !IsKeyword(parts[i], text)
  {
    if |parts| > 0 && !IsKeyword(parts[0], text) {
      FirstKeywordIsFirst(parts[1..], text);
      assert forall i :: 1 <= i < |parts| ==> parts[i] == parts[1..][i - 1];
    }
  }

  /** Attribute parts and a space inserted right before the first keyword
      of an accessor kind; nothing is inserted when the keyword is missing,
      and an accessor of another kind fails. */
  function InsertBeforeKeyword(builder: seq<Part>, attributeParts: seq<Part>, kind: MethodKind): (r: Result<seq<Part>>)
    ensures attributeParts == [] ==> r == Ok(builder)
    ensures attributeParts != [] ==> (r.Err? <==> AccessorKeyword(kind).Err?)
  {
    if attributeParts == [] then Ok(builder)
    else
      var keyword :- AccessorKeyword(kind);
      var index := FirstKeyword(builder, keyword);
      if index == -1 then Ok(builder)
      else Ok(builder[..index] + attributeParts + [SpacePart] + builder[index..])
  }

  /** `v` is `builder` with `attributeParts` and a space inserted before
      the keyword at `index`: the parts before and after it stay in place. */
  predicate InsertedBefore(v: seq<Part>, builder: seq<Part>, attributeParts: seq<Part>, index: nat, keyword: string)
  {
    var n := |attributeParts|;
    && index < |builder|
    && |v| == |builder| + n + 1
    && v[..index] == builder[..index] && v[index..index + n] == attributeParts
    && v[index + n] == SpacePart && v[index + n + 1..] == builder[index..]
    && IsKeyword(v[index + n + 1], keyword)
  }

  /** Where the insertion succeeds, the attributes and a space stand right
      before the first keyword; without the keyword nothing changes. */
  lemma InsertBeforeKeywordPlaces(builder: seq<Part>, attributeParts: seq<Part>, kind: MethodKind)
    requires attributeParts != [] && AccessorKeyword(kind).Ok?
    ensures var r := InsertBeforeKeyword(builder, attributeParts, kind);
      var keyword := AccessorKeyword(kind).value;
      var index := FirstKeyword(builder, keyword);
      r.Ok?
      && (index == -1 ==> r.value == builder)
      && (index != -1 ==> InsertedBefore(r.value, builder, attributeParts, index, keyword))
  {
    var keyword := AccessorKeyword(kind).value;
    var index := FirstKeyword(builder, keyword);
    if index != -1 {
      InsertionShape(builder, attributeParts, index, keyword);
    }
  }

  lemma InsertionShape(builder: seq<Part>, attributeParts: seq<Part>, index: nat, keyword: string)
    requires index < |builder| && IsKeyword(builder[index], keyword)
    ensures InsertedBefore(builder[..index] + attributeParts + [SpacePart] + builder[index..], builder, attributeParts, index, keyword)
  {
    var v := builder[..index] + attributeParts + [SpacePart] + builder[index..];
    InsertedAt(builder, index, attributeParts, SpacePart);
    assert v[index + |attributeParts| + 1] == v[index + |attributeParts| + 1..][0];
  }

  /** Inserting `x` and `y` at `index` leaves the elements before and after
      in place. */
  lemma InsertedAt<T>(s: seq<T>, index: nat, x: seq<T>, y: T)
    requires index <= |s|
    ensures var v := s[..index] + x + [y] + s[index..];
      |v| == |s| + |x| + 1 && v[..index] == s[..index] && v[index..index + |x|] == x
      && v[index + |x|] == y && v[index + |x| + 1..] == s[index..]
  {
    var a := s[..index];
    var v := a + x + [y] + s[index..];
    assert v[..index] == a by {
      assert forall i :: 0 <= i < index ==> v[..index][i] == a[i];
    }
    assert v[index..index + |x|] == x by {
      assert forall i :: 0 <= i < |x| ==> v[index..index + |x|][i] == x[i];
    }
    assert v[index + |x| + 1..] == s[index..] by {
      assert forall i :: 0 <= i < |s| - index ==> v[index + |x| + 1..][i] == s[index..][i];
    }
  }

  /** `AddAccessorAttributes`: a property accessor's shown attributes,
      unformatted, go right before its keyword. */
  function AddAccessorAttributes(builder: seq<Part>, accessor: Option<Accessor>, options: set<AdditionalOption>,
                                 filter: Option<MetadataName -> bool>): (r: Result<seq<Part>>)
    ensures accessor.None? ==> r == Ok(builder)
    ensures accessor.Some? && Shown(accessor.value.attributes, filter) == [] ==> r == Ok(builder)
    ensures accessor.Some? ==>
      var ap := AttributesParts(accessor.value.attributes, options, filter, false, Some(false));
      r == if ap.Err? then Err(ap.error) else InsertBeforeKeyword(builder, ap.value, accessor.value.methodKind)
  {
    if accessor.None? then Ok(builder)
    else
      var attributeParts :- AttributesParts(accessor.value.attributes, options, filter, false, Some(false));
      InsertBeforeKeyword(builder, attributeParts, accessor.value.methodKind)
  }

  /** Whether an event accessor has attributes to show. */
  function AnyShown(accessor: Option<Accessor>, filter: Option<MetadataName -> bool>): bool
  {
    accessor.Some? && Shown(accessor.value.attributes, filter) != []
  }

  /** `HasAttributes` as written: it assigns the add-accessor flag of the
      enclosing method as a side effect, and with a filter returns false.
      The result is the returned value and the flag afterwards. */
  function HasAttributesAsWritten(accessor: Option<Accessor>, filter: Option<MetadataName -> bool>, addFlag: bool): (bool, bool)
  {
    if accessor.None? then (false, addFlag)
    else if filter.Some? then (false, Shown(accessor.value.attributes, filter) != [])
    else (accessor.value.attributes != [], accessor.value.attributes != [])
  }

  /** The two flags `AddEventAccessorAttributes` computes as written. The
      second call overwrites the add flag with the remove accessor's. */
  function EventFlagsAsWritten(add: Option<Accessor>, remove: Option<Accessor>, filter: Option<MetadataName -> bool>): (bool, bool)
  {
    var (addReturned, _) := HasAttributesAsWritten(add, filter, false);
    var (removeReturned, addFlag) := HasAttributesAsWritten(remove, filter, addReturned);
    (addFlag, removeReturned)
  }

  /** The flags as evidently intended: each accessor's own shown
      attributes. */
  function EventFlags(add: Option<Accessor>, remove: Option<Accessor>, filter: Option<MetadataName -> bool>): (r: (bool, bool))
    ensures r.0 <==> add.Some? && exists a :: a in add.value.attributes && (filter.None? || filter.value(a.attributeClass))
    ensures r.1 <==> remove.Some? && exists a :: a in remove.value.attributes && (filter.None? || filter.value(a.attributeClass))
    ensures EventFlagsAsWritten(add, remove, filter).1 == (filter.None? && r.1)
    ensures EventFlagsAsWritten(add, remove, filter).0 == if remove.Some? then r.1 else filter.None? && r.0
  {
    AnyShownMeans(add, filter);
    AnyShownMeans(remove, filter);
    (AnyShown(add, filter), AnyShown(remove, filter))
  }

  /** An accessor shows attributes exactly when one of them passes the
      filter; without a filter, exactly when it has any. */
  lemma AnyShownMeans(accessor: Option<Accessor>, filter: Option<MetadataName -> bool>)
    ensures AnyShown(accessor, filter)
        <==> accessor.Some? && exists a :: a in accessor.value.attributes && (filter.None? || filter.value(a.attributeClass))
    ensures filter.None? ==> (AnyShown(accessor, filter) <==> accessor.Some? && accessor.value.attributes != [])
  {
    if accessor.Some? {
      var shown := Shown(accessor.value.attributes, filter);
      if shown != [] {
        assert shown[0] in shown;
      }
    }
  }

  /** The accessor list ` { [A] add; [B] remove; }` that the event display
      gets when a flag is set. */
  function EventAccessorParts(builder: seq<Part>, add: Option<Accessor>, remove: Option<Accessor>, options: set<AdditionalOption>,
                              filter: Option<MetadataName -> bool>, flags: (bool, bool)): (r: Result<seq<Part>>)
    ensures !flags.0 && !flags.1 ==> r == Ok(builder)
    ensures flags.0 || flags.1 ==>
      var addBlock := AccessorBlock(add, options, filter, flags.0);
      var removeBlock := AccessorBlock(remove, options, filter, flags.1);
      && (r.Err? <==> addBlock.Err? || removeBlock.Err?)
      && (r.Ok? ==> r.value == builder + [SpacePart, Punct("{"), SpacePart]
                               + addBlock.value + [Kw("add"), Punct(";"), SpacePart]
                               + removeBlock.value + [Kw("remove"), Punct(";"), SpacePart, Punct("}")])
  {
    if !flags.0 && !flags.1 then Ok(builder)
    else
      var addParts :- AccessorBlock(add, options, filter, flags.0);
      var removeParts :- AccessorBlock(remove, options, filter, flags.1);
      Ok(builder + [SpacePart, Punct("{"), SpacePart]
         + addParts + [Kw("add"), Punct(";"), SpacePart]
         + removeParts + [Kw("remove"), Punct(";"), SpacePart, Punct("}")])
  }

  /** An accessor's attributes and a space when its flag is set; reading the
      attributes of a missing accessor fails. */
  function AccessorBlock(accessor: Option<Accessor>, options: set<AdditionalOption>, filter: Option<MetadataName -> bool>, flag: bool)
    : (r: Result<seq<Part>>)
    ensures !flag ==> r == Ok([])
    ensures flag && accessor.None? ==> r == Err(NullReferenceException)
    ensures flag && accessor.Some? ==>
      var ap := AttributesParts(accessor.value.attributes, options, filter, false, Some(false));
      && (r.Err? <==> ap.Err?)
      && (ap.Ok? ==> r.value == ap.value + [SpacePart])
  {
    if !flag then Ok([])
    else if accessor.None? then Err(NullReferenceException)
    else
      var ap :- AttributesParts(accessor.value.attributes, options, filter, false, Some(false));
      Ok(ap + [SpacePart])
  }

  /** The corrected flags report exactly the accessors with shown
      attributes, so the accessor list is written iff one of them has
      any. */
  lemma EventAccessorsShownIffAttributes(builder: seq<Part>, add: Option<Accessor>, remove: Option<Accessor>,
                                         options: set<AdditionalOption>, filter: Option<MetadataName -> bool>)
    ensures var r := EventAccessorParts(builder, add, remove, options, filter, EventFlags(add, remove, filter));
      (r == Ok(builder) <== !AnyShown(add, filter) && !AnyShown(remove, filter))
      && (r.Ok? && (AnyShown(add, filter) || AnyShown(remove, filter)) ==> |r.value| > |builder|)
  {
  }

  /** `public event E` with `[A]` on its add accessor and nothing on its
      remove accessor, no filter: the flags as written are both false and
      the attribute is lost. */
  lemma AddAccessorAttributeLost(a: AttributeData)
    ensures var add := Some(Accessor(MethodKind.EventAdd, [a]));
      var remove := Some(Accessor(MethodKind.EventRemove, []));
      EventFlagsAsWritten(add, remove, None) == (false, false)
      && EventAccessorParts([], add, remove, {}, None, EventFlagsAsWritten(add, remove, None)) == Ok([])
  {
  }

  /** The same event with the corrected flags gets ` { [A] add; remove; }`. */
  lemma AddAccessorAttributeShown(a: AttributeData)
    requires a.classDisplay.OtherSymbolDisplay? && a.classDisplay.withNamespace == [Part(ClassName, "A")]
    ensures var add := Some(Accessor(MethodKind.EventAdd, [a]));
      var remove := Some(Accessor(MethodKind.EventRemove, []));
      EventFlags(add, remove, None) == (true, false)
      && EventAccessorParts([], add, remove, {}, None, EventFlags(add, remove, None))
         == Ok([SpacePart, Punct("{"), SpacePart, Punct("["), Part(ClassName, "A"), Punct("]"), SpacePart,
                Kw("add"), Punct(";"), SpacePart, Kw("remove"), Punct(";"), SpacePart, Punct("}")])
  {
    var add := Some(Accessor(MethodKind.EventAdd, [a]));
    var remove := Some(Accessor(MethodKind.EventRemove, []));
    var ap := [Punct("["), Part(ClassName, "A"), Punct("]")];
    SingleAttributeParts(a);
    assert AccessorBlock(add, {}, None, true) == Ok(ap + [SpacePart]);
    assert AccessorBlock(remove, {}, None, false) == Ok([]);
    assert EventAccessorParts([], add, remove, {}, None, (true, false))
      == Ok([] + [SpacePart, Punct("{"), SpacePart] + (ap + [SpacePart]) + [Kw("add"), Punct(";"), SpacePart]
            + [] + [Kw("remove"), Punct(";"), SpacePart, Punct("}")]);
    assert EventFlags(add, remove, None) == (true, false);
    assert [] + [SpacePart, Punct("{"), SpacePart] + (ap + [SpacePart]) + [Kw("add"), Punct(";"), SpacePart]
           + [] + [Kw("remove"), Punct(";"), SpacePart, Punct("}")]
        == [SpacePart, Punct("{"), SpacePart, Punct("["), Part(ClassName, "A"), Punct("]"), SpacePart,
            Kw("add"), Punct(";"), SpacePart, Kw("remove"), Punct(";"), SpacePart, Punct("}")];
  }

  /** An attribute of class `A` alone, unformatted, is shown as `[A]`. */
  lemma SingleAttributeParts(a: AttributeData)
    requires a.classDisplay.OtherSymbolDisplay? && a.classDisplay.withNamespace == [Part(ClassName, "A")]
    ensures AttributesParts([a], {}, None, false, Some(false)) == Ok([Punct("["), Part(ClassName, "A"), Punct("]")])
  {
    var name := [Part(ClassName, "A")];
    assert Shown([a], None) == [a];
    assert Sort([a], ByRank(false)) == [a];
    assert ClassNameParts(a.classDisplay, false) + [] == name;
    assert AttributeParts(a, false, false) == Ok(name);
    assert [a][1..] == [];
    assert [name] + [] == [name];
    assert RenderAll([a], false, false) == Ok([name]);
    AttributesShape([], [a], false, false, false, false);
    assert Join([name], Separator(false, false)) == name;
    assert [] + [Punct("[")] + name + [Punct("]")] + [] == [Punct("["), Part(ClassName, "A"), Punct("]")];
  }

  /* ---------------- the whole display ---------------- */

  /** The condition under which `GetDisplayParts` returns the compiler's
      parts untouched. */
  predicate Untouched(s: DefinitionSymbol, shownAttributes: seq<AttributeData>, baseListCount: nat, options: set<AdditionalOption>)
  {
    && shownAttributes == []
    && baseListCount == 0
    && ConstraintCount(s.parts) == 0
    && (FormatParameters !in options || |s.parameters| <= 1)
    && (PreferDefaultLiteral !in options || forall i :: 0 <= i < |s.parameters| ==> !s.parameters[i].hasExplicitDefaultValue)
    && (IncludeAccessorAttributes !in options || !(s.kind.Property? || s.kind.Event?))
    && (IncludeParameterAttributes !in options || |s.parameters| == 0)
  }

  /** The rendering of each parameter's attributes, one entry per
      parameter; the insertion looks at an entry only when its scan reaches
      that parameter. */
  function ParameterBlocks(s: DefinitionSymbol, options: set<AdditionalOption>, filter: Option<MetadataName -> bool>)
    : (r: seq<Result<seq<Part>>>)
    ensures |r| == |s.parameters|
  {
    var ps := s.parameters;
    seq(|ps|, i requires 0 <= i < |ps| => AttributesParts(ps[i].attributes, options, filter, false, None))
  }

  /** `GetDisplayParts`, with the base list as evidently intended (no
      interfaces when they are not asked for) and the corrected parameter
      scans. */
  function GetDisplayParts(s: DefinitionSymbol, declaration: set<TypeDeclarationOption>, options: set<AdditionalOption>,
                           filter: Option<MetadataName -> bool>): (r: Result<seq<Part>>)
    ensures IncludeAttributes !in options && IncludeAccessorAttributes !in options && IncludeParameterAttributes !in options
            ==> r.Ok?
  {
    NoAttributesNoParts([], OmitContainingNamespace in options, IncludeAttributeArguments in options,
                        FormatAttributes in options, true);
    var shownAttributes := if IncludeAttributes in options then Shown(s.attributes, filter) else [];
    var baseType := ListedBaseType(s, declaration);
    var interfaces := ListedInterfaces(s, declaration, options);
    var baseListCount := |interfaces| + (if baseType.Some? then 1 else 0);
    if Untouched(s, shownAttributes, baseListCount, options) then Ok(s.parts)
    else
      var attributeParts :- AddAttributes([], shownAttributes, OmitContainingNamespace in options,
                                          IncludeAttributeArguments in options, FormatAttributes in options, true);
      var list := if baseListCount > 0 then BaseListParts(baseType, interfaces, options) else [];
      var b := Head(s.parts, attributeParts, list, baseListCount, options);
      var b :-
        if IncludeAccessorAttributes !in options then Ok(b)
        else if s.kind.Property? then
          var g :- AddAccessorAttributes(b, s.getMethod, options, filter);
          AddAccessorAttributes(g, s.setMethod, options, filter)
        else if s.kind.Event? then
          EventAccessorParts(b, s.addMethod, s.removeMethod, options, filter, EventFlags(s.addMethod, s.removeMethod, filter))
        else Ok(b);
      var b :-
        if IncludeParameterAttributes in options && |s.parameters| > 0 then
          AddParameterAttributes(s.kind, b, ParameterBlocks(s, options, filter))
        else Ok(b);
      var b := if FormatParameters in options && |s.parameters| > 1 then ParameterScan.FormatParameters(s.kind, b, "  ") else b;
      if PreferDefaultLiteral in options && exists i :: 0 <= i < |s.parameters| && s.parameters[i].hasExplicitDefaultValue
      then Ok(ReplaceDefault(s.kind, b))
      else Ok(b)
  }

  /** The compiler's parts come back untouched exactly on the listed
      condition; and a symbol with nothing to add keeps its visible parts
      even when a step runs. */
  lemma UntouchedPath(s: DefinitionSymbol, declaration: set<TypeDeclarationOption>, options: set<AdditionalOption>,
                      filter: Option<MetadataName -> bool>)
    requires Untouched(s, if IncludeAttributes in options then Shown(s.attributes, filter) else [],
                       |ListedInterfaces(s, declaration, options)| + (if ListedBaseType(s, declaration).Some? then 1 else 0), options)
    ensures GetDisplayParts(s, declaration, options, filter) == Ok(s.parts)
  {
  }

  /** A symbol whose only pending step is the default-literal rewrite gets
      exactly that rewrite. */
  lemma {:induction false} OnlyDefaultLiteral(s: DefinitionSymbol, declaration: set<TypeDeclarationOption>, options: set<AdditionalOption>,
                           filter: Option<MetadataName -> bool>)
    requires IncludeAttributes !in options && declaration == {} && FormatConstraints !in options
    requires ConstraintCount(s.parts) == 0
    requires IncludeAccessorAttributes !in options && IncludeParameterAttributes !in options && FormatParameters !in options
    requires PreferDefaultLiteral in options && exists i :: 0 <= i < |s.parameters| && s.parameters[i].hasExplicitDefaultValue
    ensures GetDisplayParts(s, declaration, options, filter) == Ok(ReplaceDefault(s.kind, s.parts))
  {
    PlainDisplay(s, declaration, options, filter);
    UntouchedHead(s.parts, options);
  }

  /** Without attributes or a base list the head changes only white space:
      the line breaks before formatted constraints. */
  lemma {:induction false} HeadKeepsVisibleParts(parts: seq<Part>, options: set<AdditionalOption>)
    ensures Visible(Head(parts, [], [], 0, options)) == Visible(parts)
  {
    var w := WhereIndex(parts);
    if w != -1 {
      HeadAtWhereKeepsVisibleParts(parts, options, w);
    } else {
      UntouchedHead(parts, options);
    }
  }

  /** From the first `where` on, the head changes only white space. */
  lemma HeadAtWhereKeepsVisibleParts(parts: seq<Part>, options: set<AdditionalOption>, w: int)
    requires w == WhereIndex(parts) && w != -1
    ensures Visible(Head(parts, [], [], 0, options)) == Visible(parts)
  {
    var tail := WhereTail(parts[w..], BreakConstraints(parts, 0, options));
    HeadAtWhereWithoutList(parts, options, w);
    VisibleSplice(parts, w, tail);
  }

  /** Replacing the parts from `w` on by parts with the same visible
      parts keeps the visible parts of the whole. */
  lemma VisibleSplice(parts: seq<Part>, w: nat, tail: seq<Part>)
    requires w <= |parts| && Visible(tail) == Visible(parts[w..])
    ensures Visible(parts[..w] + tail) == Visible(parts)
  {
    SameVisibleTail(parts[..w], parts[w..], tail);
    assert parts[..w] + parts[w..] == parts;
  }

  lemma SameVisibleTail(a: seq<Part>, rest: seq<Part>, tail: seq<Part>)
    requires Visible(tail) == Visible(rest)
    ensures Visible(a + tail) == Visible(a + rest)
  {
    VisibleAppend(a, tail);
    VisibleAppend(a, rest);
  }

  lemma HeadAtWhereWithoutList(parts: seq<Part>, options: set<AdditionalOption>, w: int)
    requires w == WhereIndex(parts) && w != -1
    ensures Head(parts, [], [], 0, options) == parts[..w] + WhereTail(parts[w..], BreakConstraints(parts, 0, options))
  {
    assert [] + parts[..w] + [] == parts[..w];
  }

  /** Without a `where` there are no constraints to format. */
  lemma UntouchedHead(parts: seq<Part>, options: set<AdditionalOption>)
    requires ConstraintCount(parts) == 0
    ensures Head(parts, [], [], 0, options) == parts
  {
    assert [] + parts == parts;
  }

  /** With nothing to insert, the display is the head, with the parameter
      list formatted and the default literal rewritten when asked for. */
  lemma {:induction false} PlainDisplay(s: DefinitionSymbol, declaration: set<TypeDeclarationOption>, options: set<AdditionalOption>,
                                        filter: Option<MetadataName -> bool>)
    requires IncludeAttributes !in options || Shown(s.attributes, filter) == []
    requires ListedBaseType(s, declaration).None? && ListedInterfaces(s, declaration, options) == []
    requires IncludeAccessorAttributes !in options || !(s.kind.Property? || s.kind.Event?)
    requires IncludeParameterAttributes !in options || |s.parameters| == 0
    ensures var b := Head(s.parts, [], [], 0, options);
      var f := if FormatParameters in options && |s.parameters| > 1 then ParameterScan.FormatParameters(s.kind, b, "  ") else b;
      GetDisplayParts(s, declaration, options, filter)
        == Ok(if PreferDefaultLiteral in options && exists i :: 0 <= i < |s.parameters| && s.parameters[i].hasExplicitDefaultValue
              then ReplaceDefault(s.kind, f) else f)
  {
    var shownAttributes := if IncludeAttributes in options then Shown(s.attributes, filter) else [];
    assert shownAttributes == [];
    NoAttributesNoParts([], OmitContainingNamespace in options, IncludeAttributeArguments in options,
                        FormatAttributes in options, true);
    if Untouched(s, shownAttributes, 0, options) {
      UntouchedHead(s.parts, options);
    }
  }

  /** Parameter attributes are rendered only where the parameter scan
      reaches them: a definition with no parameter list to open is shown
      as the compiler rendered it, whatever its parameters' attributes
      hold, even ones that cannot be rendered. */
  lemma {:induction false} UnopenedListIgnoresParameterAttributes(s: DefinitionSymbol, declaration: set<TypeDeclarationOption>,
                                                                  options: set<AdditionalOption>, filter: Option<MetadataName -> bool>)
    requires IncludeAttributes !in options || Shown(s.attributes, filter) == []
    requires ListedBaseType(s, declaration).None? && ListedInterfaces(s, declaration, options) == []
    requires ConstraintCount(s.parts) == 0
    requires IncludeAccessorAttributes !in options || !(s.kind.Property? || s.kind.Event?)
    requires ParameterListStart(s.kind, s.parts) == -1
    requires FormatParameters !in options || |s.parameters| <= 1
    requires PreferDefaultLiteral !in options || forall i :: 0 <= i < |s.parameters| ==> !s.parameters[i].hasExplicitDefaultValue
    ensures GetDisplayParts(s, declaration, options, filter) == Ok(s.parts)
  {
    NoAttributesNoParts([], OmitContainingNamespace in options, IncludeAttributeArguments in options,
                        FormatAttributes in options, true);
    UntouchedHead(s.parts, options);
  }

  /** A method shown without a parameter list, whose one parameter has an
      attribute with an erroneous argument: that attribute cannot be
      rendered, yet the display succeeds, because the scan never reaches
      the parameter. */
  lemma UnreachedParameterNotRendered(a: AttributeData)
    requires a.constructorArguments == [ErrorValue]
    ensures var s := DefinitionSymbol(SymbolKind.Method, TypeKind.Class, [Part(MethodName, "M")], [], None, [],
                                      [Parameter.Parameter([a], false)], None, None, None, None);
      var options := {IncludeParameterAttributes, IncludeAttributeArguments};
      ParameterBlocks(s, options, None)[0].Err?
      && GetDisplayParts(s, {}, options, None) == Ok(s.parts)
  {
    var s := DefinitionSymbol(SymbolKind.Method, TypeKind.Class, [Part(MethodName, "M")], [], None, [],
                              [Parameter.Parameter([a], false)], None, None, None, None);
    var options := {IncludeParameterAttributes, IncludeAttributeArguments};
    ErroneousAttributeFails(a, options);
    assert ParameterBlocks(s, options, None)[0] == AttributesParts([a], options, None, false, None);
    assert ParameterListStart(s.kind, s.parts) == -1 && ConstraintCount(s.parts) == 0;
    UnopenedListIgnoresParameterAttributes(s, {}, options, None);
  }

  /** An attribute with an erroneous argument cannot be rendered when the
      arguments are shown. */
  lemma ErroneousAttributeFails(a: AttributeData, options: set<AdditionalOption>)
    requires a.constructorArguments == [ErrorValue] && IncludeAttributeArguments in options
    ensures AttributesParts([a], options, None, false, None).Err?
  {
    var omit := OmitContainingNamespace in options;
    assert Shown([a], None) == [a];
    assert Sort([a], ByRank(omit)) == [a];
    ArgumentErrors(a, omit);
    assert AttributeParts(a, omit, true).Err?;
    assert RenderAll([a], omit, true).Err?;
  }

  /** A symbol with nothing to insert is displayed with the compiler's
      visible parts, in order: formatting the constraints and the parameter
      list adds only line breaks and indentation. */
  lemma {:induction false} DisplayKeepsVisibleParts(s: DefinitionSymbol, declaration: set<TypeDeclarationOption>, options: set<AdditionalOption>,
                                 filter: Option<MetadataName -> bool>)
    requires IncludeAttributes !in options || Shown(s.attributes, filter) == []
    requires ListedBaseType(s, declaration).None? && ListedInterfaces(s, declaration, options) == []
    requires IncludeAccessorAttributes !in options || !(s.kind.Property? || s.kind.Event?)
    requires IncludeParameterAttributes !in options || |s.parameters| == 0
    requires PreferDefaultLiteral !in options || forall i :: 0 <= i < |s.parameters| ==> !s.parameters[i].hasExplicitDefaultValue
    ensures GetDisplayParts(s, declaration, options, filter).Ok?
    ensures Visible(GetDisplayParts(s, declaration, options, filter).value) == Visible(s.parts)
  {
    PlainDisplay(s, declaration, options, filter);
    var b := Head(s.parts, [], [], 0, options);
    HeadKeepsVisibleParts(s.parts, options);
    ParameterScan.FormatParametersKeepsVisibleParts(s.kind, b, "  ");
  }

  /** Where the base list as written succeeds it lists what the corrected
      base list does; it fails only for a listed base type without the
      interfaces option. */
  lemma BaseListCorrection(s: DefinitionSymbol, declaration: set<TypeDeclarationOption>, options: set<AdditionalOption>)
    ensures var r := BaseListAsWritten(s, declaration, options);
      r.Ok? ==> r.value == (ListedBaseType(s, declaration), ListedInterfaces(s, declaration, options))
  {
  }

  /** `class C : B` shown with the base type but not the interfaces: as
      written the interfaces are read from a default array and the display
      fails; corrected, the base list is `: B`. */
  lemma BaseTypeWithoutInterfaces(s: DefinitionSymbol, b: SymbolDisplay)
    requires s.kind == SymbolKind.NamedType && s.typeKind == TypeKind.Class
    requires s.baseType == Some(BaseTypeRef(b, false)) && b.OtherSymbolDisplay?
    requires ConstraintCount(s.parts) == 0
    ensures BaseListAsWritten(s, {IncludeBaseType}, {}) == Err(NullReferenceException)
    ensures GetDisplayParts(s, {IncludeBaseType}, {}, None)
            == Ok(s.parts + [SpacePart] + ([Punct(":"), SpacePart] + b.withNamespace))
  {
    var list := BaseListParts(Some(b), [], {});
    BaseListOfType(Some(b), [], {});
    assert Sort([], ByInterfaceRank(false)) == [];
    assert [DisplayParts(b, false)] + InterfaceDisplays([], false) == [b.withNamespace];
    assert list == [Punct(":"), SpacePart] + b.withNamespace;
    assert Sort([], ByRank(false)) == [];
    assert AddAttributes([], [], false, false, false, true) == Ok([]);
    assert Head(s.parts, [], list, 1, {}) == s.parts + [SpacePart] + list;
  }
}

=== FILE: definition_list_format.dfy ===
/**
 The definition-list format: which parts of a definition are shown, how
 multi-line definitions are laid out, and how the format adjusts the
 compiler's display format.
 */
module ListFormat {

  /** One bit of the part filter. */
  datatype PartFilter =
    | ContainingNamespace
    | Modifiers
    | Accessibility
    | Attributes
    | AttributeArguments
    | AssemblyAttributes
    | BaseType
    | BaseInterfaces
    | Constraints
    | ParameterName
    | ParameterDefaultValue

  const AllParts: set<PartFilter> :=
    {ContainingNamespace, Modifiers, Accessibility, Attributes, AttributeArguments, AssemblyAttributes,
     BaseType, BaseInterfaces, Constraints, ParameterName, ParameterDefaultValue}

  /** One bit of the multi-line format options; `None` is the empty set. */
  datatype FormatOption = FormatAttributes | FormatBaseList | FormatConstraints | FormatParameters

  datatype Layout = NamespaceList | NamespaceHierarchy | TypeHierarchy

  /** Bits of the compiler's generics, member and parameter display options. */
  datatype GenericsOption = IncludeTypeParameters | IncludeVariance | IncludeTypeConstraints

  datatype MemberOption =
    | IncludeType
    | IncludeExplicitInterface
    | IncludeParameters
    | IncludeConstantValue
    | IncludeRef
    | IncludeModifiers
    | IncludeAccessibility

  datatype ParameterOption =
    | IncludeExtensionThis
    | IncludeParamsRefOut
    | IncludeParameterType
    | IncludeName
    | IncludeDefaultValue

  /** The three option sets the format overrides in a display format. */
  datatype DisplayOptions = DisplayOptions(
    generics: set<GenericsOption>,
    members: set<MemberOption>,
    parameters: set<ParameterOption>)

  datatype DefinitionListFormat = DefinitionListFormat(
    layout: Layout,
    parts: set<PartFilter>,
    formatOptions: set<FormatOption>,
    indentChars: string,
    emptyLineBetweenMembers: bool,
    omitIEnumerable: bool,
    preferDefaultLiteral: bool)
  {
    /** `(Parts & parts) == parts`. */
    predicate IncludesParts(requested: set<PartFilter>)
    {
      parts * requested == requested
    }

    /** `(FormatOptions & formatOptions) == formatOptions`. */
    predicate IncludesFormat(requested: set<FormatOption>)
    {
      formatOptions * requested == requested
    }
  }

  /** The option sets `Update` writes into a display format. */
  function Update(f: DefinitionListFormat): (r: DisplayOptions)
    ensures r.generics >= {IncludeTypeParameters, IncludeVariance}
    ensures IncludeTypeConstraints in r.generics <==> Constraints in f.parts
    ensures r.members >= {IncludeType, IncludeExplicitInterface, IncludeParameters, IncludeConstantValue, IncludeRef}
    ensures IncludeModifiers in r.members <==> Modifiers in f.parts
    ensures IncludeAccessibility in r.members <==> Accessibility in f.parts
    ensures r.parameters >= {IncludeExtensionThis, IncludeParamsRefOut, IncludeParameterType}
    ensures IncludeName in r.parameters <==> ParameterName in f.parts
    ensures IncludeDefaultValue in r.parameters <==> ParameterDefaultValue in f.parts
  {
    var generics := {IncludeTypeParameters, IncludeVariance}
      + (if f.IncludesParts({Constraints}) then {IncludeTypeConstraints} else {});
    var members := {IncludeType, IncludeExplicitInterface, IncludeParameters, IncludeConstantValue, IncludeRef}
      + (if f.IncludesParts({Modifiers}) then {IncludeModifiers} else {})
      + (if f.IncludesParts({Accessibility}) then {IncludeAccessibility} else {});
    var parameters := {IncludeExtensionThis, IncludeParamsRefOut, IncludeParameterType}
      + (if f.IncludesParts({ParameterName}) then {IncludeName} else {})
      + (if f.IncludesParts({ParameterDefaultValue}) then {IncludeDefaultValue} else {});
    DisplayOptions(generics, members, parameters)
  }

  const DefaultFormat: DefinitionListFormat :=
    DefinitionListFormat(NamespaceList, AllParts, {}, "  ", false, true, true)

  /** Both `Includes` overloads are subset tests. */
  lemma IncludesIsSubset(f: DefinitionListFormat, p: set<PartFilter>, o: set<FormatOption>)
    ensures f.IncludesParts(p) <==> p <= f.parts
    ensures f.IncludesFormat(o) <==> o <= f.formatOptions
  {
    if p <= f.parts {
      assert f.parts * p == p;
    }
    if o <= f.formatOptions {
      assert f.formatOptions * o == o;
    }
  }

  /** `Update` depends on the part filter only, and showing more parts
      never removes a display option. */
  lemma UpdateIsMonotone(f: DefinitionListFormat, g: DefinitionListFormat)
    requires f.parts <= g.parts
    ensures Update(f).generics <= Update(g).generics
    ensures Update(f).members <= Update(g).members
    ensures Update(f).parameters <= Update(g).parameters
    ensures f.parts == g.parts ==> Update(f) == Update(g)
  {
  }

  /** The default format shows every part, formats nothing over several
      lines and lists namespaces. */
  lemma DefaultFormatValues()
    ensures DefaultFormat.layout == NamespaceList
    ensures forall p: PartFilter :: DefaultFormat.IncludesParts({p})
    ensures forall o: FormatOption :: !DefaultFormat.IncludesFormat({o})
    ensures DefaultFormat.indentChars == "  " && DefaultFormat.omitIEnumerable && DefaultFormat.preferDefaultLiteral
    ensures !DefaultFormat.emptyLineBetweenMembers
  {
    forall p: PartFilter ensures DefaultFormat.IncludesParts({p}) {
      assert p in AllParts by {
        match p
        case ContainingNamespace => case Modifiers => case Accessibility => case Attributes =>
        case AttributeArguments => case AssemblyAttributes => case BaseType => case BaseInterfaces =>
        case Constraints => case ParameterName => case ParameterDefaultValue =>
      }
      assert AllParts * {p} == {p};
    }
    forall o: FormatOption ensures !DefaultFormat.IncludesFormat({o}) {
      assert {} * {o} != {o};
    }
  }
}

=== FILE: definition_list_options.dfy ===
/**
 The options of a definition list: visibility, depth, indentation, layout
 switches and the names of types and namespaces to leave out.
 */
module ListOptions {
  import opened Wrappers
  import opened Symbols

  datatype ListDepth = NamespaceDepth | TypeDepth | MemberDepth

  datatype ContainingNamespaceStyle = Omitted | OmittedAsContaining | Included

  datatype DefinitionListOptions = DefinitionListOptions(
    ignoredMetadataNames: seq<MetadataName>,
    visibility: Visibility,
    depth: ListDepth,
    containingNamespaceStyle: ContainingNamespaceStyle,
    ignoredNames: seq<string>,
    indent: bool,
    indentChars: string,
    placeSystemNamespaceFirst: bool,
    nestNamespaces: bool,
    emptyLineBetweenMembers: bool,
    formatBaseList: bool,
    formatConstraints: bool,
    formatParameters: bool,
    splitAttributes: bool,
    includeAttributeArguments: bool,
    omitIEnumerable: bool,
    useDefaultLiteral: bool,
    assemblyAttributes: bool)

  /** The layout switches of the constructor, in its parameter order. */
  datatype Switches = Switches(
    indent: bool,
    indentChars: string,
    placeSystemNamespaceFirst: bool,
    nestNamespaces: bool,
    emptyLineBetweenMembers: bool,
    formatBaseList: bool,
    formatConstraints: bool,
    formatParameters: bool,
    splitAttributes: bool,
    includeAttributeArguments: bool,
    omitIEnumerable: bool,
    useDefaultLiteral: bool,
    assemblyAttributes: bool)

  const DefaultSwitches: Switches :=
    Switches(true, "  ", true, false, false, false, false, false, true, true, true, true, false)

  /** The constructor. A null name list becomes empty; each given name is
      parsed (the parser is the compiler's) in the order given. */
  function NewOptions(
    visibility: Visibility,
    depth: ListDepth,
    style: ContainingNamespaceStyle,
    ignoredNames: Option<seq<string>>,
    switches: Switches,
    parse: string -> MetadataName): (r: DefinitionListOptions)
    ensures ignoredNames.None? ==> r.ignoredNames == [] && r.ignoredMetadataNames == []
    ensures ignoredNames.Some? ==> r.ignoredNames == ignoredNames.value
    ensures |r.ignoredMetadataNames| == |r.ignoredNames|
    ensures forall i :: 0 <= i < |r.ignoredNames| ==> r.ignoredMetadataNames[i] == parse(r.ignoredNames[i])
    ensures r.visibility == visibility && r.depth == depth && r.containingNamespaceStyle == style
    ensures r.indent == switches.indent && r.indentChars == switches.indentChars
  {
    var names := if ignoredNames.Some? then ignoredNames.value else [];
    DefinitionListOptions(
      seq(|names|, i requires 0 <= i < |names| => parse(names[i])),
      visibility, depth, style, names,
      switches.indent, switches.indentChars, switches.placeSystemNamespaceFirst, switches.nestNamespaces,
      switches.emptyLineBetweenMembers, switches.formatBaseList, switches.formatConstraints,
      switches.formatParameters, switches.splitAttributes, switches.includeAttributeArguments,
      switches.omitIEnumerable, switches.useDefaultLiteral, switches.assemblyAttributes)
  }

  /** The metadata name of the namespace whose path is `path`; the empty path
      is the global namespace, whose name is empty. */
  function NamespaceName(path: seq<string>): (r: MetadataName)
    ensures r.containingTypes == []
    ensures |path| > 0 ==> r.containingNamespaces + [r.name] == path
  {
    if |path| == 0 then MetadataName([], [], "") else MetadataName(path[..|path| - 1], [], path[|path| - 1])
  }

  /** An entry matches a type when it is the type's own name, or, if it
      names no containing types, the name of a namespace on the type's
      containing chain (the global namespace included). */
  predicate Matches(entry: MetadataName, t: MetadataName)
  {
    || t == entry
    || (entry.containingTypes == []
        && exists k :: 0 <= k <= |t.containingNamespaces| && NamespaceName(t.containingNamespaces[..k]) == entry)
  }

  /** `ShouldBeIgnored`: the entries in order, for each first the type's own
      name and then the containing namespaces from the innermost outwards. */
  method ShouldBeIgnored(o: DefinitionListOptions, t: MetadataName) returns (ignored: bool)
    ensures ignored <==> exists i :: 0 <= i < |o.ignoredMetadataNames| && Matches(o.ignoredMetadataNames[i], t)
  {
    var path := t.containingNamespaces;
    var i := 0;
    while i < |o.ignoredMetadataNames|
      invariant 0 <= i <= |o.ignoredMetadataNames|
      invariant forall j :: 0 <= j < i ==> !Matches(o.ignoredMetadataNames[j], t)
    {
      var entry := o.ignoredMetadataNames[i];
      if t == entry {
        return true;
      }
      if |entry.containingTypes| == 0 {
        // n starts at the containing namespace and walks outwards.
        var n := |path|;
        while true
          invariant 0 <= n <= |path|
          invariant forall k :: n < k <= |path| ==> NamespaceName(path[..k]) != entry
          decreases n
        {
          if NamespaceName(path[..n]) == entry {
            return true;
          }
          if n == 0 {
            break;
          }
          n := n - 1;
        }
      }
      i := i + 1;
    }
    return false;
  }

  /** An entry that names containing types matches its own type only. */
  lemma EntryWithContainingTypesMatchesExactly(entry: MetadataName, t: MetadataName)
    requires entry.containingTypes != []
    ensures Matches(entry, t) <==> t == entry
  {
  }

  /** A namespace entry matches every type below that namespace. */
  lemma {:induction false} NamespaceEntryMatchesNestedTypes(path: seq<string>, t: MetadataName)
    requires path <= t.containingNamespaces
    ensures Matches(NamespaceName(path), t)
  {
    assert t.containingNamespaces[..|path|] == path;
  }

  /** With no names, nothing is ignored. */
  method NothingIgnoredWithoutNames(t: MetadataName, switches: Switches, parse: string -> MetadataName)
    returns (ignored: bool)
    ensures !ignored
  {
    var o := NewOptions(Private, MemberDepth, Omitted, None, switches, parse);
    ignored := ShouldBeIgnored(o, t);
  }

  /** The defaults: private visibility, member depth, two-space indentation,
      split attributes, omitted `IEnumerable`, no assembly attributes. */
  lemma DefaultOptionValues(parse: string -> MetadataName)
    ensures var d := NewOptions(Private, MemberDepth, Omitted, None, DefaultSwitches, parse);
      && d.visibility == Private && d.depth == MemberDepth && d.indent && d.indentChars == "  "
      && d.splitAttributes && d.omitIEnumerable && !d.assemblyAttributes && d.useDefaultLiteral
      && d.includeAttributeArguments && d.placeSystemNamespaceFirst && !d.nestNamespaces
      && d.ignoredNames == []
  {
  }
}

=== FILE: definition_writer.dfy ===
/**
 The top of the abstract definition writer: the display options it derives
 from the list format, and the document it writes — the assemblies in name
 and version order, each with its attributes when they are listed, and the
 types either inside each assembly or after all of them, in the layout the
 format asks for.
 */
module DocumentWriter {
  import opened Wrappers
  import opened Sequences
  import opened WriterEvents
  import opened WriterTypes
  import NamespaceWriter
  import HierarchyWriter
  import SymbolHierarchy
  import ListFormat
  import TextWriter
  import Symbols
  import AttributeDisplay
  import Display = DefinitionDisplay

  /* ---------------- display options ---------------- */

  /** `GetTypeDeclarationOptions`: one declaration option per included part. */
  function TypeDeclarationOptions(f: ListFormat.DefinitionListFormat): (r: set<Display.TypeDeclarationOption>)
    ensures Display.IncludeAccessibility in r <==> f.IncludesParts({ListFormat.Accessibility})
    ensures Display.IncludeModifiers in r <==> f.IncludesParts({ListFormat.Modifiers})
    ensures Display.IncludeBaseType in r <==> f.IncludesParts({ListFormat.BaseType})
    ensures Display.IncludeInterfaces in r <==> f.IncludesParts({ListFormat.BaseInterfaces})
  {
    (if ListFormat.Accessibility in f.parts then {Display.IncludeAccessibility} else {})
    + (if ListFormat.Modifiers in f.parts then {Display.IncludeModifiers} else {})
    + (if ListFormat.BaseType in f.parts then {Display.IncludeBaseType} else {})
    + (if ListFormat.BaseInterfaces in f.parts then {Display.IncludeInterfaces} else {})
  }

  /** A type's base list is displayed exactly when the format includes its
      base type or its interfaces. */
  lemma BaseListDisplayed(f: ListFormat.DefinitionListFormat)
    ensures Display.IncludesBaseList(TypeDeclarationOptions(f))
      <==> ListFormat.BaseType in f.parts || ListFormat.BaseInterfaces in f.parts
  {
    var r := TypeDeclarationOptions(f);
    if Display.IncludesBaseList(r) {
      assert r * {Display.IncludeBaseType, Display.IncludeInterfaces} != {};
      var x :| x in r * {Display.IncludeBaseType, Display.IncludeInterfaces};
      assert f.IncludesParts({ListFormat.BaseType}) || f.IncludesParts({ListFormat.BaseInterfaces});
    }
    if ListFormat.BaseType in f.parts {
      assert f.IncludesParts({ListFormat.BaseType});
    }
    if ListFormat.BaseInterfaces in f.parts {
      assert f.IncludesParts({ListFormat.BaseInterfaces});
    }
  }

  const MultilineOptions: set<Display.AdditionalOption> :=
    {Display.FormatAttributes, Display.FormatBaseList, Display.FormatConstraints, Display.FormatParameters}

  /** `GetAdditionalOptions`: the options the writer asks the display for.
      `multiline` is `SupportsMultilineDefinitions`. */
  function AdditionalOptions(f: ListFormat.DefinitionListFormat, multiline: bool): (r: set<Display.AdditionalOption>)
    ensures Display.IncludeAttributes !in r
  {
    PartOptions(f) + (if multiline then LayoutOptions(f) else {}) + LiteralOptions(f)
  }

  /** The options that follow from the included parts. */
  lemma AdditionalOptionsFromParts(f: ListFormat.DefinitionListFormat, multiline: bool)
    ensures var r := AdditionalOptions(f, multiline);
      && (Display.OmitContainingNamespace in r <==> ListFormat.ContainingNamespace !in f.parts)
      && (Display.IncludeParameterAttributes in r <==> ListFormat.Attributes in f.parts)
      && (Display.IncludeAccessorAttributes in r <==> ListFormat.Attributes in f.parts)
      && (Display.IncludeAttributeArguments in r <==> ListFormat.AttributeArguments in f.parts)
  {
    var other := (if multiline then LayoutOptions(f) else {}) + LiteralOptions(f);
    assert other * PartOptionSet == {};
  }

  /** The multi-line options, only when the layout supports them. */
  lemma AdditionalOptionsLayout(f: ListFormat.DefinitionListFormat, multiline: bool)
    ensures var r := AdditionalOptions(f, multiline);
      && (Display.FormatBaseList in r <==> multiline && ListFormat.FormatBaseList in f.formatOptions)
      && (Display.FormatConstraints in r <==> multiline && ListFormat.FormatConstraints in f.formatOptions)
      && (Display.FormatParameters in r <==> multiline && ListFormat.FormatParameters in f.formatOptions)
      && (Display.FormatAttributes in r <==> multiline && ListFormat.FormatAttributes in f.formatOptions)
  {
    var other := PartOptions(f) + LiteralOptions(f);
    assert other * MultilineOptions == {};
  }

  /** The options of the two flags. */
  lemma AdditionalOptionsLiteral(f: ListFormat.DefinitionListFormat, multiline: bool)
    ensures var r := AdditionalOptions(f, multiline);
      && (Display.OmitIEnumerable in r <==> f.omitIEnumerable)
      && (Display.PreferDefaultLiteral in r <==> f.preferDefaultLiteral)
  {
    var other := PartOptions(f) + (if multiline then LayoutOptions(f) else {});
    assert Display.OmitIEnumerable !in other && Display.PreferDefaultLiteral !in other;
  }

  const PartOptionSet: set<Display.AdditionalOption> :=
    {Display.OmitContainingNamespace, Display.IncludeParameterAttributes, Display.IncludeAccessorAttributes,
     Display.IncludeAttributeArguments}

  /** The options the included parts ask for. */
  function PartOptions(f: ListFormat.DefinitionListFormat): (r: set<Display.AdditionalOption>)
    ensures r <= PartOptionSet
    ensures Display.OmitContainingNamespace in r <==> ListFormat.ContainingNamespace !in f.parts
    ensures Display.IncludeParameterAttributes in r <==> ListFormat.Attributes in f.parts
    ensures Display.IncludeAccessorAttributes in r <==> ListFormat.Attributes in f.parts
    ensures Display.IncludeAttributeArguments in r <==> ListFormat.AttributeArguments in f.parts
  {
    assert f.IncludesParts({ListFormat.ContainingNamespace}) <==> ListFormat.ContainingNamespace in f.parts;
    assert f.IncludesParts({ListFormat.Attributes}) <==> ListFormat.Attributes in f.parts;
    assert f.IncludesParts({ListFormat.AttributeArguments}) <==> ListFormat.AttributeArguments in f.parts;
    (if !f.IncludesParts({ListFormat.ContainingNamespace}) then {Display.OmitContainingNamespace} else {})
    + (if f.IncludesParts({ListFormat.Attributes}) then {Display.IncludeParameterAttributes, Display.IncludeAccessorAttributes} else {})
    + (if f.IncludesParts({ListFormat.AttributeArguments}) then {Display.IncludeAttributeArguments} else {})
  }

  /** The multi-line layout options the format asks for. */
  function LayoutOptions(f: ListFormat.DefinitionListFormat): (r: set<Display.AdditionalOption>)
    ensures r <= MultilineOptions
    ensures Display.FormatBaseList in r <==> ListFormat.FormatBaseList in f.formatOptions
    ensures Display.FormatConstraints in r <==> ListFormat.FormatConstraints in f.formatOptions
    ensures Display.FormatParameters in r <==> ListFormat.FormatParameters in f.formatOptions
    ensures Display.FormatAttributes in r <==> ListFormat.FormatAttributes in f.formatOptions
  {
    assert f.IncludesFormat({ListFormat.FormatBaseList}) <==> ListFormat.FormatBaseList in f.formatOptions;
    assert f.IncludesFormat({ListFormat.FormatConstraints}) <==> ListFormat.FormatConstraints in f.formatOptions;
    assert f.IncludesFormat({ListFormat.FormatParameters}) <==> ListFormat.FormatParameters in f.formatOptions;
    assert f.IncludesFormat({ListFormat.FormatAttributes}) <==> ListFormat.FormatAttributes in f.formatOptions;
    (if f.IncludesFormat({ListFormat.FormatBaseList}) then {Display.FormatBaseList} else {})
    + (if f.IncludesFormat({ListFormat.FormatConstraints}) then {Display.FormatConstraints} else {})
    + (if f.IncludesFormat({ListFormat.FormatParameters}) then {Display.FormatParameters} else {})
    + (if f.IncludesFormat({ListFormat.FormatAttributes}) then {Display.FormatAttributes} else {})
  }

  /** The options the format's two flags ask for. */
  function LiteralOptions(f: ListFormat.DefinitionListFormat): (r: set<Display.AdditionalOption>)
    ensures r <= {Display.OmitIEnumerable, Display.PreferDefaultLiteral}
    ensures Display.OmitIEnumerable in r <==> f.omitIEnumerable
    ensures Display.PreferDefaultLiteral in r <==> f.preferDefaultLiteral
  {
    (if f.omitIEnumerable then {Display.OmitIEnumerable} else {})
    + (if f.preferDefaultLiteral then {Display.PreferDefaultLiteral} else {})
  }

  /** The type hierarchy of the base writer lays nothing out over several
      lines, whatever the format options say. */
  lemma HierarchyIsSingleLine(f: ListFormat.DefinitionListFormat)
    requires f.layout == ListFormat.TypeHierarchy
    ensures AdditionalOptions(f, TextWriter.DefaultMultiline(f.layout)) * MultilineOptions == {}
  {
  }

  /** The display never adds a symbol's own attributes for the writer (the
      text writer writes them itself, before the display's parts): a symbol
      with nothing else to change comes back untouched, attributes or not. */
  lemma DisplayLeavesAttributesToWriter(f: ListFormat.DefinitionListFormat, multiline: bool, s: Display.DefinitionSymbol,
                                        filter: Option<Symbols.MetadataName -> bool>)
    requires var options := AdditionalOptions(f, multiline);
      var declaration := TypeDeclarationOptions(f);
      Display.Untouched(s, [], |Display.ListedInterfaces(s, declaration, options)|
                                + (if Display.ListedBaseType(s, declaration).Some? then 1 else 0), options)
    ensures Display.GetDisplayParts(s, TypeDeclarationOptions(f), AdditionalOptions(f, multiline), filter) == Ok(s.parts)
  {
    Display.UntouchedPath(s, TypeDeclarationOptions(f), AdditionalOptions(f, multiline), filter);
  }

  /* ---------------- the types each layout lists ---------------- */

  /** The types of an assembly, nested types after the type that declares
      them. */
  function AllTypes(types: seq<TypeDef>): (r: seq<TypeDef>)
    ensures forall t :: t in types ==> t in r
    decreases types
  {
    if |types| == 0 then []
    else
      var rest := AllTypes(types[1..]);
      assert forall t :: t in types ==> t == types[0] || t in types[1..];
      [types[0]] + AllTypes(types[0].nested) + rest
  }

  /** `assembly.GetTypes(…)` as the layout calls it: every visible type,
      nested ones included, for the type hierarchy; the visible top-level
      types otherwise. */
  function ListedTypes(w: Writer, a: AssemblyDef): (r: seq<TypeDef>)
    ensures forall t :: t in r ==> t.visible && t in AllTypes(a.types)
    ensures forall t :: t in a.types && t.visible ==> t in r
    ensures w.format.layout == ListFormat.TypeHierarchy ==> forall t :: t in AllTypes(a.types) && t.visible ==> t in r
  {
    if w.format.layout == ListFormat.TypeHierarchy
    then Filter(AllTypes(a.types), (t: TypeDef) => t.visible)
    else Filter(a.types, (t: TypeDef) => t.visible)
  }

  /** The types of the assemblies, in the type graph the hierarchy is
      built from. */
  ghost predicate InGraph(ts: seq<SymbolHierarchy.TypeInfo>, assemblies: seq<AssemblyDef>)
  {
    forall a, t :: a in assemblies && t in AllTypes(a.types) ==> t.id < |ts|
  }

  lemma ListedInArena(w: Writer, ts: seq<SymbolHierarchy.TypeInfo>, assemblies: seq<AssemblyDef>, a: AssemblyDef)
    requires InGraph(ts, assemblies) && a in assemblies
    ensures SymbolHierarchy.InArena(ts, HierarchyWriter.TypeIds(ListedTypes(w, a)))
  {
    var r := ListedTypes(w, a);
    forall x | x in HierarchyWriter.TypeIds(r) ensures x < |ts| {
      var i :| 0 <= i < |r| && HierarchyWriter.TypeIds(r)[i] == x;
      assert r[i] in r;
    }
  }

  /** `WriteNamespaces(types)`: the namespaces of the types, as a hierarchy
      or as a list. */
  function WriteNamespaces(w: Writer, types: seq<TypeDef>): (r: seq<Event>)
    ensures |r| >= 2 && r[0] == StartNamespaces && r[|r| - 1] == EndNamespaces
  {
    [StartNamespaces]
    + (if w.format.layout == ListFormat.NamespaceHierarchy
       then NamespaceWriter.WriteNamespaceHierarchy(w, types)
       else NamespaceWriter.NamespaceList(w, types))
    + [EndNamespaces]
  }

  /** What a layout writes for a set of types: the type hierarchy, which
      throws when it cannot be built, or the namespaces. */
  function Contents(w: Writer, ts: seq<SymbolHierarchy.TypeInfo>, types: seq<TypeDef>): (r: Result<seq<Event>>)
    requires SymbolHierarchy.WellFormed(ts) && SymbolHierarchy.InArena(ts, HierarchyWriter.TypeIds(types))
    ensures r.Err? <==> w.format.layout == ListFormat.TypeHierarchy
                        && SymbolHierarchy.Create(ts, HierarchyWriter.TypeIds(types)).Err?
  {
    if w.format.layout == ListFormat.TypeHierarchy
    then HierarchyWriter.WriteTypeHierarchy(w, ts, types)
    else Ok(WriteNamespaces(w, types))
  }

  /** What a layout writes as the source writes it: the namespace hierarchy
      also throws, where the lookup of a namespace's own types finds no key.
      Wherever it does not throw it writes what `Contents` writes. */
  function ContentsAsWritten(w: Writer, ts: seq<SymbolHierarchy.TypeInfo>, types: seq<TypeDef>): (r: Result<seq<Event>>)
    requires SymbolHierarchy.WellFormed(ts) && SymbolHierarchy.InArena(ts, HierarchyWriter.TypeIds(types))
    ensures r.Ok? ==> r == Contents(w, ts, types)
    ensures r.Err? <==> Contents(w, ts, types).Err?
                        || (w.format.layout == ListFormat.NamespaceHierarchy
                            && NamespaceWriter.WriteNamespaceHierarchyAsWritten(w, types).Err?)
  {
    if w.format.layout == ListFormat.NamespaceHierarchy then
      var h :- NamespaceWriter.WriteNamespaceHierarchyAsWritten(w, types);
      Ok([StartNamespaces] + h + [EndNamespaces])
    else Contents(w, ts, types)
  }

  /** Without the Type group the lookup that throws is never reached, and
      the source's contents are the model's. */
  lemma ContentsWithoutTypes(w: Writer, ts: seq<SymbolHierarchy.TypeInfo>, types: seq<TypeDef>)
    requires SymbolHierarchy.WellFormed(ts) && SymbolHierarchy.InArena(ts, HierarchyWriter.TypeIds(types))
    requires !w.ShowsTypes()
    ensures ContentsAsWritten(w, ts, types) == Contents(w, ts, types)
  {
    NamespaceWriter.HierarchyWithoutTypes(w, types);
  }

  /* ---------------- assemblies ---------------- */

  /** `OrderBy(Name).ThenBy(Version)`. */
  function ByNameThenVersion(): (AssemblyDef, AssemblyDef) -> bool
  {
    (a: AssemblyDef, b: AssemblyDef) => a.nameRank < b.nameRank || (a.nameRank == b.nameRank && a.version <= b.version)
  }

  function SortedAssemblies(assemblies: seq<AssemblyDef>): (r: seq<AssemblyDef>)
    ensures multiset(r) == multiset(assemblies)
    ensures forall i, j :: 0 <= i < j < |r| ==>
      r[i].nameRank < r[j].nameRank || (r[i].nameRank == r[j].nameRank && r[i].version <= r[j].version)
  {
    Sort(assemblies, ByNameThenVersion())
  }

  /** One assembly: start, definition, its attributes when the format
      includes them, its types when the listing is grouped by assembly, end. */
  function AssemblyBlock(w: Writer, ts: seq<SymbolHierarchy.TypeInfo>, a: AssemblyDef): (r: Result<seq<Event>>)
    requires SymbolHierarchy.WellFormed(ts) && SymbolHierarchy.InArena(ts, HierarchyWriter.TypeIds(ListedTypes(w, a)))
  {
    var attributes := AssemblyAttributeEvents(w, a);
    var contents :- GroupedContents(w, ts, a);
    Ok(AssemblyFrame(a.id, attributes, contents))
  }

  function AssemblyFrame(a: nat, attributes: seq<Event>, contents: seq<Event>): seq<Event>
  {
    [StartAssembly(a), AssemblyDefinition(a)] + (attributes + contents) + [EndAssembly(a)]
  }

  /** The attributes an assembly block writes: the assembly's, when the
      format includes assembly attributes. */
  function AssemblyAttributeEvents(w: Writer, a: AssemblyDef): seq<Event>
  {
    if w.format.IncludesParts({ListFormat.AssemblyAttributes}) then WriteAttributes(a.attributes, true) else []
  }

  function AssemblyBlocks(w: Writer, ts: seq<SymbolHierarchy.TypeInfo>, assemblies: seq<AssemblyDef>, sorted: seq<AssemblyDef>)
    : (r: seq<Result<seq<Event>>>)
    requires SymbolHierarchy.WellFormed(ts) && InGraph(ts, assemblies)
    requires forall i :: 0 <= i < |sorted| ==> sorted[i] in assemblies
    ensures |r| == |sorted|
  {
    seq(|sorted|, i requires 0 <= i < |sorted| =>
      ListedInArena(w, ts, assemblies, sorted[i]);
      AssemblyBlock(w, ts, sorted[i]))
  }

  /** `WriteAssemblies`: the assemblies in name and version order, separated
      by `AssemblySeparator`; the first assembly whose types cannot be
      written stops the listing. */
  function WriteAssemblies(w: Writer, ts: seq<SymbolHierarchy.TypeInfo>, assemblies: seq<AssemblyDef>): (r: Result<seq<Event>>)
    requires SymbolHierarchy.WellFormed(ts) && InGraph(ts, assemblies)
  {
    var sorted := SortedAssemblies(assemblies);
    InSorted(assemblies, sorted);
    var blocks :- AttributeDisplay.Collect(AssemblyBlocks(w, ts, assemblies, sorted));
    Ok([StartAssemblies] + Join(blocks, [AssemblySeparator]) + [EndAssemblies])
  }

  lemma InSorted(assemblies: seq<AssemblyDef>, sorted: seq<AssemblyDef>)
    requires multiset(sorted) == multiset(assemblies)
    ensures forall i :: 0 <= i < |sorted| ==> sorted[i] in assemblies
  {
    forall i | 0 <= i < |sorted| ensures sorted[i] in assemblies {
      assert sorted[i] in multiset(sorted);
    }
  }

  /** The types listed after all assemblies when the listing is not grouped
      by assembly: `assemblies.SelectMany(…)`, in the assemblies' own order. */
  function AllListedTypes(w: Writer, assemblies: seq<AssemblyDef>): (r: seq<TypeDef>)
  {
    Concat(seq(|assemblies|, i requires 0 <= i < |assemblies| => ListedTypes(w, assemblies[i])))
  }

  lemma AllListedInArena(w: Writer, ts: seq<SymbolHierarchy.TypeInfo>, assemblies: seq<AssemblyDef>)
    requires InGraph(ts, assemblies)
    ensures SymbolHierarchy.InArena(ts, HierarchyWriter.TypeIds(AllListedTypes(w, assemblies)))
  {
    var items := seq(|assemblies|, i requires 0 <= i < |assemblies| => ListedTypes(w, assemblies[i]));
    var r := AllListedTypes(w, assemblies);
    forall x | x in HierarchyWriter.TypeIds(r) ensures x < |ts| {
      var k :| 0 <= k < |r| && HierarchyWriter.TypeIds(r)[k] == x;
      InConcat(r[k], items);
      var i :| 0 <= i < |items| && r[k] in items[i];
      assert assemblies[i] in assemblies;
    }
  }

  /** `WriteDocument`: the assemblies, then, unless they were written inside
      the assemblies, the types of all of them. */
  function WriteDocument(w: Writer, ts: seq<SymbolHierarchy.TypeInfo>, assemblies: seq<AssemblyDef>): (r: Result<seq<Event>>)
    requires SymbolHierarchy.WellFormed(ts) && InGraph(ts, assemblies)
  {
    var listed :- WriteAssemblies(w, ts, assemblies);
    var contents :- TrailingContents(w, ts, assemblies);
    Ok([StartDocument] + listed + contents + [EndDocument])
  }

  /* ---------------- the document is well nested ---------------- */

  lemma ContentsBalanced<S(!new)>(step: (S, Event) -> Option<S>, w: Writer, ts: seq<SymbolHierarchy.TypeInfo>, types: seq<TypeDef>)
    requires Sound(step)
    requires SymbolHierarchy.WellFormed(ts) && SymbolHierarchy.InArena(ts, HierarchyWriter.TypeIds(types))
    ensures var r := Contents(w, ts, types); r.Ok? ==> Balanced(step, r.value)
  {
    if w.format.layout == ListFormat.TypeHierarchy {
      var h := SymbolHierarchy.Create(ts, HierarchyWriter.TypeIds(types));
      if h.Ok? {
        HierarchyWriter.WriteHierarchyBalanced(step, w, types, h.value);
      }
    } else {
      if w.format.layout == ListFormat.NamespaceHierarchy {
        NamespaceWriter.NamespaceHierarchyBalanced(step, w, types);
      } else {
        NamespaceWriter.NamespaceListBalanced(step, w, types);
      }
      var body := if w.format.layout == ListFormat.NamespaceHierarchy
        then NamespaceWriter.WriteNamespaceHierarchy(w, types) else NamespaceWriter.NamespaceList(w, types);
      BalancedWrapped(step, [StartNamespaces], body, [EndNamespaces]);
    }
  }

  lemma AssemblyBlockBalanced<S(!new)>(step: (S, Event) -> Option<S>, w: Writer, ts: seq<SymbolHierarchy.TypeInfo>, a: AssemblyDef)
    requires Sound(step)
    requires SymbolHierarchy.WellFormed(ts) && SymbolHierarchy.InArena(ts, HierarchyWriter.TypeIds(ListedTypes(w, a)))
    ensures var r := AssemblyBlock(w, ts, a); r.Ok? ==> Balanced(step, r.value)
  {
    var r := AssemblyBlock(w, ts, a);
    if r.Ok? {
      var attributes := AssemblyAttributeEvents(w, a);
      var contents := GroupedContents(w, ts, a).value;
      if w.format.IncludesParts({ListFormat.AssemblyAttributes}) {
        WriteAttributesBalanced(step, a.attributes, true);
      } else {
        BalancedEmpty(step);
      }
      if w.groupByAssembly {
        ContentsBalanced(step, w, ts, ListedTypes(w, a));
      } else {
        BalancedEmpty(step);
      }
      assert WrapsAssembly(step, a.id);
      BalancedAround(step, [StartAssembly(a.id), AssemblyDefinition(a.id)], attributes, contents, [EndAssembly(a.id)]);
    }
  }

  lemma WriteAssembliesBalanced<S(!new)>(step: (S, Event) -> Option<S>, w: Writer, ts: seq<SymbolHierarchy.TypeInfo>,
                                         assemblies: seq<AssemblyDef>)
    requires Sound(step)
    requires SymbolHierarchy.WellFormed(ts) && InGraph(ts, assemblies)
    ensures var r := WriteAssemblies(w, ts, assemblies); r.Ok? ==> Balanced(step, r.value)
  {
    var sorted := SortedAssemblies(assemblies);
    InSorted(assemblies, sorted);
    var results := AssemblyBlocks(w, ts, assemblies, sorted);
    var blocks := AttributeDisplay.Collect(results);
    if blocks.Ok? {
      forall i | 0 <= i < |blocks.value| ensures Balanced(step, blocks.value[i]) {
        ListedInArena(w, ts, assemblies, sorted[i]);
        AssemblyBlockBalanced(step, w, ts, sorted[i]);
        assert results[i] == AssemblyBlock(w, ts, sorted[i]);
      }
      BalancedWrappedJoin(step, StartAssemblies, blocks.value, AssemblySeparator, EndAssemblies);
    }
  }

  /** Whatever machine the writer is, the document undoes every step it
      takes: each Start call is matched by its End call. */
  lemma DocumentBalanced<S(!new)>(step: (S, Event) -> Option<S>, w: Writer, ts: seq<SymbolHierarchy.TypeInfo>,
                                  assemblies: seq<AssemblyDef>)
    requires Sound(step)
    requires SymbolHierarchy.WellFormed(ts) && InGraph(ts, assemblies)
    ensures var r := WriteDocument(w, ts, assemblies); r.Ok? ==> Balanced(step, r.value)
  {
    var r := WriteDocument(w, ts, assemblies);
    if r.Ok? {
      WriteAssembliesBalanced(step, w, ts, assemblies);
      AllListedInArena(w, ts, assemblies);
      var listed := WriteAssemblies(w, ts, assemblies).value;
      if w.groupByAssembly {
        BalancedEmpty(step);
      } else {
        ContentsBalanced(step, w, ts, AllListedTypes(w, assemblies));
      }
      var contents := TrailingContents(w, ts, assemblies).value;
      BalancedAround(step, [StartDocument], listed, contents, [EndDocument]);
      assert r.value == [StartDocument] + listed + contents + [EndDocument];
      Framed([StartDocument], listed, contents, [EndDocument]);
    }
  }

  /** The text writer never decreases its depth below zero while writing a
      document, and ends at the depth it started from. */
  lemma DocumentKeepsDepth(w: Writer, ts: seq<SymbolHierarchy.TypeInfo>, assemblies: seq<AssemblyDef>, depth: nat)
    requires SymbolHierarchy.WellFormed(ts) && InGraph(ts, assemblies)
    ensures var r := WriteDocument(w, ts, assemblies);
      r.Ok? ==> Run(TextWriter.DepthStep, r.value, depth) == Some(depth)
  {
    TextWriter.DepthIsSound();
    DocumentBalanced(TextWriter.DepthStep, w, ts, assemblies);
    assert From(depth);
  }

  /** Every End call of a document closes the bracket its own Start call
      opened, and nothing stays open. */
  lemma DocumentNests(w: Writer, ts: seq<SymbolHierarchy.TypeInfo>, assemblies: seq<AssemblyDef>)
    requires SymbolHierarchy.WellFormed(ts) && InGraph(ts, assemblies)
    ensures var r := WriteDocument(w, ts, assemblies); r.Ok? ==> Run(Nest, r.value, []) == Some([])
  {
    NestIsSound();
    DocumentBalanced(Nest, w, ts, assemblies);
    assert From<seq<Bracket>>([]);
  }

  /* ---------------- what the document lists ---------------- */

  predicate AttributeEvent(e: Event)
  {
    e.StartAttributes? || e.EndAttributes? || e.StartAttribute? || e.AttributeDefinition? || e.EndAttribute?
    || e.AttributeSeparator?
  }

  /** The events of a layout's contents: namespaces, types and members. */
  predicate ContentEvent(e: Event)
  {
    e.StartNamespaces? || e.EndNamespaces? || NamespaceWriter.NamespaceEvent(e)
  }

  lemma AttributesEvents(attributes: seq<Attribute>, ofAssembly: bool)
    ensures forall e :: e in WriteAttributes(attributes, ofAssembly) ==> AttributeEvent(e)
  {
    var shown := ShownAttributes(attributes);
    if |shown| > 0 {
      var blocks := AttributeBlocks(shown, ofAssembly);
      forall i | 0 <= i < |blocks| ensures forall e :: e in blocks[i] ==> AttributeEvent(e) {
        assert blocks[i] == AttributeBlock(shown[i], ofAssembly);
      }
      JoinEvents(blocks, [AttributeSeparator(ofAssembly)], AttributeEvent);
      AroundEvents(StartAttributes(ofAssembly), Join(blocks, [AttributeSeparator(ofAssembly)]), EndAttributes(ofAssembly), AttributeEvent);
    }
  }

  lemma ContentsEvents(w: Writer, ts: seq<SymbolHierarchy.TypeInfo>, types: seq<TypeDef>)
    requires SymbolHierarchy.WellFormed(ts) && SymbolHierarchy.InArena(ts, HierarchyWriter.TypeIds(types))
    ensures var r := Contents(w, ts, types); r.Ok? ==> forall e :: e in r.value ==> ContentEvent(e)
  {
    if w.format.layout == ListFormat.TypeHierarchy {
      var h := SymbolHierarchy.Create(ts, HierarchyWriter.TypeIds(types));
      if h.Ok? {
        var r := HierarchyWriter.WriteHierarchy(w, types, h.value);
        HierarchyWriter.WriteHierarchyEvents(w, types, h.value);
        assert Contents(w, ts, types) == Ok(r);
        forall e | e in r ensures ContentEvent(e) {
          assert TypeEvent(e);
        }
      }
    } else {
      var body := if w.format.layout == ListFormat.NamespaceHierarchy
        then NamespaceWriter.WriteNamespaceHierarchy(w, types)
        else NamespaceWriter.NamespaceList(w, types);
      if w.format.layout == ListFormat.NamespaceHierarchy {
        NamespaceWriter.NamespaceHierarchyEvents(w, types);
      } else {
        NamespaceWriter.NamespaceListEvents(w, types);
      }
      assert forall e :: e in body ==> ContentEvent(e);
      AroundEvents(StartNamespaces, body, EndNamespaces, ContentEvent);
      assert Contents(w, ts, types) == Ok([StartNamespaces] + body + [EndNamespaces]);
    }
  }

  function AssemblyShown(e: Event): Option<nat>
  {
    if e.AssemblyDefinition? then Some(e.assembly) else None
  }

  function AssemblyIds(assemblies: seq<AssemblyDef>): (r: seq<nat>)
    ensures |r| == |assemblies| && forall i :: 0 <= i < |r| ==> r[i] == assemblies[i].id
  {
    seq(|assemblies|, i requires 0 <= i < |assemblies| => assemblies[i].id)
  }

  /** The attributes listed for an assembly: its shown attributes when the
      format includes assembly attributes, none otherwise. */
  function ListedAttributeIds(w: Writer, a: AssemblyDef): seq<nat>
  {
    if ListFormat.AssemblyAttributes in w.format.parts then AttributeIds(ShownAttributes(a.attributes)) else []
  }

  lemma FramePicks<T>(a: nat, attributes: seq<Event>, contents: seq<Event>, f: Event -> Option<T>)
    requires f(StartAssembly(a)).None? && f(EndAssembly(a)).None?
    ensures Pick(AssemblyFrame(a, attributes, contents), f)
      == (if f(AssemblyDefinition(a)).Some? then [f(AssemblyDefinition(a)).value] else []) + Pick(attributes, f) + Pick(contents, f)
  {
    var body := attributes + contents;
    assert AssemblyFrame(a, attributes, contents) == [StartAssembly(a)] + ([AssemblyDefinition(a)] + body) + [EndAssembly(a)];
    PickBetween(StartAssembly(a), [AssemblyDefinition(a)] + body, EndAssembly(a), f);
    PickAppend([AssemblyDefinition(a)], body, f);
    PickOne(AssemblyDefinition(a), f);
    PickAppend(attributes, contents, f);
  }

  /** One assembly block shows its assembly once, no separator, and the
      attributes listed for it. */
  lemma AssemblyBlockShows(w: Writer, ts: seq<SymbolHierarchy.TypeInfo>, a: AssemblyDef)
    requires SymbolHierarchy.WellFormed(ts) && SymbolHierarchy.InArena(ts, HierarchyWriter.TypeIds(ListedTypes(w, a)))
    ensures var r := AssemblyBlock(w, ts, a);
      r.Ok? ==>
        && Pick(r.value, AssemblyShown) == [a.id]
        && Pick(r.value, AttributeShown) == ListedAttributeIds(w, a)
        && AssemblySeparator !in r.value
  {
    var r := AssemblyBlock(w, ts, a);
    if r.Ok? {
      var attributes := AssemblyAttributeEvents(w, a);
      var contents := GroupedContents(w, ts, a);
      AssemblyAttributesListed(w, a);
      GroupedContentsEvents(w, ts, a);
      assert r.value == AssemblyFrame(a.id, attributes, contents.value);
      FrameShows(a.id, attributes, contents.value);
    }
  }

  /** What an assembly block holds between its frame: its types, when the
      listing is grouped by assembly. */
  function GroupedContents(w: Writer, ts: seq<SymbolHierarchy.TypeInfo>, a: AssemblyDef): Result<seq<Event>>
    requires SymbolHierarchy.WellFormed(ts) && SymbolHierarchy.InArena(ts, HierarchyWriter.TypeIds(ListedTypes(w, a)))
  {
    if w.groupByAssembly then Contents(w, ts, ListedTypes(w, a)) else Ok([])
  }

  lemma GroupedContentsEvents(w: Writer, ts: seq<SymbolHierarchy.TypeInfo>, a: AssemblyDef)
    requires SymbolHierarchy.WellFormed(ts) && SymbolHierarchy.InArena(ts, HierarchyWriter.TypeIds(ListedTypes(w, a)))
    ensures var r := GroupedContents(w, ts, a); r.Ok? ==> forall e :: e in r.value ==> ContentEvent(e)
  {
    if w.groupByAssembly {
      ContentsEvents(w, ts, ListedTypes(w, a));
    }
  }

  lemma AssemblyAttributesListed(w: Writer, a: AssemblyDef)
    ensures forall e :: e in AssemblyAttributeEvents(w, a) ==> AttributeEvent(e)
    ensures Pick(AssemblyAttributeEvents(w, a), AttributeShown) == ListedAttributeIds(w, a)
  {
    AttributesEvents(a.attributes, true);
    if ListFormat.AssemblyAttributes in w.format.parts {
      assert w.format.IncludesParts({ListFormat.AssemblyAttributes});
      WriteAttributesShowsEach(a.attributes, true);
    } else {
      assert !w.format.IncludesParts({ListFormat.AssemblyAttributes});
      PickNone([], AttributeShown);
    }
  }

  /** A frame around attributes and contents shows its assembly once and
      the attributes' picks. */
  lemma FrameShows(a: nat, attributes: seq<Event>, contents: seq<Event>)
    requires forall e :: e in attributes ==> AttributeEvent(e)
    requires forall e :: e in contents ==> ContentEvent(e)
    ensures Pick(AssemblyFrame(a, attributes, contents), AssemblyShown) == [a]
    ensures Pick(AssemblyFrame(a, attributes, contents), AttributeShown) == Pick(attributes, AttributeShown)
    ensures AssemblySeparator !in AssemblyFrame(a, attributes, contents)
  {
    PickNone(attributes, AssemblyShown);
    PickNone(contents, AssemblyShown);
    PickNone(contents, AttributeShown);
    FramePicks(a, attributes, contents, AssemblyShown);
    FramePicks(a, attributes, contents, AttributeShown);
    assert AssemblySeparator !in attributes + contents;
  }

  /** The listed part of the document: what `WriteAssemblies` returned. */
  lemma WriteAssembliesShows(w: Writer, ts: seq<SymbolHierarchy.TypeInfo>, assemblies: seq<AssemblyDef>)
    requires SymbolHierarchy.WellFormed(ts) && InGraph(ts, assemblies)
    ensures var r := WriteAssemblies(w, ts, assemblies);
      var sorted := SortedAssemblies(assemblies);
      r.Ok? ==>
        && Pick(r.value, AssemblyShown) == AssemblyIds(sorted)
        && Pick(r.value, AttributeShown)
           == Concat(seq(|sorted|, i requires 0 <= i < |sorted| => ListedAttributeIds(w, sorted[i])))
        && Count(AssemblySeparator, r.value) == (if |assemblies| == 0 then 0 else |assemblies| - 1)
  {
    var sorted := SortedAssemblies(assemblies);
    InSorted(assemblies, sorted);
    var results := AssemblyBlocks(w, ts, assemblies, sorted);
    var blocks := AttributeDisplay.Collect(results);
    if blocks.Ok? {
      var bs := blocks.value;
      forall i | 0 <= i < |bs|
        ensures Pick(bs[i], AssemblyShown) == [AssemblyIds(sorted)[i]]
        ensures Pick(bs[i], AttributeShown) == ListedAttributeIds(w, sorted[i])
        ensures AssemblySeparator !in bs[i]
      {
        ListedInArena(w, ts, assemblies, sorted[i]);
        AssemblyBlockShows(w, ts, sorted[i]);
        assert results[i] == AssemblyBlock(w, ts, sorted[i]);
      }
      BlocksShowAssemblies(bs, sorted);
      AssembliesAttributePicks(bs, sorted, w);
      BlocksSeparated(bs);
    }
  }

  /** The frame around the blocks shows each block's assembly in order. */
  lemma BlocksShowAssemblies(bs: seq<seq<Event>>, sorted: seq<AssemblyDef>)
    requires |bs| == |sorted|
    requires forall i :: 0 <= i < |bs| ==> Pick(bs[i], AssemblyShown) == [AssemblyIds(sorted)[i]]
    ensures Pick([StartAssemblies] + Join(bs, [AssemblySeparator]) + [EndAssemblies], AssemblyShown) == AssemblyIds(sorted)
  {
    assert AssemblyShown(StartAssemblies).None? && AssemblyShown(AssemblySeparator).None? && AssemblyShown(EndAssemblies).None?;
    WrappedJoinPicks(StartAssemblies, bs, AssemblySeparator, EndAssemblies, AssemblyShown, AssemblyIds(sorted));
  }

  /** Consecutive blocks are separated once. */
  lemma BlocksSeparated(bs: seq<seq<Event>>)
    requires forall i :: 0 <= i < |bs| ==> AssemblySeparator !in bs[i]
    ensures Count(AssemblySeparator, [StartAssemblies] + Join(bs, [AssemblySeparator]) + [EndAssemblies])
      == (if |bs| == 0 then 0 else |bs| - 1)
  {
    if |bs| > 0 {
      WrappedJoinCount(StartAssemblies, bs, AssemblySeparator, EndAssemblies);
    } else {
      assert [StartAssemblies] + Join(bs, [AssemblySeparator]) + [EndAssemblies] == [StartAssemblies, EndAssemblies];
    }
  }

  lemma {:induction false} AssembliesAttributePicks(bs: seq<seq<Event>>, sorted: seq<AssemblyDef>, w: Writer)
    requires |bs| == |sorted|
    requires forall i :: 0 <= i < |bs| ==> Pick(bs[i], AttributeShown) == ListedAttributeIds(w, sorted[i])
    ensures Pick([StartAssemblies] + Join(bs, [AssemblySeparator]) + [EndAssemblies], AttributeShown)
      == Concat(seq(|sorted|, i requires 0 <= i < |sorted| => ListedAttributeIds(w, sorted[i])))
  {
    PickOne(AssemblySeparator, AttributeShown);
    PickJoin(bs, [AssemblySeparator], AttributeShown);
    assert seq(|bs|, i requires 0 <= i < |bs| => Pick(bs[i], AttributeShown))
      == seq(|sorted|, i requires 0 <= i < |sorted| => ListedAttributeIds(w, sorted[i]));
    PickBetween(StartAssemblies, Join(bs, [AssemblySeparator]), EndAssemblies, AttributeShown);
  }

  lemma DocumentPicks<T>(listed: seq<Event>, contents: seq<Event>, f: Event -> Option<T>)
    requires f(StartDocument).None? && f(EndDocument).None? && Pick(contents, f) == []
    ensures Pick([StartDocument] + listed + contents + [EndDocument], f) == Pick(listed, f)
  {
    PickOne(StartDocument, f);
    PickOne(EndDocument, f);
    PickAppend([StartDocument], listed, f);
    PickAppend([StartDocument] + listed, contents, f);
    PickAppend([StartDocument] + listed + contents, [EndDocument], f);
  }

  /** The document lists every assembly exactly once, in name and version
      order, with one separator between each two; and the attributes it
      lists are the assemblies' own, in that order, when the format
      includes assembly attributes. */
  lemma DocumentListsAssemblies(w: Writer, ts: seq<SymbolHierarchy.TypeInfo>, assemblies: seq<AssemblyDef>)
    requires SymbolHierarchy.WellFormed(ts) && InGraph(ts, assemblies)
    ensures var r := WriteDocument(w, ts, assemblies);
      var sorted := SortedAssemblies(assemblies);
      r.Ok? ==>
        && Pick(r.value, AssemblyShown) == AssemblyIds(sorted)
        && Pick(r.value, AttributeShown)
           == Concat(seq(|sorted|, i requires 0 <= i < |sorted| => ListedAttributeIds(w, sorted[i])))
        && Count(AssemblySeparator, r.value) == (if |assemblies| == 0 then 0 else |assemblies| - 1)
  {
    var r := WriteDocument(w, ts, assemblies);
    if r.Ok? {
      WriteAssembliesShows(w, ts, assemblies);
      var listed := WriteAssemblies(w, ts, assemblies).value;
      var contents := TrailingContents(w, ts, assemblies);
      TrailingContentsEvents(w, ts, assemblies);
      assert r.value == [StartDocument] + listed + contents.value + [EndDocument];
      DocumentShows(listed, contents.value);
    }
  }

  /** What the document holds after the assemblies: all their types, when
      the listing is not grouped by assembly. */
  function TrailingContents(w: Writer, ts: seq<SymbolHierarchy.TypeInfo>, assemblies: seq<AssemblyDef>): Result<seq<Event>>
    requires SymbolHierarchy.WellFormed(ts) && InGraph(ts, assemblies)
  {
    AllListedInArena(w, ts, assemblies);
    if w.groupByAssembly then Ok([]) else Contents(w, ts, AllListedTypes(w, assemblies))
  }

  lemma TrailingContentsEvents(w: Writer, ts: seq<SymbolHierarchy.TypeInfo>, assemblies: seq<AssemblyDef>)
    requires SymbolHierarchy.WellFormed(ts) && InGraph(ts, assemblies)
    ensures var r := TrailingContents(w, ts, assemblies); r.Ok? ==> forall e :: e in r.value ==> ContentEvent(e)
  {
    AllListedInArena(w, ts, assemblies);
    if !w.groupByAssembly {
      ContentsEvents(w, ts, AllListedTypes(w, assemblies));
    }
  }

  /** Contents after the assemblies add no assembly, attribute or
      separator to them. */
  lemma DocumentShows(listed: seq<Event>, contents: seq<Event>)
    requires forall e :: e in contents ==> ContentEvent(e)
    ensures var d := [StartDocument] + listed + contents + [EndDocument];
      && Pick(d, AssemblyShown) == Pick(listed, AssemblyShown)
      && Pick(d, AttributeShown) == Pick(listed, AttributeShown)
      && Count(AssemblySeparator, d) == Count(AssemblySeparator, listed)
  {
    PickNone(contents, AssemblyShown);
    PickNone(contents, AttributeShown);
    DocumentPicks(listed, contents, AssemblyShown);
    DocumentPicks(listed, contents, AttributeShown);
    CountOne(AssemblySeparator, StartDocument);
    CountOne(AssemblySeparator, EndDocument);
    assert AssemblySeparator !in contents;
    CountAbsent(AssemblySeparator, contents);
    CountAppend(AssemblySeparator, [StartDocument], listed);
    CountAppend(AssemblySeparator, [StartDocument] + listed, contents);
    CountAppend(AssemblySeparator, [StartDocument] + listed + contents, [EndDocument]);
  }

  /* ---------------- when the document cannot be written ---------------- */

  /** The document fails exactly when the type hierarchy is the layout and
      some set of types it is built from reaches no `object` or holds a
      type twice: the namespace layouts always succeed. */
  lemma DocumentFailure(w: Writer, ts: seq<SymbolHierarchy.TypeInfo>, assemblies: seq<AssemblyDef>)
    requires SymbolHierarchy.WellFormed(ts) && InGraph(ts, assemblies)
    ensures WriteDocument(w, ts, assemblies).Err?
      <==> w.format.layout == ListFormat.TypeHierarchy
           && if w.groupByAssembly
              then exists a :: a in assemblies && HierarchyFails(ts, ListedTypes(w, a))
              else HierarchyFails(ts, AllListedTypes(w, assemblies))
  {
    AssembliesFailure(w, ts, assemblies);
    TrailingFailure(w, ts, assemblies);
  }

  /** The assemblies fail exactly when they are grouped, the layout is the
      type hierarchy and the types of one of them have no hierarchy. */
  lemma AssembliesFailure(w: Writer, ts: seq<SymbolHierarchy.TypeInfo>, assemblies: seq<AssemblyDef>)
    requires SymbolHierarchy.WellFormed(ts) && InGraph(ts, assemblies)
    ensures WriteAssemblies(w, ts, assemblies).Err?
      <==> w.groupByAssembly && w.format.layout == ListFormat.TypeHierarchy
           && exists a :: a in assemblies && HierarchyFails(ts, ListedTypes(w, a))
  {
    if WriteAssemblies(w, ts, assemblies).Err? {
      FailureHasCause(w, ts, assemblies);
    }
    if w.groupByAssembly && w.format.layout == ListFormat.TypeHierarchy
       && exists a :: a in assemblies && HierarchyFails(ts, ListedTypes(w, a)) {
      var a :| a in assemblies && HierarchyFails(ts, ListedTypes(w, a));
      CauseFails(w, ts, assemblies, a);
    }
  }

  /** A failed listing failed at an assembly whose hierarchy fails. */
  lemma FailureHasCause(w: Writer, ts: seq<SymbolHierarchy.TypeInfo>, assemblies: seq<AssemblyDef>)
    requires SymbolHierarchy.WellFormed(ts) && InGraph(ts, assemblies)
    requires WriteAssemblies(w, ts, assemblies).Err?
    ensures w.groupByAssembly && w.format.layout == ListFormat.TypeHierarchy
    ensures exists a :: a in assemblies && HierarchyFails(ts, ListedTypes(w, a))
  {
    var sorted := SortedAssemblies(assemblies);
    InSorted(assemblies, sorted);
    var results := AssemblyBlocks(w, ts, assemblies, sorted);
    assert AttributeDisplay.Collect(results).Err?;
    var i :| 0 <= i < |results| && results[i].Err?;
    ListedInArena(w, ts, assemblies, sorted[i]);
    assert results[i] == AssemblyBlock(w, ts, sorted[i]);
    BlockFailure(w, ts, sorted[i]);
    assert sorted[i] in assemblies;
  }

  /** An assembly whose hierarchy fails makes a grouped type hierarchy
      fail. */
  lemma CauseFails(w: Writer, ts: seq<SymbolHierarchy.TypeInfo>, assemblies: seq<AssemblyDef>, a: AssemblyDef)
    requires SymbolHierarchy.WellFormed(ts) && InGraph(ts, assemblies)
    requires w.groupByAssembly && w.format.layout == ListFormat.TypeHierarchy
    requires a in assemblies && HierarchyFails(ts, ListedTypes(w, a))
    ensures WriteAssemblies(w, ts, assemblies).Err?
  {
    var sorted := SortedAssemblies(assemblies);
    InSorted(assemblies, sorted);
    var results := AssemblyBlocks(w, ts, assemblies, sorted);
    assert a in multiset(sorted);
    var i :| 0 <= i < |sorted| && sorted[i] == a;
    ListedInArena(w, ts, assemblies, a);
    assert results[i] == AssemblyBlock(w, ts, a);
    BlockFailure(w, ts, a);
    assert AttributeDisplay.Collect(results).Err?;
  }

  lemma BlockFailure(w: Writer, ts: seq<SymbolHierarchy.TypeInfo>, a: AssemblyDef)
    requires SymbolHierarchy.WellFormed(ts) && SymbolHierarchy.InArena(ts, HierarchyWriter.TypeIds(ListedTypes(w, a)))
    ensures AssemblyBlock(w, ts, a).Err?
      <==> w.groupByAssembly && w.format.layout == ListFormat.TypeHierarchy && HierarchyFails(ts, ListedTypes(w, a))
  {
  }

  lemma TrailingFailure(w: Writer, ts: seq<SymbolHierarchy.TypeInfo>, assemblies: seq<AssemblyDef>)
    requires SymbolHierarchy.WellFormed(ts) && InGraph(ts, assemblies)
    ensures TrailingContents(w, ts, assemblies).Err?
      <==> !w.groupByAssembly && w.format.layout == ListFormat.TypeHierarchy && HierarchyFails(ts, AllListedTypes(w, assemblies))
  {
    AllListedInArena(w, ts, assemblies);
  }

  /** The hierarchy of these types cannot be built. */
  ghost predicate HierarchyFails(ts: seq<SymbolHierarchy.TypeInfo>, types: seq<TypeDef>)
  {
    SymbolHierarchy.WellFormed(ts) && SymbolHierarchy.InArena(ts, HierarchyWriter.TypeIds(types))
    && SymbolHierarchy.Create(ts, HierarchyWriter.TypeIds(types)).Err?
  }
}

=== FILE: documentation_filter.dfy ===
/**
 The documentation symbol filter: boolean visibility decisions for
 namespaces, types, members and attributes.
 */
module DocumentationFilter {
  import opened Wrappers
  import opened Symbols
  import TypeKindMapping

  datatype DocumentationFilterOptions = DocumentationFilterOptions(
    visibilityFilter: set<Visibility>,
    symbolGroupFilter: set<SymbolGroup>,
    ignoredNames: Option<set<MetadataName>>,
    ignoredAttributeNames: Option<set<MetadataName>>)
  {
    predicate IncludesSymbolGroup(g: set<SymbolGroup>)
    {
      g <= symbolGroupFilter
    }

    /** `_ignoredNames?.Contains(n) == true`. */
    predicate IsIgnoredName(n: MetadataName)
    {
      ignoredNames.Some? && n in ignoredNames.value
    }
  }

  /** All visibilities, the namespace group and every type and member group. */
  const DefaultOptions: DocumentationFilterOptions :=
    DocumentationFilterOptions({Public, Internal, Private}, {SymbolGroup.Namespace} + TypeGroups + MemberGroups, None, None)

  predicate IsVisibleNamespace(o: DocumentationFilterOptions, s: Symbol)
  {
    o.IncludesSymbolGroup({SymbolGroup.Namespace}) && !o.IsIgnoredName(s.name)
  }

  /** The group lookup is reached only for a type that is not implicitly
      declared, and throws for a kind no group stands for. */
  function IsVisibleType(o: DocumentationFilterOptions, s: Symbol): Result<bool>
  {
    if s.isImplicitlyDeclared then Ok(false)
    else
      var g :- TypeKindMapping.ToSymbolGroupFilter(s.typeKind);
      Ok(o.IncludesSymbolGroup({g}) && VisibleUnder(s, o.visibilityFilter) && !o.IsIgnoredName(s.name))
  }

  function IsVisibleMember(o: DocumentationFilterOptions, s: Symbol): bool
  {
    var visibleAs := (canBeImplicitlyDeclared: bool) =>
      (canBeImplicitlyDeclared || !s.isImplicitlyDeclared) && VisibleUnder(s, o.visibilityFilter);
    match s.kind
    case Event => o.IncludesSymbolGroup({SymbolGroup.Event}) && visibleAs(false)
    case Field =>
      if s.isConst && !o.IncludesSymbolGroup({SymbolGroup.Const}) then false
      else if s.isConst && !o.IncludesSymbolGroup({SymbolGroup.Field}) then false
      else visibleAs(false)
    case Property =>
      if s.isIndexer && !o.IncludesSymbolGroup({SymbolGroup.Indexer}) then false
      else if s.isIndexer && !o.IncludesSymbolGroup({SymbolGroup.Property}) then false
      else visibleAs(false)
    case Method =>
      if !o.IncludesSymbolGroup({SymbolGroup.Method}) then false
      else
        (match s.methodKind
        case Constructor =>
          if s.containingTypeKind == Some(TypeKind.Class) then visibleAs(s.parameterCount == 0)
          else if s.containingTypeKind == Some(TypeKind.Struct) then
            (if s.parameterCount == 0 then false else visibleAs(false))
          else if s.containingTypeKind == Some(TypeKind.Enum) then false
          else visibleAs(false)
        case Conversion => visibleAs(false)
        case UserDefinedOperator => visibleAs(false)
        case Ordinary => visibleAs(false)
        case _ => false)
    case _ => false
  }

  /** The dispatch; a kind the filter does not know is let through. */
  function IsVisible(o: DocumentationFilterOptions, s: Symbol): Result<bool>
  {
    match s.kind
    case Namespace => Ok(IsVisibleNamespace(o, s))
    case NamedType => IsVisibleType(o, s)
    case Event => Ok(IsVisibleMember(o, s))
    case Field => Ok(IsVisibleMember(o, s))
    case Method => Ok(IsVisibleMember(o, s))
    case Property => Ok(IsVisibleMember(o, s))
    case _ => Ok(true)
  }

  /** `IsVisibleAttribute` without the debug-only checks. */
  predicate IsVisibleAttribute(o: DocumentationFilterOptions, attributeClass: MetadataName)
  {
    !(o.ignoredAttributeNames.Some? && attributeClass in o.ignoredAttributeNames.value)
  }

  /** The groups a member needs, independently of the order of the checks. */
  function RequiredGroups(s: Symbol): set<SymbolGroup>
  {
    match s.kind
    case Event => {SymbolGroup.Event}
    case Field => if s.isConst then {SymbolGroup.Const, SymbolGroup.Field} else {}
    case Property => if s.isIndexer then {SymbolGroup.Indexer, SymbolGroup.Property} else {}
    case Method => {SymbolGroup.Method}
    case _ => {}
  }

  /** Which methods are ever listed, and which of them may be implicit. */
  predicate IsListableMethod(s: Symbol)
  {
    && (s.methodKind.Constructor? || s.methodKind.Conversion? || s.methodKind.UserDefinedOperator? || s.methodKind.Ordinary?)
    && !(s.methodKind.Constructor? && s.containingTypeKind == Some(TypeKind.Struct) && s.parameterCount == 0)
    && !(s.methodKind.Constructor? && s.containingTypeKind == Some(TypeKind.Enum))
  }

  predicate MayBeImplicit(s: Symbol)
  {
    s.kind.Method? && s.methodKind.Constructor? && s.containingTypeKind == Some(TypeKind.Class) && s.parameterCount == 0
  }

  /** A member is shown exactly when its kind is a member kind, it has every
      group it needs, it is a listable method if it is a method, it is not
      implicitly declared unless it is a default class constructor, and it is
      visible. */
  lemma MemberVisibilityCharacterized(o: DocumentationFilterOptions, s: Symbol)
    ensures IsVisibleMember(o, s) <==>
              && (s.kind.Event? || s.kind.Field? || s.kind.Property? || s.kind.Method?)
              && RequiredGroups(s) <= o.symbolGroupFilter
              && (s.kind.Method? ==> IsListableMethod(s))
              && (!s.isImplicitlyDeclared || MayBeImplicit(s))
              && VisibleUnder(s, o.visibilityFilter)
  {
  }

  /** A named type is never a member; a non-const field and a non-indexer
      property need no group at all. */
  lemma MemberGroupExemptions(o: DocumentationFilterOptions, s: Symbol)
    ensures s.kind.NamedType? ==> !IsVisibleMember(o, s)
    ensures (s.kind.Field? && !s.isConst && !s.isImplicitlyDeclared && VisibleUnder(s, o.visibilityFilter))
              ==> IsVisibleMember(o, s)
    ensures (s.kind.Property? && !s.isIndexer && !s.isImplicitlyDeclared && VisibleUnder(s, o.visibilityFilter))
              ==> IsVisibleMember(o, s)
  {
  }

  /** Explicit interface implementations, static constructors, destructors
      and accessors are never shown, and neither are enum constructors or
      parameterless struct constructors. */
  lemma RejectedMethods(o: DocumentationFilterOptions, s: Symbol)
    requires s.kind.Method?
    requires || s.methodKind.ExplicitInterfaceImplementation? || s.methodKind.StaticConstructor?
             || s.methodKind.Destructor? || s.methodKind.EventAdd? || s.methodKind.EventRaise?
             || s.methodKind.EventRemove? || s.methodKind.PropertyGet? || s.methodKind.PropertySet?
             || (s.methodKind.Constructor? && s.containingTypeKind == Some(TypeKind.Enum))
             || (s.methodKind.Constructor? && s.containingTypeKind == Some(TypeKind.Struct) && s.parameterCount == 0)
    ensures !IsVisibleMember(o, s)
  {
  }

  /** A type is shown exactly when it is not implicitly declared, its kind's
      group is included, it is visible and it is not ignored; namespaces need
      their group and must not be ignored. */
  lemma TypeAndNamespaceVisibility(o: DocumentationFilterOptions, s: Symbol)
    ensures IsVisibleType(o, s) == Ok(true) <==>
              && !s.isImplicitlyDeclared
              && TypeKindMapping.IsDeclarableKind(s.typeKind)
              && TypeKindMapping.ToSymbolGroupFilter(s.typeKind).value in o.symbolGroupFilter
              && VisibleUnder(s, o.visibilityFilter)
              && !o.IsIgnoredName(s.name)
    ensures IsVisibleType(o, s).Err? <==> !s.isImplicitlyDeclared && !TypeKindMapping.IsDeclarableKind(s.typeKind)
    ensures IsVisibleNamespace(o, s) <==> SymbolGroup.Namespace in o.symbolGroupFilter && !o.IsIgnoredName(s.name)
  {
  }

  /** The dispatch throws only where the type check does, and lets a kind
      it does not know through. */
  lemma VisibilityDispatch(o: DocumentationFilterOptions, s: Symbol)
    ensures IsVisible(o, s).Err? <==>
              s.kind.NamedType? && !s.isImplicitlyDeclared && !TypeKindMapping.IsDeclarableKind(s.typeKind)
    ensures (s.kind.Assembly? || s.kind.Parameter? || s.kind.TypeParameter? || s.kind.Local?) ==> IsVisible(o, s) == Ok(true)
    ensures (s.kind.Event? || s.kind.Field? || s.kind.Method? || s.kind.Property?) ==> IsVisible(o, s) == Ok(IsVisibleMember(o, s))
  {
  }

  /** More groups and visibilities never hide a member that was shown. */
  lemma {:induction false} MemberVisibilityIsMonotone(o: DocumentationFilterOptions, p: DocumentationFilterOptions, s: Symbol)
    requires o.symbolGroupFilter <= p.symbolGroupFilter
    requires o.visibilityFilter <= p.visibilityFilter
    requires IsVisibleMember(o, s)
    ensures IsVisibleMember(p, s)
  {
    MemberVisibilityCharacterized(o, s);
    MemberVisibilityCharacterized(p, s);
  }

  /** In release builds an attribute is hidden exactly when it is among the
      ignored attribute names. */
  lemma AttributeVisibility(o: DocumentationFilterOptions, a: MetadataName)
    ensures !IsVisibleAttribute(o, a) <==> o.ignoredAttributeNames.Some? && a in o.ignoredAttributeNames.value
  {
  }
}

=== FILE: filter_rules.dfy ===
/**
 Filter outcomes, the individual filter rules, and the rule chain that
 reports the outcome of the first rule a symbol (or attribute) fails.
 */
module FilterRules {
  import opened Symbols

  /** The outcome of filtering. `WithAttibute` and `WithoutAttibute` (spelled
      as in the rules that return them) are the outcomes of the two
      attribute-presence rules; the outcome enumeration itself does not
      declare them. */
  datatype SymbolFilterResult =
    | Success
    | NotVisible
    | UnsupportedSymbolGroup
    | Ignored
    | HasAttribute
    | HasNotAttribute
    | ImplicitlyDeclared
    | Other
    | WithAttibute
    | WithoutAttibute

  /** Whether some attribute in `attrs` has a class in `names`: the loop of
      the with-attribute rule, which returns on the first match. */
  function HasAttributeIn(attrs: seq<AttributeData>, names: set<MetadataName>): (r: bool)
    ensures r <==> exists i :: 0 <= i < |attrs| && attrs[i].attributeClass in names
  {
    if |attrs| == 0 then false
    else if attrs[0].attributeClass in names then true
    else
      var rest := HasAttributeIn(attrs[1..], names);
      assert forall i :: 1 <= i < |attrs| ==> attrs[i] == attrs[1..][i - 1];
      rest
  }

  /** A rule over symbols. */
  datatype SymbolRule =
    | IgnoredNameRule(metadataNames: set<MetadataName>)
    | WithAttributeRule(attributes: set<MetadataName>)
    | WithoutAttributeRule(attributes: set<MetadataName>)
    | PredicateRule(test: Symbol -> bool, result: SymbolFilterResult)
  {
    function Result(): SymbolFilterResult
    {
      match this
      case IgnoredNameRule(_) => Ignored
      case WithAttributeRule(_) => WithAttibute
      case WithoutAttributeRule(_) => WithoutAttibute
      case PredicateRule(_, result) => result
    }

    predicate IsSuccess(s: Symbol)
    {
      match this
      case IgnoredNameRule(names) =>
        if ContainsName(names, s.containingNamespace) then false
        else if s.kind.Namespace? || s.kind.NamedType? then s.name !in names
        else true
      case WithAttributeRule(names) => HasAttributeIn(s.attributes, names)
      case WithoutAttributeRule(names) => !HasAttributeIn(s.attributes, names)
      case PredicateRule(p, _) => p(s)
    }
  }

  /** A rule over attributes. */
  datatype AttributeRule = IgnoredAttributeNameRule(metadataNames: set<MetadataName>)
  {
    function Result(): SymbolFilterResult { Ignored }

    predicate IsSuccess(a: AttributeData) { a.attributeClass !in metadataNames }
  }

  function SetOf(values: seq<MetadataName>): (r: set<MetadataName>)
    ensures forall n :: n in r <==> n in values
  {
    set i | 0 <= i < |values| :: values[i]
  }

  /** The constructors, which build a name set from the given names. */
  function NewIgnoredNameRule(values: seq<MetadataName>): SymbolRule { IgnoredNameRule(SetOf(values)) }

  function NewWithAttributeRule(names: seq<MetadataName>): SymbolRule { WithAttributeRule(SetOf(names)) }

  function NewWithoutAttributeRule(names: seq<MetadataName>): SymbolRule { WithoutAttributeRule(SetOf(names)) }

  function NewPredicateRule(test: Symbol -> bool, result: SymbolFilterResult): SymbolRule
  {
    PredicateRule(test, result)
  }

  function NewIgnoredAttributeNameRule(values: seq<MetadataName>): AttributeRule
  {
    IgnoredAttributeNameRule(SetOf(values))
  }

  /** A predicate rule with the negated predicate and the same outcome. */
  function Invert(rule: SymbolRule): (r: SymbolRule)
    requires rule.PredicateRule?
    ensures r.PredicateRule?
    ensures r.Result() == rule.Result()
    ensures forall s :: r.IsSuccess(s) == !rule.IsSuccess(s)
  {
    PredicateRule(s => !rule.test(s), rule.result)
  }

  /** The first-failure chain over any kind of rule: the outcome of the
      first rule that `x` fails, or `Success` when it passes all of them. */
  function Chain<R, X>(rules: seq<R>, x: X, ok: (R, X) -> bool, outcome: R -> SymbolFilterResult): (r: SymbolFilterResult)
    ensures (forall i :: 0 <= i < |rules| ==> ok(rules[i], x)) ==> r == Success
    ensures forall k :: 0 <= k < |rules| && !ok(rules[k], x) && (forall j :: 0 <= j < k ==> ok(rules[j], x))
                        ==> r == outcome(rules[k])
  {
    if |rules| == 0 then Success
    else if !ok(rules[0], x) then outcome(rules[0])
    else
      var tail := rules[1..];
      var rest := Chain(tail, x, ok, outcome);
      assert forall k :: 1 <= k < |rules| && !ok(rules[k], x) && (forall j :: 0 <= j < k ==> ok(rules[j], x))
                        ==> rest == outcome(rules[k]) by {
        forall k | 1 <= k < |rules| && !ok(rules[k], x) && (forall j :: 0 <= j < k ==> ok(rules[j], x))
          ensures rest == outcome(rules[k])
        {
          assert tail[k - 1] == rules[k];
          assert forall j :: 0 <= j < k - 1 ==> tail[j] == rules[j + 1];
        }
      }
      assert (forall i :: 0 <= i < |rules| ==> ok(rules[i], x)) ==> forall i :: 0 <= i < |tail| ==> ok(tail[i], x) by {
        assert forall i :: 0 <= i < |tail| ==> tail[i] == rules[i + 1];
      }
      rest
  }

  /** The chain over symbol rules. */
  function GetResult(s: Symbol, rules: seq<SymbolRule>): (r: SymbolFilterResult)
    ensures (forall i :: 0 <= i < |rules| ==> rules[i].IsSuccess(s)) ==> r == Success
    ensures forall k :: 0 <= k < |rules| && !rules[k].IsSuccess(s) && (forall j :: 0 <= j < k ==> rules[j].IsSuccess(s))
                        ==> r == rules[k].Result()
  {
    Chain(rules, s, (rule: SymbolRule, x: Symbol) => rule.IsSuccess(x), (rule: SymbolRule) => rule.Result())
  }

  /** The chain over attribute rules. */
  function GetAttributeResult(a: AttributeData, rules: seq<AttributeRule>): (r: SymbolFilterResult)
    ensures (forall i :: 0 <= i < |rules| ==> rules[i].IsSuccess(a)) ==> r == Success
    ensures forall k :: 0 <= k < |rules| && !rules[k].IsSuccess(a) && (forall j :: 0 <= j < k ==> rules[j].IsSuccess(a))
                        ==> r == rules[k].Result()
  {
    Chain(rules, a, (rule: AttributeRule, x: AttributeData) => rule.IsSuccess(x), (rule: AttributeRule) => rule.Result())
  }

  /** Rules after the first failing one are never consulted. */
  lemma {:induction false} ChainIgnoresRulesAfterFailure<R, X>(
    prefix: seq<R>, suffix: seq<R>, x: X, ok: (R, X) -> bool, outcome: R -> SymbolFilterResult)
    requires exists i :: 0 <= i < |prefix| && !ok(prefix[i], x)
    ensures Chain(prefix + suffix, x, ok, outcome) == Chain(prefix, x, ok, outcome)
  {
    if ok(prefix[0], x) {
      var i :| 0 <= i < |prefix| && !ok(prefix[i], x);
      assert i > 0 && prefix[1..][i - 1] == prefix[i];
      assert (prefix + suffix)[1..] == prefix[1..] + suffix;
      ChainIgnoresRulesAfterFailure(prefix[1..], suffix, x, ok, outcome);
    }
  }

  /** A non-success outcome is the outcome of one of the rules. */
  lemma {:induction false} ChainOutcomeComesFromARule<R, X>(
    rules: seq<R>, x: X, ok: (R, X) -> bool, outcome: R -> SymbolFilterResult)
    ensures Chain(rules, x, ok, outcome) != Success ==>
              exists i :: 0 <= i < |rules| && !ok(rules[i], x) && Chain(rules, x, ok, outcome) == outcome(rules[i])
  {
    if |rules| > 0 && ok(rules[0], x) {
      ChainOutcomeComesFromARule(rules[1..], x, ok, outcome);
      var r := Chain(rules[1..], x, ok, outcome);
      if r != Success {
        var i :| 0 <= i < |rules[1..]| && !ok(rules[1..][i], x) && r == outcome(rules[1..][i]);
        assert rules[i + 1] == rules[1..][i];
      }
    }
  }

  lemma SymbolChainIgnoresRulesAfterFailure(s: Symbol, prefix: seq<SymbolRule>, suffix: seq<SymbolRule>)
    requires exists i :: 0 <= i < |prefix| && !prefix[i].IsSuccess(s)
    ensures GetResult(s, prefix + suffix) == GetResult(s, prefix)
  {
    ChainIgnoresRulesAfterFailure(prefix, suffix, s,
      (rule: SymbolRule, x: Symbol) => rule.IsSuccess(x), (rule: SymbolRule) => rule.Result());
  }

  lemma SymbolChainOutcomeComesFromARule(s: Symbol, rules: seq<SymbolRule>)
    ensures GetResult(s, rules) != Success ==>
              exists i :: 0 <= i < |rules| && !rules[i].IsSuccess(s) && GetResult(s, rules) == rules[i].Result()
  {
    ChainOutcomeComesFromARule(rules, s,
      (rule: SymbolRule, x: Symbol) => rule.IsSuccess(x), (rule: SymbolRule) => rule.Result());
  }

  lemma AttributeChainIgnoresRulesAfterFailure(a: AttributeData, prefix: seq<AttributeRule>, suffix: seq<AttributeRule>)
    requires exists i :: 0 <= i < |prefix| && !prefix[i].IsSuccess(a)
    ensures GetAttributeResult(a, prefix + suffix) == GetAttributeResult(a, prefix)
  {
    ChainIgnoresRulesAfterFailure(prefix, suffix, a,
      (rule: AttributeRule, x: AttributeData) => rule.IsSuccess(x), (rule: AttributeRule) => rule.Result());
  }

  /** The ignored-name rule rejects on the containing namespace for every
      kind, on the symbol's own name only for namespaces and types, and
      accepts otherwise. */
  lemma IgnoredNameRuleDecision(names: set<MetadataName>, s: Symbol)
    ensures IgnoredNameRule(names).Result() == Ignored
    ensures ContainsName(names, s.containingNamespace) ==> !IgnoredNameRule(names).IsSuccess(s)
    ensures (s.kind.Namespace? || s.kind.NamedType?) && s.name in names ==> !IgnoredNameRule(names).IsSuccess(s)
    ensures (!ContainsName(names, s.containingNamespace) && !(s.kind.Namespace? || s.kind.NamedType?))
              ==> IgnoredNameRule(names).IsSuccess(s)
  {
  }

  /** Events, fields, methods and properties are never rejected on their own
      name: renaming such a symbol does not change the rule's decision. */
  lemma IgnoredNameRuleIgnoresMemberName(names: set<MetadataName>, s: Symbol, newName: MetadataName)
    requires s.kind.Event? || s.kind.Field? || s.kind.Method? || s.kind.Property?
    ensures IgnoredNameRule(names).IsSuccess(s.(name := newName)) == IgnoredNameRule(names).IsSuccess(s)
  {
  }

  /** The ignored-attribute rule looks at the attribute class only, and an
      empty name set lets every attribute through. */
  lemma IgnoredAttributeRuleDependsOnClassOnly(names: set<MetadataName>, a: AttributeData, b: AttributeData)
    requires a.attributeClass == b.attributeClass
    ensures IgnoredAttributeNameRule(names).IsSuccess(a) == IgnoredAttributeNameRule(names).IsSuccess(b)
    ensures IgnoredAttributeNameRule({}).IsSuccess(a)
    ensures IgnoredAttributeNameRule(names).Result() == Ignored
  {
  }

  /** The with-attribute test depends only on the set of attribute classes,
      so neither order nor duplicates matter; no attributes or no names
      means failure. */
  lemma {:induction false} WithAttributeRuleIsExistential(names: set<MetadataName>, s: Symbol, t: Symbol)
    requires AttributeClasses(s.attributes) == AttributeClasses(t.attributes)
    ensures WithAttributeRule(names).IsSuccess(s) == WithAttributeRule(names).IsSuccess(t)
    ensures |s.attributes| == 0 ==> !WithAttributeRule(names).IsSuccess(s)
    ensures !WithAttributeRule({}).IsSuccess(s)
  {
    if WithAttributeRule(names).IsSuccess(s) {
      var i :| 0 <= i < |s.attributes| && s.attributes[i].attributeClass in names;
      assert s.attributes[i].attributeClass in AttributeClasses(t.attributes);
    }
    if WithAttributeRule(names).IsSuccess(t) {
      var i :| 0 <= i < |t.attributes| && t.attributes[i].attributeClass in names;
      assert t.attributes[i].attributeClass in AttributeClasses(s.attributes);
    }
  }

  /** The without-attribute rule is built on the same name set and succeeds
      exactly when the with-attribute rule fails; a symbol without
      attributes passes it. */
  lemma WithoutIsNegationOfWith(names: seq<MetadataName>, s: Symbol)
    ensures NewWithoutAttributeRule(names).IsSuccess(s) == !NewWithAttributeRule(names).IsSuccess(s)
    ensures NewWithoutAttributeRule(names).attributes == NewWithAttributeRule(names).attributes
    ensures |s.attributes| == 0 ==> NewWithoutAttributeRule(names).IsSuccess(s)
    ensures NewWithoutAttributeRule(names).Result() == WithoutAttibute
    ensures NewWithAttributeRule(names).Result() == WithAttibute
  {
  }

  /** A predicate rule decides by its predicate and reports the outcome it
      was built with; inverting twice gives back the same decisions. */
  lemma PredicateRuleInversion(p: Symbol -> bool, result: SymbolFilterResult, s: Symbol)
    ensures NewPredicateRule(p, result).IsSuccess(s) == p(s)
    ensures NewPredicateRule(p, result).Result() == result
    ensures Invert(Invert(NewPredicateRule(p, result))).IsSuccess(s) == p(s)
    ensures Invert(Invert(NewPredicateRule(p, result))).Result() == result
  {
  }
}

=== FILE: list_writer.dfy ===
/**
 The plain-text definition list writer: which types and members it lists,
 the calls it makes on its text writer, and the pending-indentation state
 those calls drive.

 A listing is modelled in two steps. The traversal produces a sequence of
 writer calls (`Call`): a string, a line break, a run of display parts, and
 the begin/end of a type's contents. `Exec` then replays the calls on the
 writer's state (pending indentation, indentation level, output so far).
 */
module ListWriter {
  import opened Wrappers
  import opened Sequences
  import opened Parts
  import opened Symbols
  import opened ListOptions
  import DocumentationFilter
  import TextWriter

  /* ---------------- which symbols are listed ---------------- */

  /** One of the ignored names matches the type's metadata name. */
  predicate Ignored(o: DefinitionListOptions, n: MetadataName)
  {
    exists i :: 0 <= i < |o.ignoredMetadataNames| && Matches(o.ignoredMetadataNames[i], n)
  }

  /** `IsVisibleType`, with `ShouldBeIgnored` as the options compute it. */
  method IsVisibleType(o: DefinitionListOptions, t: Symbol) returns (visible: bool)
    ensures visible <==> !t.isImplicitlyDeclared && VisibleAtLeast(t, o.visibility) && !Ignored(o, t.name)
  {
    if t.isImplicitlyDeclared || !VisibleAtLeast(t, o.visibility) {
      return false;
    }
    var ignored := ShouldBeIgnored(o, t.name);
    visible := !ignored;
  }

  /** The type filter the traversal applies. */
  predicate TypeListed(o: DefinitionListOptions, t: Symbol)
  {
    !t.isImplicitlyDeclared && VisibleAtLeast(t, o.visibility) && !Ignored(o, t.name)
  }

  /** `IsVisibleMember`: visibility first, then the kind. */
  predicate IsVisibleMember(o: DefinitionListOptions, s: Symbol)
  {
    if !VisibleAtLeast(s, o.visibility) then false
    else
      match s.kind
      case Event => !s.isImplicitlyDeclared
      case Field => !s.isImplicitlyDeclared
      case Property => !s.isImplicitlyDeclared
      case Method =>
        (match s.methodKind
         case Constructor =>
           if s.containingTypeKind == Some(TypeKind.Class) && s.parameterCount == 0 then true
           else if s.containingTypeKind == Some(TypeKind.Struct) && s.parameterCount == 0 then false
           else !s.isImplicitlyDeclared
         case Conversion => !s.isImplicitlyDeclared
         case UserDefinedOperator => !s.isImplicitlyDeclared
         case Ordinary => !s.isImplicitlyDeclared
         case _ => false)
      case _ => false
  }

  /** The methods the list writer can show at all. */
  predicate ListableMethod(s: Symbol)
  {
    && (s.methodKind.Constructor? || s.methodKind.Conversion? || s.methodKind.UserDefinedOperator? || s.methodKind.Ordinary?)
    && !(s.methodKind.Constructor? && s.containingTypeKind == Some(TypeKind.Struct) && s.parameterCount == 0)
  }

  /** A member is listed exactly when it is visible, it is an event, field,
      property or listable method, and it is not implicitly declared unless
      it is the parameterless constructor of a class. */
  lemma MemberVisibility(o: DefinitionListOptions, s: Symbol)
    ensures IsVisibleMember(o, s) <==>
              && VisibleAtLeast(s, o.visibility)
              && (s.kind.Event? || s.kind.Field? || s.kind.Property? || s.kind.Method?)
              && (s.kind.Method? ==> ListableMethod(s))
              && (!s.isImplicitlyDeclared || DocumentationFilter.MayBeImplicit(s))
  {
  }

  /** Explicit interface implementations, static constructors, destructors,
      accessors, other method kinds and symbols that are not members are
      never listed. */
  lemma HiddenMembers(o: DefinitionListOptions, s: Symbol)
    requires || !(s.kind.Event? || s.kind.Field? || s.kind.Property? || s.kind.Method?)
             || (s.kind.Method? && !(s.methodKind.Constructor? || s.methodKind.Conversion?
                                     || s.methodKind.UserDefinedOperator? || s.methodKind.Ordinary?))
    ensures !IsVisibleMember(o, s)
  {
  }

  /** Against the documentation filter with every member group and the
      visibilities at least as visible as the list's: the two agree, except
      that the list writer does not single out enum constructors. */
  lemma AgreesWithDocumentationFilter(o: DefinitionListOptions, f: DocumentationFilter.DocumentationFilterOptions, s: Symbol)
    requires MemberGroups <= f.symbolGroupFilter
    requires forall v :: v in f.visibilityFilter <==> v.Rank() >= o.visibility.Rank()
    ensures DocumentationFilter.IsVisibleMember(f, s) ==> IsVisibleMember(o, s)
    ensures (IsVisibleMember(o, s) && !DocumentationFilter.IsVisibleMember(f, s))
              ==> s.kind.Method? && s.methodKind.Constructor? && s.containingTypeKind == Some(TypeKind.Enum)
  {
    MemberVisibility(o, s);
    DocumentationFilter.MemberVisibilityCharacterized(f, s);
    assert VisibleUnder(s, f.visibilityFilter) <==> VisibleAtLeast(s, o.visibility);
    assert DocumentationFilter.RequiredGroups(s) <= MemberGroups;
  }

  /* ---------------- the writer's state ---------------- */

  /** The pending-indentation flag, the indentation level and the text
      written so far. The level is an `int`: ending type contents lowers it
      without a check in release builds. */
  datatype TextState = TextState(pending: bool, level: int, out: string)

  const Initial: TextState := TextState(false, 0, "")

  /** `s` written `n` times; nothing for `n <= 0`. */
  function Repeat(s: string, n: int): (r: string)
    ensures n <= 0 ==> r == ""
    ensures n > 0 ==> r == s + Repeat(s, n - 1)
    decreases n
  {
    if n <= 0 then "" else s + Repeat(s, n - 1)
  }

  /** `WriteIndentation`: the indentation characters once per level. */
  function Indentation(o: DefinitionListOptions, level: int): string
  {
    Repeat(o.indentChars, level)
  }

  /** `Write(string)`: a pending indentation is written first, once. */
  function Write(o: DefinitionListOptions, st: TextState, value: string): (r: TextState)
    ensures !r.pending && r.level == st.level
    ensures !st.pending ==> r.out == st.out + value
  {
    var indented := if st.pending then TextState(false, st.level, st.out + Indentation(o, st.level)) else st;
    indented.(out := indented.out + value)
  }

  /** `WriteLine()`: a line break, after which indentation is pending when
      the options indent. */
  function WriteLine(o: DefinitionListOptions, st: TextState): (r: TextState)
    ensures r.level == st.level && r.out == st.out + TextWriter.NewLine
  {
    TextState(st.pending || o.indent, st.level, st.out + TextWriter.NewLine)
  }

  /** `Write(parts)`: each part's text; a line-break part makes indentation
      pending when the options indent. */
  function WriteParts(o: DefinitionListOptions, st: TextState, parts: seq<Part>): (r: TextState)
    ensures r.level == st.level
    decreases |parts|
  {
    if |parts| == 0 then st
    else
      var written := Write(o, st, parts[0].text);
      var next := if parts[0].kind == LineBreak && o.indent then written.(pending := true) else written;
      WriteParts(o, next, parts[1..])
  }

  /** `BeginTypeContent`: a line break, then one level deeper. */
  function BeginTypeContent(o: DefinitionListOptions, st: TextState): (r: TextState)
    ensures r.level == st.level + 1
  {
    var broken := WriteLine(o, st);
    broken.(level := broken.level + 1)
  }

  /** `EndTypeContent`: one level up. */
  function EndTypeContent(st: TextState): (r: TextState)
    ensures r.level == st.level - 1
  {
    st.(level := st.level - 1)
  }

  /* ---------------- writer calls ---------------- */

  datatype Call =
    | Str(value: string)
    | Line
    | Display(parts: seq<Part>)
    | Begin
    | End

  function Step(o: DefinitionListOptions, st: TextState, c: Call): TextState
  {
    match c
    case Str(v) => Write(o, st, v)
    case Line => WriteLine(o, st)
    case Display(ps) => WriteParts(o, st, ps)
    case Begin => BeginTypeContent(o, st)
    case End => EndTypeContent(st)
  }

  function Exec(o: DefinitionListOptions, st: TextState, cs: seq<Call>): TextState
    decreases |cs|
  {
    if |cs| == 0 then st else Exec(o, Step(o, st, cs[0]), cs[1..])
  }

  lemma {:induction false} ExecAppend(o: DefinitionListOptions, st: TextState, a: seq<Call>, b: seq<Call>)
    ensures Exec(o, st, a + b) == Exec(o, Exec(o, st, a), b)
    decreases |a|
  {
    if |a| == 0 {
      assert a + b == b;
    } else {
      assert (a + b)[0] == a[0];
      assert (a + b)[1..] == a[1..] + b;
      ExecAppend(o, Step(o, st, a[0]), a[1..], b);
    }
  }

  /* ---------------- indentation ---------------- */

  /** The texts of the parts, one after the other. */
  function PartsText(parts: seq<Part>): string
    decreases |parts|
  {
    if |parts| == 0 then "" else parts[0].text + PartsText(parts[1..])
  }

  /** What a call writes when nothing is indented. */
  function CallText(c: Call): string
  {
    match c
    case Str(v) => v
    case Line => TextWriter.NewLine
    case Display(ps) => PartsText(ps)
    case Begin => TextWriter.NewLine
    case End => ""
  }

  function PlainText(cs: seq<Call>): string
    decreases |cs|
  {
    if |cs| == 0 then "" else CallText(cs[0]) + PlainText(cs[1..])
  }

  lemma {:induction false} PartsWithoutIndentation(o: DefinitionListOptions, st: TextState, parts: seq<Part>)
    requires !o.indent && !st.pending
    ensures WriteParts(o, st, parts) == TextState(false, st.level, st.out + PartsText(parts))
    decreases |parts|
  {
    if |parts| > 0 {
      var next := Write(o, st, parts[0].text);
      PartsWithoutIndentation(o, next, parts[1..]);
      assert st.out + parts[0].text + PartsText(parts[1..]) == st.out + PartsText(parts);
    }
  }

  /** Without the `Indent` option nothing is ever pending, and the output is
      exactly the calls' text: no indentation is written at any level. */
  lemma {:induction false} WithoutIndentation(o: DefinitionListOptions, st: TextState, cs: seq<Call>)
    requires !o.indent && !st.pending
    ensures !Exec(o, st, cs).pending
    ensures Exec(o, st, cs).out == st.out + PlainText(cs)
    decreases |cs|
  {
    if |cs| > 0 {
      var next := Step(o, st, cs[0]);
      if cs[0].Display? {
        PartsWithoutIndentation(o, st, cs[0].parts);
      }
      assert next.out == st.out + CallText(cs[0]) && !next.pending;
      WithoutIndentation(o, next, cs[1..]);
      assert st.out + CallText(cs[0]) + PlainText(cs[1..]) == st.out + PlainText(cs);
    }
  }

  /** After `WriteLine`, the next `Write` indents by the current level and
      the one after it does not indent again. */
  lemma PendingIndentationOnce(o: DefinitionListOptions, st: TextState, a: string, b: string)
    requires o.indent
    ensures var r := Exec(o, st, [Line, Str(a), Str(b)]);
      && r.out == st.out + TextWriter.NewLine + Indentation(o, st.level) + a + b
      && !r.pending && r.level == st.level
  {
    var s1 := Step(o, st, Line);
    assert s1 == TextState(true, st.level, st.out + TextWriter.NewLine);
    var s2 := Step(o, s1, Str(a));
    assert s2 == TextState(false, st.level, st.out + TextWriter.NewLine + Indentation(o, st.level) + a);
    var s3 := Step(o, s2, Str(b));
    assert s3 == TextState(false, st.level, st.out + TextWriter.NewLine + Indentation(o, st.level) + a + b);
    assert [Line, Str(a), Str(b)][1..] == [Str(a), Str(b)];
    assert [Str(a), Str(b)][1..] == [Str(b)];
    assert [Str(b)][1..] == [];
    assert Exec(o, st, [Line, Str(a), Str(b)]) == Exec(o, s1, [Str(a), Str(b)]);
    assert Exec(o, s1, [Str(a), Str(b)]) == Exec(o, s2, [Str(b)]);
    assert Exec(o, s2, [Str(b)]) == Exec(o, s3, []);
  }

  /** A line-break part inside a display makes the next part start indented. */
  lemma LineBreakPartIndents(o: DefinitionListOptions, st: TextState, lineBreak: Part, p: Part)
    requires o.indent && !st.pending && lineBreak.kind == LineBreak
    ensures WriteParts(o, st, [lineBreak, p]).out == st.out + lineBreak.text + Indentation(o, st.level) + p.text
  {
    var s1 := Write(o, st, lineBreak.text).(pending := true);
    assert [lineBreak, p][1..] == [p];
    assert WriteParts(o, st, [lineBreak, p]) == WriteParts(o, s1, [p]);
    var s2 := Write(o, s1, p.text);
    assert s2.out == st.out + lineBreak.text + Indentation(o, st.level) + p.text;
    assert [p][1..] == [];
    assert WriteParts(o, s1, [p]).out == s2.out;
  }

  /** Type contents: a line break, the contents one level deeper, and the
      level back where it was. */
  lemma ContentIndented(o: DefinitionListOptions, st: TextState, v: string)
    requires o.indent
    ensures Exec(o, st, [Begin, Str(v), End])
              == TextState(false, st.level, st.out + TextWriter.NewLine + Indentation(o, st.level + 1) + v)
  {
    var s1 := Step(o, st, Begin);
    assert s1 == TextState(true, st.level + 1, st.out + TextWriter.NewLine);
    var s2 := Step(o, s1, Str(v));
    assert s2 == TextState(false, st.level + 1, st.out + TextWriter.NewLine + Indentation(o, st.level + 1) + v);
    var s3 := Step(o, s2, End);
    assert [Begin, Str(v), End][1..] == [Str(v), End];
    assert [Str(v), End][1..] == [End];
    assert [End][1..] == [];
    assert Exec(o, st, [Begin, Str(v), End]) == Exec(o, s1, [Str(v), End]);
    assert Exec(o, s1, [Str(v), End]) == Exec(o, s2, [End]);
    assert Exec(o, s2, [End]) == Exec(o, s3, []);
  }

  /* ---------------- indentation level ---------------- */

  /** The level as a counter that may not go below zero: `EndTypeContent`
      asserts it is positive. */
  function LevelStep(level: nat, c: Call): Option<nat>
  {
    match c
    case Begin => Some(level + 1)
    case End => if level == 0 then None else Some(level - 1)
    case _ => Some(level)
  }

  function LevelRun(level: nat, cs: seq<Call>): Option<nat>
    decreases |cs|
  {
    if |cs| == 0 then Some(level)
    else match LevelStep(level, cs[0])
      case None => None
      case Some(next) => LevelRun(next, cs[1..])
  }

  /** Calls that end at the level they start from, from any level, never
      ending more type contents than they began. */
  ghost predicate Neutral(cs: seq<Call>)
  {
    forall level: nat :: LevelRun(level, cs) == Some(level)
  }

  lemma {:induction false} LevelRunAppend(level: nat, a: seq<Call>, b: seq<Call>)
    ensures LevelRun(level, a + b) == (match LevelRun(level, a) case None => None case Some(m) => LevelRun(m, b))
    decreases |a|
  {
    if |a| == 0 {
      assert a + b == b;
    } else {
      assert (a + b)[0] == a[0];
      assert (a + b)[1..] == a[1..] + b;
      match LevelStep(level, a[0])
      case None =>
      case Some(next) => LevelRunAppend(next, a[1..], b);
    }
  }

  lemma NeutralAppend(a: seq<Call>, b: seq<Call>)
    requires Neutral(a) && Neutral(b)
    ensures Neutral(a + b)
  {
    forall level: nat ensures LevelRun(level, a + b) == Some(level) {
      LevelRunAppend(level, a, b);
    }
  }

  lemma {:induction false} NeutralFlat(cs: seq<Call>)
    requires forall k :: 0 <= k < |cs| ==> !cs[k].Begin? && !cs[k].End?
    ensures Neutral(cs)
    decreases |cs|
  {
    if |cs| > 0 {
      NeutralFlat(cs[1..]);
      forall level: nat ensures LevelRun(level, cs) == Some(level) {
        assert LevelStep(level, cs[0]) == Some(level);
        assert LevelRun(level, cs[1..]) == Some(level);
      }
    }
  }

  lemma LevelRunOne(level: nat, c: Call)
    ensures LevelRun(level, [c]) == LevelStep(level, c)
  {
    assert [c][1..] == [];
  }

  lemma NeutralWrapped(x: seq<Call>)
    requires Neutral(x)
    ensures Neutral([Begin] + x + [End])
  {
    forall level: nat ensures LevelRun(level, [Begin] + x + [End]) == Some(level) {
      assert LevelRun(level + 1, x) == Some(level + 1);
      WrappedRun(level, x);
    }
  }

  lemma WrappedRun(level: nat, x: seq<Call>)
    requires LevelRun(level + 1, x) == Some(level + 1)
    ensures LevelRun(level, [Begin] + x + [End]) == Some(level)
  {
    LevelRunOne(level, Begin);
    LevelRunOne(level + 1, End);
    LevelRunAppend(level, [Begin], x);
    assert LevelRun(level, [Begin] + x) == Some(level + 1);
    LevelRunAppend(level, [Begin] + x, [End]);
  }

  lemma {:induction false} NeutralConcat(items: seq<seq<Call>>)
    requires forall i :: 0 <= i < |items| ==> Neutral(items[i])
    ensures Neutral(Concat(items))
    decreases |items|
  {
    if |items| == 0 {
      NeutralFlat([]);
    } else {
      NeutralConcat(items[1..]);
      NeutralAppend(items[0], Concat(items[1..]));
    }
  }

  lemma {:induction false} NeutralJoin(items: seq<seq<Call>>, sep: seq<Call>)
    requires forall i :: 0 <= i < |items| ==> Neutral(items[i])
    requires Neutral(sep)
    ensures Neutral(Join(items, sep))
    decreases |items|
  {
    if |items| == 0 {
      NeutralFlat([]);
    } else if |items| > 1 {
      NeutralJoin(items[1..], sep);
      NeutralAppend(items[0], sep);
      NeutralAppend(items[0] + sep, Join(items[1..], sep));
    }
  }

  /** The writer's level follows the counter: when the counter never goes
      below zero, neither does the level, and it ends where the counter does. */
  lemma {:induction false} ExecFollowsLevel(o: DefinitionListOptions, st: TextState, cs: seq<Call>, level: nat)
    requires st.level == level && LevelRun(level, cs).Some?
    ensures Exec(o, st, cs).level == LevelRun(level, cs).value
    decreases |cs|
  {
    if |cs| > 0 {
      var next := LevelStep(level, cs[0]).value;
      ExecFollowsLevel(o, Step(o, st, cs[0]), cs[1..], next);
    }
  }
  /* ---------------- members ---------------- */

  /** A member as the list writer sees it: the symbol the filter looks at,
      its place in the comparer's order, its declaration kind, whether it is
      declared public, and the compiler's rendering of its attributes and of
      its definition (with the display transforms already applied). */
  datatype ListedMember = ListedMember(
    symbol: Symbol,
    rank: int,
    declarationKind: nat,
    isPublic: bool,
    attributeParts: seq<Part>,
    parts: seq<Part>)

  /** A named type: its symbol, the path of its containing namespace (empty
      for the global namespace), its place in the comparer's order, its
      rendered definition, its members and its nested types. */
  datatype ListedType = ListedType(
    symbol: Symbol,
    namespace: seq<string>,
    rank: int,
    display: seq<Part>,
    members: seq<ListedMember>,
    nested: seq<ListedType>)

  /** `Depth <= DefinitionListDepth.Type`: types are listed unless the list
      stops at namespaces. This takes the undeclared enumeration to be
      ordered Member < Type < Namespace, as the default depth `Member` must
      list types; the cases of `ListDepth` are not compared. */
  predicate WritesTypes(o: DefinitionListOptions)
  {
    o.depth != NamespaceDepth
  }

  /** `Depth == DefinitionListDepth.Member`. */
  predicate WritesMembers(o: DefinitionListOptions)
  {
    o.depth == MemberDepth
  }

  function ByMemberRank(): (ListedMember, ListedMember) -> bool
  {
    (a: ListedMember, b: ListedMember) => a.rank <= b.rank
  }

  /** The members `IsVisibleMember` keeps, in the comparer's order. */
  function VisibleMembers(o: DefinitionListOptions, t: ListedType): (r: seq<ListedMember>)
    ensures forall m :: m in r <==> m in t.members && IsVisibleMember(o, m.symbol)
    ensures SortedBy(r, ByMemberRank())
  {
    var shown := Filter(t.members, (m: ListedMember) => IsVisibleMember(o, m.symbol));
    var r := Sort(shown, ByMemberRank());
    forall m ensures m in r <==> m in shown {
      assert m in r <==> m in multiset(r);
      assert m in shown <==> m in multiset(shown);
    }
    r
  }

  /** One member: its attributes, its definition, `;` unless it is a
      property, and a line break. */
  function MemberBlock(m: ListedMember): seq<Call>
  {
    [Display(m.attributeParts), Display(m.parts)] + (if m.symbol.kind.Property? then [] else [Str(";")]) + [Line]
  }

  /** An empty line goes between two members of different declaration
      kinds, or between any two when `EmptyLineBetweenMembers` is set. */
  predicate SetApart(o: DefinitionListOptions, a: ListedMember, b: ListedMember)
  {
    a.declarationKind != b.declarationKind || o.emptyLineBetweenMembers
  }

  /** Member `i`: the empty line that may separate it from the one before,
      then its block. */
  function MemberChunk(o: DefinitionListOptions, ms: seq<ListedMember>, i: nat): seq<Call>
    requires i < |ms|
  {
    (if i > 0 && SetApart(o, ms[i - 1], ms[i]) then [Line] else []) + MemberBlock(ms[i])
  }

  /** The chunks of the members from `i` on. */
  function MemberLoop(o: DefinitionListOptions, ms: seq<ListedMember>, i: nat): seq<Call>
    requires i <= |ms|
    decreases |ms| - i
  {
    if i == |ms| then [] else MemberChunk(o, ms, i) + MemberLoop(o, ms, i + 1)
  }

  /** The members of a type: nothing when there are none, otherwise a line
      break and the members' chunks. */
  function MemberList(o: DefinitionListOptions, ms: seq<ListedMember>): seq<Call>
  {
    if |ms| == 0 then [] else [Line] + MemberLoop(o, ms, 0)
  }

  /** The member loop of `WriteMembers`, as the enumerator drives it: write
      the member, and if another follows, compare declaration kinds. */
  method WriteMemberList(o: DefinitionListOptions, ms: seq<ListedMember>) returns (calls: seq<Call>)
    ensures calls == MemberList(o, ms)
  {
    if |ms| == 0 {
      return [];
    }
    calls := [Line];
    var kind := ms[0].declarationKind;
    var i := 0;
    MemberListStart(o, ms);
    while true
      invariant 0 <= i < |ms|
      invariant kind == ms[i].declarationKind
      invariant calls + MemberRest(o, ms, i) == MemberList(o, ms)
      decreases |ms| - i
    {
      ghost var before := calls;
      calls := calls + MemberBlock(ms[i]);
      if i + 1 < |ms| {
        var kind2 := ms[i + 1].declarationKind;
        var gap := if kind != kind2 || o.emptyLineBetweenMembers then [Line] else [];
        MemberLoopAdvance(o, ms, i, before, gap);
        calls := calls + gap;
        kind := kind2;
        i := i + 1;
      } else {
        MemberLoopEnds(o, ms, i, before);
        return;
      }
    }
  }

  /** Member `i` and the chunks of the members after it. */
  function MemberRest(o: DefinitionListOptions, ms: seq<ListedMember>, i: nat): seq<Call>
    requires i < |ms|
  {
    MemberBlock(ms[i]) + MemberLoop(o, ms, i + 1)
  }

  lemma MemberListStart(o: DefinitionListOptions, ms: seq<ListedMember>)
    requires |ms| > 0
    ensures [Line] + MemberRest(o, ms, 0) == MemberList(o, ms)
  {
    assert MemberChunk(o, ms, 0) == MemberBlock(ms[0]);
  }

  lemma MemberLoopAdvance(o: DefinitionListOptions, ms: seq<ListedMember>, i: nat, before: seq<Call>, gap: seq<Call>)
    requires i + 1 < |ms|
    requires gap == (if ms[i].declarationKind != ms[i + 1].declarationKind || o.emptyLineBetweenMembers then [Line] else [])
    ensures before + MemberRest(o, ms, i) == (before + MemberBlock(ms[i]) + gap) + MemberRest(o, ms, i + 1)
  {
    MemberLoopStep(o, ms, i + 1, gap);
    Regroup(before, MemberBlock(ms[i]), gap, MemberRest(o, ms, i + 1));
  }

  lemma MemberLoopEnds(o: DefinitionListOptions, ms: seq<ListedMember>, i: nat, before: seq<Call>)
    requires i + 1 == |ms|
    ensures before + MemberRest(o, ms, i) == before + MemberBlock(ms[i])
  {
    assert MemberLoop(o, ms, i + 1) == [];
    assert MemberBlock(ms[i]) + [] == MemberBlock(ms[i]);
  }

  lemma MemberLoopStep(o: DefinitionListOptions, ms: seq<ListedMember>, i: nat, gap: seq<Call>)
    requires 0 < i < |ms|
    requires gap == (if ms[i - 1].declarationKind != ms[i].declarationKind || o.emptyLineBetweenMembers then [Line] else [])
    ensures MemberLoop(o, ms, i) == gap + (MemberBlock(ms[i]) + MemberLoop(o, ms, i + 1))
  {
  }

  lemma Regroup<T>(a: seq<T>, b: seq<T>, c: seq<T>, d: seq<T>)
    ensures a + (b + (c + d)) == (a + b + c) + d
  {
  }

  /** The number of members from `i` on that are set apart from the one
      before them. */
  function ApartCount(o: DefinitionListOptions, ms: seq<ListedMember>, i: nat): nat
    requires i <= |ms|
    decreases |ms| - i
  {
    if i == |ms| then 0
    else (if i > 0 && SetApart(o, ms[i - 1], ms[i]) then 1 else 0) + ApartCount(o, ms, i + 1)
  }

  lemma {:induction false} MemberLoopLines(o: DefinitionListOptions, ms: seq<ListedMember>, i: nat)
    requires i <= |ms|
    ensures Count(Line, MemberLoop(o, ms, i)) == (|ms| - i) + ApartCount(o, ms, i)
    decreases |ms| - i
  {
    if i < |ms| {
      MemberLoopLines(o, ms, i + 1);
      ChunkLines(o, ms, i);
      assert MemberLoop(o, ms, i) == MemberChunk(o, ms, i) + MemberLoop(o, ms, i + 1);
      CountAppend(Line, MemberChunk(o, ms, i), MemberLoop(o, ms, i + 1));
    }
  }

  /** The calls before a member's `;`: its attributes and its definition. */
  function MemberHead(m: ListedMember): seq<Call>
  {
    [Display(m.attributeParts), Display(m.parts)]
  }

  /** The `;` a member gets unless it is a property. */
  function MemberEnd(m: ListedMember): seq<Call>
  {
    if m.symbol.kind.Property? then [] else [Str(";")]
  }

  /** The empty line that may set member `i` apart. */
  function MemberGap(o: DefinitionListOptions, ms: seq<ListedMember>, i: nat): seq<Call>
    requires i < |ms|
  {
    if i > 0 && SetApart(o, ms[i - 1], ms[i]) then [Line] else []
  }

  lemma ChunkPieces(o: DefinitionListOptions, ms: seq<ListedMember>, i: nat)
    requires i < |ms|
    ensures MemberChunk(o, ms, i) == MemberGap(o, ms, i) + (MemberHead(ms[i]) + MemberEnd(ms[i]) + [Line])
  {
  }

  lemma ChunkLines(o: DefinitionListOptions, ms: seq<ListedMember>, i: nat)
    requires i < |ms|
    ensures Count(Line, MemberChunk(o, ms, i)) == 1 + (if i > 0 && SetApart(o, ms[i - 1], ms[i]) then 1 else 0)
  {
    var m := ms[i];
    ChunkPieces(o, ms, i);
    assert Count(Line, MemberHead(m)) == 0 by { assert Line !in MemberHead(m); }
    assert Count(Line, MemberEnd(m)) == 0 by { assert Line !in MemberEnd(m); }
    assert Count(Line, [Line]) == 1 by { assert [Line][1..] == []; }
    assert Count(Line, MemberGap(o, ms, i)) == (if i > 0 && SetApart(o, ms[i - 1], ms[i]) then 1 else 0) by {
      if |MemberGap(o, ms, i)| > 0 { assert MemberGap(o, ms, i)[1..] == []; }
    }
    CountAppend(Line, MemberHead(m), MemberEnd(m));
    CountAppend(Line, MemberHead(m) + MemberEnd(m), [Line]);
    CountAppend(Line, MemberGap(o, ms, i), MemberHead(m) + MemberEnd(m) + [Line]);
  }

  lemma ChunkSemicolons(o: DefinitionListOptions, ms: seq<ListedMember>, i: nat)
    requires i < |ms|
    ensures Count(Str(";"), MemberChunk(o, ms, i)) == (if NotProperty(ms[i]) then 1 else 0)
  {
    var m := ms[i];
    var semi := Str(";");
    ChunkPieces(o, ms, i);
    assert Count(semi, MemberHead(m)) == 0 by { assert semi !in MemberHead(m); }
    assert Count(semi, MemberGap(o, ms, i)) == 0 by { assert semi !in MemberGap(o, ms, i); }
    assert Count(semi, [Line]) == 0 by { assert semi !in [Line]; }
    assert Count(semi, MemberEnd(m)) == (if NotProperty(m) then 1 else 0) by {
      if |MemberEnd(m)| > 0 { assert MemberEnd(m)[1..] == []; }
    }
    CountAppend(semi, MemberHead(m), MemberEnd(m));
    CountAppend(semi, MemberHead(m) + MemberEnd(m), [Line]);
    CountAppend(semi, MemberGap(o, ms, i), MemberHead(m) + MemberEnd(m) + [Line]);
  }

  /** Line breaks of a member list: one before the members, one after each
      member, and one more before each member set apart from the previous. */
  lemma MemberListLines(o: DefinitionListOptions, ms: seq<ListedMember>)
    ensures Count(Line, MemberList(o, ms)) == (if |ms| == 0 then 0 else 1 + |ms| + ApartCount(o, ms, 0))
  {
    if |ms| > 0 {
      MemberLoopLines(o, ms, 0);
      CountAppend(Line, [Line], MemberLoop(o, ms, 0));
    }
  }

  lemma {:induction false} AllApart(o: DefinitionListOptions, ms: seq<ListedMember>, i: nat)
    requires o.emptyLineBetweenMembers && 0 < i <= |ms|
    ensures ApartCount(o, ms, i) == |ms| - i
    decreases |ms| - i
  {
    if i < |ms| {
      AllApart(o, ms, i + 1);
    }
  }

  lemma {:induction false} NoneApart(o: DefinitionListOptions, ms: seq<ListedMember>, i: nat)
    requires !o.emptyLineBetweenMembers && i <= |ms|
    requires forall j :: 0 <= j < |ms| ==> ms[j].declarationKind == ms[0].declarationKind
    ensures ApartCount(o, ms, i) == 0
    decreases |ms| - i
  {
    if i < |ms| {
      NoneApart(o, ms, i + 1);
    }
  }

  /** With `EmptyLineBetweenMembers` every member is set apart: an empty
      line between each two. Without it, members of a single declaration
      kind follow each other with no empty line. */
  lemma EmptyLinesBetweenMembers(o: DefinitionListOptions, ms: seq<ListedMember>)
    ensures o.emptyLineBetweenMembers && |ms| > 0 ==> Count(Line, MemberList(o, ms)) == 2 * |ms|
    ensures (!o.emptyLineBetweenMembers && |ms| > 0
             && forall j :: 0 <= j < |ms| ==> ms[j].declarationKind == ms[0].declarationKind)
            ==> Count(Line, MemberList(o, ms)) == 1 + |ms|
  {
    MemberListLines(o, ms);
    if |ms| > 0 {
      if o.emptyLineBetweenMembers {
        AllApart(o, ms, 1);
        assert ApartCount(o, ms, 0) == ApartCount(o, ms, 1);
      } else if forall j :: 0 <= j < |ms| ==> ms[j].declarationKind == ms[0].declarationKind {
        NoneApart(o, ms, 0);
      }
    }
  }

  predicate NotProperty(m: ListedMember)
  {
    !m.symbol.kind.Property?
  }

  lemma {:induction false} MemberLoopSemicolons(o: DefinitionListOptions, ms: seq<ListedMember>, i: nat)
    requires i <= |ms|
    ensures Count(Str(";"), MemberLoop(o, ms, i)) == |Filter(ms[i..], NotProperty)|
    decreases |ms| - i
  {
    if i < |ms| {
      MemberLoopSemicolons(o, ms, i + 1);
      ChunkSemicolons(o, ms, i);
      CountAppend(Str(";"), MemberChunk(o, ms, i), MemberLoop(o, ms, i + 1));
      FilterLength(ms[i..], NotProperty);
      assert ms[i..][1..] == ms[i + 1..];
    }
  }

  /** Every member but a property ends with `;`, and nothing else writes one. */
  lemma MemberListSemicolons(o: DefinitionListOptions, ms: seq<ListedMember>)
    ensures Count(Str(";"), MemberList(o, ms)) == |Filter(ms, NotProperty)|
  {
    if |ms| > 0 {
      MemberLoopSemicolons(o, ms, 0);
      CountAppend(Str(";"), [Line], MemberLoop(o, ms, 0));
      assert ms[0..] == ms;
    }
  }

  /** The display-part runs the calls write, in order. */
  function Displays(cs: seq<Call>): seq<seq<Part>>
    decreases |cs|
  {
    if |cs| == 0 then []
    else (if cs[0].Display? then [cs[0].parts] else []) + Displays(cs[1..])
  }

  lemma {:induction false} DisplaysAppend(a: seq<Call>, b: seq<Call>)
    ensures Displays(a + b) == Displays(a) + Displays(b)
    decreases |a|
  {
    if |a| == 0 {
      assert a + b == b;
    } else {
      assert (a + b)[0] == a[0];
      assert (a + b)[1..] == a[1..] + b;
      DisplaysAppend(a[1..], b);
    }
  }

  lemma DisplaysOne(c: Call)
    ensures Displays([c]) == (if c.Display? then [c.parts] else [])
  {
    assert [c][1..] == [];
  }

  /** Each member's attributes and definition, member after member. */
  function MemberDisplays(ms: seq<ListedMember>): seq<seq<Part>>
    decreases |ms|
  {
    if |ms| == 0 then [] else [ms[0].attributeParts, ms[0].parts] + MemberDisplays(ms[1..])
  }

  lemma {:induction false} MemberLoopDisplays(o: DefinitionListOptions, ms: seq<ListedMember>, i: nat)
    requires i <= |ms|
    ensures Displays(MemberLoop(o, ms, i)) == MemberDisplays(ms[i..])
    decreases |ms| - i
  {
    if i < |ms| {
      MemberLoopDisplays(o, ms, i + 1);
      ChunkDisplays(o, ms, i);
      DisplaysAppend(MemberChunk(o, ms, i), MemberLoop(o, ms, i + 1));
      assert ms[i..][1..] == ms[i + 1..];
      assert ms[i..][0] == ms[i];
    }
  }

  lemma ChunkDisplays(o: DefinitionListOptions, ms: seq<ListedMember>, i: nat)
    requires i < |ms|
    ensures Displays(MemberChunk(o, ms, i)) == [ms[i].attributeParts, ms[i].parts]
  {
    var m := ms[i];
    ChunkPieces(o, ms, i);
    assert Displays(MemberHead(m)) == [m.attributeParts, m.parts] by {
      assert MemberHead(m) == [Display(m.attributeParts)] + [Display(m.parts)];
      DisplaysOne(Display(m.attributeParts));
      DisplaysOne(Display(m.parts));
      DisplaysAppend([Display(m.attributeParts)], [Display(m.parts)]);
    }
    assert Displays(MemberEnd(m)) == [] by {
      if |MemberEnd(m)| > 0 { DisplaysOne(Str(";")); }
    }
    assert Displays(MemberGap(o, ms, i)) == [] by {
      if |MemberGap(o, ms, i)| > 0 { DisplaysOne(Line); }
    }
    DisplaysOne(Line);
    DisplaysAppend(MemberHead(m), MemberEnd(m));
    DisplaysAppend(MemberHead(m) + MemberEnd(m), [Line]);
    DisplaysAppend(MemberGap(o, ms, i), MemberHead(m) + MemberEnd(m) + [Line]);
  }

  /** The members are written in the order given, each once, attributes
      first. */
  lemma MemberListDisplays(o: DefinitionListOptions, ms: seq<ListedMember>)
    ensures Displays(MemberList(o, ms)) == MemberDisplays(ms)
  {
    if |ms| > 0 {
      MemberLoopDisplays(o, ms, 0);
      DisplaysAppend([Line], MemberLoop(o, ms, 0));
      assert Displays([Line]) == [] by {
        assert [Line][1..] == [];
      }
      assert ms[0..] == ms;
    }
  }
  /* ---------------- enum members ---------------- */

  predicate PublicField(m: ListedMember)
  {
    m.symbol.kind.Field? && m.isPublic
  }

  /** The fields of an enum that are declared public, in declaration order. */
  function EnumFields(t: ListedType): (r: seq<ListedMember>)
    ensures forall m :: m in r <==> m in t.members && PublicField(m)
  {
    Filter(t.members, PublicField)
  }

  function EnumLoop(fields: seq<ListedMember>): seq<Call>
    decreases |fields|
  {
    if |fields| == 0 then [] else [Display(fields[0].parts), Str(","), Line] + EnumLoop(fields[1..])
  }

  /** `WriteEnumMembers`: only at member depth, and nothing for an enum
      without public fields; otherwise a line break, then each field
      followed by `,` and a line break. */
  function EnumMemberList(o: DefinitionListOptions, t: ListedType): seq<Call>
  {
    if !WritesMembers(o) then []
    else
      var fields := EnumFields(t);
      if |fields| == 0 then [] else [Line] + EnumLoop(fields)
  }

  function PartsOf(ms: seq<ListedMember>): (r: seq<seq<Part>>)
    ensures |r| == |ms| && forall i :: 0 <= i < |ms| ==> r[i] == ms[i].parts
  {
    seq(|ms|, i requires 0 <= i < |ms| => ms[i].parts)
  }

  lemma EnumLoopListsFields(fields: seq<ListedMember>)
    ensures Displays(EnumLoop(fields)) == PartsOf(fields)
    ensures Count(Str(","), EnumLoop(fields)) == |fields|
    ensures forall k :: 0 <= k < |EnumLoop(fields)| ==> !EnumLoop(fields)[k].Begin? && !EnumLoop(fields)[k].End?
  {
    EnumLoopDisplays(fields);
    EnumLoopCommas(fields);
    EnumLoopFlat(fields);
  }

  /** One field's calls: its definition, `,` and a line break. */
  lemma EnumEntry(p: seq<Part>)
    ensures Displays([Display(p), Str(","), Line]) == [p]
    ensures Count(Str(","), [Display(p), Str(","), Line]) == 1
  {
    var e := [Display(p), Str(","), Line];
    assert e[1..] == [Str(","), Line];
    assert e[1..][1..] == [Line];
    assert e[1..][1..][1..] == [];
    assert Displays(e[1..][1..]) == [];
    assert Displays(e[1..]) == [];
    assert Count(Str(","), e[1..][1..]) == 0;
  }

  lemma {:induction false} EnumLoopDisplays(fields: seq<ListedMember>)
    ensures Displays(EnumLoop(fields)) == PartsOf(fields)
    decreases |fields|
  {
    if |fields| > 0 {
      EnumLoopDisplays(fields[1..]);
      EnumEntry(fields[0].parts);
      DisplaysAppend([Display(fields[0].parts), Str(","), Line], EnumLoop(fields[1..]));
      assert PartsOf(fields) == [fields[0].parts] + PartsOf(fields[1..]);
    }
  }

  lemma {:induction false} EnumLoopCommas(fields: seq<ListedMember>)
    ensures Count(Str(","), EnumLoop(fields)) == |fields|
    decreases |fields|
  {
    if |fields| > 0 {
      EnumLoopCommas(fields[1..]);
      EnumEntry(fields[0].parts);
      CountAppend(Str(","), [Display(fields[0].parts), Str(","), Line], EnumLoop(fields[1..]));
    }
  }

  lemma {:induction false} EnumLoopFlat(fields: seq<ListedMember>)
    ensures forall k :: 0 <= k < |EnumLoop(fields)| ==> !EnumLoop(fields)[k].Begin? && !EnumLoop(fields)[k].End?
    decreases |fields|
  {
    if |fields| > 0 {
      EnumLoopFlat(fields[1..]);
      var head: seq<Call> := [Display(fields[0].parts), Str(","), Line];
      var rest := EnumLoop(fields[1..]);
      assert EnumLoop(fields) == head + rest;
      forall k | 0 <= k < |head + rest| ensures !(head + rest)[k].Begin? && !(head + rest)[k].End? {
        if k >= 3 { assert (head + rest)[k] == rest[k - 3]; }
      }
    }
  }

  /** At member depth each public field of the enum is written once, in
      declaration order, each followed by `,`; at any other depth nothing
      is. */
  lemma EnumMembersListed(o: DefinitionListOptions, t: ListedType)
    ensures Displays(EnumMemberList(o, t)) == (if WritesMembers(o) then PartsOf(EnumFields(t)) else [])
    ensures Count(Str(","), EnumMemberList(o, t)) == (if WritesMembers(o) then |EnumFields(t)| else 0)
    ensures Neutral(EnumMemberList(o, t))
  {
    var r := EnumMemberList(o, t);
    if WritesMembers(o) && |EnumFields(t)| > 0 {
      var fields := EnumFields(t);
      EnumLoopListsFields(fields);
      DisplaysOne(Line);
      DisplaysAppend([Line], EnumLoop(fields));
      CountAppend(Str(","), [Line], EnumLoop(fields));
      assert forall k :: 0 <= k < |r| ==> !r[k].Begin? && !r[k].End? by {
        forall k | 0 <= k < |r| ensures !r[k].Begin? && !r[k].End? {
          if k > 0 { assert r[k] == EnumLoop(fields)[k - 1]; }
        }
      }
    }
    NeutralFlat(r);
  }

  /* ---------------- types ---------------- */

  /** The positions of the nested types `IsVisibleType` keeps, in the
      comparer's order. */
  function NestedOrder(o: DefinitionListOptions, types: seq<ListedType>): (r: seq<nat>)
    ensures forall k :: 0 <= k < |r| ==> r[k] < |types|
  {
    SortedPositions(types, (t: ListedType) => TypeListed(o, t.symbol), (t: ListedType) => t.rank)
  }

  /** The positions of all the types, in the comparer's order. */
  function AllOrder(types: seq<ListedType>): (r: seq<nat>)
    ensures forall k :: 0 <= k < |r| ==> r[k] < |types|
  {
    SortedPositions(types, (t: ListedType) => true, (t: ListedType) => t.rank)
  }

  /** One type: its definition, then by kind its contents between
      `BeginTypeContent` and `EndTypeContent`, or `;` and a line break for a
      delegate. */
  function TypeBlock(o: DefinitionListOptions, t: ListedType): seq<Call>
    decreases t, 2
  {
    [Display(t.display)] + TypeContent(o, t)
  }

  function TypeContent(o: DefinitionListOptions, t: ListedType): seq<Call>
    decreases t, 1
  {
    match t.symbol.typeKind
    case Class => [Begin] + MembersOf(o, t) + [End]
    case Interface => [Begin] + MembersOf(o, t) + [End]
    case Struct => [Begin] + MembersOf(o, t) + [End]
    case Delegate => [Str(";"), Line]
    case Enum => [Begin] + EnumMemberList(o, t) + [End]
    case _ => []
  }

  /** `WriteMembers`: the visible members at member depth, then the visible
      nested types unless the list stops at namespaces. */
  function MembersOf(o: DefinitionListOptions, t: ListedType): seq<Call>
    decreases t, 0
  {
    (if WritesMembers(o) then MemberList(o, VisibleMembers(o, t)) else [])
    + (if WritesTypes(o) then TypeList(o, t.nested, NestedOrder(o, t.nested)) else [])
  }

  /** `WriteTypes`: nothing for no types, otherwise a line break and the
      types in `order`, a line break between each two. */
  function TypeList(o: DefinitionListOptions, types: seq<ListedType>, order: seq<nat>): seq<Call>
    requires forall k :: 0 <= k < |order| ==> order[k] < |types|
    decreases types, 1
  {
    if |order| == 0 then [] else [Line] + Join(TypeBlocks(o, types, order), [Line])
  }

  function TypeBlocks(o: DefinitionListOptions, types: seq<ListedType>, order: seq<nat>): (r: seq<seq<Call>>)
    requires forall k :: 0 <= k < |order| ==> order[k] < |types|
    ensures |r| == |order|
    ensures forall k :: 0 <= k < |order| ==> r[k] == TypeBlock(o, types[order[k]])
    decreases types, 0
  {
    seq(|order|, k requires 0 <= k < |order| => TypeBlock(o, types[order[k]]))
  }

  lemma MemberListNeutral(o: DefinitionListOptions, ms: seq<ListedMember>)
    ensures Neutral(MemberList(o, ms))
  {
    var r := MemberList(o, ms);
    forall k | 0 <= k < |r| ensures !r[k].Begin? && !r[k].End? {
      MemberListFlat(o, ms, 0);
      if k > 0 { assert r[k] == MemberLoop(o, ms, 0)[k - 1]; }
    }
    NeutralFlat(r);
  }

  lemma {:induction false} MemberListFlat(o: DefinitionListOptions, ms: seq<ListedMember>, i: nat)
    requires i <= |ms|
    ensures forall k :: 0 <= k < |MemberLoop(o, ms, i)| ==> !MemberLoop(o, ms, i)[k].Begin? && !MemberLoop(o, ms, i)[k].End?
    decreases |ms| - i
  {
    if i < |ms| {
      MemberListFlat(o, ms, i + 1);
      var chunk := MemberChunk(o, ms, i);
      var rest := MemberLoop(o, ms, i + 1);
      assert forall k :: 0 <= k < |chunk| ==> !chunk[k].Begin? && !chunk[k].End?;
      assert MemberLoop(o, ms, i) == chunk + rest;
    }
  }

  /** Every type's contents begin and end once: listing a type leaves the
      indentation level where it was and never ends more contents than it
      began. */
  lemma {:induction false} TypeBlockNeutral(o: DefinitionListOptions, t: ListedType)
    ensures Neutral(TypeBlock(o, t))
    decreases t, 2
  {
    TypeContentNeutral(o, t);
    NeutralFlat([Display(t.display)]);
    NeutralAppend([Display(t.display)], TypeContent(o, t));
  }

  lemma {:induction false} TypeContentNeutral(o: DefinitionListOptions, t: ListedType)
    ensures Neutral(TypeContent(o, t))
    decreases t, 1
  {
    match t.symbol.typeKind
    case Class => MembersOfNeutral(o, t); NeutralWrapped(MembersOf(o, t));
    case Interface => MembersOfNeutral(o, t); NeutralWrapped(MembersOf(o, t));
    case Struct => MembersOfNeutral(o, t); NeutralWrapped(MembersOf(o, t));
    case Delegate => NeutralFlat([Str(";"), Line]);
    case Enum => EnumMembersListed(o, t); NeutralWrapped(EnumMemberList(o, t));
    case _ => NeutralFlat([]);
  }

  lemma {:induction false} MembersOfNeutral(o: DefinitionListOptions, t: ListedType)
    ensures Neutral(MembersOf(o, t))
    decreases t, 0
  {
    if WritesMembers(o) {
      MemberListNeutral(o, VisibleMembers(o, t));
    } else {
      NeutralFlat([]);
    }
    if WritesTypes(o) {
      TypeListNeutral(o, t.nested, NestedOrder(o, t.nested));
    } else {
      NeutralFlat([]);
    }
    NeutralAppend(if WritesMembers(o) then MemberList(o, VisibleMembers(o, t)) else [],
                  if WritesTypes(o) then TypeList(o, t.nested, NestedOrder(o, t.nested)) else []);
  }

  lemma {:induction false} TypeListNeutral(o: DefinitionListOptions, types: seq<ListedType>, order: seq<nat>)
    requires forall k :: 0 <= k < |order| ==> order[k] < |types|
    ensures Neutral(TypeList(o, types, order))
    decreases types, 1
  {
    if |order| == 0 {
      NeutralFlat([]);
    } else {
      var blocks := TypeBlocks(o, types, order);
      forall k | 0 <= k < |blocks| ensures Neutral(blocks[k]) {
        TypeBlockNeutral(o, types[order[k]]);
      }
      NeutralFlat([Line]);
      NeutralJoin(blocks, [Line]);
      NeutralAppend([Line], Join(blocks, [Line]));
    }
  }
  /* ---------------- namespaces ---------------- */

  /** The compiler's renderings of a namespace (as a definition, by its
      name only, and by its full name) and the comparer's order of
      namespaces. A namespace is its path; the global namespace is `[]`. */
  datatype NamespaceDisplay = NamespaceDisplay(
    definition: seq<string> -> seq<Part>,
    nameOnly: seq<string> -> seq<Part>,
    fullName: seq<string> -> seq<Part>,
    rank: seq<string> -> int)

  function ByNamespaceRank(n: NamespaceDisplay): (seq<string>, seq<string>) -> bool
  {
    (a: seq<string>, b: seq<string>) => n.rank(a) <= n.rank(b)
  }

  /** The distinct namespaces of the types: the keys of `GroupBy`. */
  function NamespaceKeys(types: seq<ListedType>): (r: seq<seq<string>>)
    ensures Distinct(r)
    ensures forall ns :: ns in r <==> exists t :: t in types && t.namespace == ns
  {
    var all := seq(|types|, i requires 0 <= i < |types| => types[i].namespace);
    assert forall t :: t in types ==> t.namespace in all by {
      forall t | t in types ensures t.namespace in all {
        var i :| 0 <= i < |types| && types[i] == t;
        assert all[i] == t.namespace;
      }
    }
    Dedup(all)
  }

  /** The keys in the comparer's order. */
  function SortedKeys(n: NamespaceDisplay, types: seq<ListedType>): (r: seq<seq<string>>)
    ensures Distinct(r)
    ensures forall ns :: ns in r <==> exists t :: t in types && t.namespace == ns
    ensures SortedBy(r, ByNamespaceRank(n))
  {
    var keys := NamespaceKeys(types);
    var r := Sort(keys, ByNamespaceRank(n));
    forall x ensures x in r <==> x in keys {
      assert x in r <==> x in multiset(r);
      assert x in keys <==> x in multiset(keys);
    }
    DistinctPermutation(keys, r);
    r
  }

  predicate InNamespace(ns: seq<string>, t: ListedType)
  {
    t.namespace == ns
  }

  /** The types of one namespace: a group of `GroupBy`, in the types' order. */
  function TypesIn(types: seq<ListedType>, ns: seq<string>): (r: seq<ListedType>)
    ensures forall t :: t in r <==> t in types && t.namespace == ns
  {
    Filter(types, t => InNamespace(ns, t))
  }

  /** The types of a namespace, when the list goes down to types. */
  function NamespaceTypes(o: DefinitionListOptions, group: seq<ListedType>): seq<Call>
  {
    if WritesTypes(o) then TypeList(o, group, AllOrder(group)) else []
  }

  /** One group of the namespace list: a namespace other than the global one
      is written as a definition around its types, followed by a line break. */
  function NamespaceBlock(o: DefinitionListOptions, n: NamespaceDisplay, ns: seq<string>, group: seq<ListedType>): seq<Call>
  {
    if ns == [] then NamespaceTypes(o, group)
    else [Display(n.definition(ns))] + ([Begin] + NamespaceTypes(o, group) + [End]) + [Line]
  }

  /** The groups of `keys`, one after the other. */
  function NamespaceList(o: DefinitionListOptions, n: NamespaceDisplay, types: seq<ListedType>, keys: seq<seq<string>>): seq<Call>
    decreases |keys|
  {
    if |keys| == 0 then []
    else NamespaceBlock(o, n, keys[0], TypesIn(types, keys[0])) + NamespaceList(o, n, types, keys[1..])
  }

  /** The types of the groups of `keys`, one group after the other. */
  function Groups(types: seq<ListedType>, keys: seq<seq<string>>): seq<ListedType>
    decreases |keys|
  {
    if |keys| == 0 then [] else TypesIn(types, keys[0]) + Groups(types, keys[1..])
  }

  lemma {:induction false} GroupsCount(types: seq<ListedType>, keys: seq<seq<string>>, t: ListedType)
    requires Distinct(keys)
    ensures multiset(Groups(types, keys))[t] == if t.namespace in keys then multiset(types)[t] else 0
    decreases |keys|
  {
    if |keys| > 0 {
      GroupsCount(types, keys[1..], t);
      FilterCount(types, u => InNamespace(keys[0], u), t);
      assert keys == [keys[0]] + keys[1..];
      assert keys[0] !in keys[1..];
    }
  }

  /** The namespace groups split the types: each type is in exactly one
      group, as often as it is among the types. */
  lemma GroupsPartitionTypes(n: NamespaceDisplay, types: seq<ListedType>)
    ensures multiset(Groups(types, SortedKeys(n, types))) == multiset(types)
  {
    var keys := SortedKeys(n, types);
    forall t ensures multiset(Groups(types, keys))[t] == multiset(types)[t] {
      GroupsCount(types, keys, t);
      if t !in types {
        assert multiset(types)[t] == 0;
      }
    }
  }

  lemma NamespaceTypesNeutral(o: DefinitionListOptions, group: seq<ListedType>)
    ensures Neutral(NamespaceTypes(o, group))
  {
    if WritesTypes(o) {
      TypeListNeutral(o, group, AllOrder(group));
    } else {
      NeutralFlat([]);
    }
  }

  lemma {:induction false} NamespaceListNeutral(o: DefinitionListOptions, n: NamespaceDisplay, types: seq<ListedType>, keys: seq<seq<string>>)
    ensures Neutral(NamespaceList(o, n, types, keys))
    decreases |keys|
  {
    if |keys| == 0 {
      NeutralFlat([]);
    } else {
      var ns := keys[0];
      var group := TypesIn(types, ns);
      NamespaceTypesNeutral(o, group);
      if ns != [] {
        NeutralWrapped(NamespaceTypes(o, group));
        NeutralFlat([Display(n.definition(ns))]);
        NeutralFlat([Line]);
        NeutralAppend([Display(n.definition(ns))], [Begin] + NamespaceTypes(o, group) + [End]);
        NeutralAppend([Display(n.definition(ns))] + ([Begin] + NamespaceTypes(o, group) + [End]), [Line]);
      }
      NamespaceListNeutral(o, n, types, keys[1..]);
      NeutralAppend(NamespaceBlock(o, n, ns, group), NamespaceList(o, n, types, keys[1..]));
    }
  }

  /* ---------------- the namespace hierarchy ---------------- */

  /** The longest namespace path among the types. */
  function MaxDepth(types: seq<ListedType>): (r: nat)
    ensures forall t :: t in types ==> |t.namespace| <= r
    decreases |types|
  {
    if |types| == 0 then 0
    else
      var rest := MaxDepth(types[1..]);
      assert forall t :: t in types ==> t == types[0] || t in types[1..];
      if |types[0].namespace| > rest then |types[0].namespace| else rest
  }

  /** The namespace directly under the global one that holds `ns`; the
      global namespace for itself. */
  function RootOf(ns: seq<string>): seq<string>
  {
    if |ns| == 0 then [] else ns[..1]
  }

  /** The namespaces between `ns` and its root: `ns` and its containing
      namespaces, up to but not including the root. */
  function NestedAbove(ns: seq<string>): (r: seq<seq<string>>)
    ensures forall c :: c in r <==> exists k :: 2 <= k <= |ns| && c == ns[..k]
  {
    if |ns| < 2 then []
    else
      var r := seq(|ns| - 1, j requires 0 <= j < |ns| - 1 => ns[..j + 2]);
      assert forall k :: 2 <= k <= |ns| ==> r[k - 2] == ns[..k];
      r
  }

  /** The root namespaces of the types, each once. */
  function RootKeys(types: seq<ListedType>): (r: seq<seq<string>>)
    ensures Distinct(r)
    ensures forall c :: c in r ==> exists t :: t in types && c == RootOf(t.namespace)
    ensures forall t :: t in types ==> RootOf(t.namespace) in r
  {
    var all := seq(|types|, i requires 0 <= i < |types| => RootOf(types[i].namespace));
    forall t | t in types ensures RootOf(t.namespace) in all {
      var i :| 0 <= i < |types| && types[i] == t;
      assert all[i] == RootOf(t.namespace);
    }
    forall c | c in all ensures exists t :: t in types && c == RootOf(t.namespace) {
      var i :| 0 <= i < |all| && all[i] == c;
      assert types[i] in types;
    }
    Dedup(all)
  }

  /** `rootNamespaces` of the first loop, in the comparer's order. */
  function RootNamespaces(n: NamespaceDisplay, types: seq<ListedType>): (r: seq<seq<string>>)
    ensures forall c :: c in r ==> |c| <= MaxDepth(types)
    ensures multiset(r) == multiset(RootKeys(types))
  {
    var keys := RootKeys(types);
    var r := Sort(keys, ByNamespaceRank(n));
    forall c | c in r ensures |c| <= MaxDepth(types) {
      assert c in multiset(r);
      assert c in keys;
      var t :| t in types && c == RootOf(t.namespace);
    }
    r
  }

  /** The roots are the namespaces directly under the global one that hold
      a type, and the global namespace when it holds one itself; each is
      written once. */
  lemma RootNamespacesListed(n: NamespaceDisplay, types: seq<ListedType>)
    ensures var r := RootNamespaces(n, types);
      && Distinct(r)
      && (forall c :: c in r <==> exists t :: t in types && c == RootOf(t.namespace))
      && SortedBy(r, ByNamespaceRank(n))
  {
    var keys := RootKeys(types);
    var r := RootNamespaces(n, types);
    assert r == Sort(keys, ByNamespaceRank(n));
    DistinctPermutation(keys, r);
    forall c ensures c in r <==> c in keys {
      assert c in r <==> c in multiset(r);
      assert c in keys <==> c in multiset(keys);
    }
  }

  /** `nestedNamespaces` of the first loop. */
  function NestedNamespaces(types: seq<ListedType>): (r: seq<seq<string>>)
    ensures forall c :: c in r ==> 2 <= |c| <= MaxDepth(types)
    ensures Distinct(r)
  {
    var items := seq(|types|, i requires 0 <= i < |types| => NestedAbove(types[i].namespace));
    var r := Dedup(Concat(items));
    forall c | c in r ensures 2 <= |c| <= MaxDepth(types) {
      InConcat(c, items);
      var i :| 0 <= i < |items| && c in items[i];
      assert types[i] in types;
    }
    r
  }

  /** The nested namespaces are the containing namespaces of the types at
      least two levels below the global one. */
  lemma NestedNamespacesAre(types: seq<ListedType>, c: seq<string>)
    ensures c in NestedNamespaces(types) <==> exists t, k :: t in types && 2 <= k <= |t.namespace| && c == t.namespace[..k]
  {
    var items := seq(|types|, i requires 0 <= i < |types| => NestedAbove(types[i].namespace));
    assert NestedNamespaces(types) == Dedup(Concat(items));
    InConcat(c, items);
    if exists t, k :: t in types && 2 <= k <= |t.namespace| && c == t.namespace[..k] {
      var t, k :| t in types && 2 <= k <= |t.namespace| && c == t.namespace[..k];
      var i :| 0 <= i < |types| && types[i] == t;
      assert c in items[i];
    }
  }

  predicate ChildOf(ns: seq<string>, c: seq<string>)
  {
    |c| == |ns| + 1 && c[..|ns|] == ns
  }

  /** The nested namespaces directly inside `ns`, in the comparer's order:
      each of them once, and no other. */
  function Children(n: NamespaceDisplay, types: seq<ListedType>, ns: seq<string>): (r: seq<seq<string>>)
    ensures forall c :: c in r <==> c in NestedNamespaces(types) && ChildOf(ns, c)
    ensures forall c :: c in r ==> |c| <= MaxDepth(types)
    ensures Distinct(r)
    ensures SortedBy(r, ByNamespaceRank(n))
  {
    var kept := Filter(NestedNamespaces(types), c => ChildOf(ns, c));
    var r := Sort(kept, ByNamespaceRank(n));
    forall c ensures c in r <==> c in kept {
      assert c in r <==> c in multiset(r);
      assert c in kept <==> c in multiset(kept);
    }
    DistinctPermutation(kept, r);
    r
  }

  /** The local `WriteNamespace`: a namespace other than the global one is
      introduced, when nested, by a comment line with its full name (after
      an empty line unless it is the first of its siblings), then written
      as a definition around its own types and its nested namespaces. Every
      namespace it begins it also ends. */
  function WriteNamespace(o: DefinitionListOptions, n: NamespaceDisplay, types: seq<ListedType>,
                          ns: seq<string>, isNested: bool, startsWithNewLine: bool): (r: seq<Call>)
    requires |ns| <= MaxDepth(types)
    ensures Neutral(r)
    decreases MaxDepth(types) - |ns|, 1, 0
  {
    var children := Children(n, types, ns);
    var own := NamespaceTypes(o, TypesIn(types, ns));
    var nested := ChildNamespaces(o, n, types, ns, children, 0);
    NamespaceTypesNeutral(o, TypesIn(types, ns));
    NeutralAppend(own, nested);
    if ns == [] then own + nested
    else
      var heading := Heading(n, ns, isNested, startsWithNewLine);
      NeutralFramed(heading, n.nameOnly(ns), own + nested);
      heading + [Display(n.nameOnly(ns))] + ([Begin] + (own + nested) + [End])
  }

  /** A heading, a name, and a body between a begin and an end leave the
      level where they found it when the heading and the body do. */
  lemma NeutralFramed(heading: seq<Call>, name: seq<Part>, body: seq<Call>)
    requires Neutral(heading) && Neutral(body)
    ensures Neutral(heading + [Display(name)] + ([Begin] + body + [End]))
  {
    NeutralFlat([Display(name)]);
    NeutralAppend(heading, [Display(name)]);
    NeutralWrapped(body);
    NeutralAppend(heading + [Display(name)], [Begin] + body + [End]);
  }

  /** The comment line that introduces a nested namespace. */
  function Heading(n: NamespaceDisplay, ns: seq<string>, isNested: bool, startsWithNewLine: bool): (r: seq<Call>)
    ensures Neutral(r)
  {
    var r := if isNested then (if startsWithNewLine then [Line] else []) + [Str("// "), Display(n.fullName(ns)), Line] else [];
    NeutralFlat(r);
    r
  }

  /** The nested namespaces of `ns` from the `j`-th on, the first of them
      without a leading empty line. */
  function ChildNamespaces(o: DefinitionListOptions, n: NamespaceDisplay, types: seq<ListedType>,
                           ns: seq<string>, children: seq<seq<string>>, j: nat): (r: seq<Call>)
    requires |ns| <= MaxDepth(types) && j <= |children|
    requires forall c :: c in children ==> |c| == |ns| + 1 && |c| <= MaxDepth(types)
    ensures Neutral(r)
    decreases MaxDepth(types) - |ns|, 0, |children| - j
  {
    if j == |children| then
      NeutralFlat([]);
      []
    else
      assert children[j] in children;
      var head := WriteNamespace(o, n, types, children[j], true, j > 0);
      var rest := ChildNamespaces(o, n, types, ns, children, j + 1);
      NeutralAppend(head, rest);
      head + rest
  }

  /** `WriteWithNamespaceHierarchy`: each root namespace, followed by a
      line break. */
  function NamespaceHierarchy(o: DefinitionListOptions, n: NamespaceDisplay, types: seq<ListedType>): seq<Call>
  {
    var roots := RootNamespaces(n, types);
    Concat(seq(|roots|, i requires 0 <= i < |roots| =>
      assert roots[i] in roots;
      WriteNamespace(o, n, types, roots[i], false, false) + [Line]))
  }

  lemma NamespaceHierarchyNeutral(o: DefinitionListOptions, n: NamespaceDisplay, types: seq<ListedType>)
    ensures Neutral(NamespaceHierarchy(o, n, types))
  {
    var roots := RootNamespaces(n, types);
    var items := seq(|roots|, i requires 0 <= i < |roots| =>
      assert roots[i] in roots;
      WriteNamespace(o, n, types, roots[i], false, false) + [Line]);
    forall i | 0 <= i < |roots| ensures Neutral(items[i]) {
      assert roots[i] in roots;
      NeutralFlat([Line]);
      NeutralAppend(WriteNamespace(o, n, types, roots[i], false, false), [Line]);
    }
    NeutralConcat(items);
  }

  /* ---------------- assemblies and the whole listing ---------------- */

  /** An assembly as the list writer sees it: its identity as written, its
      place in the (name, version) order, the compiler's rendering of its
      visible attributes, and its top-level types in the order the assembly
      yields them. */
  datatype ListedAssembly = ListedAssembly(
    identity: string,
    rank: int,
    attributeParts: seq<Part>,
    types: seq<ListedType>)

  function ByAssemblyRank(): (ListedAssembly, ListedAssembly) -> bool
  {
    (a: ListedAssembly, b: ListedAssembly) => a.rank <= b.rank
  }

  /** The assemblies ordered by name, then version. */
  function SortedAssemblies(assemblies: seq<ListedAssembly>): (r: seq<ListedAssembly>)
    ensures multiset(r) == multiset(assemblies) && |r| == |assemblies|
    ensures SortedBy(r, ByAssemblyRank())
  {
    Sort(assemblies, ByAssemblyRank())
  }

  /** One assembly's lines: its identity, then, with the `AssemblyAttributes`
      option, its attributes (when there are any) and a line break. */
  function AssemblyHeader(o: DefinitionListOptions, a: ListedAssembly): seq<Call>
  {
    [Str(a.identity), Line] + AttributeLines(o, a)
  }

  function AssemblyLines(o: DefinitionListOptions, sorted: seq<ListedAssembly>): seq<Call>
    decreases |sorted|
  {
    if |sorted| == 0 then [] else AssemblyHeader(o, sorted[0]) + AssemblyLines(o, sorted[1..])
  }

  /** The head of the listing: every assembly in order, and one more line
      break when attributes are not listed. */
  function Header(o: DefinitionListOptions, assemblies: seq<ListedAssembly>): seq<Call>
  {
    AssemblyLines(o, SortedAssemblies(assemblies)) + (if o.assemblyAttributes then [] else [Line])
  }

  /** The top-level types the listing covers: every assembly's types that
      pass `IsVisibleType`, assembly after assembly in the given order. */
  function ListedTypes(o: DefinitionListOptions, assemblies: seq<ListedAssembly>): (r: seq<ListedType>)
    ensures forall t :: t in r ==> TypeListed(o, t.symbol)
    decreases |assemblies|
  {
    if |assemblies| == 0 then []
    else Filter(assemblies[0].types, (t: ListedType) => TypeListed(o, t.symbol)) + ListedTypes(o, assemblies[1..])
  }

  /** `Write(assemblies)`: the header, then the types either nested by
      namespace or grouped by namespace in the comparer's order. */
  function WriteListing(o: DefinitionListOptions, n: NamespaceDisplay, assemblies: seq<ListedAssembly>): seq<Call>
  {
    var types := ListedTypes(o, assemblies);
    Header(o, assemblies)
      + (if o.nestNamespaces then NamespaceHierarchy(o, n, types) else NamespaceList(o, n, types, SortedKeys(n, types)))
  }

  /** The strings written by `Write(string)`, in order. */
  function Strings(cs: seq<Call>): seq<string>
    decreases |cs|
  {
    if |cs| == 0 then [] else (if cs[0].Str? then [cs[0].value] else []) + Strings(cs[1..])
  }

  lemma {:induction false} StringsAppend(a: seq<Call>, b: seq<Call>)
    ensures Strings(a + b) == Strings(a) + Strings(b)
    decreases |a|
  {
    if |a| == 0 {
      assert a + b == b;
    } else {
      assert (a + b)[0] == a[0];
      assert (a + b)[1..] == a[1..] + b;
      StringsAppend(a[1..], b);
    }
  }

  /** The attributes of the assemblies that have any, in order. */
  function AttributeLists(sorted: seq<ListedAssembly>): seq<seq<Part>>
    decreases |sorted|
  {
    if |sorted| == 0 then []
    else (if |sorted[0].attributeParts| > 0 then [sorted[0].attributeParts] else []) + AttributeLists(sorted[1..])
  }

  /** What one call contributes to the strings, the displays and the line
      count. */
  lemma OneCall(c: Call)
    ensures Strings([c]) == (if c.Str? then [c.value] else [])
    ensures Displays([c]) == (if c.Display? then [c.parts] else [])
    ensures Count(Line, [c]) == (if c == Line then 1 else 0)
  {
    assert [c][1..] == [];
  }

  lemma IdentityLine(identity: string)
    ensures Strings([Str(identity), Line]) == [identity]
    ensures Displays([Str(identity), Line]) == []
    ensures Count(Line, [Str(identity), Line]) == 1
  {
    OneCall(Str(identity));
    OneCall(Line);
    assert [Str(identity), Line] == [Str(identity)] + [Line];
    StringsAppend([Str(identity)], [Line]);
    DisplaysAppend([Str(identity)], [Line]);
    CountAppend(Line, [Str(identity)], [Line]);
  }

  /** The calls after the identity line. */
  function AttributeLines(o: DefinitionListOptions, a: ListedAssembly): seq<Call>
  {
    if o.assemblyAttributes then (if |a.attributeParts| > 0 then [Display(a.attributeParts)] else []) + [Line] else []
  }

  lemma AttributeLinesShow(o: DefinitionListOptions, a: ListedAssembly)
    ensures Strings(AttributeLines(o, a)) == []
    ensures Displays(AttributeLines(o, a)) == if o.assemblyAttributes && |a.attributeParts| > 0 then [a.attributeParts] else []
    ensures Count(Line, AttributeLines(o, a)) == if o.assemblyAttributes then 1 else 0
  {
    if o.assemblyAttributes {
      var attrs: seq<Call> := if |a.attributeParts| > 0 then [Display(a.attributeParts)] else [];
      OneCall(Line);
      if |a.attributeParts| > 0 {
        OneCall(Display(a.attributeParts));
      }
      StringsAppend(attrs, [Line]);
      DisplaysAppend(attrs, [Line]);
      CountAppend(Line, attrs, [Line]);
    }
  }

  lemma AssemblyHeaderShows(o: DefinitionListOptions, a: ListedAssembly)
    ensures Strings(AssemblyHeader(o, a)) == [a.identity]
    ensures Displays(AssemblyHeader(o, a)) == if o.assemblyAttributes && |a.attributeParts| > 0 then [a.attributeParts] else []
    ensures Count(Line, AssemblyHeader(o, a)) == if o.assemblyAttributes then 2 else 1
    ensures Neutral(AssemblyHeader(o, a))
  {
    var first: seq<Call> := [Str(a.identity), Line];
    var extra := AttributeLines(o, a);
    assert AssemblyHeader(o, a) == first + extra;
    IdentityLine(a.identity);
    AttributeLinesShow(o, a);
    StringsAppend(first, extra);
    DisplaysAppend(first, extra);
    CountAppend(Line, first, extra);
    NeutralFlat(first + extra);
  }

  /** The identities of `sorted`, in order. */
  function Identities(sorted: seq<ListedAssembly>): (r: seq<string>)
    ensures |r| == |sorted| && forall i :: 0 <= i < |sorted| ==> r[i] == sorted[i].identity
    decreases |sorted|
  {
    if |sorted| == 0 then [] else [sorted[0].identity] + Identities(sorted[1..])
  }

  /** The header writes each assembly's identity once, in the (name, version)
      order; its attributes only with the option; and one line per assembly
      plus a closing blank line, or two lines per assembly with attributes. */
  lemma AssemblyLinesShow(o: DefinitionListOptions, sorted: seq<ListedAssembly>)
    ensures Strings(AssemblyLines(o, sorted)) == Identities(sorted)
    ensures Displays(AssemblyLines(o, sorted)) == if o.assemblyAttributes then AttributeLists(sorted) else []
    ensures Count(Line, AssemblyLines(o, sorted)) == if o.assemblyAttributes then 2 * |sorted| else |sorted|
    ensures Neutral(AssemblyLines(o, sorted))
  {
    AssemblyLinesStrings(o, sorted);
    AssemblyLinesDisplays(o, sorted);
    AssemblyLinesCount(o, sorted);
    AssemblyLinesNeutral(o, sorted);
  }

  lemma {:induction false} AssemblyLinesStrings(o: DefinitionListOptions, sorted: seq<ListedAssembly>)
    ensures Strings(AssemblyLines(o, sorted)) == Identities(sorted)
    decreases |sorted|
  {
    if |sorted| > 0 {
      var head := AssemblyHeader(o, sorted[0]);
      var rest := AssemblyLines(o, sorted[1..]);
      AssemblyHeaderShows(o, sorted[0]);
      AssemblyLinesStrings(o, sorted[1..]);
      StringsAppend(head, rest);
    }
  }

  lemma {:induction false} AssemblyLinesDisplays(o: DefinitionListOptions, sorted: seq<ListedAssembly>)
    ensures Displays(AssemblyLines(o, sorted)) == if o.assemblyAttributes then AttributeLists(sorted) else []
    decreases |sorted|
  {
    if |sorted| > 0 {
      var head := AssemblyHeader(o, sorted[0]);
      var rest := AssemblyLines(o, sorted[1..]);
      AssemblyHeaderShows(o, sorted[0]);
      AssemblyLinesDisplays(o, sorted[1..]);
      DisplaysAppend(head, rest);
    }
  }

  lemma {:induction false} AssemblyLinesCount(o: DefinitionListOptions, sorted: seq<ListedAssembly>)
    ensures Count(Line, AssemblyLines(o, sorted)) == if o.assemblyAttributes then 2 * |sorted| else |sorted|
    decreases |sorted|
  {
    if |sorted| > 0 {
      var head := AssemblyHeader(o, sorted[0]);
      var rest := AssemblyLines(o, sorted[1..]);
      AssemblyHeaderShows(o, sorted[0]);
      AssemblyLinesCount(o, sorted[1..]);
      CountAppend(Line, head, rest);
    }
  }

  lemma {:induction false} AssemblyLinesNeutral(o: DefinitionListOptions, sorted: seq<ListedAssembly>)
    ensures Neutral(AssemblyLines(o, sorted))
    decreases |sorted|
  {
    if |sorted| == 0 {
      NeutralFlat([]);
    } else {
      var head := AssemblyHeader(o, sorted[0]);
      var rest := AssemblyLines(o, sorted[1..]);
      AssemblyHeaderShows(o, sorted[0]);
      AssemblyLinesNeutral(o, sorted[1..]);
      NeutralAppend(head, rest);
    }
  }

  lemma HeaderShows(o: DefinitionListOptions, assemblies: seq<ListedAssembly>)
    ensures var sorted := SortedAssemblies(assemblies);
      && Strings(Header(o, assemblies)) == Identities(sorted)
      && Displays(Header(o, assemblies)) == (if o.assemblyAttributes then AttributeLists(sorted) else [])
      && Count(Line, Header(o, assemblies)) == (if o.assemblyAttributes then 2 * |assemblies| else |assemblies| + 1)
      && Neutral(Header(o, assemblies))
  {
    var sorted := SortedAssemblies(assemblies);
    var tail: seq<Call> := if o.assemblyAttributes then [] else [Line];
    AssemblyLinesShow(o, sorted);
    StringsAppend(AssemblyLines(o, sorted), tail);
    DisplaysAppend(AssemblyLines(o, sorted), tail);
    CountAppend(Line, AssemblyLines(o, sorted), tail);
    NeutralFlat(tail);
    NeutralAppend(AssemblyLines(o, sorted), tail);
    assert Strings(tail) == [] by {
      if !o.assemblyAttributes { assert tail[1..] == []; }
    }
    assert Displays(tail) == [] by {
      if !o.assemblyAttributes { DisplaysOne(Line); }
    }
    assert Count(Line, tail) == (if o.assemblyAttributes then 0 else 1) by {
      if !o.assemblyAttributes { assert tail[1..] == []; }
    }
  }

  /** A type is listed exactly when some assembly has it at top level and
      `IsVisibleType` accepts it. */
  lemma {:induction false} ListedTypesAre(o: DefinitionListOptions, assemblies: seq<ListedAssembly>, t: ListedType)
    ensures t in ListedTypes(o, assemblies) <==>
      TypeListed(o, t.symbol) && exists i :: 0 <= i < |assemblies| && t in assemblies[i].types
    decreases |assemblies|
  {
    if |assemblies| > 0 {
      ListedTypesAre(o, assemblies[1..], t);
      if t in assemblies[0].types && TypeListed(o, t.symbol) {
        assert t in Filter(assemblies[0].types, (u: ListedType) => TypeListed(o, u.symbol));
      }
      if exists i :: 0 <= i < |assemblies| && t in assemblies[i].types {
        var i :| 0 <= i < |assemblies| && t in assemblies[i].types;
        if i > 0 {
          assert assemblies[1..][i - 1] == assemblies[i];
        }
      }
      if exists i :: 0 <= i < |assemblies[1..]| && t in assemblies[1..][i].types {
        var i :| 0 <= i < |assemblies[1..]| && t in assemblies[1..][i].types;
        assert assemblies[i + 1] == assemblies[1..][i];
      }
    }
  }

  /** The whole listing opens and closes every type's contents in pairs, so
      the writer ends at the level it started at;
      without the `Indent` option its output is exactly the calls' text. */
  lemma ListingBalanced(o: DefinitionListOptions, n: NamespaceDisplay, assemblies: seq<ListedAssembly>)
    ensures Neutral(WriteListing(o, n, assemblies))
    ensures Exec(o, Initial, WriteListing(o, n, assemblies)).level == 0
    ensures !o.indent ==> Exec(o, Initial, WriteListing(o, n, assemblies)).out == PlainText(WriteListing(o, n, assemblies))
  {
    var types := ListedTypes(o, assemblies);
    HeaderShows(o, assemblies);
    if o.nestNamespaces {
      NamespaceHierarchyNeutral(o, n, types);
    } else {
      NamespaceListNeutral(o, n, types, SortedKeys(n, types));
    }
    var body := if o.nestNamespaces then NamespaceHierarchy(o, n, types) else NamespaceList(o, n, types, SortedKeys(n, types));
    NeutralAppend(Header(o, assemblies), body);
    var cs := WriteListing(o, n, assemblies);
    assert LevelRun(0, cs) == Some(0);
    ExecFollowsLevel(o, Initial, cs, 0);
    if !o.indent {
      WithoutIndentation(o, Initial, cs);
    }
  }

  /** Grouped by namespace, the listing writes each listed type in exactly
      one group. */
  lemma ListingGroupsTypes(o: DefinitionListOptions, n: NamespaceDisplay, assemblies: seq<ListedAssembly>)
    ensures var types := ListedTypes(o, assemblies);
      multiset(Groups(types, SortedKeys(n, types))) == multiset(types)
  {
    GroupsPartitionTypes(n, ListedTypes(o, assemblies));
  }
}

=== FILE: namespace_writer.dfy ===
/**
 The namespace layouts of the abstract definition writer: the flat list of
 namespaces, and the hierarchy that nests each namespace inside the one
 containing it.
 */
module NamespaceWriter {
  import opened Wrappers
  import opened Sequences
  import opened WriterEvents
  import opened WriterTypes
  import ListFormat

  /** The distinct namespaces of the types: the keys `GroupBy` forms. */
  function NamespaceKeys(types: seq<TypeDef>): (r: seq<Namespace>)
    ensures Distinct(r)
    ensures forall ns :: ns in r <==> exists t :: t in types && t.namespace == ns
  {
    var all := seq(|types|, i requires 0 <= i < |types| => types[i].namespace);
    assert forall t :: t in types ==> t.namespace in all by {
      forall t | t in types ensures t.namespace in all {
        var i :| 0 <= i < |types| && types[i] == t;
        assert all[i] == t.namespace;
      }
    }
    Dedup(all)
  }

  /** The types of one namespace: a group of `GroupBy`. */
  function TypesIn(types: seq<TypeDef>, ns: Namespace): (r: seq<TypeDef>)
    ensures forall t :: t in r <==> t in types && t.namespace == ns
  {
    Filter(types, (t: TypeDef) => t.namespace == ns)
  }

  function ByNamespaceRank(w: Writer): (Namespace, Namespace) -> bool
  {
    (a: Namespace, b: Namespace) => w.namespaceRank(a) <= w.namespaceRank(b)
  }

  /** The namespaces listed: those of the types that the filter shows, each
      once, in the comparer's order. */
  function VisibleKeys(w: Writer, types: seq<TypeDef>): (r: seq<Namespace>)
    ensures Distinct(r)
    ensures forall ns :: ns in r <==> w.namespaceVisible(ns) && exists t :: t in types && t.namespace == ns
    ensures SortedBy(r, ByNamespaceRank(w))
  {
    var kept := Filter(NamespaceKeys(types), w.namespaceVisible);
    var r := Sort(kept, ByNamespaceRank(w));
    forall x ensures x in r <==> x in kept {
      assert x in r <==> x in multiset(r);
      assert x in kept <==> x in multiset(kept);
    }
    DistinctPermutation(kept, r);
    r
  }

  /* ---------------- the namespace list ---------------- */

  /** One namespace of the list: start, definition, its types when the type
      group is shown, end. */
  function NamespaceBlock(w: Writer, types: seq<TypeDef>, ns: Namespace): seq<Event>
  {
    [StartNamespace(ns), NamespaceDefinition(ns)] + NamespaceTypes(w, TypesIn(types, ns)) + [EndNamespace(ns)]
  }

  /** The types of a namespace, listed when the type group is shown. */
  function NamespaceTypes(w: Writer, types: seq<TypeDef>): (r: seq<Event>)
    ensures forall e :: e in r ==> TypeEvent(e)
  {
    if w.ShowsTypes() then
      TypeListEvents(w, types, TypeOrder(types, false));
      WriteTypes(w, types)
    else []
  }

  lemma NamespaceTypesBalanced<S(!new)>(step: (S, Event) -> Option<S>, w: Writer, types: seq<TypeDef>)
    requires Sound(step)
    ensures Balanced(step, NamespaceTypes(w, types))
  {
    if w.ShowsTypes() {
      WriteTypesBalanced(step, w, types);
    } else {
      BalancedEmpty(step);
    }
  }

  function NamespaceBlocks(w: Writer, types: seq<TypeDef>, keys: seq<Namespace>): (r: seq<seq<Event>>)
    ensures |r| == |keys| && forall i :: 0 <= i < |keys| ==> r[i] == NamespaceBlock(w, types, keys[i])
  {
    seq(|keys|, i requires 0 <= i < |keys| => NamespaceBlock(w, types, keys[i]))
  }

  /** `WriteNamespaces(typesByNamespace)`: the visible namespaces separated
      by `NamespaceSeparator`. */
  function NamespaceList(w: Writer, types: seq<TypeDef>): seq<Event>
  {
    Join(NamespaceBlocks(w, types, VisibleKeys(w, types)), [NamespaceSeparator])
  }

  function NamespaceShown(e: Event): Option<Namespace>
  {
    if e.NamespaceDefinition? then Some(e.ns) else None
  }

  /** Namespace events picked from a type listing: none. */
  lemma NoNamespaceInTypes(events: seq<Event>)
    requires forall e :: e in events ==> TypeEvent(e)
    ensures Pick(events, NamespaceShown) == []
    ensures NamespaceSeparator !in events
  {
    PickNone(events, NamespaceShown);
  }

  /** A namespace block defines its namespace and nothing else. */
  lemma NamespaceBlockShows(w: Writer, types: seq<TypeDef>, ns: Namespace)
    ensures Pick(NamespaceBlock(w, types, ns), NamespaceShown) == [ns]
    ensures NamespaceSeparator !in NamespaceBlock(w, types, ns)
  {
    var body := NamespaceTypes(w, TypesIn(types, ns));
    NoNamespaceInTypes(body);
    PickAround([StartNamespace(ns), NamespaceDefinition(ns)], body, [EndNamespace(ns)], NamespaceShown);
    assert Pick([StartNamespace(ns), NamespaceDefinition(ns)], NamespaceShown) == [ns] by {
      assert [StartNamespace(ns), NamespaceDefinition(ns)][1..] == [NamespaceDefinition(ns)];
      PickOne(NamespaceDefinition(ns), NamespaceShown);
    }
    PickOne(EndNamespace(ns), NamespaceShown);
  }

  /** The list defines every visible namespace once, in the comparer's
      order. */
  lemma NamespaceListShowsEach(w: Writer, types: seq<TypeDef>)
    ensures Pick(NamespaceList(w, types), NamespaceShown) == VisibleKeys(w, types)
  {
    var keys := VisibleKeys(w, types);
    var blocks := NamespaceBlocks(w, types, keys);
    forall i | 0 <= i < |blocks| ensures Pick(blocks[i], NamespaceShown) == [keys[i]] {
      NamespaceBlockShows(w, types, keys[i]);
    }
    PickOne(NamespaceSeparator, NamespaceShown);
    PickJoin(blocks, [NamespaceSeparator], NamespaceShown);
    PickEach(blocks, NamespaceShown, keys);
  }

  /** One separator stands between each two namespaces of the list. */
  lemma NamespaceListSeparators(w: Writer, types: seq<TypeDef>)
    ensures |VisibleKeys(w, types)| > 0 ==>
      Count(NamespaceSeparator, NamespaceList(w, types)) == |VisibleKeys(w, types)| - 1
  {
    var keys := VisibleKeys(w, types);
    var blocks := NamespaceBlocks(w, types, keys);
    forall i | 0 <= i < |blocks| ensures NamespaceSeparator !in blocks[i] {
      NamespaceBlockShows(w, types, keys[i]);
    }
    if |blocks| > 0 {
      JoinSeparators(blocks, NamespaceSeparator);
    }
  }

  lemma NamespaceListBalanced<S(!new)>(step: (S, Event) -> Option<S>, w: Writer, types: seq<TypeDef>)
    requires Sound(step)
    ensures Balanced(step, NamespaceList(w, types))
  {
    var keys := VisibleKeys(w, types);
    var blocks := NamespaceBlocks(w, types, keys);
    forall i | 0 <= i < |blocks| ensures Balanced(step, blocks[i]) {
      NamespaceBlockBalanced(step, w, types, keys[i]);
    }
    BalancedJoin(step, blocks, [NamespaceSeparator]);
  }

  lemma NamespaceBlockBalanced<S(!new)>(step: (S, Event) -> Option<S>, w: Writer, types: seq<TypeDef>, ns: Namespace)
    requires Sound(step)
    ensures Balanced(step, NamespaceBlock(w, types, ns))
  {
    var body := NamespaceTypes(w, TypesIn(types, ns));
    NamespaceTypesBalanced(step, w, TypesIn(types, ns));
    assert WrapsNamespace(step, ns);
    NamespaceOpenBalanced(step, ns, body);
  }

  /** `StartNamespace`, then a namespace wrapped round a balanced body. */
  lemma NamespaceOpenBalanced<S(!new)>(step: (S, Event) -> Option<S>, ns: Namespace, body: seq<Event>)
    requires WrapsNamespace(step, ns) && Balanced(step, body)
    ensures Balanced(step, [StartNamespace(ns), NamespaceDefinition(ns)] + body + [EndNamespace(ns)])
  {
    BalancedWrapped(step, [NamespaceDefinition(ns)], body, [EndNamespace(ns)]);
    BalancedAppend(step, [StartNamespace(ns)], [NamespaceDefinition(ns)] + body + [EndNamespace(ns)]);
    assert [StartNamespace(ns), NamespaceDefinition(ns)] + body + [EndNamespace(ns)]
      == [StartNamespace(ns)] + ([NamespaceDefinition(ns)] + body + [EndNamespace(ns)]);
  }

  /* ---------------- the namespace hierarchy ---------------- */

  /** The root the walk up the containing namespaces of `ns` reaches: the
      global namespace itself, or the top-level namespace `ns` lies in. */
  function RootOf(ns: Namespace): (r: Namespace)
    ensures |r| <= 1 && |r| <= |ns| && r == ns[..|r|]
    ensures |ns| > 0 <==> |r| == 1
  {
    if |ns| == 0 then ns else ns[..1]
  }

  /** The namespaces the walk adds to the nested set: `ns` and each of its
      ancestors below the top level. */
  function NestedOf(ns: Namespace): (r: seq<Namespace>)
    ensures forall x :: x in r <==> 2 <= |x| <= |ns| && x == ns[..|x|]
  {
    var n := if |ns| >= 2 then |ns| - 1 else 0;
    var r := seq(n, i requires 0 <= i < n => ns[..i + 2]);
    forall x | 2 <= |x| <= |ns| && x == ns[..|x|] ensures x in r {
      assert r[|x| - 2] == x;
    }
    r
  }

  /** The root namespaces, each once. */
  function Roots(keys: seq<Namespace>): (r: seq<Namespace>)
    ensures Distinct(r)
    ensures forall x :: x in r <==> exists k :: k in keys && x == RootOf(k)
  {
    var all := seq(|keys|, i requires 0 <= i < |keys| => RootOf(keys[i]));
    forall k | k in keys ensures RootOf(k) in all {
      var i :| 0 <= i < |keys| && keys[i] == k;
      assert all[i] == RootOf(k);
    }
    Dedup(all)
  }

  function AllNested(keys: seq<Namespace>): (r: seq<Namespace>)
    ensures forall x :: x in r <==> exists k :: k in keys && x in NestedOf(k)
    decreases |keys|
  {
    if |keys| == 0 then []
    else
      assert keys == keys[..|keys| - 1] + [keys[|keys| - 1]];
      AllNested(keys[..|keys| - 1]) + NestedOf(keys[|keys| - 1])
  }

  /** The nested set, each namespace once. */
  function NestedPool(keys: seq<Namespace>): (r: seq<Namespace>)
    ensures Distinct(r)
    ensures forall x :: x in r <==> exists k :: k in keys && x in NestedOf(k)
  {
    Dedup(AllNested(keys))
  }

  function MaxLength(keys: seq<Namespace>): (r: nat)
    ensures forall k :: k in keys ==> |k| <= r
    decreases |keys|
  {
    if |keys| == 0 then 0
    else
      var rest := MaxLength(keys[1..]);
      assert forall k :: k in keys ==> k == keys[0] || k in keys[1..];
      if |keys[0]| > rest then |keys[0]| else rest
  }

  /** `HashSet.Remove`. */
  function Remove(pool: seq<Namespace>, c: Namespace): (r: seq<Namespace>)
    ensures forall x :: x in r <==> x in pool && x != c
  {
    Filter(pool, (x: Namespace) => x != c)
  }

  /** The namespaces of the pool directly inside `ns`, in the comparer's
      order. */
  function Children(w: Writer, pool: seq<Namespace>, ns: Namespace): (r: seq<Namespace>)
    ensures forall c :: c in r <==> c in pool && |c| == |ns| + 1 && c[..|ns|] == ns
    ensures SortedBy(r, ByNamespaceRank(w))
    ensures Distinct(pool) ==> Distinct(r)
  {
    var inside := Filter(pool, (c: Namespace) => |c| == |ns| + 1 && c[..|ns|] == ns);
    var r := Sort(inside, ByNamespaceRank(w));
    forall x ensures x in r <==> x in inside {
      assert x in r <==> x in multiset(r);
      assert x in inside <==> x in multiset(inside);
    }
    assert Distinct(pool) ==> Distinct(r) by {
      if Distinct(pool) {
        DistinctPermutation(inside, r);
      }
    }
    r
  }

  /** The children of a namespace are one name longer than it and within
      the bound the pool keeps. */
  lemma ChildrenAreWithin(w: Writer, pool: seq<Namespace>, ns: Namespace, bound: nat)
    requires ShorterThan(pool, bound)
    ensures ChildrenWithin(Children(w, pool, ns), ns, bound)
  {
    var children := Children(w, pool, ns);
    assert forall k :: 0 <= k < |children| ==> children[k] in children;
  }

  /** `typesByNamespace[ns]` written out: with `strict`, a namespace that is
      not a key throws, as the dictionary indexer does; without, it has no
      types. */
  function TypesOf(w: Writer, types: seq<TypeDef>, keys: seq<Namespace>, ns: Namespace, strict: bool): (r: Result<seq<Event>>)
    ensures r.Err? <==> strict && w.ShowsTypes() && ns !in keys
    ensures r.Err? ==> r.error == KeyNotFoundException
    ensures r.Ok? ==> forall e :: e in r.value ==> TypeEvent(e)
  {
    if !w.ShowsTypes() then Ok([])
    else if ns in keys then Ok(NamespaceTypes(w, TypesIn(types, ns)))
    else if strict then Err(KeyNotFoundException)
    else Ok([])
  }

  predicate ShorterThan(pool: seq<Namespace>, bound: nat)
  {
    forall x :: x in pool ==> |x| <= bound
  }

  /** Each child is one name longer than its parent and within the bound. */
  predicate ChildrenWithin(children: seq<Namespace>, parent: Namespace, bound: nat)
  {
    forall k :: 0 <= k < |children| ==> |children[k]| == |parent| + 1 && |children[k]| <= bound
  }

  /** `WriteNamespaceWithHierarchy(ns)`: the definition, the namespace's
      types, the namespaces directly inside it (each removed from the
      shared nested set before it is written), the end. The nested set
      after the call is returned with the events. */
  function NamespaceItem(w: Writer, types: seq<TypeDef>, keys: seq<Namespace>, ns: Namespace,
                         pool: seq<Namespace>, bound: nat, strict: bool): (r: Result<(seq<Event>, seq<Namespace>)>)
    requires |ns| <= bound && ShorterThan(pool, bound)
    ensures r.Ok? ==> forall x :: x in r.value.1 ==> x in pool
    decreases bound - |ns|, 1, 0
  {
    var own := TypesOf(w, types, keys, ns, strict);
    if own.Err? then Err(own.error)
    else
      var children := Children(w, pool, ns);
      ChildrenAreWithin(w, pool, ns, bound);
      var loop := ChildLoop(w, types, keys, ns, children, 0, pool, bound, strict);
      if loop.Err? then Err(loop.error)
      else Ok(([NamespaceDefinition(ns)] + own.value + loop.value.0 + [EndNamespace(ns)], loop.value.1))
  }

  /** The loop over the namespaces directly inside `parent`, separated by
      `NamespaceSeparator`. */
  function ChildLoop(w: Writer, types: seq<TypeDef>, keys: seq<Namespace>, parent: Namespace,
                     children: seq<Namespace>, i: nat, pool: seq<Namespace>, bound: nat, strict: bool): (r: Result<(seq<Event>, seq<Namespace>)>)
    requires i <= |children| && ShorterThan(pool, bound)
    requires ChildrenWithin(children, parent, bound)
    ensures r.Ok? ==> forall x :: x in r.value.1 ==> x in pool
    decreases bound - |parent|, 0, |children| - i
  {
    if i == |children| then Ok(([], pool))
    else
      var c := children[i];
      var item := NamespaceItem(w, types, keys, c, Remove(pool, c), bound, strict);
      if item.Err? then Err(item.error)
      else
        var rest := ChildLoop(w, types, keys, parent, children, i + 1, item.value.1, bound, strict);
        if rest.Err? then Err(rest.error)
        else Ok((item.value.0 + (if i + 1 < |children| then [NamespaceSeparator] else []) + rest.value.0, rest.value.1))
  }

  /** The loop over the root namespaces, separated by `NamespaceSeparator`;
      all of them share the nested set. */
  function RootLoop(w: Writer, types: seq<TypeDef>, keys: seq<Namespace>, roots: seq<Namespace>, i: nat,
                    pool: seq<Namespace>, bound: nat, strict: bool): (r: Result<seq<Event>>)
    requires i <= |roots| && ShorterThan(pool, bound)
    requires forall k :: 0 <= k < |roots| ==> |roots[k]| <= bound
    decreases |roots| - i
  {
    if i == |roots| then Ok([])
    else
      var item := NamespaceItem(w, types, keys, roots[i], pool, bound, strict);
      if item.Err? then Err(item.error)
      else
        var rest := RootLoop(w, types, keys, roots, i + 1, item.value.1, bound, strict);
        if rest.Err? then Err(rest.error)
        else Ok(item.value.0 + (if i + 1 < |roots| then [NamespaceSeparator] else []) + rest.value)
  }

  /** `WriteNamespaceHierarchy`: the roots in the comparer's order, each
      with the namespaces nested in it. */
  function NamespaceHierarchy(w: Writer, types: seq<TypeDef>, strict: bool): Result<seq<Event>>
  {
    var keys := VisibleKeys(w, types);
    var bound := MaxLength(keys);
    var roots := SortedRoots(w, keys);
    var pool := NestedPool(keys);
    HierarchyBounds(w, keys);
    RootLoop(w, types, keys, roots, 0, pool, bound, strict)
  }

  /** Every root and every nested namespace is at most as long as the
      longest key. */
  lemma HierarchyBounds(w: Writer, keys: seq<Namespace>)
    ensures ShorterThan(NestedPool(keys), MaxLength(keys))
    ensures forall k :: 0 <= k < |SortedRoots(w, keys)| ==> |SortedRoots(w, keys)[k]| <= MaxLength(keys)
  {
    var roots := SortedRoots(w, keys);
    assert forall k :: 0 <= k < |roots| ==> roots[k] in roots;
    forall x | x in NestedPool(keys) ensures |x| <= MaxLength(keys) {
      var k :| k in keys && x in NestedOf(k);
    }
  }

  /** The hierarchy is the root loop over the sets it computes. */
  lemma HierarchyLoop(w: Writer, types: seq<TypeDef>, strict: bool, keys: seq<Namespace>, roots: seq<Namespace>,
                      pool: seq<Namespace>, bound: nat)
    requires keys == VisibleKeys(w, types) && roots == SortedRoots(w, keys)
    requires pool == NestedPool(keys) && bound == MaxLength(keys)
    ensures ShorterThan(pool, bound) && forall k :: 0 <= k < |roots| ==> |roots[k]| <= bound
    ensures NamespaceHierarchy(w, types, strict) == RootLoop(w, types, keys, roots, 0, pool, bound, strict)
  {
    HierarchyBounds(w, keys);
  }

  /** The roots, in the comparer's order, each at most as long as the
      longest key. */
  function SortedRoots(w: Writer, keys: seq<Namespace>): (r: seq<Namespace>)
    ensures Distinct(r) && SortedBy(r, ByNamespaceRank(w))
    ensures forall x :: x in r <==> exists k :: k in keys && x == RootOf(k)
    ensures forall x :: x in r ==> |x| <= MaxLength(keys)
  {
    var roots := Roots(keys);
    var r := Sort(roots, ByNamespaceRank(w));
    forall x ensures x in r <==> x in roots {
      assert x in r <==> x in multiset(r);
      assert x in roots <==> x in multiset(roots);
    }
    DistinctPermutation(roots, r);
    r
  }

  /** The hierarchy as the source writes it: the lookup of a namespace's
      types throws when the namespace has no types of its own. */
  function WriteNamespaceHierarchyAsWritten(w: Writer, types: seq<TypeDef>): Result<seq<Event>>
  {
    NamespaceHierarchy(w, types, true)
  }

  /** The hierarchy with the lookup that finds no types for a namespace
      without types of its own. */
  function WriteNamespaceHierarchy(w: Writer, types: seq<TypeDef>): (r: seq<Event>)
    ensures WriteNamespaceHierarchyAsWritten(w, types).Ok? ==> WriteNamespaceHierarchyAsWritten(w, types).value == r
  {
    HierarchyLenient(w, types);
    NamespaceHierarchy(w, types, false).value
  }

  /** Without the throwing lookup the hierarchy is always written, and
      wherever the source's lookup does not throw the two agree. */
  lemma {:induction false} ItemLenient(w: Writer, types: seq<TypeDef>, keys: seq<Namespace>, ns: Namespace,
                                       pool: seq<Namespace>, bound: nat)
    requires |ns| <= bound && ShorterThan(pool, bound)
    ensures NamespaceItem(w, types, keys, ns, pool, bound, false).Ok?
    ensures NamespaceItem(w, types, keys, ns, pool, bound, true).Ok? ==>
      NamespaceItem(w, types, keys, ns, pool, bound, true) == NamespaceItem(w, types, keys, ns, pool, bound, false)
    decreases bound - |ns|, 1, 0
  {
    var children := Children(w, pool, ns);
    assert forall k :: 0 <= k < |children| ==> children[k] in children;
    ChildLoopLenient(w, types, keys, ns, children, 0, pool, bound);
    var own := TypesOf(w, types, keys, ns, false);
    var loop := ChildLoop(w, types, keys, ns, children, 0, pool, bound, false);
    assert NamespaceItem(w, types, keys, ns, pool, bound, false)
      == Ok(([NamespaceDefinition(ns)] + own.value + loop.value.0 + [EndNamespace(ns)], loop.value.1));
    if NamespaceItem(w, types, keys, ns, pool, bound, true).Ok? {
      assert TypesOf(w, types, keys, ns, true) == own;
      assert ChildLoop(w, types, keys, ns, children, 0, pool, bound, true) == loop;
    }
  }

  lemma {:induction false} ChildLoopLenient(w: Writer, types: seq<TypeDef>, keys: seq<Namespace>, parent: Namespace,
                                            children: seq<Namespace>, i: nat, pool: seq<Namespace>, bound: nat)
    requires i <= |children| && ShorterThan(pool, bound)
    requires ChildrenWithin(children, parent, bound)
    ensures ChildLoop(w, types, keys, parent, children, i, pool, bound, false).Ok?
    ensures ChildLoop(w, types, keys, parent, children, i, pool, bound, true).Ok? ==>
      ChildLoop(w, types, keys, parent, children, i, pool, bound, true) == ChildLoop(w, types, keys, parent, children, i, pool, bound, false)
    decreases bound - |parent|, 0, |children| - i
  {
    if i < |children| {
      var c := children[i];
      ItemLenient(w, types, keys, c, Remove(pool, c), bound);
      var item := NamespaceItem(w, types, keys, c, Remove(pool, c), bound, false);
      ChildLoopLenient(w, types, keys, parent, children, i + 1, item.value.1, bound);
    }
  }

  lemma {:induction false} RootLoopLenient(w: Writer, types: seq<TypeDef>, keys: seq<Namespace>, roots: seq<Namespace>, i: nat,
                                           pool: seq<Namespace>, bound: nat)
    requires i <= |roots| && ShorterThan(pool, bound)
    requires forall k :: 0 <= k < |roots| ==> |roots[k]| <= bound
    ensures RootLoop(w, types, keys, roots, i, pool, bound, false).Ok?
    ensures RootLoop(w, types, keys, roots, i, pool, bound, true).Ok? ==>
      RootLoop(w, types, keys, roots, i, pool, bound, true) == RootLoop(w, types, keys, roots, i, pool, bound, false)
    decreases |roots| - i
  {
    if i < |roots| {
      ItemLenient(w, types, keys, roots[i], pool, bound);
      var item := NamespaceItem(w, types, keys, roots[i], pool, bound, false);
      RootLoopLenient(w, types, keys, roots, i + 1, item.value.1, bound);
    }
  }

  lemma HierarchyLenient(w: Writer, types: seq<TypeDef>)
    ensures NamespaceHierarchy(w, types, false).Ok?
    ensures NamespaceHierarchy(w, types, true).Ok? ==> NamespaceHierarchy(w, types, true) == NamespaceHierarchy(w, types, false)
  {
    var keys := VisibleKeys(w, types);
    var roots := SortedRoots(w, keys);
    assert forall k :: 0 <= k < |roots| ==> roots[k] in roots;
    RootLoopLenient(w, types, keys, roots, 0, NestedPool(keys), MaxLength(keys));
  }

  /** When the type group is not shown nothing is looked up, and the source
      writes the same hierarchy. */
  lemma {:induction false} ItemWithoutTypes(w: Writer, types: seq<TypeDef>, keys: seq<Namespace>, ns: Namespace,
                                            pool: seq<Namespace>, bound: nat)
    requires !w.ShowsTypes() && |ns| <= bound && ShorterThan(pool, bound)
    ensures NamespaceItem(w, types, keys, ns, pool, bound, true).Ok?
    decreases bound - |ns|, 1, 0
  {
    var children := Children(w, pool, ns);
    assert forall k :: 0 <= k < |children| ==> children[k] in children;
    ChildLoopWithoutTypes(w, types, keys, ns, children, 0, pool, bound);
  }

  lemma {:induction false} ChildLoopWithoutTypes(w: Writer, types: seq<TypeDef>, keys: seq<Namespace>, parent: Namespace,
                                                 children: seq<Namespace>, i: nat, pool: seq<Namespace>, bound: nat)
    requires !w.ShowsTypes() && i <= |children| && ShorterThan(pool, bound)
    requires ChildrenWithin(children, parent, bound)
    ensures ChildLoop(w, types, keys, parent, children, i, pool, bound, true).Ok?
    decreases bound - |parent|, 0, |children| - i
  {
    if i < |children| {
      var c := children[i];
      ItemWithoutTypes(w, types, keys, c, Remove(pool, c), bound);
      var item := NamespaceItem(w, types, keys, c, Remove(pool, c), bound, true);
      ChildLoopWithoutTypes(w, types, keys, parent, children, i + 1, item.value.1, bound);
    }
  }

  lemma {:induction false} RootLoopWithoutTypes(w: Writer, types: seq<TypeDef>, keys: seq<Namespace>, roots: seq<Namespace>, i: nat,
                                                pool: seq<Namespace>, bound: nat)
    requires !w.ShowsTypes() && i <= |roots| && ShorterThan(pool, bound)
    requires forall k :: 0 <= k < |roots| ==> |roots[k]| <= bound
    ensures RootLoop(w, types, keys, roots, i, pool, bound, true).Ok?
    decreases |roots| - i
  {
    if i < |roots| {
      ItemWithoutTypes(w, types, keys, roots[i], pool, bound);
      var item := NamespaceItem(w, types, keys, roots[i], pool, bound, true);
      RootLoopWithoutTypes(w, types, keys, roots, i + 1, item.value.1, bound);
    }
  }

  lemma HierarchyWithoutTypes(w: Writer, types: seq<TypeDef>)
    requires !w.ShowsTypes()
    ensures WriteNamespaceHierarchyAsWritten(w, types) == Ok(WriteNamespaceHierarchy(w, types))
  {
    var keys := VisibleKeys(w, types);
    var roots := SortedRoots(w, keys);
    assert forall k :: 0 <= k < |roots| ==> roots[k] in roots;
    RootLoopWithoutTypes(w, types, keys, roots, 0, NestedPool(keys), MaxLength(keys));
    HierarchyLenient(w, types);
  }

  /** The namespace's own types are balanced whenever they are written. */
  lemma OwnTypesBalanced<S(!new)>(step: (S, Event) -> Option<S>, w: Writer, types: seq<TypeDef>, keys: seq<Namespace>,
                                  ns: Namespace, strict: bool)
    requires Sound(step)
    ensures var own := TypesOf(w, types, keys, ns, strict); own.Ok? ==> Balanced(step, own.value)
  {
    if w.ShowsTypes() && ns in keys {
      NamespaceTypesBalanced(step, w, TypesIn(types, ns));
    } else {
      BalancedEmpty(step);
    }
  }

  /** What the balance of the hierarchy rests on: separators and namespace
      brackets are balanced and so are the types written in any namespace. */
  ghost predicate HierarchySound<S(!new)>(step: (S, Event) -> Option<S>, w: Writer, types: seq<TypeDef>, keys: seq<Namespace>)
  {
    && Balanced(step, [NamespaceSeparator])
    && (forall ns :: WrapsNamespace(step, ns))
    && (forall ns, strict :: TypesOf(w, types, keys, ns, strict).Ok? ==> Balanced(step, TypesOf(w, types, keys, ns, strict).value))
  }

  lemma SoundHierarchy<S(!new)>(step: (S, Event) -> Option<S>, w: Writer, types: seq<TypeDef>, keys: seq<Namespace>)
    requires Sound(step)
    ensures HierarchySound(step, w, types, keys)
  {
    forall ns, strict ensures TypesOf(w, types, keys, ns, strict).Ok? ==> Balanced(step, TypesOf(w, types, keys, ns, strict).value) {
      OwnTypesBalanced(step, w, types, keys, ns, strict);
    }
  }

  /** A written item is the definition, the own types, the nested loop and
      the end. */
  lemma ItemShape(w: Writer, types: seq<TypeDef>, keys: seq<Namespace>, ns: Namespace,
                  pool: seq<Namespace>, bound: nat, strict: bool)
    requires |ns| <= bound && ShorterThan(pool, bound)
    requires ChildrenWithin(Children(w, pool, ns), ns, bound)
    requires TypesOf(w, types, keys, ns, strict).Ok?
    requires ChildLoop(w, types, keys, ns, Children(w, pool, ns), 0, pool, bound, strict).Ok?
    ensures NamespaceItem(w, types, keys, ns, pool, bound, strict).Ok?
    ensures NamespaceItem(w, types, keys, ns, pool, bound, strict).value.0
      == [NamespaceDefinition(ns)]
         + (TypesOf(w, types, keys, ns, strict).value
            + ChildLoop(w, types, keys, ns, Children(w, pool, ns), 0, pool, bound, strict).value.0)
         + [EndNamespace(ns)]
  {
    ItemUnfolds(w, types, keys, ns, pool, bound, strict);
    Framed([NamespaceDefinition(ns)], TypesOf(w, types, keys, ns, strict).value,
           ChildLoop(w, types, keys, ns, Children(w, pool, ns), 0, pool, bound, strict).value.0, [EndNamespace(ns)]);
  }

  lemma ItemUnfolds(w: Writer, types: seq<TypeDef>, keys: seq<Namespace>, ns: Namespace,
                    pool: seq<Namespace>, bound: nat, strict: bool)
    requires |ns| <= bound && ShorterThan(pool, bound)
    requires ChildrenWithin(Children(w, pool, ns), ns, bound)
    requires TypesOf(w, types, keys, ns, strict).Ok?
    requires ChildLoop(w, types, keys, ns, Children(w, pool, ns), 0, pool, bound, strict).Ok?
    ensures NamespaceItem(w, types, keys, ns, pool, bound, strict)
      == Ok(([NamespaceDefinition(ns)] + TypesOf(w, types, keys, ns, strict).value
             + ChildLoop(w, types, keys, ns, Children(w, pool, ns), 0, pool, bound, strict).value.0 + [EndNamespace(ns)],
             ChildLoop(w, types, keys, ns, Children(w, pool, ns), 0, pool, bound, strict).value.1))
  {
  }

  lemma {:induction false} ItemBalanced<S(!new)>(step: (S, Event) -> Option<S>, w: Writer, types: seq<TypeDef>, keys: seq<Namespace>,
                                                 ns: Namespace, pool: seq<Namespace>, bound: nat, strict: bool)
    requires HierarchySound(step, w, types, keys) && |ns| <= bound && ShorterThan(pool, bound)
    ensures var r := NamespaceItem(w, types, keys, ns, pool, bound, strict); r.Ok? ==> Balanced(step, r.value.0)
    decreases bound - |ns|, 1, 0
  {
    var children := Children(w, pool, ns);
    ChildrenAreWithin(w, pool, ns, bound);
    var own := TypesOf(w, types, keys, ns, strict);
    var loop := ChildLoop(w, types, keys, ns, children, 0, pool, bound, strict);
    if own.Ok? && loop.Ok? {
      ChildLoopBalanced(step, w, types, keys, ns, children, 0, pool, bound, strict);
      ItemShape(w, types, keys, ns, pool, bound, strict);
      assert WrapsNamespace(step, ns);
      BalancedAround(step, [NamespaceDefinition(ns)], own.value, loop.value.0, [EndNamespace(ns)]);
    }
  }

  /** Removing a namespace from the pool keeps it within the bound. */
  lemma RemoveKeepsBound(pool: seq<Namespace>, c: Namespace, bound: nat)
    requires ShorterThan(pool, bound)
    ensures ShorterThan(Remove(pool, c), bound)
  {
  }

  /** What is left of the pool after an item stays within the bound. */
  lemma ItemKeepsBound(w: Writer, types: seq<TypeDef>, keys: seq<Namespace>, ns: Namespace,
                       pool: seq<Namespace>, bound: nat, strict: bool)
    requires |ns| <= bound && ShorterThan(pool, bound)
    ensures var r := NamespaceItem(w, types, keys, ns, pool, bound, strict); r.Ok? ==> ShorterThan(r.value.1, bound)
  {
  }

  /** A written step of the loop over children is the child's item, a
      separator unless it is the last child, and the rest of the loop. */
  lemma ChildLoopShape(w: Writer, types: seq<TypeDef>, keys: seq<Namespace>, parent: Namespace,
                       children: seq<Namespace>, i: nat, pool: seq<Namespace>, bound: nat, strict: bool)
    requires i < |children| && ShorterThan(pool, bound)
    requires ChildrenWithin(children, parent, bound)
    ensures var r := ChildLoop(w, types, keys, parent, children, i, pool, bound, strict);
      var c := children[i];
      var item := NamespaceItem(w, types, keys, c, Remove(pool, c), bound, strict);
      r.Ok? ==>
        && item.Ok?
        && ShorterThan(item.value.1, bound)
        && var rest := ChildLoop(w, types, keys, parent, children, i + 1, item.value.1, bound, strict);
           && rest.Ok?
           && r.value.0 == item.value.0 + (if i + 1 < |children| then [NamespaceSeparator] else []) + rest.value.0
  {
  }

  lemma {:induction false} ChildLoopBalanced<S(!new)>(step: (S, Event) -> Option<S>, w: Writer, types: seq<TypeDef>, keys: seq<Namespace>,
                                                      parent: Namespace, children: seq<Namespace>, i: nat, pool: seq<Namespace>, bound: nat, strict: bool)
    requires HierarchySound(step, w, types, keys) && i <= |children| && ShorterThan(pool, bound)
    requires ChildrenWithin(children, parent, bound)
    ensures var r := ChildLoop(w, types, keys, parent, children, i, pool, bound, strict); r.Ok? ==> Balanced(step, r.value.0)
    decreases bound - |parent|, 0, |children| - i
  {
    if i == |children| {
      BalancedEmpty(step);
    } else {
      var c := children[i];
      RemoveKeepsBound(pool, c, bound);
      ItemBalanced(step, w, types, keys, c, Remove(pool, c), bound, strict);
      ItemKeepsBound(w, types, keys, c, Remove(pool, c), bound, strict);
      var item := NamespaceItem(w, types, keys, c, Remove(pool, c), bound, strict);
      if item.Ok? {
        ChildLoopBalanced(step, w, types, keys, parent, children, i + 1, item.value.1, bound, strict);
        ChildLoopShape(w, types, keys, parent, children, i, pool, bound, strict);
        var rest := ChildLoop(w, types, keys, parent, children, i + 1, item.value.1, bound, strict);
        if rest.Ok? {
          SeparatedBalanced(step, item.value.0, i + 1 < |children|, rest.value.0);
        }
      }
    }
  }

  /** An item, a separator if `more`, then the rest. */
  lemma SeparatedBalanced<S(!new)>(step: (S, Event) -> Option<S>, item: seq<Event>, more: bool, rest: seq<Event>)
    requires Balanced(step, [NamespaceSeparator]) && Balanced(step, item) && Balanced(step, rest)
    ensures Balanced(step, item + (if more then [NamespaceSeparator] else []) + rest)
  {
    var sep := if more then [NamespaceSeparator] else [];
    assert Balanced(step, sep) by {
      if !more {
        BalancedEmpty(step);
      }
    }
    BalancedAppend(step, item, sep);
    BalancedAppend(step, item + sep, rest);
  }

  /** A written step of the loop over roots is the root's item, a separator
      unless it is the last root, and the rest of the loop. */
  lemma RootLoopShape(w: Writer, types: seq<TypeDef>, keys: seq<Namespace>, roots: seq<Namespace>, i: nat,
                      pool: seq<Namespace>, bound: nat, strict: bool)
    requires i < |roots| && ShorterThan(pool, bound)
    requires forall k :: 0 <= k < |roots| ==> |roots[k]| <= bound
    ensures var r := RootLoop(w, types, keys, roots, i, pool, bound, strict);
      var item := NamespaceItem(w, types, keys, roots[i], pool, bound, strict);
      r.Ok? ==>
        && item.Ok?
        && ShorterThan(item.value.1, bound)
        && var rest := RootLoop(w, types, keys, roots, i + 1, item.value.1, bound, strict);
           && rest.Ok?
           && r.value == item.value.0 + (if i + 1 < |roots| then [NamespaceSeparator] else []) + rest.value
  {
  }

  lemma {:induction false} RootLoopBalanced<S(!new)>(step: (S, Event) -> Option<S>, w: Writer, types: seq<TypeDef>, keys: seq<Namespace>,
                                                     roots: seq<Namespace>, i: nat, pool: seq<Namespace>, bound: nat, strict: bool)
    requires HierarchySound(step, w, types, keys) && i <= |roots| && ShorterThan(pool, bound)
    requires forall k :: 0 <= k < |roots| ==> |roots[k]| <= bound
    ensures var r := RootLoop(w, types, keys, roots, i, pool, bound, strict); r.Ok? ==> Balanced(step, r.value)
    decreases |roots| - i
  {
    if i == |roots| {
      BalancedEmpty(step);
    } else {
      ItemBalanced(step, w, types, keys, roots[i], pool, bound, strict);
      ItemKeepsBound(w, types, keys, roots[i], pool, bound, strict);
      var item := NamespaceItem(w, types, keys, roots[i], pool, bound, strict);
      if item.Ok? {
        RootLoopBalanced(step, w, types, keys, roots, i + 1, item.value.1, bound, strict);
        RootLoopShape(w, types, keys, roots, i, pool, bound, strict);
        var rest := RootLoop(w, types, keys, roots, i + 1, item.value.1, bound, strict);
        if rest.Ok? {
          SeparatedBalanced(step, item.value.0, i + 1 < |roots|, rest.value);
        }
      }
    }
  }

  /** Every namespace the hierarchy opens it also closes, in nesting order. */
  lemma NamespaceHierarchyBalanced<S(!new)>(step: (S, Event) -> Option<S>, w: Writer, types: seq<TypeDef>)
    requires Sound(step)
    ensures Balanced(step, WriteNamespaceHierarchy(w, types))
  {
    SoundHierarchy(step, w, types, VisibleKeys(w, types));
    HierarchyBalancedFor(step, w, types);
  }

  /** The events of a namespace listing: namespaces and the types in them. */
  predicate NamespaceEvent(e: Event)
  {
    e.StartNamespace? || e.NamespaceDefinition? || e.EndNamespace? || e.NamespaceSeparator? || TypeEvent(e)
  }

  /** The namespace hierarchy holds namespaces and types and nothing else:
      no assembly, attribute or document event. */
  lemma NamespaceHierarchyEvents(w: Writer, types: seq<TypeDef>)
    ensures forall e :: e in WriteNamespaceHierarchy(w, types) ==> NamespaceEvent(e)
  {
    var p := (e: Event) => !NamespaceEvent(e);
    var keys := VisibleKeys(w, types);
    AvoidBalanced(p, [NamespaceSeparator]);
    forall ns ensures WrapsNamespace(Avoid(p), ns) {
      AvoidBalanced(p, [StartNamespace(ns)]);
      AvoidWraps(p, [NamespaceDefinition(ns)], [EndNamespace(ns)]);
    }
    forall ns, strict | TypesOf(w, types, keys, ns, strict).Ok?
      ensures Balanced(Avoid(p), TypesOf(w, types, keys, ns, strict).value)
    {
      AvoidBalanced(p, TypesOf(w, types, keys, ns, strict).value);
    }
    HierarchyBalancedFor(Avoid(p), w, types);
    AvoidBalanced(p, WriteNamespaceHierarchy(w, types));
  }

  /** The namespace list, likewise. */
  lemma NamespaceListEvents(w: Writer, types: seq<TypeDef>)
    ensures forall e :: e in NamespaceList(w, types) ==> NamespaceEvent(e)
  {
    var blocks := NamespaceBlocks(w, types, VisibleKeys(w, types));
    forall i | 0 <= i < |blocks| ensures forall e :: e in blocks[i] ==> NamespaceEvent(e) {
    }
    JoinEvents(blocks, [NamespaceSeparator], NamespaceEvent);
  }

  /** The hierarchy is balanced for any machine that keeps the namespace
      pairs and the types of every namespace balanced. */
  lemma HierarchyBalancedFor<S(!new)>(step: (S, Event) -> Option<S>, w: Writer, types: seq<TypeDef>)
    requires HierarchySound(step, w, types, VisibleKeys(w, types))
    ensures Balanced(step, WriteNamespaceHierarchy(w, types))
  {
    var keys := VisibleKeys(w, types);
    var roots := SortedRoots(w, keys);
    assert forall k :: 0 <= k < |roots| ==> roots[k] in roots;
    RootLoopBalanced(step, w, types, keys, roots, 0, NestedPool(keys), MaxLength(keys), false);
    HierarchyLenient(w, types);
    assert NamespaceHierarchy(w, types, false) == RootLoop(w, types, keys, roots, 0, NestedPool(keys), MaxLength(keys), false);
  }

  /* ---------------- a namespace holding only a nested namespace ---------------- */

  /** A distinct sequence whose only member is `v` is `[v]`. */
  lemma Single<T>(r: seq<T>, v: T)
    requires Distinct(r) && forall x :: x in r <==> x == v
    ensures r == [v]
  {
    DistinctCounts(r);
    assert v in r;
    assert multiset(r) == multiset{v} by {
      forall x ensures multiset(r)[x] == multiset{v}[x] {
        assert x in r <==> x in multiset(r);
      }
    }
    assert |r| == |multiset(r)| == 1;
    assert r[0] in r;
  }

  /** The picked namespaces of a namespace written around another. */
  lemma PickNested(a: Namespace, ab: Namespace, own: seq<Event>)
    requires forall e :: e in own ==> TypeEvent(e)
    ensures Pick([NamespaceDefinition(a)] + ([NamespaceDefinition(ab)] + own + [EndNamespace(ab)]) + [EndNamespace(a)], NamespaceShown)
      == [a, ab]
  {
    var abItem := [NamespaceDefinition(ab)] + own + [EndNamespace(ab)];
    NoNamespaceInTypes(own);
    PickAround([NamespaceDefinition(ab)], own, [EndNamespace(ab)], NamespaceShown);
    PickOne(NamespaceDefinition(ab), NamespaceShown);
    PickOne(EndNamespace(ab), NamespaceShown);
    PickOne(NamespaceDefinition(a), NamespaceShown);
    PickOne(EndNamespace(a), NamespaceShown);
    PickAppend([NamespaceDefinition(a)], abItem, NamespaceShown);
    PickAppend([NamespaceDefinition(a)] + abItem, [EndNamespace(a)], NamespaceShown);
  }

  /** The example's only type. */
  function NestedOnlyTypes(): seq<TypeDef>
  {
    [TypeDef(0, ["A", "B"], Symbols.TypeKind.Class, 0, true, [], [])]
  }

  /** In the example the only key is `A.B`, the only root `A`, the nested
      set `A.B` and the bound 2. */
  lemma NestedOnlySets(w: Writer)
    requires w.namespaceVisible(["A", "B"])
    ensures VisibleKeys(w, NestedOnlyTypes()) == [["A", "B"]]
    ensures SortedRoots(w, [["A", "B"]]) == [["A"]]
    ensures NestedPool([["A", "B"]]) == [["A", "B"]]
    ensures MaxLength([["A", "B"]]) == 2
  {
    var a: Namespace := ["A"];
    var ab: Namespace := ["A", "B"];
    var keys := VisibleKeys(w, NestedOnlyTypes());
    assert NestedOnlyTypes()[0].namespace == ab;
    Single(keys, ab);
    assert RootOf(ab) == a;
    Single(SortedRoots(w, [ab]), a);
    assert forall x :: x in NestedOf(ab) <==> x == ab;
    Single(NestedPool([ab]), ab);
    assert [ab][1..] == [];
  }

  /** The item of `A.B` once it has been taken from the nested set. */
  lemma NestedOnlyInner(w: Writer, strict: bool)
    ensures var ab: Namespace := ["A", "B"];
      NamespaceItem(w, NestedOnlyTypes(), [ab], ab, [], 2, strict)
        == Ok(([NamespaceDefinition(ab)] + NamespaceTypes(w, TypesIn(NestedOnlyTypes(), ab)) + [EndNamespace(ab)], []))
  {
    var ab: Namespace := ["A", "B"];
    var own := NamespaceTypes(w, TypesIn(NestedOnlyTypes(), ab));
    assert ab in [ab];
    assert TypesOf(w, NestedOnlyTypes(), [ab], ab, strict) == Ok(own);
    assert Children(w, [], ab) == [];
    assert ChildLoop(w, NestedOnlyTypes(), [ab], ab, [], 0, [], 2, strict) == Ok(([], []));
    assert [NamespaceDefinition(ab)] + own + [] + [EndNamespace(ab)] == [NamespaceDefinition(ab)] + own + [EndNamespace(ab)];
  }

  /** The children of `A` in the example: `A.B`. */
  lemma NestedOnlyChildren(w: Writer)
    ensures Children(w, [["A", "B"]], ["A"]) == [["A", "B"]]
    ensures Remove([["A", "B"]], ["A", "B"]) == []
  {
    var a: Namespace := ["A"];
    var ab: Namespace := ["A", "B"];
    assert ab[..|a|] == a;
    assert forall x :: x in Children(w, [ab], a) <==> x == ab;
    Single(Children(w, [ab], a), ab);
    assert forall x :: x !in Remove([ab], ab);
  }

  /** The item of `A`, with `A.B` still in the nested set. */
  lemma NestedOnlyOuter(w: Writer)
    ensures var ab: Namespace := ["A", "B"];
      NamespaceItem(w, NestedOnlyTypes(), [ab], ["A"], [ab], 2, false)
        == Ok(([NamespaceDefinition(["A"])]
               + ([NamespaceDefinition(ab)] + NamespaceTypes(w, TypesIn(NestedOnlyTypes(), ab)) + [EndNamespace(ab)])
               + [EndNamespace(["A"])], []))
  {
    var a: Namespace := ["A"];
    var ab: Namespace := ["A", "B"];
    var types := NestedOnlyTypes();
    NestedOnlyChildren(w);
    NestedOnlyInner(w, false);
    var abItem := [NamespaceDefinition(ab)] + NamespaceTypes(w, TypesIn(types, ab)) + [EndNamespace(ab)];
    assert ChildLoop(w, types, [ab], a, [ab], 1, [], 2, false) == Ok(([], []));
    assert ChildLoop(w, types, [ab], a, [ab], 0, [ab], 2, false) == Ok((abItem + [] + [], []));
    assert abItem + [] + [] == abItem;
    assert TypesOf(w, types, [ab], a, false) == Ok([]);
    assert [NamespaceDefinition(a)] + [] == [NamespaceDefinition(a)];
  }

  /** With the corrected lookup the example writes `A` around `A.B`. */
  lemma NestedOnlyLenient(w: Writer)
    requires w.namespaceVisible(["A", "B"])
    ensures var ab: Namespace := ["A", "B"];
      WriteNamespaceHierarchy(w, NestedOnlyTypes())
        == [NamespaceDefinition(["A"])]
           + ([NamespaceDefinition(ab)] + NamespaceTypes(w, TypesIn(NestedOnlyTypes(), ab)) + [EndNamespace(ab)])
           + [EndNamespace(["A"])]
  {
    var a: Namespace := ["A"];
    var ab: Namespace := ["A", "B"];
    var types := NestedOnlyTypes();
    NestedOnlySets(w);
    NestedOnlyRoots(w);
    HierarchyLoop(w, types, false, [ab], [a], [ab], 2);
  }

  /** The loop over the single root `A`. */
  lemma NestedOnlyRoots(w: Writer)
    ensures var ab: Namespace := ["A", "B"];
      RootLoop(w, NestedOnlyTypes(), [ab], [["A"]], 0, [ab], 2, false)
        == Ok([NamespaceDefinition(["A"])]
              + ([NamespaceDefinition(ab)] + NamespaceTypes(w, TypesIn(NestedOnlyTypes(), ab)) + [EndNamespace(ab)])
              + [EndNamespace(["A"])])
  {
    var a: Namespace := ["A"];
    var ab: Namespace := ["A", "B"];
    var types := NestedOnlyTypes();
    NestedOnlyOuter(w);
    var aItem := [NamespaceDefinition(a)]
      + ([NamespaceDefinition(ab)] + NamespaceTypes(w, TypesIn(types, ab)) + [EndNamespace(ab)])
      + [EndNamespace(a)];
    assert RootLoop(w, types, [ab], [a], 1, [], 2, false) == Ok([]);
    assert RootLoop(w, types, [ab], [a], 0, [ab], 2, false) == Ok(aItem + [] + []);
    assert aItem + [] + [] == aItem;
  }

  /** With the source's lookup the example throws: `A` is a root but not a
      key. */
  lemma NestedOnlyStrict(w: Writer)
    requires w.ShowsTypes() && w.namespaceVisible(["A", "B"])
    ensures WriteNamespaceHierarchyAsWritten(w, NestedOnlyTypes()) == Err(KeyNotFoundException)
  {
    var a: Namespace := ["A"];
    var ab: Namespace := ["A", "B"];
    var types := NestedOnlyTypes();
    NestedOnlySets(w);
    HierarchyLoop(w, types, true, [ab], [a], [ab], 2);
    assert a !in [ab];
    assert TypesOf(w, types, [ab], a, true) == Err(KeyNotFoundException);
    assert NamespaceItem(w, types, [ab], a, [ab], 2, true) == Err(KeyNotFoundException);
    assert RootLoop(w, types, [ab], [a], 0, [ab], 2, true) == Err(KeyNotFoundException);
  }

  /** One class in namespace `A.B`: `A` is a root but not a key, and the
      source's lookup of its types throws; the corrected hierarchy writes
      `A` with `A.B` inside it. */
  lemma NestedOnlyNamespaceThrows(w: Writer)
    requires w.ShowsTypes() && w.namespaceVisible(["A", "B"])
    ensures WriteNamespaceHierarchyAsWritten(w, NestedOnlyTypes()) == Err(KeyNotFoundException)
    ensures Pick(WriteNamespaceHierarchy(w, NestedOnlyTypes()), NamespaceShown) == [["A"], ["A", "B"]]
  {
    NestedOnlyStrict(w);
    NestedOnlyLenient(w);
    PickNested(["A"], ["A", "B"], NamespaceTypes(w, TypesIn(NestedOnlyTypes(), ["A", "B"])));
  }
}

=== FILE: parameter_attributes.dfy ===
/**
 Insertion of parameter attributes into a rendered definition: the
 attribute block of the first parameter goes right after the opening of the
 parameter list, and that of each following parameter after the comma and
 space that separate it from the previous one.
 */
module ParameterAttributes {
  import opened Wrappers
  import opened Parts
  import opened Symbols
  import opened ParameterScan

  /** The parts inserted for parameter `k`: its attribute block followed by
      a space, or nothing when the block is empty. Each entry of `blocks` is
      the rendering of one parameter's attributes, looked at only when the
      scan reaches that parameter, so a parameter the scan never reaches
      cannot make it fail. Indexing past the last parameter fails as the
      source's array access does, before anything is rendered. */
  function Block(blocks: seq<Result<seq<Part>>>, k: nat): (r: Result<seq<Part>>)
    ensures r.Err? <==> k >= |blocks| || blocks[k].Err?
    ensures k >= |blocks| ==> r == Err(IndexOutOfRangeException)
    ensures k < |blocks| && blocks[k].Err? ==> r == blocks[k]
    ensures r.Ok? ==> (r.value == [] <==> blocks[k].value == [])
    ensures r.Ok? && blocks[k].value != [] ==>
              |r.value| == |blocks[k].value| + 1 && r.value[..|blocks[k].value|] == blocks[k].value
              && r.value[|blocks[k].value|] == SpacePart
  {
    if k >= |blocks| then Err(IndexOutOfRangeException)
    else
      var a :- blocks[k];
      if |a| > 0 then Ok(a + [SpacePart]) else Ok([])
  }

  /** The scan from a position with depths `d`, where `k` is the index of the
      parameter whose block was inserted last. */
  function InsertFrom(kind: SymbolKind, rest: seq<Part>, d: Depths, blocks: seq<Result<seq<Part>>>, k: nat): Result<seq<Part>>
    decreases |rest|
  {
    if |rest| == 0 then Ok([])
    else if SplitsAt(d, rest) then
      var b :- Block(blocks, k + 1);
      var tail :- InsertFrom(kind, rest[2..], d, blocks, k + 1);
      Ok(rest[..2] + b + tail)
    else if Closes(kind, Step(d, rest[0]), rest[0]) then Ok(rest)
    else
      var tail :- InsertFrom(kind, rest[1..], Step(d, rest[0]), blocks, k);
      Ok([rest[0]] + tail)
  }

  /** `AddParameterAttributes` as written: the scan after the opening part
      starts with one open parenthesis, for indexers too. */
  function AddParameterAttributesAsWritten(kind: SymbolKind, parts: seq<Part>, blocks: seq<Result<seq<Part>>>): Result<seq<Part>>
  {
    var s := ParameterListStartAsWritten(kind, parts);
    if s == -1 then Ok(parts)
    else
      var b :- Block(blocks, 0);
      var tail :- InsertFrom(kind, parts[s + 1..], Depths(1, 0, 0, 0), blocks, 0);
      Ok(parts[..s + 1] + b + tail)
  }

  /** `AddParameterAttributes` as evidently intended: the scan starts with the
      depths just inside the list that was opened, one bracket for an
      indexer. */
  function AddParameterAttributes(kind: SymbolKind, parts: seq<Part>, blocks: seq<Result<seq<Part>>>): Result<seq<Part>>
  {
    var s := ParameterListStart(kind, parts);
    if s == -1 then Ok(parts)
    else
      var b :- Block(blocks, 0);
      var tail :- InsertFrom(kind, parts[s + 1..], InitialDepths(kind), blocks, 0);
      Ok(parts[..s + 1] + b + tail)
  }

  /* ---------------- which parameters are rendered ---------------- */

  /** The number of separating commas the scan passes before it stops: the
      parameters after the first whose attributes it asks for. */
  function SplitCount(kind: SymbolKind, rest: seq<Part>, d: Depths): nat
    decreases |rest|
  {
    if |rest| == 0 then 0
    else if SplitsAt(d, rest) then 1 + SplitCount(kind, rest[2..], d)
    else if Closes(kind, Step(d, rest[0]), rest[0]) then 0
    else SplitCount(kind, rest[1..], Step(d, rest[0]))
  }

  /** The scan renders only the parameters it reaches: two renderings that
      agree on those give the same result, whatever the others hold. */
  lemma {:induction false} InsertFromRendersReached(kind: SymbolKind, rest: seq<Part>, d: Depths,
                                                   blocks: seq<Result<seq<Part>>>, other: seq<Result<seq<Part>>>, k: nat)
    requires |blocks| == |other|
    requires forall j :: k < j <= k + SplitCount(kind, rest, d) && j < |blocks| ==> blocks[j] == other[j]
    ensures InsertFrom(kind, rest, d, blocks, k) == InsertFrom(kind, rest, d, other, k)
    decreases |rest|
  {
    if |rest| == 0 {
    } else if SplitsAt(d, rest) {
      assert Block(blocks, k + 1) == Block(other, k + 1);
      InsertFromRendersReached(kind, rest[2..], d, blocks, other, k + 1);
    } else if Closes(kind, Step(d, rest[0]), rest[0]) {
    } else {
      InsertFromRendersReached(kind, rest[1..], Step(d, rest[0]), blocks, other, k);
    }
  }

  /** The insertion renders the first parameter and those after the commas
      its scan passes, and no other: when the definition has no parameter
      list to open, no parameter is rendered at all. */
  lemma {:induction false} AddParameterAttributesRendersReached(kind: SymbolKind, parts: seq<Part>,
                                                               blocks: seq<Result<seq<Part>>>, other: seq<Result<seq<Part>>>)
    requires |blocks| == |other|
    requires var s := ParameterListStart(kind, parts);
      s != -1 ==> forall j :: 0 <= j <= SplitCount(kind, parts[s + 1..], InitialDepths(kind)) && j < |blocks| ==> blocks[j] == other[j]
    ensures AddParameterAttributes(kind, parts, blocks) == AddParameterAttributes(kind, parts, other)
  {
    var s := ParameterListStart(kind, parts);
    if s != -1 {
      assert Block(blocks, 0) == Block(other, 0);
      InsertFromRendersReached(kind, parts[s + 1..], InitialDepths(kind), blocks, other, 0);
    }
  }

  /** A failure of the insertion is an index past the last parameter or
      the failure of rendering one parameter's attributes. */
  lemma {:induction false} InsertFromFailure(kind: SymbolKind, rest: seq<Part>, d: Depths, blocks: seq<Result<seq<Part>>>, k: nat)
    requires InsertFrom(kind, rest, d, blocks, k).Err?
    ensures var e := InsertFrom(kind, rest, d, blocks, k).error;
      e == IndexOutOfRangeException || exists j :: k < j < |blocks| && blocks[j] == Err(e)
    decreases |rest|
  {
    if SplitsAt(d, rest) {
      if Block(blocks, k + 1).Ok? {
        InsertFromFailure(kind, rest[2..], d, blocks, k + 1);
      }
    } else if !Closes(kind, Step(d, rest[0]), rest[0]) {
      InsertFromFailure(kind, rest[1..], Step(d, rest[0]), blocks, k);
    }
  }

  /** The insertion fails only on an index past the last parameter or on
      the failed rendering of some parameter's attributes. */
  lemma AddParameterAttributesFailure(kind: SymbolKind, parts: seq<Part>, blocks: seq<Result<seq<Part>>>)
    requires AddParameterAttributes(kind, parts, blocks).Err?
    ensures var e := AddParameterAttributes(kind, parts, blocks).error;
      e == IndexOutOfRangeException || exists j :: 0 <= j < |blocks| && blocks[j] == Err(e)
  {
    var s := ParameterListStart(kind, parts);
    if Block(blocks, 0).Ok? {
      InsertFromFailure(kind, parts[s + 1..], InitialDepths(kind), blocks, 0);
    }
  }

  /* ---------------- taking the attributes out again ---------------- */

  /** The number of parts the insertion adds for parameter `k`. */
  function BlockLength(blocks: seq<Result<seq<Part>>>, k: nat): (n: nat)
    ensures Block(blocks, k).Ok? ==> n == |Block(blocks, k).value|
  {
    if k < |blocks| && blocks[k].Ok? && blocks[k].value != [] then |blocks[k].value| + 1 else 0
  }

  /** The same scan over a definition with attributes inserted, dropping
      the block that follows each separating comma and space. */
  function EraseFrom(kind: SymbolKind, out: seq<Part>, d: Depths, blocks: seq<Result<seq<Part>>>, k: nat): seq<Part>
    decreases |out|
  {
    if |out| == 0 then []
    else if SplitsAt(d, out) then
      var n := BlockLength(blocks, k + 1);
      if |out| < 2 + n then out
      else out[..2] + EraseFrom(kind, out[2 + n..], d, blocks, k + 1)
    else if Closes(kind, Step(d, out[0]), out[0]) then out
    else [out[0]] + EraseFrom(kind, out[1..], Step(d, out[0]), blocks, k)
  }

  /** The parts the scan writes begin with the part it reads. */
  lemma {:induction false} InsertFromHead(kind: SymbolKind, rest: seq<Part>, d: Depths, blocks: seq<Result<seq<Part>>>, k: nat)
    requires InsertFrom(kind, rest, d, blocks, k).Ok?
    ensures |rest| == 0 ==> InsertFrom(kind, rest, d, blocks, k).value == []
    ensures |rest| > 0 ==> |InsertFrom(kind, rest, d, blocks, k).value| > 0
                           && InsertFrom(kind, rest, d, blocks, k).value[0] == rest[0]
  {
  }

  /** Erasing the blocks of a scan gives back what it read. */
  lemma {:induction false} EraseInsertFrom(kind: SymbolKind, rest: seq<Part>, d: Depths, blocks: seq<Result<seq<Part>>>, k: nat)
    requires InsertFrom(kind, rest, d, blocks, k).Ok?
    ensures EraseFrom(kind, InsertFrom(kind, rest, d, blocks, k).value, d, blocks, k) == rest
    decreases |rest|
  {
    var out := InsertFrom(kind, rest, d, blocks, k).value;
    if |rest| == 0 {
    } else if SplitsAt(d, rest) {
      var b := Block(blocks, k + 1).value;
      var tail := InsertFrom(kind, rest[2..], d, blocks, k + 1).value;
      assert out == rest[..2] + b + tail;
      assert out[0] == rest[0] && out[1] == rest[1];
      assert SplitsAt(d, out);
      assert out[2 + |b|..] == tail;
      EraseInsertFrom(kind, rest[2..], d, blocks, k + 1);
      assert out[..2] == rest[..2];
      assert rest == rest[..2] + rest[2..];
    } else if Closes(kind, Step(d, rest[0]), rest[0]) {
    } else {
      var tail := InsertFrom(kind, rest[1..], Step(d, rest[0]), blocks, k).value;
      assert out == [rest[0]] + tail;
      InsertFromHead(kind, rest[1..], Step(d, rest[0]), blocks, k);
      assert !SplitsAt(d, out) by {
        if |rest| > 1 {
          assert out[1] == tail[0] == rest[1];
        }
      }
      assert out[1..] == tail;
      EraseInsertFrom(kind, rest[1..], Step(d, rest[0]), blocks, k);
      assert rest == [rest[0]] + rest[1..];
    }
  }

  /** The inverse of `AddParameterAttributes`: the definition with the
      attribute block of each parameter taken out again. */
  function RemoveParameterAttributes(kind: SymbolKind, out: seq<Part>, blocks: seq<Result<seq<Part>>>): seq<Part>
  {
    var s := ParameterListStart(kind, out);
    var n := BlockLength(blocks, 0);
    if s == -1 || |out| < s + 1 + n then out
    else out[..s + 1] + EraseFrom(kind, out[s + 1 + n..], InitialDepths(kind), blocks, 0)
  }

  /** Whether a part opens the parameter list depends only on the parts up
      to it. */
  lemma {:induction false} OpensOnPrefix(kind: SymbolKind, a: seq<Part>, b: seq<Part>, j: nat, s: nat)
    requires j <= s < |a| && s < |b| && a[..s + 1] == b[..s + 1]
    ensures Opens(kind, a, j, true) == Opens(kind, b, j, true)
  {
    assert a[..j] == a[..s + 1][..j] && b[..j] == b[..s + 1][..j];
    assert a[j] == a[..s + 1][j] && b[j] == b[..s + 1][j];
    if j > 0 {
      assert a[j - 1] == a[..s + 1][j - 1] && b[j - 1] == b[..s + 1][j - 1];
    }
  }

  /** Two definitions that agree up to the opening of the parameter list of
      one of them have it in the same place. */
  lemma {:induction false} StartOnPrefix(kind: SymbolKind, a: seq<Part>, b: seq<Part>, s: nat)
    requires s < |a| && s < |b| && a[..s + 1] == b[..s + 1] && ParameterListStart(kind, a) == s
    ensures ParameterListStart(kind, b) == s
  {
    var r := ParameterListStart(kind, b);
    OpensOnPrefix(kind, a, b, s, s);
    if 0 <= r < s {
      OpensOnPrefix(kind, a, b, r, s);
    }
  }

  /** Where a parameter list opens, the insertion keeps the parts up to the
      opening, adds the first block and goes on with the scan. */
  lemma {:induction false} AddParameterAttributesShape(kind: SymbolKind, parts: seq<Part>, blocks: seq<Result<seq<Part>>>, s: int)
    requires AddParameterAttributes(kind, parts, blocks).Ok? && s == ParameterListStart(kind, parts) && s != -1
    ensures Block(blocks, 0).Ok? && InsertFrom(kind, parts[s + 1..], InitialDepths(kind), blocks, 0).Ok?
    ensures AddParameterAttributes(kind, parts, blocks).value
         == parts[..s + 1] + Block(blocks, 0).value + InsertFrom(kind, parts[s + 1..], InitialDepths(kind), blocks, 0).value
    ensures s < |AddParameterAttributes(kind, parts, blocks).value|
            && AddParameterAttributes(kind, parts, blocks).value[..s + 1] == parts[..s + 1]
  {
    var out := AddParameterAttributes(kind, parts, blocks).value;
    assert out[..s + 1] == parts[..s + 1];
  }

  /** Removal from a definition that has a first block of the expected
      length right after the opening of its parameter list. */
  lemma {:induction false} RemoveAfterStart(kind: SymbolKind, out: seq<Part>, blocks: seq<Result<seq<Part>>>, pre: seq<Part>, b: seq<Part>, tail: seq<Part>)
    requires out == pre + b + tail && |pre| > 0 && ParameterListStart(kind, out) == |pre| - 1
    requires |b| == BlockLength(blocks, 0)
    ensures RemoveParameterAttributes(kind, out, blocks) == pre + EraseFrom(kind, tail, InitialDepths(kind), blocks, 0)
  {
    assert out[..|pre|] == pre;
    assert out[|pre| + |b|..] == tail;
  }

  /** Taking the inserted attributes out of a definition gives back the
      definition the compiler rendered. */
  lemma {:induction false} ParameterAttributesRoundTrip(kind: SymbolKind, parts: seq<Part>, blocks: seq<Result<seq<Part>>>)
    requires AddParameterAttributes(kind, parts, blocks).Ok?
    ensures RemoveParameterAttributes(kind, AddParameterAttributes(kind, parts, blocks).value, blocks) == parts
  {
    var s := ParameterListStart(kind, parts);
    if s != -1 {
      RoundTripAtStart(kind, parts, blocks, s);
    }
  }

  /** The round trip where a parameter list opens at `s`. */
  lemma {:induction false} RoundTripAtStart(kind: SymbolKind, parts: seq<Part>, blocks: seq<Result<seq<Part>>>, s: int)
    requires AddParameterAttributes(kind, parts, blocks).Ok? && s == ParameterListStart(kind, parts) && s != -1
    ensures RemoveParameterAttributes(kind, AddParameterAttributes(kind, parts, blocks).value, blocks) == parts
  {
    AddParameterAttributesShape(kind, parts, blocks, s);
    var out := AddParameterAttributes(kind, parts, blocks).value;
    var b := Block(blocks, 0).value;
    var tail := InsertFrom(kind, parts[s + 1..], InitialDepths(kind), blocks, 0).value;
    assert EraseFrom(kind, tail, InitialDepths(kind), blocks, 0) == parts[s + 1..] by {
      EraseInsertFrom(kind, parts[s + 1..], InitialDepths(kind), blocks, 0);
    }
    assert RemoveParameterAttributes(kind, out, blocks) == parts[..s + 1] + parts[s + 1..] by {
      RemoveAfterPrefix(kind, parts, blocks, s, b, tail);
    }
    assert parts == parts[..s + 1] + parts[s + 1..];
  }

  /** Removal from the parts up to the opening at `s`, a block of the
      expected length and any tail erases the blocks of the tail. */
  lemma {:induction false} RemoveAfterPrefix(kind: SymbolKind, parts: seq<Part>, blocks: seq<Result<seq<Part>>>, s: int,
                                             b: seq<Part>, tail: seq<Part>)
    requires s == ParameterListStart(kind, parts) && s != -1 && |b| == BlockLength(blocks, 0)
    ensures RemoveParameterAttributes(kind, parts[..s + 1] + b + tail, blocks)
         == parts[..s + 1] + EraseFrom(kind, tail, InitialDepths(kind), blocks, 0)
  {
    var pre := parts[..s + 1];
    var out := pre + b + tail;
    assert out[..s + 1] == pre;
    StartOnPrefix(kind, parts, out, s);
    RemoveAfterStart(kind, out, blocks, pre, b, tail);
  }

  predicate AllEmpty(blocks: seq<Result<seq<Part>>>)
  {
    forall k :: 0 <= k < |blocks| ==> blocks[k] == Ok([])
  }

  /** Parameters without attributes leave the scanned parts as they are. */
  lemma {:induction false} InsertFromWithoutAttributes(kind: SymbolKind, rest: seq<Part>, d: Depths, blocks: seq<Result<seq<Part>>>, k: nat)
    requires AllEmpty(blocks)
    ensures InsertFrom(kind, rest, d, blocks, k).Ok? ==> InsertFrom(kind, rest, d, blocks, k).value == rest
    decreases |rest|
  {
    if |rest| == 0 {
    } else if SplitsAt(d, rest) {
      if k + 1 < |blocks| {
        InsertFromWithoutAttributes(kind, rest[2..], d, blocks, k + 1);
        assert rest == rest[..2] + rest[2..];
      }
    } else if Closes(kind, Step(d, rest[0]), rest[0]) {
    } else {
      InsertFromWithoutAttributes(kind, rest[1..], Step(d, rest[0]), blocks, k);
      assert rest == [rest[0]] + rest[1..];
    }
  }

  /** When no parameter has attributes, the definition comes out unchanged,
      whenever the scan does not run past the last parameter. */
  lemma AddParameterAttributesWithoutAttributes(kind: SymbolKind, parts: seq<Part>, blocks: seq<Result<seq<Part>>>)
    requires AllEmpty(blocks)
    ensures AddParameterAttributes(kind, parts, blocks).Ok? ==> AddParameterAttributes(kind, parts, blocks).value == parts
  {
    var s := ParameterListStart(kind, parts);
    if s != -1 && |blocks| > 0 {
      InsertFromWithoutAttributes(kind, parts[s + 1..], InitialDepths(kind), blocks, 0);
      assert parts == parts[..s + 1] + parts[s + 1..];
    }
  }

  /** For a parenthesised list the correction changes nothing: there the
      source's starting depth is the right one. */
  lemma CorrectionOnlyAffectsIndexers(kind: SymbolKind, parts: seq<Part>, blocks: seq<Result<seq<Part>>>)
    requires kind.Method? || kind.NamedType?
    requires ParameterListStartAsWritten(kind, parts) == ParameterListStart(kind, parts)
    ensures AddParameterAttributesAsWritten(kind, parts, blocks) == AddParameterAttributes(kind, parts, blocks)
  {
  }

  /** `int this[int[] a, string b]`. */
  predicate IsArrayParameterIndexer(p: seq<Part>)
  {
    && |p| == 15
    && p[0] == Kw("int") && p[1] == SpacePart && p[2] == Kw("this") && p[3] == Punct("[")
    && p[4] == Kw("int") && p[5] == Punct("[") && p[6] == Punct("]") && p[7] == SpacePart
    && p[8] == Part(ParameterName, "a") && p[9] == Punct(",") && p[10] == SpacePart
    && p[11] == Kw("string") && p[12] == SpacePart && p[13] == Part(ParameterName, "b") && p[14] == Punct("]")
  }

  /** The attribute block `[A]` of the second parameter. */
  const SecondParameterBlocks: seq<Result<seq<Part>>> := [Ok([]), Ok([Punct("["), Part(ClassName, "A"), Punct("]")])]

  lemma ArrayParameterIndexerStart(p: seq<Part>)
    requires IsArrayParameterIndexer(p)
    ensures ParameterListStartAsWritten(SymbolKind.Property, p) == 3
    ensures ParameterListStart(SymbolKind.Property, p) == 3
  {
    var k := SymbolKind.Property;
    assert DepthsOf(p[..3]) == Zero by {
      DepthsOfSnoc(p, 0); DepthsOfSnoc(p, 1); DepthsOfSnoc(p, 2);
    }
    assert Opens(k, p, 3, false);
    assert Opens(k, p, 3, true);
    forall j | 0 <= j < 3 ensures !Opens(k, p, j, false) {
      assert p[j].kind != Punctuation;
    }
  }

  lemma InsertPass(kind: SymbolKind, rest: seq<Part>, d: Depths, blocks: seq<Result<seq<Part>>>, k: nat, tail: seq<Part>)
    requires |rest| > 0 && !SplitsAt(d, rest) && !Closes(kind, Step(d, rest[0]), rest[0])
    requires InsertFrom(kind, rest[1..], Step(d, rest[0]), blocks, k) == Ok(tail)
    ensures InsertFrom(kind, rest, d, blocks, k) == Ok([rest[0]] + tail)
  {
  }

  lemma InsertSplit(kind: SymbolKind, rest: seq<Part>, d: Depths, blocks: seq<Result<seq<Part>>>, k: nat, tail: seq<Part>)
    requires SplitsAt(d, rest) && k + 1 < |blocks| && blocks[k + 1].Ok?
    requires InsertFrom(kind, rest[2..], d, blocks, k + 1) == Ok(tail)
    ensures InsertFrom(kind, rest, d, blocks, k) == Ok(rest[..2] + Block(blocks, k + 1).value + tail)
  {
  }

  /** A part that closes the list ends the scan, the rest copied as it is. */
  lemma InsertCloses(kind: SymbolKind, rest: seq<Part>, d: Depths, blocks: seq<Result<seq<Part>>>, k: nat)
    requires |rest| > 0 && !SplitsAt(d, rest) && Closes(kind, Step(d, rest[0]), rest[0])
    ensures InsertFrom(kind, rest, d, blocks, k) == Ok(rest)
  {
  }

  /** From `int[]` on, the source's scan, one parenthesis deep, takes the
      "]" of the array type for the end of the list. */
  lemma ArrayParameterLostScan(p: seq<Part>, blocks: seq<Result<seq<Part>>>)
    requires IsArrayParameterIndexer(p)
    ensures InsertFrom(SymbolKind.Property, p[4..], Depths(1, 0, 0, 0), blocks, 0) == Ok(p[4..])
  {
    var k := SymbolKind.Property;
    var d1 := Depths(1, 0, 0, 0);
    var e: seq<Part> := [];
    assert p[6..] == p[6..15] + e + e;
    assert Step(Depths(1, 0, 1, 0), p[6]) == d1;
    InsertCloses(k, p[6..], Depths(1, 0, 1, 0), blocks, 0);
    PassOpenBracket(k, p, 5, d1, blocks, 0, 15, e, e);
    PassPlain(k, p, 4, d1, blocks, 0, 15, e, e);
    assert p[4..15] + e + e == p[4..];
  }

  /** The source's scan takes the "]" of the first parameter's array type for
      the end of the list and never reaches the second parameter: its
      attribute is lost. */
  lemma ArrayParameterAttributeLost(p: seq<Part>, blocks: seq<Result<seq<Part>>>)
    requires IsArrayParameterIndexer(p) && blocks == SecondParameterBlocks
    ensures AddParameterAttributesAsWritten(SymbolKind.Property, p, blocks) == Ok(p)
  {
    ArrayParameterIndexerStart(p);
    ArrayParameterLostScan(p, blocks);
    assert Block(blocks, 0) == Ok([]);
    assert p == p[..4] + [] + p[4..];
  }

  lemma ArrayParameterTail(p: seq<Part>, blocks: seq<Result<seq<Part>>>)
    requires IsArrayParameterIndexer(p) && blocks == SecondParameterBlocks
    ensures InsertFrom(SymbolKind.Property, p[11..], Depths(0, 0, 1, 0), blocks, 1) == Ok(p[11..])
  {
    var k := SymbolKind.Property;
    var d := Depths(0, 0, 1, 0);
    assert p[14] == Punct("]");
    assert InsertFrom(k, p[14..], d, blocks, 1) == Ok(p[14..]);
    assert p[13..][1..] == p[14..];
    InsertPass(k, p[13..], d, blocks, 1, p[14..]);
    assert p[12..][1..] == p[13..];
    InsertPass(k, p[12..], d, blocks, 1, [p[13]] + p[14..]);
    assert p[11..][1..] == p[12..];
    InsertPass(k, p[11..], d, blocks, 1, [p[12]] + ([p[13]] + p[14..]));
    assert p[11..] == [p[11]] + ([p[12]] + ([p[13]] + p[14..]));
  }

  /** At the top-level ", " the block of the second parameter goes in. */
  lemma ArrayParameterComma(p: seq<Part>, blocks: seq<Result<seq<Part>>>)
    requires IsArrayParameterIndexer(p) && blocks == SecondParameterBlocks
    ensures InsertFrom(SymbolKind.Property, p[9..], Depths(0, 0, 1, 0), blocks, 0)
         == Ok(p[9..11] + (blocks[1].value + [SpacePart]) + p[11..])
  {
    var d := Depths(0, 0, 1, 0);
    ArrayParameterTail(p, blocks);
    assert SplitsAt(d, p[9..]);
    assert p[9..][2..] == p[11..];
    assert p[9..][..2] == p[9..11];
    assert Block(blocks, 1) == Ok(blocks[1].value + [SpacePart]);
    InsertSplit(SymbolKind.Property, p[9..], d, blocks, 0, p[11..]);
  }

  /** A part of `p` that neither splits nor closes is copied ahead of the
      rest of the scan. */
  lemma PassAt(kind: SymbolKind, p: seq<Part>, i: nat, d: Depths, blocks: seq<Result<seq<Part>>>, k: nat, j: nat,
               b: seq<Part>, c: seq<Part>)
    requires i < j <= |p|
    requires !SplitsAt(d, p[i..]) && !Closes(kind, Step(d, p[i]), p[i])
    requires InsertFrom(kind, p[i + 1..], Step(d, p[i]), blocks, k) == Ok(p[i + 1..j] + b + c)
    ensures InsertFrom(kind, p[i..], d, blocks, k) == Ok(p[i..j] + b + c)
  {
    assert p[i..][1..] == p[i + 1..];
    InsertPass(kind, p[i..], d, blocks, k, p[i + 1..j] + b + c);
    assert [p[i]] + (p[i + 1..j] + b + c) == p[i..j] + b + c;
  }

  /** A part that is not punctuation is copied and leaves the depths alone. */
  lemma PassPlain(kind: SymbolKind, p: seq<Part>, i: nat, d: Depths, blocks: seq<Result<seq<Part>>>, k: nat, j: nat,
                  b: seq<Part>, c: seq<Part>)
    requires i < j <= |p| && p[i].kind != Punctuation
    requires InsertFrom(kind, p[i + 1..], d, blocks, k) == Ok(p[i + 1..j] + b + c)
    ensures InsertFrom(kind, p[i..], d, blocks, k) == Ok(p[i..j] + b + c)
  {
    PassAt(kind, p, i, d, blocks, k, j, b, c);
  }

  /** A "[" is copied and opens one more bracket. */
  lemma PassOpenBracket(kind: SymbolKind, p: seq<Part>, i: nat, d: Depths, blocks: seq<Result<seq<Part>>>, k: nat, j: nat,
                        b: seq<Part>, c: seq<Part>)
    requires i < j <= |p| && p[i] == Punct("[")
    requires InsertFrom(kind, p[i + 1..], d.(bracket := d.bracket + 1), blocks, k) == Ok(p[i + 1..j] + b + c)
    ensures InsertFrom(kind, p[i..], d, blocks, k) == Ok(p[i..j] + b + c)
  {
    assert Step(d, p[i]) == d.(bracket := d.bracket + 1);
    PassAt(kind, p, i, d, blocks, k, j, b, c);
  }

  /** A "]" that does not close the outermost bracket is copied and closes
      one bracket. */
  lemma PassCloseBracket(kind: SymbolKind, p: seq<Part>, i: nat, d: Depths, blocks: seq<Result<seq<Part>>>, k: nat, j: nat,
                         b: seq<Part>, c: seq<Part>)
    requires i < j <= |p| && p[i] == Punct("]") && d.bracket != 1
    requires InsertFrom(kind, p[i + 1..], d.(bracket := d.bracket - 1), blocks, k) == Ok(p[i + 1..j] + b + c)
    ensures InsertFrom(kind, p[i..], d, blocks, k) == Ok(p[i..j] + b + c)
  {
    assert Step(d, p[i]) == d.(bracket := d.bracket - 1);
    PassAt(kind, p, i, d, blocks, k, j, b, c);
  }

  /** The name of the first parameter is passed over. */
  lemma ArrayParameterSplit(p: seq<Part>, blocks: seq<Result<seq<Part>>>)
    requires IsArrayParameterIndexer(p) && blocks == SecondParameterBlocks
    ensures InsertFrom(SymbolKind.Property, p[7..], Depths(0, 0, 1, 0), blocks, 0)
         == Ok(p[7..11] + (blocks[1].value + [SpacePart]) + p[11..])
  {
    var k := SymbolKind.Property;
    var d := Depths(0, 0, 1, 0);
    var b := blocks[1].value + [SpacePart];
    ArrayParameterComma(p, blocks);
    PassPlain(k, p, 8, d, blocks, 0, 11, b, p[11..]);
    PassPlain(k, p, 7, d, blocks, 0, 11, b, p[11..]);
  }

  /** The "]" of `int[]` closes only the inner bracket. */
  lemma ArrayParameterBracket(p: seq<Part>, blocks: seq<Result<seq<Part>>>)
    requires IsArrayParameterIndexer(p) && blocks == SecondParameterBlocks
    ensures InsertFrom(SymbolKind.Property, p[6..], Depths(0, 0, 2, 0), blocks, 0)
         == Ok(p[6..11] + (blocks[1].value + [SpacePart]) + p[11..])
  {
    ArrayParameterSplit(p, blocks);
    PassCloseBracket(SymbolKind.Property, p, 6, Depths(0, 0, 2, 0), blocks, 0, 11, blocks[1].value + [SpacePart], p[11..]);
  }

  /** The array type `int[]` is passed over without a split. */
  lemma ArrayParameterHead(p: seq<Part>, blocks: seq<Result<seq<Part>>>)
    requires IsArrayParameterIndexer(p) && blocks == SecondParameterBlocks
    ensures InsertFrom(SymbolKind.Property, p[4..], Depths(0, 0, 1, 0), blocks, 0)
         == Ok(p[4..11] + (blocks[1].value + [SpacePart]) + p[11..])
  {
    var k := SymbolKind.Property;
    var d := Depths(0, 0, 1, 0);
    var b := blocks[1].value + [SpacePart];
    ArrayParameterBracket(p, blocks);
    PassOpenBracket(k, p, 5, d, blocks, 0, 11, b, p[11..]);
    PassPlain(k, p, 4, d, blocks, 0, 11, b, p[11..]);
  }

  /** The corrected scan inserts `[A]` before the second parameter. */
  lemma ArrayParameterAttributeInserted(p: seq<Part>, blocks: seq<Result<seq<Part>>>)
    requires IsArrayParameterIndexer(p) && blocks == SecondParameterBlocks
    ensures AddParameterAttributes(SymbolKind.Property, p, blocks)
         == Ok(p[..11] + [Punct("["), Part(ClassName, "A"), Punct("]"), SpacePart] + p[11..])
  {
    ArrayParameterIndexerStart(p);
    ArrayParameterHead(p, blocks);
    assert Block(blocks, 0) == Ok([]);
    assert p[..11] == p[..4] + p[4..11];
    var b := blocks[1].value + [SpacePart];
    assert b == [Punct("["), Part(ClassName, "A"), Punct("]"), SpacePart];
    assert InsertFrom(SymbolKind.Property, p[4..], InitialDepths(SymbolKind.Property), blocks, 0)
        == Ok(p[4..11] + b + p[11..]);
    assert p[..4] + [] + (p[4..11] + b + p[11..]) == p[..11] + b + p[11..];
  }
}

=== FILE: parameter_scan.dfy ===
/**
 The bracket-depth scans of the definition display: finding where a
 parameter list opens, putting one parameter per line, and inserting
 parameter attributes. Each scan keeps four independent counters, for
 parentheses, braces, brackets and angle brackets.
 */
module ParameterScan {
  import opened Wrappers
  import opened Parts
  import opened Symbols

  datatype Depths = Depths(paren: int, brace: int, bracket: int, angle: int)

  const Zero: Depths := Depths(0, 0, 0, 0)

  /** The counters after one more part: only punctuation moves them. */
  function Step(d: Depths, p: Part): Depths
  {
    if p.kind != Punctuation then d
    else if p.text == "(" then d.(paren := d.paren + 1)
    else if p.text == ")" then d.(paren := d.paren - 1)
    else if p.text == "[" then d.(bracket := d.bracket + 1)
    else if p.text == "]" then d.(bracket := d.bracket - 1)
    else if p.text == "{" then d.(brace := d.brace + 1)
    else if p.text == "}" then d.(brace := d.brace - 1)
    else if p.text == "<" then d.(angle := d.angle + 1)
    else if p.text == ">" then d.(angle := d.angle - 1)
    else d
  }

  /** The counters after a whole prefix, scanned from zero. */
  function DepthsOf(s: seq<Part>): Depths
  {
    if |s| == 0 then Zero else Step(DepthsOf(s[..|s| - 1]), s[|s| - 1])
  }

  lemma DepthsOfSnoc(s: seq<Part>, i: nat)
    requires i < |s|
    ensures DepthsOf(s[..i + 1]) == Step(DepthsOf(s[..i]), s[i])
  {
    assert s[..i + 1][..i] == s[..i];
  }

  /** One more part of a prefix whose counters are known. */
  lemma Advance(s: seq<Part>, i: nat, d: Depths, e: Depths)
    requires i < |s| && DepthsOf(s[..i]) == d && Step(d, s[i]) == e
    ensures DepthsOf(s[..i + 1]) == e
  {
    DepthsOfSnoc(s, i);
  }

  lemma StepOther(d: Depths, p: Part)
    requires p.kind != Punctuation
    ensures Step(d, p) == d
  {
  }

  lemma StepOpenParen(d: Depths)
    ensures Step(d, Punct("(")) == d.(paren := d.paren + 1)
  {
  }

  lemma StepCloseParen(d: Depths)
    ensures Step(d, Punct(")")) == d.(paren := d.paren - 1)
  {
    assert ")" != "(";
  }

  lemma StepOpenBracket(d: Depths)
    ensures Step(d, Punct("[")) == d.(bracket := d.bracket + 1)
  {
    assert "[" != "(" && "[" != ")";
  }

  lemma StepCloseBracket(d: Depths)
    ensures Step(d, Punct("]")) == d.(bracket := d.bracket - 1)
  {
    assert "]" != "(" && "]" != ")" && "]" != "[";
  }

  lemma StepComma(d: Depths)
    ensures Step(d, Punct(",")) == d
  {
    assert "," != "(" && "," != ")" && "," != "[" && "," != "]" && "," != "{" && "," != "}" && "," != "<" && "," != ">";
  }

  /** The counters just inside a parameter list: a method or a named type
      (a delegate) lists parameters in parentheses, a property (an indexer)
      in brackets. */
  function InitialDepths(kind: SymbolKind): Depths
  {
    if kind.Property? then Depths(0, 0, 1, 0) else Depths(1, 0, 0, 0)
  }

  /** The part the source takes for the opening of the parameter list: the
      first "(" (methods and named types) or "[" (properties) that brings
      every counter to the initial depths. */
  predicate OpensAsWritten(kind: SymbolKind, d: Depths, p: Part)
  {
    || (IsPunct(p, "(") && (kind.Method? || kind.NamedType?) && Step(d, p) == InitialDepths(kind))
    || (IsPunct(p, "[") && kind.Property? && Step(d, p) == InitialDepths(kind))
  }

  /** What a parameter list opening also needs: to follow a part that is not
      white space (a tuple return type follows a space or starts the
      definition), and for an indexer to follow the keyword `this` (an
      array return type does not). */
  predicate FollowsName(kind: SymbolKind, parts: seq<Part>, i: int)
    requires 0 <= i < |parts|
  {
    i > 0 && !IsWhitespace(parts[i - 1]) && (kind.Property? ==> IsKeyword(parts[i - 1], "this"))
  }

  predicate Opens(kind: SymbolKind, parts: seq<Part>, i: int, corrected: bool)
    requires 0 <= i < |parts|
  {
    OpensAsWritten(kind, DepthsOf(parts[..i]), parts[i]) && (corrected ==> FollowsName(kind, parts, i))
  }

  function StartFrom(kind: SymbolKind, parts: seq<Part>, corrected: bool, i: nat, d: Depths): (r: int)
    requires i <= |parts| && d == DepthsOf(parts[..i])
    ensures r == -1 || i <= r < |parts|
    ensures r >= 0 ==> Opens(kind, parts, r, corrected)
    ensures forall j :: i <= j < |parts| && (r == -1 || j < r) ==> !Opens(kind, parts, j, corrected)
    decreases |parts| - i
  {
    if i == |parts| then -1
    else if OpensAsWritten(kind, d, parts[i]) && (corrected ==> FollowsName(kind, parts, i)) then i
    else
      DepthsOfSnoc(parts, i);
      StartFrom(kind, parts, corrected, i + 1, Step(d, parts[i]))
  }

  /** `FindParameterListStart`: the index of the first opening part, or -1. */
  function ParameterListStartAsWritten(kind: SymbolKind, parts: seq<Part>): (r: int)
    ensures -1 <= r < |parts|
    ensures r >= 0 ==> Opens(kind, parts, r, false)
    ensures forall j :: 0 <= j < |parts| && (r == -1 || j < r) ==> !Opens(kind, parts, j, false)
    ensures !(kind.Method? || kind.NamedType? || kind.Property?) ==> r == -1
  {
    StartFrom(kind, parts, false, 0, Zero)
  }

  /** `FindParameterListStart` as evidently intended: an opening that does
      not belong to a tuple or array return type. */
  function ParameterListStart(kind: SymbolKind, parts: seq<Part>): (r: int)
    ensures -1 <= r < |parts|
    ensures r >= 0 ==> Opens(kind, parts, r, false) && FollowsName(kind, parts, r)
    ensures forall j :: 0 <= j < |parts| && (r == -1 || j < r) ==> !Opens(kind, parts, j, true)
    ensures !(kind.Method? || kind.NamedType? || kind.Property?) ==> r == -1
  {
    StartFrom(kind, parts, true, 0, Zero)
  }

  /** A comma the scans treat as separating two parameters: outside angle
      brackets and braces, and directly inside the parentheses or the
      brackets of the list. */
  predicate TopLevel(d: Depths)
  {
    d.angle == 0 && d.brace == 0 && ((d.paren == 1 && d.bracket == 0) || (d.paren == 0 && d.bracket == 1))
  }

  predicate SplitsAt(d: Depths, rest: seq<Part>)
  {
    |rest| > 1 && IsPunct(rest[0], ",") && TopLevel(d) && rest[1].kind == Space
  }

  /** The scans stop at the part that closes the list; `d` is the depths
      after that part. */
  predicate Closes(kind: SymbolKind, d: Depths, p: Part)
  {
    || (IsPunct(p, ")") && d.paren == 0 && (kind.Method? || kind.NamedType?))
    || (IsPunct(p, "]") && d.bracket == 0 && kind.Property?)
  }

  /** The parameter formatter from a position with depths `d`: the space
      after every top-level comma becomes a line break and an indentation,
      up to and including the closing part; the rest is left alone. */
  function FormatFrom(kind: SymbolKind, rest: seq<Part>, d: Depths, indentChars: string): seq<Part>
    decreases |rest|
  {
    if |rest| == 0 then []
    else if SplitsAt(d, rest) then
      [rest[0], LineBreakPart, IndentationPart(indentChars)] + FormatFrom(kind, rest[2..], d, indentChars)
    else if Closes(kind, Step(d, rest[0]), rest[0]) then rest
    else [rest[0]] + FormatFrom(kind, rest[1..], Step(d, rest[0]), indentChars)
  }

  /** The parts with a line break and an indentation inserted after index `s`. */
  function OpenLine(parts: seq<Part>, s: nat, indentChars: string): (r: seq<Part>)
    requires s < |parts|
    ensures |r| == |parts| + 2
  {
    parts[..s + 1] + [LineBreakPart, IndentationPart(indentChars)] + parts[s + 1..]
  }

  /** `FormatParameters` as written: after opening the first line it scans
      again from the second part of the whole definition with all counters
      at zero. */
  function FormatParametersAsWritten(kind: SymbolKind, parts: seq<Part>, indentChars: string): seq<Part>
  {
    var s := ParameterListStartAsWritten(kind, parts);
    if s == -1 then parts
    else
      var q := OpenLine(parts, s, indentChars);
      q[..1] + FormatFrom(kind, q[1..], Zero, indentChars)
  }

  /** `FormatParameters` as evidently intended: the scan continues after the
      opening part and the inserted indentation, with the depths just inside
      the list. */
  function FormatParameters(kind: SymbolKind, parts: seq<Part>, indentChars: string): seq<Part>
  {
    var s := ParameterListStart(kind, parts);
    if s == -1 then parts
    else
      var q := OpenLine(parts, s, indentChars);
      q[..s + 3] + FormatFrom(kind, q[s + 3..], InitialDepths(kind), indentChars)
  }

  /** The scan splits the line at part `i`: a top-level comma followed by a
      space. */
  predicate SplitsHere(cur: seq<Part>, i: nat, d: Depths)
    requires i < |cur|
  {
    cur[i].kind == Punctuation && cur[i].text == "," && TopLevel(d) && i < |cur| - 1 && cur[i + 1].kind == Space
  }

  /** The scan loop of `FormatParameters` over a builder, from position
      `from` with depths `d0`. */
  method FormatScan(kind: SymbolKind, q: seq<Part>, from: nat, d0: Depths, indentChars: string)
    returns (r: seq<Part>)
    requires from <= |q|
    ensures r == q[..from] + FormatFrom(kind, q[from..], d0, indentChars)
  {
    ghost var target := FormatFrom(kind, q[from..], d0, indentChars);
    var cur := q;
    var d := d0;
    var i := from;
    while i < |cur|
      invariant from <= i <= |cur|
      invariant cur[..from] == q[..from]
      invariant cur[from..i] + FormatFrom(kind, cur[i..], d, indentChars) == target
      decreases |cur| - i
    {
      var part := cur[i];
      if SplitsHere(cur, i, d) {
        var next := cur[..i + 1] + [LineBreakPart, IndentationPart(indentChars)] + cur[i + 2..];
        FormatSplitStep(kind, cur, next, from, i, d, indentChars);
        cur := next;
        // The line break and the indentation just written are not
        // punctuation: the source's next two iterations pass over them.
        i := i + 3;
      } else {
        var next := Step(d, part);
        if Closes(kind, next, part) {
          FormatPassCloses(kind, cur, from, i, d, indentChars);
          return cur;
        }
        FormatPassOn(kind, cur, from, i, d, indentChars);
        d := next;
        i := i + 1;
      }
    }
    ScanComplete(kind, cur, from, i, d, indentChars);
    r := cur;
  }

  /** At the end of the parts nothing is left to format. */
  lemma ScanComplete(kind: SymbolKind, cur: seq<Part>, from: nat, i: nat, d: Depths, indentChars: string)
    requires from <= i == |cur|
    ensures cur[..from] + (cur[from..i] + FormatFrom(kind, cur[i..], d, indentChars)) == cur
  {
    assert cur[i..] == [];
    assert cur == cur[..from] + cur[from..i];
  }

  lemma FormatSplitStep(kind: SymbolKind, cur: seq<Part>, next: seq<Part>, from: nat, i: nat, d: Depths, indentChars: string)
    requires from <= i < |cur| && SplitsHere(cur, i, d)
    requires next == cur[..i + 1] + [LineBreakPart, IndentationPart(indentChars)] + cur[i + 2..]
    ensures |next| == |cur| + 1 && next[..from] == cur[..from]
    ensures next[from..i + 3] + FormatFrom(kind, next[i + 3..], d, indentChars)
         == cur[from..i] + FormatFrom(kind, cur[i..], d, indentChars)
  {
    assert SplitsAt(d, cur[i..]);
    assert cur[i..][2..] == cur[i + 2..];
    assert next[i + 3..] == cur[i + 2..];
    assert next[from..i + 3] == cur[from..i] + [cur[i], LineBreakPart, IndentationPart(indentChars)];
  }

  /** A part that neither splits nor closes is kept, and the scan moves on. */
  lemma FormatPassOn(kind: SymbolKind, cur: seq<Part>, from: nat, i: nat, d: Depths, indentChars: string)
    requires from <= i < |cur|
    requires !SplitsHere(cur, i, d)
    requires !Closes(kind, Step(d, cur[i]), cur[i])
    ensures cur[from..i] + FormatFrom(kind, cur[i..], d, indentChars)
         == cur[from..i + 1] + FormatFrom(kind, cur[i + 1..], Step(d, cur[i]), indentChars)
  {
    var rest := cur[i..];
    assert rest[0] == cur[i] && rest[1..] == cur[i + 1..];
    assert !SplitsAt(d, rest);
    FormatKeeps(kind, rest, d, indentChars);
    assert cur[from..i + 1] == cur[from..i] + [cur[i]];
  }

  /** The closing part ends the scan: the rest is left as it is. */
  lemma FormatPassCloses(kind: SymbolKind, cur: seq<Part>, from: nat, i: nat, d: Depths, indentChars: string)
    requires from <= i < |cur|
    requires !SplitsHere(cur, i, d)
    requires Closes(kind, Step(d, cur[i]), cur[i])
    ensures cur[..from] + (cur[from..i] + FormatFrom(kind, cur[i..], d, indentChars)) == cur
  {
    var rest := cur[i..];
    assert rest[0] == cur[i];
    assert !SplitsAt(d, rest);
    FormatCloses(kind, rest, d, indentChars);
    assert cur == cur[..from] + (cur[from..i] + cur[i..]);
  }

  /** The formatter only adds and replaces white space: the visible parts
      come out unchanged and in order. */
  lemma {:induction false} FormatFromKeepsVisibleParts(kind: SymbolKind, rest: seq<Part>, d: Depths, indentChars: string)
    ensures Visible(FormatFrom(kind, rest, d, indentChars)) == Visible(rest)
    decreases |rest|
  {
    if |rest| == 0 {
    } else if SplitsAt(d, rest) {
      var tail := rest[2..];
      FormatFromKeepsVisibleParts(kind, tail, d, indentChars);
      assert rest == [rest[0], rest[1]] + tail;
      BreakKeepsVisible(rest[0], rest[1], tail, FormatFrom(kind, tail, d, indentChars), indentChars);
    } else if Closes(kind, Step(d, rest[0]), rest[0]) {
    } else {
      FormatFromKeepsVisibleParts(kind, rest[1..], Step(d, rest[0]), indentChars);
    }
  }

  /** A space replaced by a line break and an indentation leaves the
      visible parts alone. */
  lemma BreakKeepsVisible(p: Part, x: Part, tail: seq<Part>, formatted: seq<Part>, indentChars: string)
    requires !IsWhitespace(p) && IsWhitespace(x) && Visible(formatted) == Visible(tail)
    ensures Visible([p, LineBreakPart, IndentationPart(indentChars)] + formatted) == Visible([p, x] + tail)
  {
    var a := [p, LineBreakPart, IndentationPart(indentChars)] + formatted;
    var a1 := [LineBreakPart, IndentationPart(indentChars)] + formatted;
    var a2 := [IndentationPart(indentChars)] + formatted;
    assert a[0] == p && a[1..] == a1;
    assert a1[0] == LineBreakPart && a1[1..] == a2;
    assert a2[0] == IndentationPart(indentChars) && a2[1..] == formatted;
    assert Visible(a2) == Visible(formatted);
    assert Visible(a1) == Visible(formatted);
    assert Visible(a) == [p] + Visible(formatted);
    var b := [p, x] + tail;
    var b1 := [x] + tail;
    assert b[0] == p && b[1..] == b1;
    assert b1[0] == x && b1[1..] == tail;
    assert Visible(b1) == Visible(tail);
  }

  /** Formatting the parameters changes white space only, both as written
      and as corrected. */
  lemma FormatParametersKeepsVisibleParts(kind: SymbolKind, parts: seq<Part>, indentChars: string)
    ensures Visible(FormatParameters(kind, parts, indentChars)) == Visible(parts)
    ensures Visible(FormatParametersAsWritten(kind, parts, indentChars)) == Visible(parts)
  {
    var s := ParameterListStart(kind, parts);
    if s != -1 {
      var q := OpenLine(parts, s, indentChars);
      OpenLineKeepsVisibleParts(parts, s, indentChars);
      FormattedTailKeepsVisibleParts(kind, q, s + 3, InitialDepths(kind), indentChars);
    }
    var w := ParameterListStartAsWritten(kind, parts);
    if w != -1 {
      var q := OpenLine(parts, w, indentChars);
      OpenLineKeepsVisibleParts(parts, w, indentChars);
      FormattedTailKeepsVisibleParts(kind, q, 1, Zero, indentChars);
    }
  }

  /** Opening the first line adds white space only. */
  lemma {:induction false} OpenLineKeepsVisibleParts(parts: seq<Part>, s: nat, indentChars: string)
    requires s < |parts|
    ensures Visible(OpenLine(parts, s, indentChars)) == Visible(parts)
  {
    var ws := [LineBreakPart, IndentationPart(indentChars)];
    assert forall k :: 0 <= k < |ws| ==> IsWhitespace(ws[k]);
    InsertWhitespace(parts[..s + 1], ws, parts[s + 1..]);
    assert parts[..s + 1] + parts[s + 1..] == parts;
  }

  /** A prefix kept as it is and the rest formatted has the visible parts of
      the whole. */
  lemma {:induction false} FormattedTailKeepsVisibleParts(kind: SymbolKind, q: seq<Part>, from: nat, d: Depths, indentChars: string)
    requires from <= |q|
    ensures Visible(q[..from] + FormatFrom(kind, q[from..], d, indentChars)) == Visible(q)
  {
    FormatFromKeepsVisibleParts(kind, q[from..], d, indentChars);
    VisibleAppend(q[..from], q[from..]);
    VisibleAppend(q[..from], FormatFrom(kind, q[from..], d, indentChars));
    assert q == q[..from] + q[from..];
  }

  /* ---------------- two indexers, part by part ---------------- */

  /** The formatter's step at a part that neither splits nor closes. */
  lemma FormatKeeps(kind: SymbolKind, rest: seq<Part>, d: Depths, indentChars: string)
    requires |rest| > 0 && !SplitsAt(d, rest) && !Closes(kind, Step(d, rest[0]), rest[0])
    ensures FormatFrom(kind, rest, d, indentChars) == [rest[0]] + FormatFrom(kind, rest[1..], Step(d, rest[0]), indentChars)
  {
  }

  lemma FormatCloses(kind: SymbolKind, rest: seq<Part>, d: Depths, indentChars: string)
    requires |rest| > 0 && !SplitsAt(d, rest) && Closes(kind, Step(d, rest[0]), rest[0])
    ensures FormatFrom(kind, rest, d, indentChars) == rest
  {
  }

  lemma FormatSplits(kind: SymbolKind, rest: seq<Part>, d: Depths, indentChars: string)
    requires SplitsAt(d, rest)
    ensures FormatFrom(kind, rest, d, indentChars)
         == [rest[0], LineBreakPart, IndentationPart(indentChars)] + FormatFrom(kind, rest[2..], d, indentChars)
  {
  }

  /** `public int[] this[int a, int b]`, as the compiler's display parts. */
  predicate IsArrayIndexer(p: seq<Part>)
  {
    && |p| == 17
    && p[0] == Kw("public") && p[1] == SpacePart && p[2] == Kw("int") && p[3] == Punct("[")
    && p[4] == Punct("]") && p[5] == SpacePart && p[6] == Kw("this") && p[7] == Punct("[")
    && p[8] == Kw("int") && p[9] == SpacePart && p[10] == Part(ParameterName, "a") && p[11] == Punct(",")
    && p[12] == SpacePart && p[13] == Kw("int") && p[14] == SpacePart && p[15] == Part(ParameterName, "b")
    && p[16] == Punct("]")
  }

  /** The source takes the bracket of the array return type for the opening
      of the indexer's parameter list; the corrected scan takes the bracket
      after `this`. */
  lemma ArrayIndexerListStart(p: seq<Part>)
    requires IsArrayIndexer(p)
    ensures ParameterListStartAsWritten(SymbolKind.Property, p) == 3
    ensures ParameterListStart(SymbolKind.Property, p) == 7
  {
    var k := SymbolKind.Property;
    ArrayIndexerDepths(p);
    StepOpenBracket(Zero);
    assert Opens(k, p, 3, false);
    forall j | 0 <= j < 3 ensures !Opens(k, p, j, false) {
      assert p[j].kind != Punctuation;
    }
    assert IsKeyword(p[6], "this");
    assert Opens(k, p, 7, true);
    forall j | 0 <= j < 7 ensures !Opens(k, p, j, true) {
      if j == 3 {
        assert p[2] == Kw("int") && "int" != "this";
      } else if j == 4 {
        assert "]" != "[";
      } else {
        assert p[j].kind != Punctuation;
      }
    }
  }

  /** Before the array's bracket and before the indexer's bracket, every
      counter is at zero. */
  lemma ArrayIndexerDepths(p: seq<Part>)
    requires IsArrayIndexer(p)
    ensures DepthsOf(p[..3]) == Zero && DepthsOf(p[..7]) == Zero
  {
    var b := Zero.(bracket := 1);
    assert DepthsOf(p[..0]) == Zero;
    StepOther(Zero, p[0]); Advance(p, 0, Zero, Zero);
    StepOther(Zero, p[1]); Advance(p, 1, Zero, Zero);
    StepOther(Zero, p[2]); Advance(p, 2, Zero, Zero);
    StepOpenBracket(Zero); Advance(p, 3, Zero, b);
    StepCloseBracket(b); Advance(p, 4, b, Zero);
    StepOther(Zero, p[5]); Advance(p, 5, Zero, Zero);
    StepOther(Zero, p[6]); Advance(p, 6, Zero, Zero);
  }

  /** `public (int[], int) this[int a, int b]`, as the compiler's display
      parts. */
  predicate IsTupleIndexer(p: seq<Part>)
  {
    && |p| == 22
    && p[0] == Kw("public") && p[1] == SpacePart && p[2] == Punct("(") && p[3] == Kw("int")
    && p[4] == Punct("[") && p[5] == Punct("]") && p[6] == Punct(",") && p[7] == SpacePart
    && p[8] == Kw("int") && p[9] == Punct(")") && p[10] == SpacePart && p[11] == Kw("this")
    && p[12] == Punct("[") && IsIndexerParameters(p[13..])
  }

  /** `int a, int b]`: the indexer's parameters and its closing bracket. */
  predicate IsIndexerParameters(t: seq<Part>)
  {
    && |t| == 9
    && t[0] == Kw("int") && t[1] == SpacePart && t[2] == Part(ParameterName, "a") && t[3] == Punct(",")
    && t[4] == SpacePart && t[5] == Kw("int") && t[6] == SpacePart && t[7] == Part(ParameterName, "b")
    && t[8] == Punct("]")
  }

  /** `public (int`: one parenthesis open. */
  lemma InsideTuple(p: seq<Part>)
    requires |p| >= 4 && p[0].kind != Punctuation && p[1].kind != Punctuation && p[2] == Punct("(")
    requires p[3].kind != Punctuation
    ensures DepthsOf(p[..4]) == Depths(1, 0, 0, 0)
  {
    var d1 := Depths(1, 0, 0, 0);
    assert DepthsOf(p[..0]) == Zero;
    StepOther(Zero, p[0]); Advance(p, 0, Zero, Zero);
    StepOther(Zero, p[1]); Advance(p, 1, Zero, Zero);
    StepOpenParen(Zero); Advance(p, 2, Zero, d1);
    StepOther(d1, p[3]); Advance(p, 3, d1, d1);
  }

  /** `[], int) this`: back at zero before the indexer's bracket. */
  lemma AfterTuple(p: seq<Part>)
    requires |p| >= 12 && DepthsOf(p[..4]) == Depths(1, 0, 0, 0)
    requires p[4] == Punct("[") && p[5] == Punct("]") && p[6] == Punct(",") && p[7].kind != Punctuation
    requires p[8].kind != Punctuation && p[9] == Punct(")") && p[10].kind != Punctuation && p[11].kind != Punctuation
    ensures DepthsOf(p[..12]) == Zero
  {
    TupleArray(p);
    TupleClose(p);
  }

  /** `[], int`: the array's brackets and the tuple's comma leave only the
      parenthesis open. */
  lemma TupleArray(p: seq<Part>)
    requires |p| >= 9 && DepthsOf(p[..4]) == Depths(1, 0, 0, 0)
    requires p[4] == Punct("[") && p[5] == Punct("]") && p[6] == Punct(",") && p[7].kind != Punctuation
    requires p[8].kind != Punctuation
    ensures DepthsOf(p[..9]) == Depths(1, 0, 0, 0)
  {
    ArrayBrackets(p);
    TupleComma(p);
  }

  lemma ArrayBrackets(p: seq<Part>)
    requires |p| >= 6 && DepthsOf(p[..4]) == Depths(1, 0, 0, 0)
    requires p[4] == Punct("[") && p[5] == Punct("]")
    ensures DepthsOf(p[..6]) == Depths(1, 0, 0, 0)
  {
    var d1 := Depths(1, 0, 0, 0);
    var d2 := Depths(1, 0, 1, 0);
    StepOpenBracket(d1); Advance(p, 4, d1, d2);
    StepCloseBracket(d2); Advance(p, 5, d2, d1);
  }

  lemma TupleComma(p: seq<Part>)
    requires |p| >= 9 && DepthsOf(p[..6]) == Depths(1, 0, 0, 0)
    requires p[6] == Punct(",") && p[7].kind != Punctuation && p[8].kind != Punctuation
    ensures DepthsOf(p[..9]) == Depths(1, 0, 0, 0)
  {
    var d1 := Depths(1, 0, 0, 0);
    StepComma(d1); Advance(p, 6, d1, d1);
    StepOther(d1, p[7]); Advance(p, 7, d1, d1);
    StepOther(d1, p[8]); Advance(p, 8, d1, d1);
  }

  /** `) this`: the tuple closes. */
  lemma TupleClose(p: seq<Part>)
    requires |p| >= 12 && DepthsOf(p[..9]) == Depths(1, 0, 0, 0)
    requires p[9] == Punct(")") && p[10].kind != Punctuation && p[11].kind != Punctuation
    ensures DepthsOf(p[..12]) == Zero
  {
    var d1 := Depths(1, 0, 0, 0);
    StepCloseParen(d1); Advance(p, 9, d1, Zero);
    StepOther(Zero, p[10]); Advance(p, 10, Zero, Zero);
    StepOther(Zero, p[11]); Advance(p, 11, Zero, Zero);
  }

  /** Both scans find the indexer's own bracket. */
  lemma TupleIndexerListStart(p: seq<Part>)
    requires IsTupleIndexer(p)
    ensures ParameterListStartAsWritten(SymbolKind.Property, p) == 12
    ensures ParameterListStart(SymbolKind.Property, p) == 12
  {
    var k := SymbolKind.Property;
    InsideTuple(p);
    AfterTuple(p);
    forall j | 0 <= j < 12 ensures !Opens(k, p, j, false) {
      if j == 4 {
        StepOpenBracket(Depths(1, 0, 0, 0));
        assert Step(DepthsOf(p[..4]), p[4]) != InitialDepths(k);
      } else if j == 2 || j == 5 || j == 6 || j == 9 {
        assert "(" != "[" && "]" != "[" && "," != "[" && ")" != "[";
      } else {
        assert p[j].kind != Punctuation;
      }
    }
    StepOpenBracket(Zero);
    assert IsKeyword(p[11], "this");
    assert Opens(k, p, 12, false);
    assert Opens(k, p, 12, true);
  }

  /** A scan from the second part of the tuple-returning indexer, started
      at zero, closes on the array's "]". */
  lemma StopsInReturnType(q: seq<Part>)
    requires |q| >= 6 && q[1] == SpacePart && q[2] == Punct("(") && q[3] == Kw("int")
    requires q[4] == Punct("[") && q[5] == Punct("]")
    ensures FormatFrom(SymbolKind.Property, q[1..], Zero, "  ") == q[1..]
  {
    var k := SymbolKind.Property;
    var d1 := Depths(1, 0, 0, 0);
    var d2 := Depths(1, 0, 1, 0);
    assert "(" != "," && "(" != ")" && "(" != "]" && "[" != "," && "[" != ")" && "[" != "]" && "]" != ",";
    StepOther(Zero, q[1]);
    StepOpenParen(Zero);
    StepOther(d1, q[3]);
    StepOpenBracket(d1);
    StepCloseBracket(d2);
    assert q[1..][1..] == q[2..] && q[2..][1..] == q[3..] && q[3..][1..] == q[4..] && q[4..][1..] == q[5..];
    FormatCloses(k, q[5..], d2, "  ");
    FormatKeeps(k, q[4..], d1, "  ");
    FormatKeeps(k, q[3..], d1, "  ");
    FormatKeeps(k, q[2..], Zero, "  ");
    FormatKeeps(k, q[1..], Zero, "  ");
    assert q[1..] == [q[1], q[2], q[3], q[4]] + q[5..];
  }

  /** On an indexer whose return type is a tuple holding an array, the
      source's formatter stops at the array's closing bracket, before the
      parameters: only the first line break is added. */
  lemma TupleIndexerFormattedAsWritten(p: seq<Part>)
    requires IsTupleIndexer(p)
    ensures FormatParametersAsWritten(SymbolKind.Property, p, "  ") == OpenLine(p, 12, "  ")
  {
    TupleIndexerListStart(p);
    var q := OpenLine(p, 12, "  ");
    assert q[..6] == p[..6];
    assert q[1] == p[1] && q[2] == p[2] && q[3] == p[3] && q[4] == p[4] && q[5] == p[5];
    StopsInReturnType(q);
    assert q == q[..1] + q[1..];
  }

  /** `int b]` inside the brackets: nothing to split, and the bracket closes
      the list. */
  lemma LastParameter(t: seq<Part>)
    requires |t| == 4 && t[0] == Kw("int") && t[1] == SpacePart && t[2] == Part(ParameterName, "b") && t[3] == Punct("]")
    ensures FormatFrom(SymbolKind.Property, t, Depths(0, 0, 1, 0), "  ") == t
  {
    var k := SymbolKind.Property;
    var d := Depths(0, 0, 1, 0);
    assert "]" != ",";
    StepOther(d, t[0]);
    StepOther(d, t[1]);
    StepOther(d, t[2]);
    StepCloseBracket(d);
    assert t[1..][1..] == t[2..] && t[2..][1..] == t[3..];
    FormatCloses(k, t[3..], d, "  ");
    FormatKeeps(k, t[2..], d, "  ");
    FormatKeeps(k, t[1..], d, "  ");
    FormatKeeps(k, t, d, "  ");
    assert t == [t[0], t[1], t[2]] + t[3..];
  }

  /** The corrected scan splits the parameters after the comma. */
  lemma IndexerParametersFormatted(t: seq<Part>)
    requires IsIndexerParameters(t)
    ensures FormatFrom(SymbolKind.Property, t, Depths(0, 0, 1, 0), "  ")
         == t[..4] + [LineBreakPart, IndentationPart("  ")] + t[5..]
  {
    var k := SymbolKind.Property;
    var d := Depths(0, 0, 1, 0);
    LastParameter(t[5..]);
    assert SplitsAt(d, t[3..]);
    assert t[3..][2..] == t[5..];
    FormatSplits(k, t[3..], d, "  ");
    FirstParameter(t);
    assert t[..4] == t[..3] + [t[3]];
  }

  /** `int a` inside the brackets is kept as it is. */
  lemma FirstParameter(t: seq<Part>)
    requires |t| >= 3 && t[0].kind != Punctuation && t[1].kind != Punctuation && t[2].kind != Punctuation
    ensures FormatFrom(SymbolKind.Property, t, Depths(0, 0, 1, 0), "  ")
         == t[..3] + FormatFrom(SymbolKind.Property, t[3..], Depths(0, 0, 1, 0), "  ")
  {
    var k := SymbolKind.Property;
    var d := Depths(0, 0, 1, 0);
    StepOther(d, t[0]);
    StepOther(d, t[1]);
    StepOther(d, t[2]);
    assert t[1..][1..] == t[2..] && t[2..][1..] == t[3..];
    FormatKeeps(k, t[2..], d, "  ");
    FormatKeeps(k, t[1..], d, "  ");
    FormatKeeps(k, t, d, "  ");
    assert t[..3] == [t[0], t[1], t[2]];
  }

  /** The corrected formatter puts each of the indexer's parameters on its
      own line. */
  lemma TupleIndexerFormatted(p: seq<Part>)
    requires IsTupleIndexer(p)
    ensures FormatParameters(SymbolKind.Property, p, "  ")
         == p[..13] + [LineBreakPart, IndentationPart("  ")] + p[13..17]
            + [LineBreakPart, IndentationPart("  ")] + p[18..]
  {
    TupleIndexerListStart(p);
    var q := OpenLine(p, 12, "  ");
    var ind := [LineBreakPart, IndentationPart("  ")];
    assert q[15..] == p[13..];
    assert q[..15] == p[..13] + ind;
    IndexerParametersFormatted(p[13..]);
    assert p[13..][..4] == p[13..17];
    assert p[13..][5..] == p[18..];
  }
}

=== FILE: parts.dfy ===
/**
 Display parts: a rendered definition is a sequence of parts, each a kind
 and a text, as produced by the compiler's symbol display.
 */
module Parts {

  datatype PartKind =
    | Punctuation
    | Space
    | LineBreak
    | Keyword
    | Operator
    | ClassName
    | StructName
    | InterfaceName
    | EnumName
    | DelegateName
    | TypeParameterName
    | NamespaceName
    | MethodName
    | PropertyName
    | FieldName
    | EventName
    | ParameterName
    | NumericLiteral
    | StringLiteral
    | Text

  datatype Part = Part(kind: PartKind, text: string)

  function Punct(text: string): Part { Part(Punctuation, text) }

  function Kw(text: string): Part { Part(Keyword, text) }

  const SpacePart: Part := Part(Space, " ")

  const LineBreakPart: Part := Part(LineBreak, "\n")

  /** The factory's indentation part: white space carrying the indentation
      characters. */
  function IndentationPart(indentChars: string): Part { Part(Space, indentChars) }

  predicate IsPunct(p: Part, text: string) { p.kind == Punctuation && p.text == text }

  predicate IsKeyword(p: Part, text: string) { p.kind == Keyword && p.text == text }

  /** White space in the sense of the parameter formatter: the parts it may
      add or replace. */
  predicate IsWhitespace(p: Part) { p.kind == Space || p.kind == LineBreak }

  /** The parts that are not white space, in order. */
  function Visible(s: seq<Part>): (r: seq<Part>)
    ensures |r| <= |s|
  {
    if |s| == 0 then []
    else if IsWhitespace(s[0]) then Visible(s[1..])
    else [s[0]] + Visible(s[1..])
  }

  lemma {:induction false} VisibleAppend(a: seq<Part>, b: seq<Part>)
    ensures Visible(a + b) == Visible(a) + Visible(b)
  {
    if |a| == 0 {
      assert a + b == b;
    } else {
      assert (a + b)[1..] == a[1..] + b;
      VisibleAppend(a[1..], b);
    }
  }

  /** Inserting white space keeps the visible parts. */
  lemma InsertWhitespace(a: seq<Part>, ws: seq<Part>, b: seq<Part>)
    requires forall k :: 0 <= k < |ws| ==> IsWhitespace(ws[k])
    ensures Visible(a + ws + b) == Visible(a + b)
  {
    WhitespaceIsInvisible(ws);
    VisibleAppend(a, ws);
    assert Visible(a) + [] == Visible(a);
    VisibleAppend(a + ws, b);
    VisibleAppend(a, b);
  }

  lemma {:induction false} WhitespaceIsInvisible(ws: seq<Part>)
    requires forall k :: 0 <= k < |ws| ==> IsWhitespace(ws[k])
    ensures Visible(ws) == []
  {
    if |ws| > 0 {
      WhitespaceIsInvisible(ws[1..]);
    }
  }
}

=== FILE: sequences.dfy ===
/**
 Generic sequence helpers shared by the display-part transforms, the writers
 and the hierarchy builder: joining with a separator, counting, and a sort
 over a comparator that is a total preorder.
 */
module Sequences {

  /** Concatenation of all items. */
  function Concat<T>(items: seq<seq<T>>): (r: seq<T>)
    ensures |items| == 0 ==> r == []
  {
    if |items| == 0 then [] else items[0] + Concat(items[1..])
  }

  /** `items[0] + sep + items[1] + sep + ... + items[n-1]`: the shape of every
      "write the item, and if another one follows write a separator" loop. */
  function Join<T>(items: seq<seq<T>>, sep: seq<T>): (r: seq<T>)
    ensures |items| == 0 ==> r == []
    ensures |items| == 1 ==> r == items[0]
  {
    if |items| == 0 then []
    else if |items| == 1 then items[0]
    else items[0] + sep + Join(items[1..], sep)
  }

  /** An element of a concatenation is an element of one of the items. */
  lemma {:induction false} InConcat<T>(x: T, items: seq<seq<T>>)
    ensures x in Concat(items) <==> exists i :: 0 <= i < |items| && x in items[i]
  {
    if |items| > 0 {
      InConcat(x, items[1..]);
      assert forall i :: 1 <= i < |items| ==> items[i] == items[1..][i - 1];
      if exists i :: 1 <= i < |items| && x in items[i] {
        var i :| 1 <= i < |items| && x in items[i];
        assert x in items[1..][i - 1];
      }
    }
  }

  lemma ConcatAssoc<T>(w: seq<T>, x: seq<T>, y: seq<T>, z: seq<T>)
    ensures ((w + x) + y) + z == w + ((x + y) + z)
  {
  }

  /** Number of occurrences of `x` in `s`. */
  function Count<T(==)>(x: T, s: seq<T>): (n: nat)
    ensures n <= |s|
  {
    if |s| == 0 then 0 else (if s[0] == x then 1 else 0) + Count(x, s[1..])
  }

  /** An element that does not occur is counted zero times. */
  lemma {:induction false} CountAbsent<T>(x: T, s: seq<T>)
    requires x !in s
    ensures Count(x, s) == 0
  {
    if |s| > 0 {
      assert x !in s[1..];
      CountAbsent(x, s[1..]);
    }
  }

  /** Occurrences of `x` summed over all items. */
  function CountIn<T(==)>(x: T, items: seq<seq<T>>): nat
  {
    if |items| == 0 then 0 else Count(x, items[0]) + CountIn(x, items[1..])
  }

  lemma {:induction false} CountInZero<T>(x: T, items: seq<seq<T>>)
    requires forall i :: 0 <= i < |items| ==> x !in items[i]
    ensures CountIn(x, items) == 0
  {
    if |items| > 0 {
      CountAbsent(x, items[0]);
      CountInZero(x, items[1..]);
    }
  }

  lemma {:induction false} CountAppend<T>(x: T, a: seq<T>, b: seq<T>)
    ensures Count(x, a + b) == Count(x, a) + Count(x, b)
  {
    if |a| == 0 {
      assert a + b == b;
    } else {
      assert (a + b)[1..] == a[1..] + b;
      CountAppend(x, a[1..], b);
    }
  }

  /** Joining `n >= 1` items with a separator adds exactly `n - 1` copies of
      the separator's occurrences: the "n - 1 separators" law of every writer
      loop. */
  lemma {:induction false} JoinCount<T>(x: T, items: seq<seq<T>>, sep: seq<T>)
    requires |items| >= 1
    ensures Count(x, Join(items, sep)) == CountIn(x, items) + (|items| - 1) * Count(x, sep)
  {
    if |items| == 1 {
      assert CountIn(x, items[1..]) == 0;
    } else {
      var rest := items[1..];
      var c := Count(x, sep);
      var k := |rest| - 1;
      assert Join(items, sep) == (items[0] + sep) + Join(rest, sep);
      assert CountIn(x, items) == Count(x, items[0]) + CountIn(x, rest);
      JoinCount(x, rest, sep);
      CountAppend(x, items[0], sep);
      CountAppend(x, items[0] + sep, Join(rest, sep));
      assert |items| - 1 == k + 1;
      assert (k + 1) * c == k * c + c;
    }
  }

  /** A comparator, presented as "less or equal", that is total and
      transitive: the only assumption made about the symbol comparer. */
  ghost predicate TotalPreorder<T(!new)>(le: (T, T) -> bool)
  {
    && (forall a, b :: le(a, b) || le(b, a))
    && (forall a, b, c :: le(a, b) && le(b, c) ==> le(a, c))
  }

  ghost predicate SortedBy<T>(s: seq<T>, le: (T, T) -> bool)
  {
    forall i, j :: 0 <= i < j < |s| ==> le(s[i], s[j])
  }

  /** Inserts `x` after every element that is not greater than it. */
  function Insert<T(!new)>(x: T, s: seq<T>, le: (T, T) -> bool): (r: seq<T>)
    requires TotalPreorder(le)
    requires SortedBy(s, le)
    ensures SortedBy(r, le)
    ensures multiset(r) == multiset(s) + multiset{x}
  {
    if |s| == 0 then [x]
    else if le(s[0], x) then
      var rest := Insert(x, s[1..], le);
      InsertAfterHead(x, s, le, rest);
      [s[0]] + rest
    else
      InsertBeforeAll(x, s, le);
      [x] + s
  }

  /** Every element of `s` and `x` itself stay at or after the head `s[0]`. */
  lemma InsertAfterHead<T(!new)>(x: T, s: seq<T>, le: (T, T) -> bool, rest: seq<T>)
    requires TotalPreorder(le) && SortedBy(s, le) && |s| > 0 && le(s[0], x)
    requires SortedBy(rest, le) && multiset(rest) == multiset(s[1..]) + multiset{x}
    ensures SortedBy([s[0]] + rest, le)
    ensures multiset([s[0]] + rest) == multiset(s) + multiset{x}
  {
    assert s == [s[0]] + s[1..];
    forall k | 0 <= k < |rest| ensures le(s[0], rest[k]) {
      var y := rest[k];
      assert y in multiset(rest);
      if y != x {
        assert y in s[1..];
        var j :| 0 <= j < |s[1..]| && s[1..][j] == y;
        assert s[j + 1] == y;
      }
    }
    var r := [s[0]] + rest;
    forall i, j | 0 <= i < j < |r| ensures le(r[i], r[j]) {
      assert r[j] == rest[j - 1];
      if i > 0 {
        assert r[i] == rest[i - 1];
      }
    }
  }

  /** An `x` before the head is before every element of `s`. */
  lemma InsertBeforeAll<T(!new)>(x: T, s: seq<T>, le: (T, T) -> bool)
    requires TotalPreorder(le) && SortedBy(s, le) && |s| > 0 && !le(s[0], x)
    ensures SortedBy([x] + s, le)
  {
    forall k | 0 <= k < |s| ensures le(x, s[k]) {
      assert le(x, s[0]);
      if k > 0 { assert le(s[0], s[k]); }
    }
    var r := [x] + s;
    forall i, j | 0 <= i < j < |r| ensures le(r[i], r[j]) {
      assert r[j] == s[j - 1];
      if i > 0 {
        assert r[i] == s[i - 1];
      }
    }
  }

  /** Two pieces between a frame can be regrouped. */
  lemma Framed<T>(open: seq<T>, a: seq<T>, b: seq<T>, close: seq<T>)
    ensures open + a + b + close == open + (a + b) + close
  {
  }

  /** A sort by a total preorder: the model of `OrderBy(f => f, comparer)`
      and of `Array.Sort(items, comparison)` alike, since neither is relied on
      to order equal elements in a particular way. */
  function Sort<T(!new)>(s: seq<T>, le: (T, T) -> bool): (r: seq<T>)
    requires TotalPreorder(le)
    ensures SortedBy(r, le)
    ensures multiset(r) == multiset(s)
    ensures |r| == |s|
  {
    if |s| == 0 then []
    else
      assert s == [s[0]] + s[1..];
      Insert(s[0], Sort(s[1..], le), le)
  }

  /** No element occurs twice. */
  predicate Distinct<T(==)>(s: seq<T>)
  {
    forall i, j :: 0 <= i < j < |s| ==> s[i] != s[j]
  }

  lemma {:induction false} DistinctCounts<T>(s: seq<T>)
    ensures Distinct(s) <==> forall x :: multiset(s)[x] <= 1
  {
    if |s| > 0 {
      DistinctCounts(s[1..]);
      assert s == [s[0]] + s[1..];
      assert multiset(s) == multiset{s[0]} + multiset(s[1..]);
      if Distinct(s) {
        assert s[0] !in s[1..];
        assert Distinct(s[1..]);
      }
      if forall x :: multiset(s)[x] <= 1 {
        assert multiset(s)[s[0]] <= 1;
        assert s[0] !in multiset(s[1..]);
        forall x ensures multiset(s[1..])[x] <= 1 {
          assert multiset(s)[x] <= 1;
        }
        forall i, j | 0 <= i < j < |s| ensures s[i] != s[j] {
          assert s[j] == s[1..][j - 1];
          if i > 0 {
            assert s[i] == s[1..][i - 1];
          }
        }
      }
    }
  }

  /** A permutation of a sequence without repetitions has none either. */
  lemma DistinctPermutation<T>(a: seq<T>, b: seq<T>)
    requires multiset(a) == multiset(b) && Distinct(a)
    ensures Distinct(b)
  {
    DistinctCounts(a);
    DistinctCounts(b);
  }
  /** `Where(p)`: the elements that satisfy `p`, in their order. */
  function Filter<T(==,!new)>(s: seq<T>, p: T -> bool): (r: seq<T>)
    ensures forall x :: x in r <==> x in s && p(x)
    ensures |r| <= |s|
    ensures (exists x :: x in s && !p(x)) ==> |r| < |s|
    ensures Distinct(s) ==> Distinct(r)
  {
    if |s| == 0 then []
    else
      var rest := Filter(s[1..], p);
      assert forall x :: x in s <==> x == s[0] || x in s[1..];
      assert Distinct(s) ==> Distinct(s[1..]) && s[0] !in s[1..];
      if p(s[0]) then [s[0]] + rest else rest
  }

  /** The length of a filter, one element at a time. */
  lemma FilterLength<T(!new)>(s: seq<T>, p: T -> bool)
    requires |s| > 0
    ensures |Filter(s, p)| == (if p(s[0]) then 1 else 0) + |Filter(s[1..], p)|
  {
  }

  /** Filtering keeps the order: it distributes over concatenation. */
  lemma {:induction false} FilterAppend<T(!new)>(a: seq<T>, b: seq<T>, p: T -> bool)
    ensures Filter(a + b, p) == Filter(a, p) + Filter(b, p)
  {
    if |a| == 0 {
      assert a + b == b;
    } else {
      assert (a + b)[0] == a[0];
      assert (a + b)[1..] == a[1..] + b;
      FilterAppend(a[1..], b, p);
    }
  }

  /** Filtering keeps every copy of an element it keeps. */
  lemma {:induction false} FilterCount<T(!new)>(s: seq<T>, p: T -> bool, x: T)
    ensures multiset(Filter(s, p))[x] == if p(x) then multiset(s)[x] else 0
    decreases |s|
  {
    if |s| > 0 {
      FilterCount(s[1..], p, x);
      assert s == [s[0]] + s[1..];
    }
  }

  /** The distinct elements, in order of first occurrence. */
  function Dedup<T(==,!new)>(s: seq<T>): (r: seq<T>)
    ensures Distinct(r)
    ensures forall x :: x in r <==> x in s
    ensures |r| <= |s|
    decreases |s|
  {
    if |s| == 0 then []
    else
      var rest := Dedup(s[..|s| - 1]);
      assert s == s[..|s| - 1] + [s[|s| - 1]];
      if s[|s| - 1] in rest then rest else rest + [s[|s| - 1]]
  }
  /** `0, 1, ..., n - 1`. */
  function Range(n: nat): (r: seq<nat>)
    ensures |r| == n && forall i :: 0 <= i < n ==> r[i] == i
    ensures Distinct(r)
  {
    seq(n, i requires 0 <= i < n => i)
  }

  function KeyAt<T>(items: seq<T>, key: T -> int, i: nat): int
  {
    if i < |items| then key(items[i]) else 0
  }

  /** The positions of the items that `keep` selects, ordered by `key`:
      `items.Where(keep).OrderBy(key)` by position, so that a caller can
      still see each chosen item as an element of `items`. */
  function SortedPositions<T>(items: seq<T>, keep: T -> bool, key: T -> int): (r: seq<nat>)
    ensures forall k :: 0 <= k < |r| ==> r[k] < |items|
    ensures forall i :: 0 <= i < |items| ==> (i in r <==> keep(items[i]))
    ensures Distinct(r)
    ensures forall k, l :: 0 <= k < l < |r| ==> key(items[r[k]]) <= key(items[r[l]])
  {
    var kept := Filter(Range(|items|), (i: nat) => i < |items| && keep(items[i]));
    var r := Sort<nat>(kept, (i: nat, j: nat) => KeyAt(items, key, i) <= KeyAt(items, key, j));
    SortedPositionsMembers(items, keep, key, kept, r);
    SortedPositionsOrder(items, keep, key, kept, r);
    r
  }

  /** The sorted filter of the positions keeps exactly the selected positions, once each. */
  lemma SortedPositionsMembers<T>(items: seq<T>, keep: T -> bool, key: T -> int, kept: seq<nat>, r: seq<nat>)
    requires kept == Filter(Range(|items|), (i: nat) => i < |items| && keep(items[i]))
    requires multiset(r) == multiset(kept)
    ensures forall k :: 0 <= k < |r| ==> r[k] < |items|
    ensures forall i :: 0 <= i < |items| ==> (i in r <==> keep(items[i]))
    ensures Distinct(r)
  {
    forall i | 0 <= i < |items| ensures i in Range(|items|) {
      assert Range(|items|)[i] == i;
    }
    forall x ensures x in r <==> x in kept {
      assert x in r <==> x in multiset(r);
      assert x in kept <==> x in multiset(kept);
    }
    DistinctPermutation(kept, r);
    assert forall k :: 0 <= k < |r| ==> r[k] in r;
  }

  /** Sorting the positions by the key of the item at each orders the items by key. */
  lemma SortedPositionsOrder<T>(items: seq<T>, keep: T -> bool, key: T -> int, kept: seq<nat>, r: seq<nat>)
    requires forall k :: 0 <= k < |r| ==> r[k] < |items|
    requires r == Sort<nat>(kept, (i: nat, j: nat) => KeyAt(items, key, i) <= KeyAt(items, key, j))
    ensures forall k, l :: 0 <= k < l < |r| ==> key(items[r[k]]) <= key(items[r[l]])
  {
    forall k, l | 0 <= k < l < |r| ensures key(items[r[k]]) <= key(items[r[l]]) {
      assert KeyAt(items, key, r[k]) <= KeyAt(items, key, r[l]);
    }
  }
}

=== FILE: symbol_filter.dfy ===
/**
 The workspace symbol filter: per-kind check orders that report the first
 reason a symbol is rejected, and the finder options that add attribute
 verification on top of them.
 */
module SymbolFilter {
  import opened Wrappers
  import opened Symbols
  import opened FilterRules
  import TypeKindMapping

  /** Filter options. A `None` name set is the null set the constructor
      stores when it is given no names. */
  datatype SymbolFilterOptions = SymbolFilterOptions(
    visibility: set<Visibility>,
    symbolGroups: set<SymbolGroup>,
    ignoredSymbols: Option<set<MetadataName>>,
    ignoredAttributes: Option<set<MetadataName>>)
  {
    predicate IncludesSymbolGroup(g: set<SymbolGroup>)
    {
      g <= symbolGroups
    }

    /** `_ignoredSymbols?.Contains(n) == true`. */
    predicate IsIgnored(n: Option<MetadataName>)
    {
      ignoredSymbols.Some? && ContainsName(ignoredSymbols.value, n)
    }

    /** The ignored names as exposed to callers: empty when none were given. */
    function IgnoredSymbols(): set<MetadataName>
    {
      if ignoredSymbols.Some? then ignoredSymbols.value else {}
    }

    function IgnoredAttributes(): set<MetadataName>
    {
      if ignoredAttributes.Some? then ignoredAttributes.value else {}
    }
  }

  function NameSetOf(values: Option<seq<MetadataName>>): Option<set<MetadataName>>
  {
    if values.Some? then Some(SetOf(values.value)) else None
  }

  function NewSymbolFilterOptions(
    visibility: set<Visibility>, symbolGroups: set<SymbolGroup>,
    ignoredSymbols: Option<seq<MetadataName>>, ignoredAttributes: Option<seq<MetadataName>>): SymbolFilterOptions
  {
    SymbolFilterOptions(visibility, symbolGroups, NameSetOf(ignoredSymbols), NameSetOf(ignoredAttributes))
  }

  /** All visibilities and all type and member groups, no ignored names. */
  const DefaultOptions: SymbolFilterOptions :=
    NewSymbolFilterOptions({Public, Internal, Private}, TypeGroups + MemberGroups, None, None)

  function NamespaceResult(o: SymbolFilterOptions, s: Symbol): SymbolFilterResult
  {
    if o.IsIgnored(Some(s.name)) then Ignored else Success
  }

  function TypeResult(o: SymbolFilterOptions, s: Symbol): Result<SymbolFilterResult>
  {
    if s.isImplicitlyDeclared then Ok(ImplicitlyDeclared)
    else
      var g :- TypeKindMapping.ToSymbolGroupFilter(s.typeKind);
      if !o.IncludesSymbolGroup({g}) then Ok(UnsupportedSymbolGroup)
      else if !VisibleUnder(s, o.visibility) then Ok(NotVisible)
      else if o.IsIgnored(Some(s.name)) then Ok(Ignored)
      else if o.IsIgnored(s.containingSymbol) then Ok(Ignored)
      else Ok(Success)
  }

  /** The checks every member kind ends with, after its group check. */
  function MemberTail(o: SymbolFilterOptions, s: Symbol, mayBeImplicit: bool): SymbolFilterResult
  {
    if !mayBeImplicit && s.isImplicitlyDeclared then ImplicitlyDeclared
    else if !VisibleUnder(s, o.visibility) then NotVisible
    else if o.IsIgnored(s.containingSymbol) then Ignored
    else Success
  }

  function EventResult(o: SymbolFilterOptions, s: Symbol): SymbolFilterResult
  {
    if !o.IncludesSymbolGroup({SymbolGroup.Event}) then UnsupportedSymbolGroup
    else MemberTail(o, s, false)
  }

  /** The group of a field: enum members and other constants have groups of
      their own. */
  function FieldGroup(s: Symbol): SymbolGroup
  {
    if s.isConst then
      (if s.containingTypeKind == Some(TypeKind.Enum) then SymbolGroup.EnumField else SymbolGroup.Const)
    else SymbolGroup.Field
  }

  function FieldResult(o: SymbolFilterOptions, s: Symbol): SymbolFilterResult
  {
    if !o.IncludesSymbolGroup({FieldGroup(s)}) then UnsupportedSymbolGroup
    else MemberTail(o, s, false)
  }

  function PropertyResult(o: SymbolFilterOptions, s: Symbol): SymbolFilterResult
  {
    if !o.IncludesSymbolGroup({if s.isIndexer then SymbolGroup.Indexer else SymbolGroup.Property}) then UnsupportedSymbolGroup
    else MemberTail(o, s, false)
  }

  /** The method kinds the method check lets through to the common checks. */
  predicate IsListedMethodKind(k: MethodKind)
  {
    k.Constructor? || k.Conversion? || k.UserDefinedOperator? || k.Ordinary?
    || k.StaticConstructor? || k.Destructor? || k.ExplicitInterfaceImplementation?
  }

  /** Only the parameterless constructor of a class may be implicitly
      declared (it is the compiler-supplied default constructor). */
  predicate IsDefaultClassConstructor(s: Symbol)
  {
    s.methodKind.Constructor? && s.containingTypeKind == Some(TypeKind.Class) && s.parameterCount == 0
  }

  function MethodResult(o: SymbolFilterOptions, s: Symbol): SymbolFilterResult
  {
    if !o.IncludesSymbolGroup({SymbolGroup.Method}) then UnsupportedSymbolGroup
    else if !IsListedMethodKind(s.methodKind) then Other
    else MemberTail(o, s, IsDefaultClassConstructor(s))
  }

  /** The dispatch on the symbol kind; other kinds are an argument error. */
  function GetResult(o: SymbolFilterOptions, s: Symbol): Result<SymbolFilterResult>
  {
    match s.kind
    case Namespace => Ok(NamespaceResult(o, s))
    case NamedType => TypeResult(o, s)
    case Event => Ok(EventResult(o, s))
    case Field => Ok(FieldResult(o, s))
    case Property => Ok(PropertyResult(o, s))
    case Method => Ok(MethodResult(o, s))
    case _ => Err(ArgumentException)
  }

  function IsSuccess(o: SymbolFilterOptions, s: Symbol): Result<bool>
  {
    var r :- GetResult(o, s);
    Ok(r == Success)
  }

  /** `IsVisibleAttribute` without the debug-only checks. */
  predicate IsVisibleAttribute(o: SymbolFilterOptions, attributeClass: MetadataName)
  {
    !(o.ignoredAttributes.Some? && attributeClass in o.ignoredAttributes.value)
  }

  /** Without the debug-only checks an attribute is hidden exactly when its
      class is among the ignored attribute names exposed by the options. */
  lemma AttributeVisibleUnlessIgnored(o: SymbolFilterOptions, attributeClass: MetadataName)
    ensures !IsVisibleAttribute(o, attributeClass) <==> attributeClass in o.IgnoredAttributes()
  {
  }

  /** The conditions a symbol must meet to pass, stated independently of the
      order in which they are checked. */
  ghost predicate Admissible(o: SymbolFilterOptions, s: Symbol)
  {
    var visible := VisibleUnder(s, o.visibility);
    var containerKept := !o.IsIgnored(s.containingSymbol);
    match s.kind
    case Namespace => !o.IsIgnored(Some(s.name))
    case NamedType =>
      && !s.isImplicitlyDeclared
      && TypeKindMapping.IsDeclarableKind(s.typeKind)
      && TypeKindMapping.ToSymbolGroupFilter(s.typeKind).value in o.symbolGroups
      && visible && !o.IsIgnored(Some(s.name)) && containerKept
    case Event => SymbolGroup.Event in o.symbolGroups && !s.isImplicitlyDeclared && visible && containerKept
    case Field => FieldGroup(s) in o.symbolGroups && !s.isImplicitlyDeclared && visible && containerKept
    case Property =>
      && (if s.isIndexer then SymbolGroup.Indexer else SymbolGroup.Property) in o.symbolGroups
      && !s.isImplicitlyDeclared && visible && containerKept
    case Method =>
      && SymbolGroup.Method in o.symbolGroups
      && IsListedMethodKind(s.methodKind)
      && (!s.isImplicitlyDeclared || IsDefaultClassConstructor(s))
      && visible && containerKept
    case _ => false
  }

  /** A symbol passes exactly when it meets every condition; the filter
      throws only for kinds it does not handle and for types of a kind no
      symbol group stands for. */
  lemma SuccessIffAdmissible(o: SymbolFilterOptions, s: Symbol)
    ensures IsSuccess(o, s) == Ok(true) <==> Admissible(o, s)
    ensures GetResult(o, s).Err? <==>
              (!(s.kind.Namespace? || s.kind.NamedType? || s.kind.Event? || s.kind.Field? || s.kind.Property? || s.kind.Method?)
               || (s.kind.NamedType? && !s.isImplicitlyDeclared && !TypeKindMapping.IsDeclarableKind(s.typeKind)))
  {
  }

  /** Widening the accepted groups and visibilities, or dropping ignored
      names, never turns an accepted symbol into a rejected one. */
  lemma {:induction false} SuccessIsMonotone(o: SymbolFilterOptions, p: SymbolFilterOptions, s: Symbol)
    requires o.symbolGroups <= p.symbolGroups
    requires o.visibility <= p.visibility
    requires p.IgnoredSymbols() <= o.IgnoredSymbols()
    requires IsSuccess(o, s) == Ok(true)
    ensures IsSuccess(p, s) == Ok(true)
  {
    SuccessIffAdmissible(o, s);
    SuccessIffAdmissible(p, s);
  }

  /** A null ignored-name set behaves exactly like an empty one. */
  lemma NullIgnoredSetIsEmptySet(o: SymbolFilterOptions, s: Symbol, a: MetadataName)
    requires o.ignoredSymbols == None && o.ignoredAttributes == None
    ensures GetResult(o, s) == GetResult(o.(ignoredSymbols := Some({})), s)
    ensures IsVisibleAttribute(o, a) == IsVisibleAttribute(o.(ignoredAttributes := Some({})), a)
    ensures IsVisibleAttribute(o, a)
  {
  }

  /** Types check implicit declaration before the group; fields, events and
      properties check the group first, so an implicitly declared member of
      an excluded group is reported as unsupported. */
  lemma CheckOrderOfTypesAndMembers(o: SymbolFilterOptions, s: Symbol)
    requires s.isImplicitlyDeclared
    ensures s.kind.NamedType? ==> GetResult(o, s) == Ok(ImplicitlyDeclared)
    ensures s.kind.Field? && FieldGroup(s) !in o.symbolGroups ==> GetResult(o, s) == Ok(UnsupportedSymbolGroup)
    ensures s.kind.Event? && SymbolGroup.Event !in o.symbolGroups ==> GetResult(o, s) == Ok(UnsupportedSymbolGroup)
    ensures (s.kind.Property? && s.isIndexer && SymbolGroup.Indexer !in o.symbolGroups) ==>
              GetResult(o, s) == Ok(UnsupportedSymbolGroup)
    ensures s.kind.Method? && SymbolGroup.Method !in o.symbolGroups ==> GetResult(o, s) == Ok(UnsupportedSymbolGroup)
  {
  }

  /** A type is checked for implicit declaration, then for its group, then
      for visibility, then for its own name and last for its container: each
      outcome is reported exactly when every earlier check passed. */
  lemma TypeCheckOrder(o: SymbolFilterOptions, s: Symbol)
    requires s.kind.NamedType? && TypeKindMapping.IsDeclarableKind(s.typeKind)
    ensures var inGroup := TypeKindMapping.ToSymbolGroupFilter(s.typeKind).value in o.symbolGroups;
      && (GetResult(o, s) == Ok(ImplicitlyDeclared) <==> s.isImplicitlyDeclared)
      && (GetResult(o, s) == Ok(UnsupportedSymbolGroup) <==> !s.isImplicitlyDeclared && !inGroup)
      && (GetResult(o, s) == Ok(NotVisible) <==> !s.isImplicitlyDeclared && inGroup && !VisibleUnder(s, o.visibility))
      && (GetResult(o, s) == Ok(Ignored) <==>
            !s.isImplicitlyDeclared && inGroup && VisibleUnder(s, o.visibility)
            && (o.IsIgnored(Some(s.name)) || o.IsIgnored(s.containingSymbol)))
  {
  }

  /** Events, fields and properties are checked for their group first, then
      for implicit declaration, visibility and the container, in that
      order. */
  lemma MemberCheckOrder(o: SymbolFilterOptions, s: Symbol)
    requires s.kind.Event? || s.kind.Field? || s.kind.Property?
    ensures var g := if s.kind.Event? then SymbolGroup.Event
                     else if s.kind.Field? then FieldGroup(s)
                     else if s.isIndexer then SymbolGroup.Indexer else SymbolGroup.Property;
      && (GetResult(o, s) == Ok(UnsupportedSymbolGroup) <==> g !in o.symbolGroups)
      && (GetResult(o, s) == Ok(ImplicitlyDeclared) <==> g in o.symbolGroups && s.isImplicitlyDeclared)
      && (GetResult(o, s) == Ok(NotVisible) <==>
            g in o.symbolGroups && !s.isImplicitlyDeclared && !VisibleUnder(s, o.visibility))
      && (GetResult(o, s) == Ok(Ignored) <==>
            g in o.symbolGroups && !s.isImplicitlyDeclared && VisibleUnder(s, o.visibility) && o.IsIgnored(s.containingSymbol))
  {
  }

  /** A constant field of an enum belongs to the enum-field group, any other
      constant to the constant group, and every other field to the field
      group. */
  lemma FieldGroups(s: Symbol)
    ensures s.isConst && s.containingTypeKind == Some(TypeKind.Enum) <==> FieldGroup(s) == SymbolGroup.EnumField
    ensures s.isConst && s.containingTypeKind != Some(TypeKind.Enum) <==> FieldGroup(s) == SymbolGroup.Const
    ensures !s.isConst <==> FieldGroup(s) == SymbolGroup.Field
  {
  }

  /** Methods are checked for their group, then for a listed kind, then for
      implicit declaration (which only the parameterless constructor of a
      class may be), visibility and the container. */
  lemma MethodCheckOrder(o: SymbolFilterOptions, s: Symbol)
    requires s.kind.Method?
    ensures var inGroup := SymbolGroup.Method in o.symbolGroups;
      var mayBeImplicit := IsDefaultClassConstructor(s);
      && (GetResult(o, s) == Ok(UnsupportedSymbolGroup) <==> !inGroup)
      && (GetResult(o, s) == Ok(Other) <==> inGroup && !IsListedMethodKind(s.methodKind))
      && (GetResult(o, s) == Ok(ImplicitlyDeclared) <==>
            inGroup && IsListedMethodKind(s.methodKind) && !mayBeImplicit && s.isImplicitlyDeclared)
      && (GetResult(o, s) == Ok(NotVisible) <==>
            inGroup && IsListedMethodKind(s.methodKind) && (mayBeImplicit || !s.isImplicitlyDeclared)
            && !VisibleUnder(s, o.visibility))
  {
  }

  /** A namespace is only ever accepted or ignored: no group or visibility
      check applies to it. */
  lemma NamespaceOutcomes(o: SymbolFilterOptions, s: Symbol)
    requires s.kind.Namespace?
    ensures GetResult(o, s) == Ok(Ignored) <==> o.IsIgnored(Some(s.name))
    ensures GetResult(o, s) == Ok(Success) <==> !o.IsIgnored(Some(s.name))
  {
  }

  /** Accessor and other unlisted method kinds are reported as `Other`,
      whatever their visibility or declaration. */
  lemma UnlistedMethodKindsAreOther(o: SymbolFilterOptions, s: Symbol)
    requires s.kind.Method? && SymbolGroup.Method in o.symbolGroups
    requires s.methodKind.PropertyGet? || s.methodKind.PropertySet? || s.methodKind.EventAdd?
             || s.methodKind.EventRemove? || s.methodKind.EventRaise? || s.methodKind.LocalFunction?
    ensures GetResult(o, s) == Ok(Other)
  {
  }

  /** The finder options: the filter options plus attribute requirements. A
      null with- or without-set becomes the empty set. */
  datatype SymbolFinderOptions = SymbolFinderOptions(
    filter: SymbolFilterOptions,
    withAttributes: set<MetadataName>,
    withoutAttributes: set<MetadataName>,
    ignoreGeneratedCode: bool,
    unusedOnly: bool)

  function NewSymbolFinderOptions(
    visibility: set<Visibility>, symbolGroups: set<SymbolGroup>,
    ignoredSymbols: Option<seq<MetadataName>>, ignoredAttributes: Option<seq<MetadataName>>,
    withAttributes: Option<seq<MetadataName>>, withoutAttributes: Option<seq<MetadataName>>,
    ignoreGeneratedCode: bool, unusedOnly: bool): (r: SymbolFinderOptions)
    ensures withAttributes.None? ==> r.withAttributes == {}
    ensures withoutAttributes.None? ==> r.withoutAttributes == {}
    ensures withAttributes.Some? ==> forall n :: n in r.withAttributes <==> n in withAttributes.value
    ensures withoutAttributes.Some? ==> forall n :: n in r.withoutAttributes <==> n in withoutAttributes.value
  {
    SymbolFinderOptions(
      NewSymbolFilterOptions(visibility, symbolGroups, ignoredSymbols, ignoredAttributes),
      if withAttributes.Some? then SetOf(withAttributes.value) else {},
      if withoutAttributes.Some? then SetOf(withoutAttributes.value) else {},
      ignoreGeneratedCode, unusedOnly)
  }

  /** The attribute verification, with its two loops. */
  method VerifyAttributes(o: SymbolFinderOptions, attributes: seq<AttributeData>) returns (r: SymbolFilterResult)
    ensures o.withAttributes == {} && o.withoutAttributes == {} ==> r == Success
    ensures (o.withAttributes != {} && !(exists i :: 0 <= i < |attributes| && attributes[i].attributeClass in o.withAttributes))
              ==> r == HasNotAttribute
    ensures ((o.withAttributes == {} || exists i :: 0 <= i < |attributes| && attributes[i].attributeClass in o.withAttributes)
              && (exists i :: 0 <= i < |attributes| && attributes[i].attributeClass in o.withoutAttributes))
              ==> r == HasAttribute
    ensures r == Success || r == HasNotAttribute || r == HasAttribute
    ensures r == Success <==>
              && (o.withAttributes == {} || exists i :: 0 <= i < |attributes| && attributes[i].attributeClass in o.withAttributes)
              && !(exists i :: 0 <= i < |attributes| && attributes[i].attributeClass in o.withoutAttributes)
    ensures r == AttributeVerdict(o, attributes)
  {
    if o.withAttributes == {} && o.withoutAttributes == {} {
      return Success;
    }
    if o.withAttributes != {} {
      var hasAttribute := false;
      var i := 0;
      while i < |attributes| && !hasAttribute
        invariant 0 <= i <= |attributes|
        invariant forall j :: 0 <= j < i ==> attributes[j].attributeClass !in o.withAttributes
        invariant hasAttribute ==> i < |attributes| && attributes[i].attributeClass in o.withAttributes
        decreases |attributes| - i, if hasAttribute then 0 else 1
      {
        if attributes[i].attributeClass in o.withAttributes {
          hasAttribute := true;
        } else {
          i := i + 1;
        }
      }
      if !hasAttribute {
        return HasNotAttribute;
      }
    }
    if o.withoutAttributes != {} {
      var i := 0;
      while i < |attributes|
        invariant 0 <= i <= |attributes|
        invariant forall j :: 0 <= j < i ==> attributes[j].attributeClass !in o.withoutAttributes
      {
        if attributes[i].attributeClass in o.withoutAttributes {
          return HasAttribute;
        }
        i := i + 1;
      }
    }
    return Success;
  }

  /** The functional form of the attribute verification. */
  function AttributeVerdict(o: SymbolFinderOptions, attributes: seq<AttributeData>): SymbolFilterResult
  {
    if o.withAttributes == {} && o.withoutAttributes == {} then Success
    else if o.withAttributes != {} && !HasAttributeIn(attributes, o.withAttributes) then HasNotAttribute
    else if o.withoutAttributes != {} && HasAttributeIn(attributes, o.withoutAttributes) then HasAttribute
    else Success
  }

  /** Every per-kind check of the finder: the filter's outcome when it is not
      a success, otherwise the attribute verdict. */
  function FinderResult(o: SymbolFinderOptions, s: Symbol): (r: Result<SymbolFilterResult>)
    ensures GetResult(o.filter, s).Err? ==> r == GetResult(o.filter, s)
    ensures GetResult(o.filter, s).Ok? && GetResult(o.filter, s).value != Success ==> r == GetResult(o.filter, s)
    ensures GetResult(o.filter, s) == Ok(Success) ==> r == Ok(AttributeVerdict(o, s.attributes))
  {
    var b :- GetResult(o.filter, s);
    if b != Success then Ok(b) else Ok(AttributeVerdict(o, s.attributes))
  }

  /** With no attribute requirements the finder decides like the filter; a
      symbol that fails both attribute tests is reported by the first. */
  lemma FinderAttributeOrder(o: SymbolFinderOptions, s: Symbol)
    ensures o.withAttributes == {} && o.withoutAttributes == {} ==> FinderResult(o, s) == GetResult(o.filter, s)
    ensures (GetResult(o.filter, s) == Ok(Success) && o.withAttributes != {} && o.withoutAttributes != {}
             && !HasAttributeIn(s.attributes, o.withAttributes) && HasAttributeIn(s.attributes, o.withoutAttributes))
              ==> FinderResult(o, s) == Ok(HasNotAttribute)
  {
  }
}

=== FILE: symbol_hierarchy.dfy ===
/**
 The inheritance forest of a set of types: one tree of classes, structs,
 enums and delegates under `object`, and one forest of interfaces under a
 root without a symbol. Types live in an arena indexed by natural numbers;
 a type's base type and interfaces always come before it, which is how the
 model states that the compiler rejects cyclic inheritance.
 */
module SymbolHierarchy {
  import opened Wrappers
  import opened Sequences

  /** A reference to a type: its original definition, and whether it is a
      constructed generic, which is not equal to that definition. */
  datatype TypeUse = TypeUse(definition: nat, constructed: bool)

  /** What the builder reads from a type symbol. `rank` carries the order of
      the symbol comparer, which is not part of this model. */
  datatype TypeInfo = TypeInfo(
    isInterface: bool,
    isObject: bool,
    isStatic: bool,
    baseType: Option<nat>,
    interfaces: seq<TypeUse>,
    rank: int)

  /** Supertypes come first; a base type is no interface; interfaces have
      no base type and are not `object`. */
  predicate WellFormed(ts: seq<TypeInfo>)
  {
    forall i :: 0 <= i < |ts| ==>
      (ts[i].baseType.Some? ==> ts[i].baseType.value < i && !ts[ts[i].baseType.value].isInterface)
      && (forall k :: 0 <= k < |ts[i].interfaces| ==> ts[i].interfaces[k].definition < i)
      && (ts[i].isInterface ==> ts[i].baseType.None? && !ts[i].isObject)
  }

  predicate InArena(ts: seq<TypeInfo>, s: seq<nat>)
  {
    forall x :: x in s ==> x < |ts|
  }

  /** `a` is on the base chain of `z`, `z` included. */
  predicate Descends(ts: seq<TypeInfo>, z: nat, a: nat)
    decreases z
  {
    z == a || (z < |ts| && ts[z].baseType.Some? && ts[z].baseType.value < z && Descends(ts, ts[z].baseType.value, a))
  }

  lemma {:induction false} DescendsBelow(ts: seq<TypeInfo>, z: nat, a: nat)
    requires Descends(ts, z, a)
    ensures a <= z
    decreases z
  {
    if z != a {
      DescendsBelow(ts, ts[z].baseType.value, a);
    }
  }

  lemma {:induction false} DescendsTransitive(ts: seq<TypeInfo>, z: nat, x: nat, y: nat)
    requires Descends(ts, z, x) && Descends(ts, x, y)
    ensures Descends(ts, z, y)
    decreases z
  {
    if z != x {
      DescendsTransitive(ts, ts[z].baseType.value, x, y);
    }
  }

  /** The ancestor of `z` whose base type is `p`. */
  function Below(ts: seq<TypeInfo>, z: nat, p: nat): (r: nat)
    requires Descends(ts, z, p) && z != p
    ensures Descends(ts, z, r) && r < |ts| && ts[r].baseType == Some(p)
    decreases z
  {
    if ts[z].baseType == Some(p) then z else Below(ts, ts[z].baseType.value, p)
  }

  /** Every type below a direct subtype `x` of `p` reaches `p` through `x`. */
  lemma {:induction false} BelowThrough(ts: seq<TypeInfo>, z: nat, x: nat, p: nat)
    requires Descends(ts, z, x) && x < |ts| && ts[x].baseType == Some(p) && p < x
    ensures Descends(ts, z, p) && z != p && Below(ts, z, p) == x
    decreases z
  {
    assert Descends(ts, x, p);
    DescendsTransitive(ts, z, x, p);
    DescendsBelow(ts, z, x);
    if z != x {
      var b := ts[z].baseType.value;
      DescendsBelow(ts, b, x);
      BelowThrough(ts, b, x, p);
    }
  }

  /* ---------------- FindObjectType ---------------- */

  /** The `object` type on the base chain of `t`, `t` included. */
  function ObjectOnChain(ts: seq<TypeInfo>, t: nat): (r: Option<nat>)
    requires WellFormed(ts) && t < |ts|
    ensures r.Some? ==> r.value < |ts| && ts[r.value].isObject && Descends(ts, t, r.value)
    ensures r.None? ==> forall a :: 0 <= a < |ts| && Descends(ts, t, a) ==> !ts[a].isObject
    decreases t
  {
    if ts[t].isObject then Some(t)
    else if ts[t].baseType.None? then None
    else ObjectOnChain(ts, ts[t].baseType.value)
  }

  /** `FindObjectType`: the `object` reached first, walking the inputs in
      order and each one's base chain upwards. */
  function FindObjectType(ts: seq<TypeInfo>, inputs: seq<nat>): (r: Option<nat>)
    requires WellFormed(ts) && InArena(ts, inputs)
    ensures r.Some? ==> r.value < |ts| && ts[r.value].isObject
                        && exists i :: 0 <= i < |inputs| && Descends(ts, inputs[i], r.value)
    ensures r.None? <==> NoObject(ts, inputs)
  {
    if |inputs| == 0 then None
    else
      assert inputs[0] in inputs && forall x :: x in inputs[1..] ==> x in inputs;
      var first := ObjectOnChain(ts, inputs[0]);
      if first.Some? then first
      else
        var rest := FindObjectType(ts, inputs[1..]);
        assert forall i :: 1 <= i < |inputs| ==> inputs[i] == inputs[1..][i - 1];
        assert rest.Some? ==> exists i :: 0 <= i < |inputs| && Descends(ts, inputs[i], rest.value);
        rest
  }

  /** No input's base chain reaches `object`. */
  predicate NoObject(ts: seq<TypeInfo>, inputs: seq<nat>)
  {
    forall i, a :: 0 <= i < |inputs| && 0 <= a < |ts| && Descends(ts, inputs[i], a) ==> !ts[a].isObject
  }

  /* ---------------- the item dictionary ---------------- */

  /** The keys added for the base chain from `t` upwards: every ancestor
      that is not a key yet, marked external. */
  function AddAncestors(ts: seq<TypeInfo>, keys: seq<nat>, external: set<nat>, t: Option<nat>): (r: (seq<nat>, set<nat>))
    requires WellFormed(ts) && (t.Some? ==> t.value < |ts|) && InArena(ts, keys) && Distinct(keys)
    ensures InArena(ts, r.0) && Distinct(r.0)
    ensures |r.0| >= |keys| && r.0[..|keys|] == keys
    ensures forall x :: x in r.0 <==> x in keys || (t.Some? && Descends(ts, t.value, x))
    ensures forall x :: x in r.1 <==> x in external || (x !in keys && t.Some? && Descends(ts, t.value, x))
    decreases if t.Some? then t.value + 1 else 0
  {
    if t.None? then (keys, external)
    else
      var d := t.value;
      var next := ts[d].baseType;
      if d in keys then
        AddAncestors(ts, keys, external, next)
      else
        var r := AddAncestors(ts, keys + [d], external + {d}, next);
        assert (keys + [d])[..|keys|] == keys;
        assert r.0[..|keys|] == r.0[..|keys| + 1][..|keys|];
        r
  }

  /** The base chains of all the inputs, in input order. */
  function AddAllAncestors(ts: seq<TypeInfo>, inputs: seq<nat>, keys: seq<nat>, external: set<nat>): (r: (seq<nat>, set<nat>))
    requires WellFormed(ts) && InArena(ts, inputs) && InArena(ts, keys) && Distinct(keys)
    requires forall i :: 0 <= i < |inputs| ==> inputs[i] in keys
    ensures InArena(ts, r.0) && Distinct(r.0)
    ensures forall x :: x in r.0 <==> x in keys || exists i :: 0 <= i < |inputs| && Descends(ts, inputs[i], x)
    ensures forall x :: x in r.1 <==> x in external || (x !in keys && exists i :: 0 <= i < |inputs| && Descends(ts, inputs[i], x))
  {
    if |inputs| == 0 then (keys, external)
    else
      var first := AddAncestors(ts, keys, external, ts[inputs[0]].baseType);
      var r := AddAllAncestors(ts, inputs[1..], first.0, first.1);
      forall x ensures Descends(ts, inputs[0], x) <==> x == inputs[0] || (ts[inputs[0]].baseType.Some? && Descends(ts, ts[inputs[0]].baseType.value, x)) {
        if ts[inputs[0]].baseType.Some? {
          assert ts[inputs[0]].baseType.value < inputs[0];
        }
      }
      assert forall i :: 1 <= i < |inputs| ==> inputs[i] == inputs[1..][i - 1];
      r
  }

  /** The dictionary of items before the trees are filled: the inputs, then
      `object` (always external), then every missing ancestor (external). */
  function InitialItems(ts: seq<TypeInfo>, inputs: seq<nat>, obj: nat): (r: (seq<nat>, set<nat>))
    requires WellFormed(ts) && InArena(ts, inputs) && Distinct(inputs) && obj < |ts|
    ensures InArena(ts, r.0) && Distinct(r.0) && obj in r.1
  {
    var keys := if obj in inputs then inputs else inputs + [obj];
    AddAllAncestors(ts, inputs, keys, {obj})
  }

  /** The items are the inputs, `object` and the ancestors of the inputs;
      `object` and every ancestor that is not an input are external, and
      the inputs other than `object` are not. */
  lemma ItemsAndExternals(ts: seq<TypeInfo>, inputs: seq<nat>, obj: nat)
    requires WellFormed(ts) && InArena(ts, inputs) && Distinct(inputs) && obj < |ts|
    ensures var (items, external) := InitialItems(ts, inputs, obj);
      (forall x :: x in items <==> x == obj || exists i :: 0 <= i < |inputs| && Descends(ts, inputs[i], x))
      && (forall x :: x in external <==> x in items && (x == obj || x !in inputs))
  {
    var keys := if obj in inputs then inputs else inputs + [obj];
    var (items, external) := InitialItems(ts, inputs, obj);
    forall x ensures x in items <==> x == obj || exists i :: 0 <= i < |inputs| && Descends(ts, inputs[i], x) {
      if x in inputs {
        var i :| 0 <= i < |inputs| && inputs[i] == x;
        assert Descends(ts, inputs[i], x);
      }
    }
    forall x ensures x in external <==> x in items && (x == obj || x !in inputs) {
      if x in items && x !in inputs && x != obj {
        assert x !in keys;
      }
    }
  }

  /** Interfaces are never external: only `object` and base-chain ancestors
      are, and those are classes. */
  lemma InterfacesNeverExternal(ts: seq<TypeInfo>, inputs: seq<nat>, obj: nat)
    requires WellFormed(ts) && InArena(ts, inputs) && Distinct(inputs) && obj < |ts| && ts[obj].isObject
    ensures forall x :: x in InitialItems(ts, inputs, obj).1 && x !in inputs ==> x < |ts| && !ts[x].isInterface
  {
    ItemsAndExternals(ts, inputs, obj);
    var (items, external) := InitialItems(ts, inputs, obj);
    forall x | x in external && x !in inputs ensures x < |ts| && !ts[x].isInterface {
      if x != obj {
        var i :| 0 <= i < |inputs| && Descends(ts, inputs[i], x);
        AncestorIsClass(ts, inputs[i], x);
      }
    }
  }

  /** A proper ancestor is some type's base type, so it is no interface. */
  lemma {:induction false} AncestorIsClass(ts: seq<TypeInfo>, z: nat, x: nat)
    requires WellFormed(ts) && Descends(ts, z, x) && z != x
    ensures x < |ts| && !ts[x].isInterface
    decreases z
  {
    var b := ts[z].baseType.value;
    if b != x {
      AncestorIsClass(ts, b, x);
    }
  }

  /* ---------------- filling the trees ---------------- */

  datatype Node = Node(id: nat, isExternal: bool, children: seq<Node>)

  datatype Hierarchy = Hierarchy(root: Node, interfaceRoots: seq<Node>)

  /** `x` is a child of the item `id`: a class's children have it as base
      type, an interface's children list it among their interfaces. */
  predicate DerivesFrom(ts: seq<TypeInfo>, x: nat, id: nat)
  {
    x < |ts| && id < |ts|
    && if ts[id].isInterface then exists k :: 0 <= k < |ts[x].interfaces| && ts[x].interfaces[k].definition == id
       else ts[x].baseType == Some(id)
  }

  lemma DerivedComesLater(ts: seq<TypeInfo>, x: nat, id: nat)
    requires WellFormed(ts) && DerivesFrom(ts, x, id)
    ensures id < x
  {
    if ts[id].isInterface {
      var k :| 0 <= k < |ts[x].interfaces| && ts[x].interfaces[k].definition == id;
    }
  }

  /** The items, in dictionary order, that derive from `id`. */
  function Derived(ts: seq<TypeInfo>, pool: seq<nat>, id: nat): (r: seq<nat>)
    ensures forall x :: x in r <==> x in pool && DerivesFrom(ts, x, id)
    ensures Distinct(pool) ==> Distinct(r)
  {
    if |pool| == 0 then []
    else
      var rest := Derived(ts, pool[1..], id);
      assert forall x :: x in pool <==> x == pool[0] || x in pool[1..];
      assert Distinct(pool) ==> Distinct(pool[1..]) && pool[0] !in pool[1..];
      if DerivesFrom(ts, pool[0], id) then [pool[0]] + rest else rest
  }

  /** `Dictionary.Remove`. */
  function Without(pool: seq<nat>, id: nat): (r: seq<nat>)
    ensures forall x :: x in r <==> x in pool && x != id
    ensures Distinct(pool) ==> Distinct(r)
  {
    if |pool| == 0 then []
    else
      var rest := Without(pool[1..], id);
      assert forall x :: x in pool <==> x == pool[0] || x in pool[1..];
      assert Distinct(pool) ==> Distinct(pool[1..]) && pool[0] !in pool[1..];
      if pool[0] == id then rest else [pool[0]] + rest
  }

  function Key(ts: seq<TypeInfo>, x: nat): int
  {
    if x < |ts| then ts[x].rank else 0
  }

  predicate IsStatic(ts: seq<TypeInfo>, x: nat)
  {
    x < |ts| && ts[x].isStatic
  }

  /** `Compare`: the comparer negated, so greater types sort first. */
  function ByCompare(ts: seq<TypeInfo>): (le: (nat, nat) -> bool)
    ensures TotalPreorder(le)
    ensures forall x, y :: le(x, y) <==> Key(ts, y) <= Key(ts, x)
  {
    (x: nat, y: nat) => Key(ts, y) <= Key(ts, x)
  }

  /** The order under `object`: static types first, then `Compare`. */
  function StaticFirst(ts: seq<TypeInfo>): (le: (nat, nat) -> bool)
    ensures TotalPreorder(le)
    ensures forall x, y :: IsStatic(ts, x) && !IsStatic(ts, y) ==> le(x, y) && !le(y, x)
    ensures forall x, y :: IsStatic(ts, x) == IsStatic(ts, y) ==> (le(x, y) <==> Key(ts, y) <= Key(ts, x))
  {
    (x: nat, y: nat) =>
      (IsStatic(ts, x) && !IsStatic(ts, y)) || (IsStatic(ts, x) == IsStatic(ts, y) && Key(ts, y) <= Key(ts, x))
  }

  function ChildIds(ns: seq<Node>): (r: seq<nat>)
    ensures |r| == |ns| && forall k :: 0 <= k < |ns| ==> r[k] == ns[k].id
  {
    seq(|ns|, k requires 0 <= k < |ns| => ns[k].id)
  }

  /** The order the children of `id` are sorted in. */
  function ChildOrder(ts: seq<TypeInfo>, id: nat): (nat, nat) -> bool
    requires id < |ts|
  {
    if ts[id].isObject then StaticFirst(ts) else ByCompare(ts)
  }

  lemma ChildOrderIsTotal(ts: seq<TypeInfo>, id: nat)
    requires id < |ts|
    ensures TotalPreorder(ChildOrder(ts, id))
  {
  }

  /** The dictionary once `id` is attached: without it for a class. */
  function AfterAttach(ts: seq<TypeInfo>, id: nat, pool: seq<nat>): (r: seq<nat>)
    requires id < |ts|
    ensures forall x :: x in r <==> x in pool && (ts[id].isInterface || x != id)
    ensures Distinct(pool) ==> Distinct(r)
  {
    if ts[id].isInterface then pool else Without(pool, id)
  }

  /** The derived array of `id`, sorted: the items of the dictionary that
      derive from `id`, in the order they are attached. */
  function SortedChildren(ts: seq<TypeInfo>, id: nat, pool: seq<nat>): (r: seq<nat>)
    requires WellFormed(ts) && id < |ts| && Distinct(pool)
    ensures forall k :: 0 <= k < |r| ==> id < r[k] < |ts|
    ensures forall x :: x in r <==> x in pool && DerivesFrom(ts, x, id)
    ensures Distinct(r)
    ensures SortedBy(r, ChildOrder(ts, id))
  {
    var derived := Derived(ts, pool, id);
    ChildOrderIsTotal(ts, id);
    var sorted := Sort<nat>(derived, ChildOrder(ts, id));
    assert forall x :: x in sorted <==> x in multiset(derived);
    forall k | 0 <= k < |sorted| ensures id < sorted[k] < |ts| {
      assert sorted[k] in multiset(sorted);
      DerivedComesLater(ts, sorted[k], id);
    }
    DistinctPermutation(derived, sorted);
    sorted
  }

  /** `FillHierarchyItem`: the item `id` with its children attached, and the
      dictionary that remains. A class leaves the dictionary when attached;
      an interface stays. */
  function Fill(ts: seq<TypeInfo>, id: nat, pool: seq<nat>, external: set<nat>): (r: (Node, seq<nat>))
    requires WellFormed(ts) && id < |ts| && InArena(ts, pool) && Distinct(pool)
    ensures r.0.id == id && r.0.isExternal == (id in external)
    ensures InArena(ts, r.1) && Distinct(r.1) && forall x :: x in r.1 ==> x in pool
    ensures !ts[id].isInterface ==> id !in r.1
    ensures ChildIds(r.0.children) == SortedChildren(ts, id, AfterAttach(ts, id, pool))
    decreases |ts| - id, 1, 0
  {
    var pool1 := AfterAttach(ts, id, pool);
    var sorted := SortedChildren(ts, id, pool1);
    if |sorted| == 0 then (Node(id, id in external, []), pool1)
    else
      var filled := FillItems(ts, sorted, id, pool1, external);
      assert ChildIds(filled.0) == sorted;
      (Node(id, id in external, filled.0), filled.1)
  }

  /** The children of an item are the items of the dictionary that derive
      from it, each once, in the order of the negated comparer (static types
      first under `object`). */
  lemma FillChildren(ts: seq<TypeInfo>, id: nat, pool: seq<nat>, external: set<nat>)
    requires WellFormed(ts) && id < |ts| && InArena(ts, pool) && Distinct(pool)
    ensures var ids := ChildIds(Fill(ts, id, pool, external).0.children);
      SortedBy(ids, ChildOrder(ts, id))
      && (forall x :: x in ids <==> x in pool && DerivesFrom(ts, x, id))
      && Distinct(ids)
  {
    forall x | DerivesFrom(ts, x, id) ensures x != id {
      DerivedComesLater(ts, x, id);
    }
  }

  /** `FillHierarchyItems`: each item filled in turn, every one seeing the
      dictionary the ones before it left. */
  function FillItems(ts: seq<TypeInfo>, items: seq<nat>, parent: int, pool: seq<nat>, external: set<nat>): (r: (seq<Node>, seq<nat>))
    requires WellFormed(ts) && -1 <= parent < |ts| && InArena(ts, pool) && Distinct(pool)
    requires forall k :: 0 <= k < |items| ==> parent < items[k] < |ts|
    ensures |r.0| == |items| && forall k :: 0 <= k < |items| ==> r.0[k].id == items[k]
    ensures InArena(ts, r.1) && Distinct(r.1) && forall x :: x in r.1 ==> x in pool
    decreases |ts| - parent, 0, |items|
  {
    if |items| == 0 then ([], pool)
    else
      var first := Fill(ts, items[0], pool, external);
      var rest := FillItems(ts, items[1..], parent, first.1, external);
      ([first.0] + rest.0, rest.1)
  }

  /** `IsRootInterface`: none of the type's interfaces is itself a key of
      the dictionary. A constructed generic interface is never a key. */
  predicate IsRootInterface(ts: seq<TypeInfo>, x: nat, pool: seq<nat>)
    requires x < |ts|
  {
    forall k :: 0 <= k < |ts[x].interfaces| ==>
      ts[x].interfaces[k].constructed || ts[x].interfaces[k].definition !in pool
  }

  function RootInterfaces(ts: seq<TypeInfo>, pool: seq<nat>, keys: seq<nat>): (r: seq<nat>)
    requires InArena(ts, keys)
    ensures InArena(ts, r)
    ensures forall x :: x in r <==> x in keys && IsRootInterface(ts, x, pool)
    ensures Distinct(keys) ==> Distinct(r)
  {
    if |keys| == 0 then []
    else
      assert keys[0] in keys && forall x :: x in keys[1..] ==> x in keys;
      var rest := RootInterfaces(ts, pool, keys[1..]);
      assert forall x :: x in keys <==> x == keys[0] || x in keys[1..];
      assert Distinct(keys) ==> Distinct(keys[1..]) && keys[0] !in keys[1..];
      if IsRootInterface(ts, keys[0], pool) then [keys[0]] + rest else rest
  }

  /** The root interfaces, sorted by the negated comparer. */
  function SortedRoots(ts: seq<TypeInfo>, pool: seq<nat>): (r: seq<nat>)
    requires InArena(ts, pool)
    ensures InArena(ts, r) && SortedBy(r, ByCompare(ts))
    ensures forall x :: x in r <==> x in pool && IsRootInterface(ts, x, pool)
  {
    var roots := RootInterfaces(ts, pool, pool);
    var sorted := Sort<nat>(roots, ByCompare(ts));
    forall x ensures x in sorted <==> x in roots {
      assert x in sorted <==> x in multiset(sorted);
      assert x in roots <==> x in multiset(roots);
    }
    sorted
  }

  /** `SymbolHierarchy.Create`. */
  function Create(ts: seq<TypeInfo>, inputs: seq<nat>): (r: Result<Hierarchy>)
    requires WellFormed(ts) && InArena(ts, inputs)
    ensures r.Err? && r.error == InvalidOperationException("Object type not found.") <==> NoObject(ts, inputs)
    ensures r.Err? && r.error == ArgumentException <==> !NoObject(ts, inputs) && !Distinct(inputs)
    ensures r.Ok? ==> r.value.root.id < |ts| && ts[r.value.root.id].isObject && r.value.root.isExternal
    ensures r.Ok? ==> ClassTree(ts, r.value.root)
  {
    var obj := FindObjectType(ts, inputs);
    if obj.None? then Err(InvalidOperationException("Object type not found."))
    else if !Distinct(inputs) then Err(ArgumentException)
    else Ok(Build(ts, inputs, obj.value))
  }

  /** The two trees, filled from the item dictionary once `object` is known. */
  function Build(ts: seq<TypeInfo>, inputs: seq<nat>, obj: nat): (h: Hierarchy)
    requires WellFormed(ts) && InArena(ts, inputs) && Distinct(inputs) && obj < |ts| && ts[obj].isObject
    ensures h.root.id == obj && h.root.isExternal && ClassTree(ts, h.root)
  {
    var initial := InitialItems(ts, inputs, obj);
    var filled := Fill(ts, obj, initial.0, initial.1);
    ClassTreeOfClass(ts, obj, initial.0, initial.1);
    var roots := SortedRoots(ts, filled.1);
    assert forall k :: 0 <= k < |roots| ==> roots[k] in roots;
    var interfaceRoots := FillItems(ts, roots, -1, filled.1, initial.1);
    Hierarchy(filled.0, interfaceRoots.0)
  }

  /* ---------------- the class tree ---------------- */

  function Ids(n: Node): seq<nat>
    decreases n
  {
    [n.id] + IdsOf(n.children)
  }

  function IdsOf(ns: seq<Node>): seq<nat>
    decreases ns
  {
    if |ns| == 0 then [] else Ids(ns[0]) + IdsOf(ns[1..])
  }

  /** Every type occurs once, and every one is a class below the root. */
  ghost predicate ClassTree(ts: seq<TypeInfo>, n: Node)
  {
    var ids := Ids(n);
    Distinct(ids)
    && forall x :: x in ids ==> x < |ts| && !ts[x].isInterface && Descends(ts, x, n.id)
  }

  lemma DistinctAppend<T>(a: seq<T>, b: seq<T>)
    requires Distinct(a) && Distinct(b)
    requires forall x :: x in a ==> x !in b
    ensures Distinct(a + b)
  {
    forall i, j | 0 <= i < j < |a + b| ensures (a + b)[i] != (a + b)[j] {
      if j >= |a| && i < |a| {
        assert (a + b)[i] in a && (a + b)[j] in b;
      } else if i >= |a| {
        assert (a + b)[i] == b[i - |a|] && (a + b)[j] == b[j - |a|];
      }
    }
  }

  /** Filling a class attaches each type of its subtree exactly once: the
      tree under a class is a class tree. */
  lemma {:induction false} ClassTreeOfClass(ts: seq<TypeInfo>, id: nat, pool: seq<nat>, external: set<nat>)
    requires WellFormed(ts) && id < |ts| && !ts[id].isInterface && InArena(ts, pool) && Distinct(pool)
    ensures ClassTree(ts, Fill(ts, id, pool, external).0)
    decreases |ts| - id, 1
  {
    var pool1 := AfterAttach(ts, id, pool);
    var sorted := SortedChildren(ts, id, pool1);
    var n := Fill(ts, id, pool, external).0;
    if |sorted| == 0 {
      assert n.children == [];
      assert Ids(n) == [id];
    } else {
      forall k | 0 <= k < |sorted| ensures ts[sorted[k]].baseType == Some(id) {
        assert sorted[k] in sorted;
      }
      var filled := FillItems(ts, sorted, id, pool1, external);
      assert n.children == filled.0;
      ClassItems(ts, sorted, id, pool1, external);
      var rest := IdsOf(filled.0);
      assert Ids(n) == [id] + rest;
      assert id !in rest;
      DistinctAppend([id], rest);
      forall x | x in Ids(n) ensures x < |ts| && !ts[x].isInterface && Descends(ts, x, id) {
        if x != id {
          assert x in rest;
        }
      }
    }
  }

  /** The children of a class, filled in turn: their subtrees are disjoint
      since every type reaches the parent through exactly one child. */
  lemma {:induction false} ClassItems(ts: seq<TypeInfo>, items: seq<nat>, parent: nat, pool: seq<nat>, external: set<nat>)
    requires WellFormed(ts) && parent < |ts| && InArena(ts, pool) && Distinct(pool) && Distinct(items)
    requires forall k :: 0 <= k < |items| ==> parent < items[k] < |ts| && ts[items[k]].baseType == Some(parent)
    ensures var ids := IdsOf(FillItems(ts, items, parent, pool, external).0);
      Distinct(ids)
      && forall x :: x in ids ==>
           x < |ts| && !ts[x].isInterface && Descends(ts, x, parent) && x != parent && Below(ts, x, parent) in items
    decreases |ts| - parent, 0, |items|
  {
    var filled := FillItems(ts, items, parent, pool, external);
    var ids := IdsOf(filled.0);
    if |items| == 0 {
      assert ids == [];
    } else {
      var first := Fill(ts, items[0], pool, external);
      var restItems := FillItems(ts, items[1..], parent, first.1, external);
      FillItemsIds(ts, items, parent, pool, external);
      assert ts[items[0]].baseType == Some(parent) && !ts[items[0]].isInterface;
      ClassTreeOfClass(ts, items[0], pool, external);
      ChildrenTail(ts, items, parent);
      ClassItems(ts, items[1..], parent, first.1, external);
      ClassItemsCons(ts, items, parent, Ids(first.0), IdsOf(restItems.0));
    }
  }

  /** The children after the first are distinct children without it. */
  lemma ChildrenTail(ts: seq<TypeInfo>, items: seq<nat>, parent: nat)
    requires Distinct(items) && |items| > 0
    requires forall k :: 0 <= k < |items| ==> parent < items[k] < |ts| && ts[items[k]].baseType == Some(parent)
    ensures Distinct(items[1..]) && items[0] !in items[1..]
    ensures forall k :: 0 <= k < |items[1..]| ==> parent < items[1..][k] < |ts| && ts[items[1..][k]].baseType == Some(parent)
  {
  }

  /** The ids under the first child and those under the later children
      together: the first child's subtree reaches the parent through it, the
      others through later children, so no id occurs twice. */
  lemma {:induction false} ClassItemsCons(ts: seq<TypeInfo>, items: seq<nat>, parent: nat, a: seq<nat>, b: seq<nat>)
    requires WellFormed(ts) && parent < |ts| && |items| > 0 && Distinct(items)
    requires forall k :: 0 <= k < |items| ==> parent < items[k] < |ts| && ts[items[k]].baseType == Some(parent)
    requires Distinct(a) && forall x :: x in a ==> x < |ts| && !ts[x].isInterface && Descends(ts, x, items[0])
    requires Distinct(b) && forall x :: x in b ==>
      x < |ts| && !ts[x].isInterface && Descends(ts, x, parent) && x != parent && Below(ts, x, parent) in items[1..]
    ensures Distinct(a + b)
    ensures forall x :: x in a + b ==>
      x < |ts| && !ts[x].isInterface && Descends(ts, x, parent) && x != parent && Below(ts, x, parent) in items
  {
    forall x | x in a ensures Descends(ts, x, parent) && x != parent && Below(ts, x, parent) == items[0] {
      BelowThrough(ts, x, items[0], parent);
    }
    assert items[0] !in items[1..];
    assert forall x :: x in a ==> x !in b;
    DistinctAppend(a, b);
  }

  /* ---------------- every class is attached ---------------- */

  /** Two types on the base chain of `z` are on each other's chain. */
  lemma {:induction false} ChainIsLinear(ts: seq<TypeInfo>, z: nat, a: nat, b: nat)
    requires Descends(ts, z, a) && Descends(ts, z, b)
    ensures Descends(ts, a, b) || Descends(ts, b, a)
    decreases z
  {
    if z != a && z != b {
      ChainIsLinear(ts, ts[z].baseType.value, a, b);
    }
  }

  /** The types strictly between `x` and `id` on the base chain, and `x`
      itself, are all in the dictionary. */
  ghost predicate ChainIn(ts: seq<TypeInfo>, x: nat, id: nat, pool: seq<nat>)
  {
    forall a :: Descends(ts, x, a) && Descends(ts, a, id) && a != id ==> a in pool
  }

  /** Filling a class takes out of the dictionary exactly the types it
      attaches. */
  lemma {:induction false} FillLeaves(ts: seq<TypeInfo>, id: nat, pool: seq<nat>, external: set<nat>)
    requires WellFormed(ts) && id < |ts| && !ts[id].isInterface && InArena(ts, pool) && Distinct(pool)
    ensures var r := Fill(ts, id, pool, external);
      forall x :: x in r.1 <==> x in pool && x !in Ids(r.0)
    decreases |ts| - id, 1
  {
    var pool1 := AfterAttach(ts, id, pool);
    var sorted := SortedChildren(ts, id, pool1);
    var n := Fill(ts, id, pool, external).0;
    if |sorted| == 0 {
      assert Ids(n) == [id] + IdsOf([]);
    } else {
      forall k | 0 <= k < |sorted| ensures ts[sorted[k]].baseType == Some(id) && !ts[sorted[k]].isInterface {
        assert sorted[k] in sorted;
      }
      var filled := FillItems(ts, sorted, id, pool1, external);
      assert n.children == filled.0;
      ItemsLeave(ts, sorted, id, pool1, external);
      assert Ids(n) == [id] + IdsOf(filled.0);
    }
  }

  /** Filling the children of a class in turn takes out of the dictionary
      exactly the types attached under them. */
  lemma {:induction false} ItemsLeave(ts: seq<TypeInfo>, items: seq<nat>, parent: nat, pool: seq<nat>, external: set<nat>)
    requires WellFormed(ts) && parent < |ts| && InArena(ts, pool) && Distinct(pool)
    requires forall k :: 0 <= k < |items| ==> parent < items[k] < |ts| && !ts[items[k]].isInterface
    ensures var r := FillItems(ts, items, parent, pool, external);
      forall x :: x in r.1 <==> x in pool && x !in IdsOf(r.0)
    decreases |ts| - parent, 0, |items|
  {
    var filled := FillItems(ts, items, parent, pool, external);
    if |items| == 0 {
      assert IdsOf(filled.0) == [];
    } else {
      var first := Fill(ts, items[0], pool, external);
      FillItemsIds(ts, items, parent, pool, external);
      FillLeaves(ts, items[0], pool, external);
      ItemsLeave(ts, items[1..], parent, first.1, external);
    }
  }

  /** The ids of filled items: those under the first, then those under the
      rest, filled from what the first leaves. */
  lemma {:induction false} FillItemsIds(ts: seq<TypeInfo>, items: seq<nat>, parent: int, pool: seq<nat>, external: set<nat>)
    requires WellFormed(ts) && -1 <= parent < |ts| && InArena(ts, pool) && Distinct(pool) && |items| > 0
    requires forall k :: 0 <= k < |items| ==> parent < items[k] < |ts|
    ensures var first := Fill(ts, items[0], pool, external);
      FillItems(ts, items, parent, pool, external).1 == FillItems(ts, items[1..], parent, first.1, external).1
      && IdsOf(FillItems(ts, items, parent, pool, external).0)
         == Ids(first.0) + IdsOf(FillItems(ts, items[1..], parent, first.1, external).0)
  {
    var filled := FillItems(ts, items, parent, pool, external);
    var first := Fill(ts, items[0], pool, external);
    var rest := FillItems(ts, items[1..], parent, first.1, external);
    assert filled.0 == [first.0] + rest.0;
    assert filled.0[1..] == rest.0;
  }

  /** Filling a class attaches every type below it whose chain up to it is
      in the dictionary. */
  lemma {:induction false} FillAttaches(ts: seq<TypeInfo>, id: nat, pool: seq<nat>, external: set<nat>, x: nat)
    requires WellFormed(ts) && id < |ts| && !ts[id].isInterface && InArena(ts, pool) && Distinct(pool)
    requires Descends(ts, x, id) && ChainIn(ts, x, id, pool)
    ensures x in Ids(Fill(ts, id, pool, external).0)
    decreases |ts| - id, 1
  {
    var n := Fill(ts, id, pool, external).0;
    assert Ids(n) == [n.id] + IdsOf(n.children);
    if x != id {
      var pool1 := AfterAttach(ts, id, pool);
      var sorted := SortedChildren(ts, id, pool1);
      var c := Below(ts, x, id);
      assert Descends(ts, c, id) by { assert ts[c].baseType == Some(id); }
      assert c in pool1;
      assert c in sorted;
      forall k | 0 <= k < |sorted| ensures ts[sorted[k]].baseType == Some(id) && !ts[sorted[k]].isInterface {
        assert sorted[k] in sorted;
      }
      var filled := FillItems(ts, sorted, id, pool1, external);
      assert n.children == filled.0;
      ItemsAttach(ts, sorted, id, pool1, external, x);
    }
  }

  /** Filling the children of a class attaches every type that reaches the
      class through one of them, when its chain is in the dictionary. */
  lemma {:induction false} ItemsAttach(ts: seq<TypeInfo>, items: seq<nat>, parent: nat, pool: seq<nat>, external: set<nat>, x: nat)
    requires WellFormed(ts) && parent < |ts| && InArena(ts, pool) && Distinct(pool) && Distinct(items)
    requires forall k :: 0 <= k < |items| ==> parent < items[k] < |ts| && ts[items[k]].baseType == Some(parent)
                                              && !ts[items[k]].isInterface
    requires Descends(ts, x, parent) && x != parent && Below(ts, x, parent) in items && ChainIn(ts, x, parent, pool)
    ensures x in IdsOf(FillItems(ts, items, parent, pool, external).0)
    decreases |ts| - parent, 0, |items|
  {
    var first := Fill(ts, items[0], pool, external);
    FillItemsIds(ts, items, parent, pool, external);
    var c := Below(ts, x, parent);
    if c == items[0] {
      ChainThroughChild(ts, x, c, parent, pool);
      FillAttaches(ts, items[0], pool, external, x);
    } else {
      LaterSiblings(ts, items, parent, c);
      SiblingKeepsChain(ts, items[0], parent, pool, external, x);
      ItemsAttach(ts, items[1..], parent, first.1, external, x);
    }
  }

  /** The children after the first are children too, and hold every child
      but the first. */
  lemma LaterSiblings(ts: seq<TypeInfo>, items: seq<nat>, parent: nat, c: nat)
    requires Distinct(items) && c in items && |items| > 0 && c != items[0]
    requires forall k :: 0 <= k < |items| ==> parent < items[k] < |ts| && ts[items[k]].baseType == Some(parent)
                                              && !ts[items[k]].isInterface
    ensures Distinct(items[1..]) && c in items[1..]
    ensures forall k :: 0 <= k < |items[1..]| ==> parent < items[1..][k] < |ts| && ts[items[1..][k]].baseType == Some(parent)
                                                  && !ts[items[1..][k]].isInterface
  {
  }

  /** Filling a sibling `s` of the child `x` goes through leaves the chain
      of `x` in the dictionary. */
  lemma {:induction false} SiblingKeepsChain(ts: seq<TypeInfo>, s: nat, parent: nat, pool: seq<nat>, external: set<nat>, x: nat)
    requires WellFormed(ts) && parent < s < |ts| && ts[s].baseType == Some(parent) && !ts[s].isInterface
    requires InArena(ts, pool) && Distinct(pool)
    requires Descends(ts, x, parent) && x != parent && Below(ts, x, parent) != s && ChainIn(ts, x, parent, pool)
    ensures ChainIn(ts, x, parent, Fill(ts, s, pool, external).1)
  {
    var first := Fill(ts, s, pool, external);
    FillLeaves(ts, s, pool, external);
    ClassTreeOfClass(ts, s, pool, external);
    forall a | Descends(ts, x, a) && Descends(ts, a, parent) && a != parent ensures a in first.1 {
      ChainAvoidsSibling(ts, x, a, parent);
      if a in Ids(first.0) {
        BelowThrough(ts, a, s, parent);
      }
    }
  }

  /** The part of a chain below the child `c` it goes through. */
  lemma {:induction false} ChainThroughChild(ts: seq<TypeInfo>, x: nat, c: nat, parent: nat, pool: seq<nat>)
    requires Descends(ts, x, c) && c < |ts| && ts[c].baseType == Some(parent) && parent < c
    requires ChainIn(ts, x, parent, pool)
    ensures ChainIn(ts, x, c, pool)
  {
    forall a | Descends(ts, x, a) && Descends(ts, a, c) && a != c ensures a in pool {
      assert Descends(ts, c, parent);
      DescendsTransitive(ts, a, c, parent);
      DescendsBelow(ts, a, c);
    }
  }

  /** A type on the chain from `x` to `parent` reaches `parent` through the
      same child as `x`. */
  lemma {:induction false} ChainAvoidsSibling(ts: seq<TypeInfo>, x: nat, a: nat, parent: nat)
    requires WellFormed(ts) && Descends(ts, x, parent) && x != parent
    requires Descends(ts, x, a) && Descends(ts, a, parent) && a != parent
    ensures Below(ts, a, parent) == Below(ts, x, parent)
  {
    var c := Below(ts, x, parent);
    assert Descends(ts, c, parent) by { assert ts[c].baseType == Some(parent); }
    ChainIsLinear(ts, x, a, c);
    if !Descends(ts, a, c) {
      DescendsTransitive(ts, c, a, parent);
      if a != c {
        assert Descends(ts, parent, a) by { assert ts[c].baseType.value == parent; }
        DescendsBelow(ts, parent, a);
        DescendsBelow(ts, a, parent);
      }
    }
    DescendsBelow(ts, c, parent);
    BelowThrough(ts, a, c, parent);
  }

  /** `Create` attaches under `object` every type it collects whose base
      chain reaches that `object`: the inputs and their ancestors. With the
      ids of the tree distinct, each such class is attached exactly once. */
  lemma {:induction false} CreateIsComplete(ts: seq<TypeInfo>, inputs: seq<nat>, x: nat)
    requires WellFormed(ts) && InArena(ts, inputs) && Create(ts, inputs).Ok?
    requires exists i :: 0 <= i < |inputs| && Descends(ts, inputs[i], x)
    requires Descends(ts, x, Create(ts, inputs).value.root.id)
    ensures x in Ids(Create(ts, inputs).value.root)
  {
    var obj := FindObjectType(ts, inputs).value;
    var initial := InitialItems(ts, inputs, obj);
    ItemsAndExternals(ts, inputs, obj);
    var i :| 0 <= i < |inputs| && Descends(ts, inputs[i], x);
    forall a | Descends(ts, x, a) && Descends(ts, a, obj) && a != obj ensures a in initial.0 {
      DescendsTransitive(ts, inputs[i], x, a);
    }
    FillAttaches(ts, obj, initial.0, initial.1, x);
  }

  /* ---------------- the sibling ring ---------------- */

  /** `FillHierarchyItems` links `n` children into a ring: the first is the
      parent's `lastChild`, each later child's `next` is the one before it,
      and the first one's `next` is the last. */
  function RingNext(k: nat, n: nat): (r: nat)
    requires k < n
    ensures r < n
  {
    if k == 0 then n - 1 else k - 1
  }

  /** The walk round the ring from `k` until `lastChild`, which is the first
      child. */
  function WalkFrom(k: nat, n: nat): (r: seq<nat>)
    requires k < n
    ensures |r| == k + 1 && r[k] == 0 && forall i :: 0 <= i < |r| ==> r[i] < n
    decreases k
  {
    if k == 0 then [0] else [k] + WalkFrom(RingNext(k, n), n)
  }

  /** Enumerating the children from `lastChild.next` visits every child once,
      last to first, and stops at `lastChild`. */
  lemma {:induction false} RingVisitsAllReversed(n: nat)
    requires n > 0
    ensures var walk := WalkFrom(RingNext(0, n), n);
      |walk| == n && walk[n - 1] == 0 && forall i :: 0 <= i < n ==> walk[i] == n - 1 - i
  {
    WalkDown(n - 1, n);
  }

  lemma {:induction false} WalkDown(k: nat, n: nat)
    requires k < n
    ensures var walk := WalkFrom(k, n); |walk| == k + 1 && forall i :: 0 <= i <= k ==> walk[i] == k - i
    decreases k
  {
    if k > 0 {
      WalkDown(k - 1, n);
    }
  }

  /** The children in enumeration order: the order of the walk round the
      ring that starts after `lastChild`. */
  function Enumerated(n: Node): (r: seq<Node>)
    ensures |r| == |n.children| && forall i :: 0 <= i < |r| ==> r[i] == n.children[|n.children| - 1 - i]
  {
    var m := |n.children|;
    seq(m, i requires 0 <= i < m => n.children[m - 1 - i])
  }

  /** The enumeration is the walk round the sibling ring. */
  lemma EnumeratedFollowsRing(n: Node)
    requires |n.children| > 0
    ensures forall i :: 0 <= i < |Enumerated(n)| ==>
      Enumerated(n)[i] == n.children[WalkFrom(RingNext(0, |n.children|), |n.children|)[i]]
  {
    RingVisitsAllReversed(|n.children|);
  }

  /** Since the children are sorted by the negated comparer and enumerated
      last to first, below any type but `object` they come out in comparer
      order; below `object` the non-static types come first. */
  lemma EnumeratedInComparerOrder(ts: seq<TypeInfo>, id: nat, pool: seq<nat>, external: set<nat>)
    requires WellFormed(ts) && id < |ts| && InArena(ts, pool) && Distinct(pool)
    ensures var e := Enumerated(Fill(ts, id, pool, external).0);
      (!ts[id].isObject ==> forall i, j :: 0 <= i < j < |e| ==> Key(ts, e[i].id) <= Key(ts, e[j].id))
      && (ts[id].isObject ==> forall i, j :: 0 <= i < j < |e| && IsStatic(ts, e[i].id) ==> IsStatic(ts, e[j].id))
  {
    var n := Fill(ts, id, pool, external).0;
    assert SortedBy(ChildIds(n.children), ChildOrder(ts, id));
    EnumeratedOrder(ts, id, n);
  }

  lemma EnumeratedOrder(ts: seq<TypeInfo>, id: nat, n: Node)
    requires id < |ts| && SortedBy(ChildIds(n.children), ChildOrder(ts, id))
    ensures var e := Enumerated(n);
      (!ts[id].isObject ==> forall i, j :: 0 <= i < j < |e| ==> Key(ts, e[i].id) <= Key(ts, e[j].id))
      && (ts[id].isObject ==> forall i, j :: 0 <= i < j < |e| && IsStatic(ts, e[i].id) ==> IsStatic(ts, e[j].id))
  {
    var ids := ChildIds(n.children);
    var e := Enumerated(n);
    var m := |n.children|;
    var le := ChildOrder(ts, id);
    forall i, j | 0 <= i < j < m ensures le(e[j].id, e[i].id) {
      assert e[i].id == ids[m - 1 - i] && e[j].id == ids[m - 1 - j];
    }
    if ts[id].isObject {
      assert le == StaticFirst(ts);
      forall i, j | 0 <= i < j < m && IsStatic(ts, e[i].id) ensures IsStatic(ts, e[j].id) {
        assert le(e[j].id, e[i].id);
      }
    } else {
      assert le == ByCompare(ts);
      forall i, j | 0 <= i < j < m ensures Key(ts, e[i].id) <= Key(ts, e[j].id) {
        assert le(e[j].id, e[i].id);
      }
    }
  }
}

=== FILE: symbols.dfy ===
/**
 The compiler-provided data the listing engine consumes: symbol kinds,
 metadata names, attributes and their constant arguments, and the
 precomputed display parts of a symbol. Everything the compiler computes
 (display parts, visibility, constituent enum fields, comparer ranks) is a
 field here rather than a computation.
 */
module Symbols {
  import opened Wrappers
  import opened Parts

  datatype SymbolKind =
    | Namespace
    | NamedType
    | Event
    | Field
    | Method
    | Property
    | Assembly
    | Parameter
    | TypeParameter
    | Local

  datatype TypeKind =
    | Class
    | Struct
    | Interface
    | Enum
    | Delegate
    | ArrayType
    | DynamicType
    | ErrorType
    | PointerType
    | TypeParameterType

  datatype MethodKind =
    | Constructor
    | Conversion
    | UserDefinedOperator
    | Ordinary
    | StaticConstructor
    | Destructor
    | ExplicitInterfaceImplementation
    | EventAdd
    | EventRaise
    | EventRemove
    | PropertyGet
    | PropertySet
    | AnonymousFunction
    | DelegateInvoke
    | ReducedExtension
    | BuiltinOperator
    | LocalFunction

  /** The visibility of a symbol as seen from outside its assembly, from
      most to least visible. */
  datatype Visibility = Public | Internal | Private {
    function Rank(): nat {
      match this
      case Public => 2
      case Internal => 1
      case Private => 0
    }
  }

  /** One bit of the symbol-group flag set. Composite values such as
      "Type" or "Member" are sets of these. */
  datatype SymbolGroup =
    | Namespace
    | Class
    | Struct
    | Interface
    | Enum
    | Delegate
    | Event
    | Field
    | EnumField
    | Const
    | Method
    | Property
    | Indexer

  /** The composite group of all type groups. */
  const TypeGroups: set<SymbolGroup> :=
    {SymbolGroup.Class, SymbolGroup.Struct, SymbolGroup.Interface, SymbolGroup.Enum, SymbolGroup.Delegate}

  /** The composite group of all member groups. */
  const MemberGroups: set<SymbolGroup> :=
    {SymbolGroup.Event, SymbolGroup.Field, SymbolGroup.EnumField, SymbolGroup.Const,
     SymbolGroup.Method, SymbolGroup.Property, SymbolGroup.Indexer}

  /** A metadata name: containing namespaces, containing types, own name. */
  datatype MetadataName = MetadataName(
    containingNamespaces: seq<string>,
    containingTypes: seq<string>,
    name: string)

  /** `MetadataNameSet.Contains` for a symbol reference that may be null. */
  predicate ContainsName(names: set<MetadataName>, n: Option<MetadataName>)
  {
    n.Some? && n.value in names
  }

  /** The compiler's display of a symbol, under the format that shows the
      containing namespace and under the one that omits it. A named type
      also lists its type arguments; any other symbol used as a type
      argument is shown by its name. */
  datatype SymbolDisplay =
    | NamedTypeDisplay(withNamespace: seq<Part>, withoutNamespace: seq<Part>, typeArguments: seq<SymbolDisplay>)
    | OtherSymbolDisplay(withNamespace: seq<Part>, withoutNamespace: seq<Part>, name: string)
  {
    function PartsFor(omitContainingNamespace: bool): seq<Part>
    {
      if omitContainingNamespace then withoutNamespace else withNamespace
    }
  }

  datatype SpecialType =
    | Boolean
    | SByte
    | Byte
    | Int16
    | UInt16
    | Int32
    | UInt32
    | Int64
    | UInt64
    | Single
    | Double
    | Char
    | String
    | Decimal
    | Object
    | NoSpecialType

  /** An attribute argument. A primitive carries its formatted text; an enum
      value carries the constituent fields the compiler found for it. */
  datatype TypedConstant =
    | PrimitiveValue(specialType: SpecialType, formatted: string)
    | EnumValue(enumType: SymbolDisplay, rawValue: string, constituents: seq<SymbolDisplay>)
    | TypeValue(value: SymbolDisplay)
    | ArrayValue(elementType: SymbolDisplay, values: seq<TypedConstant>)
    | ErrorValue

  datatype NamedArgument = NamedArgument(name: string, value: TypedConstant)

  /** An applied attribute. The two ranks are the attribute class's
      positions under the two comparers the display code chooses between. */
  datatype AttributeData = AttributeData(
    attributeClass: MetadataName,
    classDisplay: SymbolDisplay,
    constructorArguments: seq<TypedConstant>,
    namedArguments: seq<NamedArgument>,
    rankWithNamespace: int,
    rankWithoutNamespace: int)

  /** A symbol as the filters see it. */
  datatype Symbol = Symbol(
    kind: SymbolKind,
    name: MetadataName,
    typeKind: TypeKind,
    methodKind: MethodKind,
    isImplicitlyDeclared: bool,
    isConst: bool,
    isIndexer: bool,
    isStatic: bool,
    parameterCount: nat,
    containingTypeKind: Option<TypeKind>,
    containingNamespace: Option<MetadataName>,
    containingSymbol: Option<MetadataName>,
    visibility: Visibility,
    attributes: seq<AttributeData>)

  /** The visibility oracle under a visibility-filter flag set. */
  predicate VisibleUnder(s: Symbol, filter: set<Visibility>)
  {
    s.visibility in filter
  }

  /** The visibility oracle under a minimum visibility. */
  predicate VisibleAtLeast(s: Symbol, v: Visibility)
  {
    s.visibility.Rank() >= v.Rank()
  }

  /** The classes of a sequence of attributes, as a set. */
  function AttributeClasses(attrs: seq<AttributeData>): (r: set<MetadataName>)
    ensures forall i :: 0 <= i < |attrs| ==> attrs[i].attributeClass in r
    ensures forall n :: n in r ==> exists i :: 0 <= i < |attrs| && attrs[i].attributeClass == n
  {
    set i | 0 <= i < |attrs| :: attrs[i].attributeClass
  }
}

=== FILE: text_writer.dfy ===
/**
 The text writer every plain-text definition listing builds on: the depth it
 keeps while the traversal calls it, and the text it writes itself around
 attributes and between assemblies. How a depth becomes indentation and
 what a symbol's definition reads like belong to the concrete writer.
 */
module TextWriter {
  import opened Wrappers
  import opened Sequences
  import opened WriterEvents
  import opened WriterTypes
  import ListFormat

  const NewLine: string := "\n"

  /** `SupportsMultilineDefinitions` of the base writer: every layout but
      the type hierarchy. A writer may override it. */
  predicate DefaultMultiline(layout: ListFormat.Layout)
  {
    layout != ListFormat.TypeHierarchy
  }

  /** What the text writer reads: the list format, and whether the writer
      supports multi-line definitions. */
  datatype TextFormat = TextFormat(format: ListFormat.DefinitionListFormat, multiline: bool)
  {
    predicate IncludeAssemblyAttributes()
    {
      ListFormat.AssemblyAttributes in format.parts
    }

    predicate IncludeAttributes()
    {
      ListFormat.Attributes in format.parts
    }

    predicate FormatAttributes()
    {
      ListFormat.FormatAttributes in format.formatOptions
    }
  }

  /* ---------------- depth ---------------- */

  function IncreaseDepth(depth: nat): (r: nat)
    ensures r > 0 && DecreaseDepth(r) == Ok(depth)
  {
    depth + 1
  }

  /** `DecreaseDepth`: throws at depth zero. */
  function DecreaseDepth(depth: nat): (r: Result<nat>)
    ensures r.Err? <==> depth == 0
    ensures r.Err? ==> r.error == InvalidOperationException("Cannot decrease depth.")
    ensures r.Ok? ==> r.value + 1 == depth
  {
    if depth == 0 then Err(InvalidOperationException("Cannot decrease depth.")) else Ok(depth - 1)
  }

  /** The calls after which the writer is one level deeper: the definition
      of an assembly, a namespace other than the global one, a type, a
      member or an enum member. */
  predicate Raises(e: Event)
  {
    e.AssemblyDefinition? || (e.NamespaceDefinition? && e.ns != []) || e.TypeDefinition?
    || e.MemberDefinition? || e.EnumMemberDefinition?
  }

  /** The calls that end what a raising call began. */
  predicate Lowers(e: Event)
  {
    e.EndAssembly? || (e.EndNamespace? && e.ns != []) || e.EndType? || e.EndMember? || e.EndEnumMember?
  }

  /** The depth after the writer handles `e`; `None` where the call throws. */
  function DepthStep(depth: nat, e: Event): (r: Option<nat>)
    ensures Raises(e) ==> r == Some(depth + 1)
    ensures Lowers(e) ==> (r.None? <==> depth == 0) && (r.Some? ==> r.value + 1 == depth)
    ensures !Raises(e) && !Lowers(e) ==> r == Some(depth)
  {
    if Raises(e) then Some(IncreaseDepth(depth))
    else if Lowers(e) then
      match DecreaseDepth(depth)
      case Ok(d) => Some(d)
      case Err(_) => None
    else Some(depth)
  }

  /** A call that neither raises nor lowers leaves the depth alone. */
  lemma DepthNeutral(e: Event)
    requires !Raises(e) && !Lowers(e)
    ensures Balanced(DepthStep, [e])
  {
    forall s: nat ensures Run(DepthStep, [e], s) == Some(s) {
      assert [e][1..] == [];
    }
  }

  lemma DepthNeutralWraps(open: Event, close: Event)
    requires !Raises(open) && !Lowers(open) && !Raises(close) && !Lowers(close)
    ensures Wraps(DepthStep, [open], [close])
  {
    DepthNeutral(open);
    DepthNeutral(close);
    forall s: nat ensures Run(DepthStep, [open], s).Some? && Run(DepthStep, [close], Run(DepthStep, [open], s).value) == Some(s) {
      assert From(s);
    }
  }

  /** A raising call, possibly after a neutral one, is undone by a lowering
      call. */
  lemma DepthWraps(open: seq<Event>, close: Event)
    requires (|open| == 1 && Raises(open[0])) || (|open| == 2 && !Raises(open[0]) && !Lowers(open[0]) && Raises(open[1]))
    requires Lowers(close)
    ensures Wraps(DepthStep, open, [close])
  {
    forall s: nat ensures Run(DepthStep, open, s).Some? && Run(DepthStep, [close], Run(DepthStep, open, s).value) == Some(s) {
      assert Run(DepthStep, open, s) == Some(s + 1) by {
        if |open| == 2 {
          assert open[1..][1..] == [];
          assert Run(DepthStep, open[1..], s) == Some(s + 1);
        } else {
          assert open[1..] == [];
        }
      }
      assert [close][1..] == [];
    }
  }

  lemma DepthBlocksAreSound()
    ensures Wraps(DepthStep, [StartDocument], [EndDocument])
    ensures Wraps(DepthStep, [StartAssemblies], [EndAssemblies])
    ensures Wraps(DepthStep, [StartNamespaces], [EndNamespaces])
    ensures Wraps(DepthStep, [StartTypes], [EndTypes])
    ensures Wraps(DepthStep, [StartMembers], [EndMembers])
    ensures Wraps(DepthStep, [StartEnumMembers], [EndEnumMembers])
  {
    DepthNeutralWraps(StartDocument, EndDocument);
    DepthNeutralWraps(StartAssemblies, EndAssemblies);
    DepthNeutralWraps(StartNamespaces, EndNamespaces);
    DepthNeutralWraps(StartTypes, EndTypes);
    DepthNeutralWraps(StartMembers, EndMembers);
    DepthNeutralWraps(StartEnumMembers, EndEnumMembers);
  }

  lemma DepthSeparatorsAreSound()
    ensures Balanced(DepthStep, [AssemblySeparator])
    ensures Balanced(DepthStep, [NamespaceSeparator])
    ensures Balanced(DepthStep, [TypeSeparator])
    ensures Balanced(DepthStep, [MemberSeparator])
    ensures Balanced(DepthStep, [EnumMemberSeparator])
  {
    DepthNeutral(AssemblySeparator);
    DepthNeutral(NamespaceSeparator);
    DepthNeutral(TypeSeparator);
    DepthNeutral(MemberSeparator);
    DepthNeutral(EnumMemberSeparator);
  }

  /** The global namespace is written without a level of its own. */
  lemma DepthWrapsNamespace(ns: Namespace)
    ensures WrapsNamespace(DepthStep, ns)
  {
    DepthNeutral(StartNamespace(ns));
    if ns == [] {
      DepthNeutralWraps(NamespaceDefinition(ns), EndNamespace(ns));
    } else {
      DepthWraps([NamespaceDefinition(ns)], EndNamespace(ns));
    }
  }

  lemma DepthWrapsAttribute(a: nat, ofAssembly: bool)
    ensures WrapsAttribute(DepthStep, a, ofAssembly)
  {
    DepthNeutral(StartAttribute(a, ofAssembly));
    DepthNeutral(AttributeDefinition(a));
    DepthNeutralWraps(StartAttributes(ofAssembly), EndAttributes(ofAssembly));
    DepthNeutral(AttributeSeparator(ofAssembly));
    forall s: nat ensures Run(DepthStep, [StartAttribute(a, ofAssembly), AttributeDefinition(a)], s) == Some(s) {
      assert From(s);
      RunAppend(DepthStep, [StartAttribute(a, ofAssembly)], [AttributeDefinition(a)], s);
      assert [StartAttribute(a, ofAssembly)] + [AttributeDefinition(a)] == [StartAttribute(a, ofAssembly), AttributeDefinition(a)];
    }
    DepthNeutralWraps(StartAttribute(a, ofAssembly), EndAttribute(a, ofAssembly));
    forall s: nat ensures Run(DepthStep, [EndAttribute(a, ofAssembly)], s) == Some(s) {
      assert From(s);
    }
  }

  lemma DepthSymbolsAreSound()
    ensures forall a :: WrapsAssembly(DepthStep, a)
    ensures forall ns :: WrapsNamespace(DepthStep, ns)
    ensures forall t :: WrapsType(DepthStep, t)
    ensures forall m :: WrapsMember(DepthStep, m)
    ensures forall a, b :: WrapsAttribute(DepthStep, a, b)
  {
    forall a ensures WrapsAssembly(DepthStep, a) {
      DepthWraps([StartAssembly(a), AssemblyDefinition(a)], EndAssembly(a));
    }
    forall ns ensures WrapsNamespace(DepthStep, ns) {
      DepthWrapsNamespace(ns);
    }
    forall t ensures WrapsType(DepthStep, t) {
      DepthWraps([StartType(t), TypeDefinition(t)], EndType(t));
    }
    forall m ensures WrapsMember(DepthStep, m) {
      DepthWraps([StartMember(m), MemberDefinition(m)], EndMember(m));
      DepthWraps([StartEnumMember(m), EnumMemberDefinition(m)], EndEnumMember(m));
    }
    forall a, b ensures WrapsAttribute(DepthStep, a, b) {
      DepthWrapsAttribute(a, b);
    }
  }

  /** Every level the writer enters it leaves again, in every pairing the
      traversal relies on. */
  lemma DepthIsSound()
    ensures Sound(DepthStep)
  {
    DepthBlocksAreSound();
    DepthSeparatorsAreSound();
    DepthSymbolsAreSound();
  }

  /* ---------------- the text around attributes ---------------- */

  /** `WriteEndAttributes`: the closing bracket, then a line break for
      assembly attributes or a multi-line writer, a space otherwise. */
  function EndAttributesText(f: TextFormat, ofAssembly: bool): string
  {
    "]" + (if ofAssembly || f.multiline then NewLine else " ")
  }

  /** `WriteAttributeSeparator`: each attribute in brackets of its own for
      assembly attributes or formatted attributes of a multi-line writer,
      one bracket with a comma-separated list otherwise. */
  function AttributeSeparatorText(f: TextFormat, ofAssembly: bool): string
  {
    if ofAssembly || (f.FormatAttributes() && f.multiline) then "]" + NewLine + "[" else ", "
  }

  /** `WriteAssemblySeparator`: a line break only when assembly attributes
      are listed. */
  function AssemblySeparatorText(f: TextFormat): string
  {
    if f.IncludeAssemblyAttributes() then NewLine else ""
  }

  /** The text the abstract text writer writes itself for one call; `name`
      is the text of an attribute. Every other call's text is the concrete
      writer's. */
  function CallText(f: TextFormat, name: nat -> string, e: Event): string
  {
    match e
    case StartAttributes(_) => "["
    case EndAttributes(ofAssembly) => EndAttributesText(f, ofAssembly)
    case AttributeSeparator(ofAssembly) => AttributeSeparatorText(f, ofAssembly)
    case AttributeDefinition(a) => name(a)
    case AssemblySeparator => AssemblySeparatorText(f)
    case _ => ""
  }

  function Render(f: TextFormat, name: nat -> string, events: seq<Event>): string
    decreases |events|
  {
    if |events| == 0 then "" else CallText(f, name, events[0]) + Render(f, name, events[1..])
  }

  lemma {:induction false} RenderAppend(f: TextFormat, name: nat -> string, a: seq<Event>, b: seq<Event>)
    ensures Render(f, name, a + b) == Render(f, name, a) + Render(f, name, b)
    decreases |a|
  {
    if |a| == 0 {
      assert a + b == b;
    } else {
      assert (a + b)[0] == a[0];
      assert (a + b)[1..] == a[1..] + b;
      RenderAppend(f, name, a[1..], b);
    }
  }

  lemma RenderOne(f: TextFormat, name: nat -> string, e: Event)
    ensures Render(f, name, [e]) == CallText(f, name, e)
  {
    assert [e][1..] == [];
  }

  /** The texts of the blocks, one per block. */
  function RenderEach(f: TextFormat, name: nat -> string, blocks: seq<seq<Event>>): (r: seq<string>)
    ensures |r| == |blocks| && forall i :: 0 <= i < |r| ==> r[i] == Render(f, name, blocks[i])
  {
    seq(|blocks|, i requires 0 <= i < |blocks| => Render(f, name, blocks[i]))
  }

  /** Rendering joined blocks joins the blocks' texts with the separator's. */
  lemma {:induction false} RenderJoin(f: TextFormat, name: nat -> string, blocks: seq<seq<Event>>, sep: seq<Event>)
    ensures Render(f, name, Join(blocks, sep)) == Join(RenderEach(f, name, blocks), Render(f, name, sep))
  {
    var texts := RenderEach(f, name, blocks);
    if |blocks| == 0 {
    } else if |blocks| > 1 {
      RenderJoin(f, name, blocks[1..], sep);
      assert RenderEach(f, name, blocks[1..]) == texts[1..];
      RenderAppend(f, name, blocks[0], sep);
      RenderAppend(f, name, blocks[0] + sep, Join(blocks[1..], sep));
    }
  }

  /** The names of attributes, in their order. */
  function NamesOf(name: nat -> string, attributes: seq<Attribute>): (r: seq<string>)
    ensures |r| == |attributes| && forall i :: 0 <= i < |r| ==> r[i] == name(attributes[i].id)
  {
    seq(|attributes|, i requires 0 <= i < |attributes| => name(attributes[i].id))
  }

  /** The names of the shown attributes, in the order they are written. */
  function ShownNames(name: nat -> string, attributes: seq<Attribute>): seq<string>
  {
    NamesOf(name, ShownAttributes(attributes))
  }

  lemma AttributeBlockText(f: TextFormat, name: nat -> string, a: Attribute, ofAssembly: bool)
    ensures Render(f, name, AttributeBlock(a, ofAssembly)) == name(a.id)
  {
    var b := AttributeBlock(a, ofAssembly);
    assert b[1..][1..][1..] == [];
    assert Render(f, name, b[1..][1..]) == "";
  }

  /** The attribute list of a symbol reads `[`, the shown attributes'
      names joined by the separator text, then the end text; a symbol with
      no shown attribute gets no text at all. */
  lemma AttributeListText(f: TextFormat, name: nat -> string, attributes: seq<Attribute>, ofAssembly: bool)
    ensures var names := ShownNames(name, attributes);
      Render(f, name, WriteAttributes(attributes, ofAssembly))
      == if |names| == 0 then "" else "[" + Join(names, AttributeSeparatorText(f, ofAssembly)) + EndAttributesText(f, ofAssembly)
  {
    var shown := ShownAttributes(attributes);
    if |shown| > 0 {
      var middle := Join(AttributeBlocks(shown, ofAssembly), [AttributeSeparator(ofAssembly)]);
      assert WriteAttributes(attributes, ofAssembly) == [StartAttributes(ofAssembly)] + middle + [EndAttributes(ofAssembly)];
      AttributeBlocksText(f, name, shown, ofAssembly);
      AttributeFrameText(f, name, middle, ofAssembly);
    } else {
      assert WriteAttributes(attributes, ofAssembly) == [];
    }
  }

  /** The attribute list's brackets around its body. */
  lemma AttributeFrameText(f: TextFormat, name: nat -> string, body: seq<Event>, ofAssembly: bool)
    ensures Render(f, name, [StartAttributes(ofAssembly)] + body + [EndAttributes(ofAssembly)])
      == "[" + Render(f, name, body) + EndAttributesText(f, ofAssembly)
  {
    RenderAppend(f, name, [StartAttributes(ofAssembly)], body);
    RenderAppend(f, name, [StartAttributes(ofAssembly)] + body, [EndAttributes(ofAssembly)]);
    RenderOne(f, name, StartAttributes(ofAssembly));
    RenderOne(f, name, EndAttributes(ofAssembly));
  }

  /** The joined attribute blocks read as the joined names. */
  lemma AttributeBlocksText(f: TextFormat, name: nat -> string, shown: seq<Attribute>, ofAssembly: bool)
    ensures Render(f, name, Join(AttributeBlocks(shown, ofAssembly), [AttributeSeparator(ofAssembly)]))
      == Join(NamesOf(name, shown), AttributeSeparatorText(f, ofAssembly))
  {
    var names := NamesOf(name, shown);
    var blocks := AttributeBlocks(shown, ofAssembly);
    forall i | 0 <= i < |blocks| ensures Render(f, name, blocks[i]) == names[i] {
      AttributeBlockText(f, name, shown[i], ofAssembly);
    }
    RenderJoinEach(f, name, blocks, [AttributeSeparator(ofAssembly)], names);
    SeparatorText(f, name, ofAssembly);
  }

  lemma SeparatorText(f: TextFormat, name: nat -> string, ofAssembly: bool)
    ensures Render(f, name, [AttributeSeparator(ofAssembly)]) == AttributeSeparatorText(f, ofAssembly)
  {
    RenderOne(f, name, AttributeSeparator(ofAssembly));
  }

  /** Blocks that read as `texts`, joined, read as the texts joined. */
  lemma RenderJoinEach(f: TextFormat, name: nat -> string, blocks: seq<seq<Event>>, sep: seq<Event>, texts: seq<string>)
    requires |texts| == |blocks| && forall i :: 0 <= i < |blocks| ==> Render(f, name, blocks[i]) == texts[i]
    ensures Render(f, name, Join(blocks, sep)) == Join(texts, Render(f, name, sep))
  {
    RenderJoin(f, name, blocks, sep);
    assert RenderEach(f, name, blocks) == texts;
  }

  /** Each name in brackets of its own, each on its own line. */
  function Bracketed(names: seq<string>): (r: string)
  {
    if |names| == 0 then "" else "[" + names[0] + "]" + NewLine + Bracketed(names[1..])
  }

  lemma {:induction false} JoinBracketed(names: seq<string>)
    requires |names| > 0
    ensures "[" + Join(names, "]" + NewLine + "[") + "]" + NewLine == Bracketed(names)
  {
    if |names| > 1 {
      JoinBracketed(names[1..]);
      var sep := "]" + NewLine + "[";
      assert Join(names, sep) == names[0] + sep + Join(names[1..], sep);
      assert "[" + Join(names, sep) + "]" + NewLine
        == ("[" + names[0] + "]" + NewLine) + ("[" + Join(names[1..], sep) + "]" + NewLine);
    }
  }

  /** Assembly attributes, and the attributes of a multi-line writer that
      formats them, stand each in brackets of its own on a line of its own. */
  lemma AttributesOnOwnLines(f: TextFormat, name: nat -> string, attributes: seq<Attribute>, ofAssembly: bool)
    requires ofAssembly || (f.FormatAttributes() && f.multiline)
    ensures Render(f, name, WriteAttributes(attributes, ofAssembly)) == Bracketed(ShownNames(name, attributes))
  {
    AttributeListText(f, name, attributes, ofAssembly);
    var names := ShownNames(name, attributes);
    if |names| > 0 {
      JoinBracketed(names);
    }
  }

  /** Otherwise all attributes share one bracket, separated by commas. */
  lemma AttributesInOneBracket(f: TextFormat, name: nat -> string, attributes: seq<Attribute>)
    requires !(f.FormatAttributes() && f.multiline)
    ensures var names := ShownNames(name, attributes);
      Render(f, name, WriteAttributes(attributes, false))
      == if |names| == 0 then "" else "[" + Join(names, ", ") + EndAttributesText(f, false)
  {
    AttributeListText(f, name, attributes, false);
  }

  /** `Write(symbol, …)`: the symbol's attributes before its own text when
      the format includes attributes. */
  function SymbolText(f: TextFormat, name: nat -> string, attributes: seq<Attribute>, text: string): (r: string)
    ensures !f.IncludeAttributes() || |ShownAttributes(attributes)| == 0 ==> r == text
    ensures f.IncludeAttributes() && |ShownAttributes(attributes)| > 0 ==>
      |r| > |text| && r[0] == '[' && r[|r| - |text|..] == text
  {
    AttributeListText(f, name, attributes, false);
    (if f.IncludeAttributes() then Render(f, name, WriteAttributes(attributes, false)) else "") + text
  }

  /** Attributes never change the depth: a symbol's attribute list leaves
      the writer at the level it found it. */
  lemma AttributesKeepDepth(attributes: seq<Attribute>, ofAssembly: bool, depth: nat)
    ensures Run(DepthStep, WriteAttributes(attributes, ofAssembly), depth) == Some(depth)
  {
    DepthIsSound();
    WriteAttributesBalanced(DepthStep, attributes, ofAssembly);
    assert From(depth);
  }
}

=== FILE: type_hierarchy_writer.dfy ===
/**
 The type-hierarchy layout of the definition listing: the tree of classes
 under `object`, then, when there is one, the forest of interfaces under a
 root that stands for no type. Each item is the type, its members, and each
 derived type preceded by a type separator.
 */
module HierarchyWriter {
  import opened Wrappers
  import opened Sequences
  import opened WriterEvents
  import opened WriterTypes
  import SymbolHierarchy
  import ListFormat

  type Node = SymbolHierarchy.Node

  /** The written type whose identity is `id`, if there is one. */
  function FindType(types: seq<TypeDef>, id: nat): (r: Option<TypeDef>)
    ensures r.Some? ==> r.value in types && r.value.id == id
    ensures r.None? <==> forall t :: t in types ==> t.id != id
    decreases |types|
  {
    if |types| == 0 then None
    else if types[0].id == id then Some(types[0])
    else
      assert forall t :: t in types ==> t == types[0] || t in types[1..];
      FindType(types[1..], id)
  }

  /** The members of an item: only for an item that stands for a type and
      is not external. */
  function OwnMembers(w: Writer, types: seq<TypeDef>, id: Option<nat>, n: Node): (r: seq<Event>)
  {
    if id.Some? && !n.isExternal then
      match FindType(types, id.value)
      case Some(t) => TypeContents(w, t)
      case None => []
    else []
  }

  /** The local `WriteTypeHierarchy(item)`: start, definition, members, the
      derived items, end. `id` is `None` for the root of the interfaces. */
  function Item(w: Writer, types: seq<TypeDef>, id: Option<nat>, n: Node): seq<Event>
    decreases n, 1
  {
    [StartType(id), TypeDefinition(id)] + OwnMembers(w, types, id, n) + Derived(w, types, n, 0) + [EndType(id)]
  }

  /** `foreach (derivedItem in item.Children())`: the children in the order
      the sibling ring enumerates them, from the `i`-th on, each after a type
      separator. */
  function Derived(w: Writer, types: seq<TypeDef>, n: Node, i: nat): seq<Event>
    requires i <= |n.children|
    decreases n, 0, |n.children| - i
  {
    var cs := SymbolHierarchy.Enumerated(n);
    if i == |cs| then []
    else
      var c := cs[i];
      [TypeSeparator] + Item(w, types, Some(c.id), c) + Derived(w, types, n, i + 1)
  }

  /** The root of the interface forest: no symbol, the root interfaces as
      its children. */
  function InterfaceRoot(h: SymbolHierarchy.Hierarchy): Node
  {
    SymbolHierarchy.Node(0, true, h.interfaceRoots)
  }

  /** The private `WriteTypeHierarchy(hierarchy)`: the class tree, then the
      interface forest if its root has children, between `StartTypes` and
      `EndTypes`. */
  function WriteHierarchy(w: Writer, types: seq<TypeDef>, h: SymbolHierarchy.Hierarchy): (r: seq<Event>)
    ensures |r| >= 2 && r[0] == StartTypes && r[|r| - 1] == EndTypes
  {
    [StartTypes]
    + Item(w, types, Some(h.root.id), h.root)
    + (if |h.interfaceRoots| > 0 then Item(w, types, None, InterfaceRoot(h)) else [])
    + [EndTypes]
  }

  function TypeIds(types: seq<TypeDef>): (r: seq<nat>)
    ensures |r| == |types| && forall i :: 0 <= i < |r| ==> r[i] == types[i].id
  {
    seq(|types|, i requires 0 <= i < |types| => types[i].id)
  }

  /** `WriteTypeHierarchy(types)`: builds the hierarchy of the types, which
      throws when no type reaches `object`, and writes it. */
  function WriteTypeHierarchy(w: Writer, ts: seq<SymbolHierarchy.TypeInfo>, types: seq<TypeDef>): (r: Result<seq<Event>>)
    requires SymbolHierarchy.WellFormed(ts) && SymbolHierarchy.InArena(ts, TypeIds(types))
    ensures r.Err? <==> SymbolHierarchy.Create(ts, TypeIds(types)).Err?
    ensures r.Err? ==> r.error == SymbolHierarchy.Create(ts, TypeIds(types)).error
  {
    var h :- SymbolHierarchy.Create(ts, TypeIds(types));
    Ok(WriteHierarchy(w, types, h))
  }

  /* ---------------- the order of the written types ---------------- */

  /** The types of a tree in the order a depth-first walk meets them when
      each node's children are taken in the order the sibling ring
      enumerates them. */
  function Visited(n: Node): seq<nat>
    decreases n, 1
  {
    [n.id] + VisitedFrom(n, 0)
  }

  function VisitedFrom(n: Node, i: nat): seq<nat>
    requires i <= |n.children|
    decreases n, 0, |n.children| - i
  {
    var cs := SymbolHierarchy.Enumerated(n);
    if i == |cs| then [] else Visited(cs[i]) + VisitedFrom(n, i + 1)
  }

  /** Under the type-hierarchy layout the members of an item hold no type
      event of their own. */
  lemma OwnMembersEvents(w: Writer, types: seq<TypeDef>, id: Option<nat>, n: Node)
    requires w.format.layout == ListFormat.TypeHierarchy
    ensures forall e :: e in OwnMembers(w, types, id, n) ==> MemberEvent(e)
  {
    if id.Some? && !n.isExternal && FindType(types, id.value).Some? {
      HierarchyContentsHoldNoType(w, FindType(types, id.value).value);
    }
  }

  lemma NoTypeShownInMembers(events: seq<Event>)
    requires forall e :: e in events ==> MemberEvent(e)
    ensures Pick(events, TypeShown) == [] && Count(TypeSeparator, events) == 0
  {
    PickNone(events, TypeShown);
    assert TypeSeparator !in events;
  }

  /** What an item's frame adds: its own type ... */
  lemma FramePicks(id: nat, own: seq<Event>, derived: seq<Event>)
    requires Pick(own, TypeShown) == []
    ensures Pick([StartType(Some(id)), TypeDefinition(Some(id))] + own + derived + [EndType(Some(id))], TypeShown)
      == [id] + Pick(derived, TypeShown)
  {
    var open := [StartType(Some(id)), TypeDefinition(Some(id))];
    var close := [EndType(Some(id))];
    PickAppend(open, own, TypeShown);
    PickAppend(open + own, derived, TypeShown);
    PickAppend(open + own + derived, close, TypeShown);
    OpenPicks(id);
    PickOne(EndType(Some(id)), TypeShown);
  }

  lemma OpenPicks(id: nat)
    ensures Pick([StartType(Some(id)), TypeDefinition(Some(id))], TypeShown) == [id]
  {
    PickOne(StartType(Some(id)), TypeShown);
    PickOne(TypeDefinition(Some(id)), TypeShown);
    PickAppend([StartType(Some(id))], [TypeDefinition(Some(id))], TypeShown);
    assert [StartType(Some(id)), TypeDefinition(Some(id))] == [StartType(Some(id))] + [TypeDefinition(Some(id))];
  }

  /** ... and no separator. */
  lemma FrameCounts(id: nat, own: seq<Event>, derived: seq<Event>)
    requires Count(TypeSeparator, own) == 0
    ensures Count(TypeSeparator, [StartType(Some(id)), TypeDefinition(Some(id))] + own + derived + [EndType(Some(id))])
      == Count(TypeSeparator, derived)
  {
    var open := [StartType(Some(id)), TypeDefinition(Some(id))];
    var close := [EndType(Some(id))];
    CountAppend(TypeSeparator, open, own);
    CountAppend(TypeSeparator, open + own, derived);
    CountAppend(TypeSeparator, open + own + derived, close);
    assert TypeSeparator !in open && TypeSeparator !in close;
  }

  /** A separator before an item adds no type ... */
  lemma SeparatorPicks(item: seq<Event>, rest: seq<Event>)
    ensures Pick([TypeSeparator] + item + rest, TypeShown) == Pick(item, TypeShown) + Pick(rest, TypeShown)
  {
    assert [TypeSeparator] + item + rest == [TypeSeparator] + (item + rest);
    PickSkipsFront(TypeSeparator, item + rest, TypeShown);
    PickAppend(item, rest, TypeShown);
  }

  /** ... and one separator. */
  lemma SeparatorCounts(item: seq<Event>, rest: seq<Event>)
    ensures Count(TypeSeparator, [TypeSeparator] + item + rest) == 1 + Count(TypeSeparator, item) + Count(TypeSeparator, rest)
  {
    CountAppend(TypeSeparator, [TypeSeparator], item);
    CountAppend(TypeSeparator, [TypeSeparator] + item, rest);
    CountOne(TypeSeparator, TypeSeparator);
  }

  /** Each item writes the types of its tree in the walk's order, with one
      separator fewer than types. */
  lemma {:induction false} ItemShowsVisited(w: Writer, types: seq<TypeDef>, n: Node)
    requires w.format.layout == ListFormat.TypeHierarchy
    ensures Pick(Item(w, types, Some(n.id), n), TypeShown) == Visited(n)
    ensures Count(TypeSeparator, Item(w, types, Some(n.id), n)) == |Visited(n)| - 1
    decreases n, 1
  {
    var own := OwnMembers(w, types, Some(n.id), n);
    var derived := Derived(w, types, n, 0);
    OwnMembersEvents(w, types, Some(n.id), n);
    NoTypeShownInMembers(own);
    DerivedShowsVisited(w, types, n, 0);
    assert Item(w, types, Some(n.id), n)
      == [StartType(Some(n.id)), TypeDefinition(Some(n.id))] + own + derived + [EndType(Some(n.id))];
    assert Visited(n) == [n.id] + VisitedFrom(n, 0);
    FramePicks(n.id, own, derived);
    FrameCounts(n.id, own, derived);
  }

  lemma {:induction false} DerivedShowsVisited(w: Writer, types: seq<TypeDef>, n: Node, i: nat)
    requires w.format.layout == ListFormat.TypeHierarchy
    requires i <= |n.children|
    ensures Pick(Derived(w, types, n, i), TypeShown) == VisitedFrom(n, i)
    ensures Count(TypeSeparator, Derived(w, types, n, i)) == |VisitedFrom(n, i)|
    decreases n, 0, |n.children| - i
  {
    var cs := SymbolHierarchy.Enumerated(n);
    if i < |n.children| {
      var c := cs[i];
      ItemShowsVisited(w, types, c);
      DerivedShowsVisited(w, types, n, i + 1);
      DerivedUnfold(w, types, n, i);
      ShowsStep(Derived(w, types, n, i), Item(w, types, Some(c.id), c), Derived(w, types, n, i + 1),
        VisitedFrom(n, i), Visited(c), VisitedFrom(n, i + 1));
    } else {
      DerivedEnd(w, types, n);
      PickNone([], TypeShown);
    }
  }

  /** One step of the loop over the derived types: a separator, the item,
      the rest; the walk meets the item's tree, then the rest. */
  lemma DerivedUnfold(w: Writer, types: seq<TypeDef>, n: Node, i: nat)
    requires i < |n.children|
    ensures var cs := SymbolHierarchy.Enumerated(n);
      && Derived(w, types, n, i) == [TypeSeparator] + Item(w, types, Some(cs[i].id), cs[i]) + Derived(w, types, n, i + 1)
      && VisitedFrom(n, i) == Visited(cs[i]) + VisitedFrom(n, i + 1)
  {
  }

  lemma DerivedEnd(w: Writer, types: seq<TypeDef>, n: Node)
    ensures Derived(w, types, n, |n.children|) == []
    ensures VisitedFrom(n, |n.children|) == []
  {
  }

  lemma ShowsStep(d: seq<Event>, item: seq<Event>, rest: seq<Event>, v: seq<nat>, vItem: seq<nat>, vRest: seq<nat>)
    requires d == [TypeSeparator] + item + rest && v == vItem + vRest
    requires Pick(item, TypeShown) == vItem && Count(TypeSeparator, item) == |vItem| - 1
    requires Pick(rest, TypeShown) == vRest && Count(TypeSeparator, rest) == |vRest|
    ensures Pick(d, TypeShown) == v && Count(TypeSeparator, d) == |v|
  {
    SeparatorPicks(item, rest);
    SeparatorCounts(item, rest);
  }

  /* ---------------- every type of the tree, once ---------------- */

  lemma {:induction false} IdsOfAppend(a: seq<Node>, b: seq<Node>)
    ensures SymbolHierarchy.IdsOf(a + b) == SymbolHierarchy.IdsOf(a) + SymbolHierarchy.IdsOf(b)
    decreases |a|
  {
    if |a| == 0 {
      assert a + b == b;
    } else {
      assert (a + b)[1..] == a[1..] + b;
      IdsOfAppend(a[1..], b);
    }
  }

  /** The walk meets exactly the types of the tree, as often as the tree
      holds them. */
  lemma {:induction false} VisitedIsPermutation(n: Node)
    ensures multiset(Visited(n)) == multiset(SymbolHierarchy.Ids(n))
    decreases n, 1
  {
    VisitedFromIsPermutation(n, |n.children|);
    assert n.children[..|n.children|] == n.children;
  }

  lemma {:induction false} VisitedFromIsPermutation(n: Node, k: nat)
    requires k <= |n.children|
    ensures multiset(VisitedFrom(n, |n.children| - k))
        == multiset(SymbolHierarchy.IdsOf(n.children[..k]))
    decreases n, 0, k
  {
    if k == 0 {
      VisitedFromNone(n);
    } else {
      VisitedIsPermutation(n.children[k - 1]);
      VisitedFromIsPermutation(n, k - 1);
      VisitedFromStep(n, k);
    }
  }

  /** Past the last child the walk meets nothing. */
  lemma VisitedFromNone(n: Node)
    ensures VisitedFrom(n, |n.children|) == []
    ensures SymbolHierarchy.IdsOf(n.children[..0]) == []
  {
  }

  /** Taking one more child from the end of the enumeration adds the types
      of the `k`-th child. */
  lemma VisitedFromStep(n: Node, k: nat)
    requires 0 < k <= |n.children|
    requires multiset(Visited(n.children[k - 1])) == multiset(SymbolHierarchy.Ids(n.children[k - 1]))
    requires multiset(VisitedFrom(n, |n.children| - (k - 1)))
        == multiset(SymbolHierarchy.IdsOf(n.children[..k - 1]))
    ensures multiset(VisitedFrom(n, |n.children| - k))
        == multiset(SymbolHierarchy.IdsOf(n.children[..k]))
  {
    var cs := SymbolHierarchy.Enumerated(n);
    var c := n.children[k - 1];
    var j := |n.children| - k;
    assert cs[j] == c && j + 1 == |n.children| - (k - 1);
    var visited, rest := Visited(c), VisitedFrom(n, j + 1);
    assert VisitedFrom(n, j) == visited + rest;
    ChildrenPrefixIds(n.children, k);
    SwappedPermutation(visited, rest, SymbolHierarchy.Ids(c), SymbolHierarchy.IdsOf(n.children[..k - 1]));
  }

  lemma SwappedPermutation<T>(a: seq<T>, b: seq<T>, x: seq<T>, y: seq<T>)
    requires multiset(a) == multiset(x) && multiset(b) == multiset(y)
    ensures multiset(a + b) == multiset(y + x)
  {
  }

  /** The types of the first `k` children: those of the first `k - 1`, then
      those of the `k`-th. */
  lemma ChildrenPrefixIds(children: seq<Node>, k: nat)
    requires 0 < k <= |children|
    ensures SymbolHierarchy.IdsOf(children[..k])
      == SymbolHierarchy.IdsOf(children[..k - 1]) + SymbolHierarchy.Ids(children[k - 1])
  {
    var c := children[k - 1];
    assert children[..k] == children[..k - 1] + [c];
    IdsOfAppend(children[..k - 1], [c]);
    assert SymbolHierarchy.IdsOf([c]) == SymbolHierarchy.Ids(c) by {
      assert [c][1..] == [];
    }
  }

  /** The class tree is written with every one of its types exactly once,
      and one type separator fewer than types. */
  lemma ClassTreeWrittenOnce(w: Writer, types: seq<TypeDef>, ts: seq<SymbolHierarchy.TypeInfo>, n: Node)
    requires w.format.layout == ListFormat.TypeHierarchy
    requires SymbolHierarchy.ClassTree(ts, n)
    ensures var shown := Pick(Item(w, types, Some(n.id), n), TypeShown);
      && Distinct(shown)
      && (forall x :: x in shown <==> x in SymbolHierarchy.Ids(n))
      && Count(TypeSeparator, Item(w, types, Some(n.id), n)) == |SymbolHierarchy.Ids(n)| - 1
  {
    ItemShowsVisited(w, types, n);
    VisitedIsPermutation(n);
    DistinctPermutation(SymbolHierarchy.Ids(n), Visited(n));
    forall x ensures x in Visited(n) <==> x in SymbolHierarchy.Ids(n) {
      assert x in Visited(n) <==> x in multiset(Visited(n));
      assert x in SymbolHierarchy.Ids(n) <==> x in multiset(SymbolHierarchy.Ids(n));
    }
    assert |Visited(n)| == |multiset(Visited(n))|;
  }

  /* ---------------- balance ---------------- */

  lemma OwnMembersBalanced<S(!new)>(step: (S, Event) -> Option<S>, w: Writer, types: seq<TypeDef>, id: Option<nat>, n: Node)
    requires Sound(step)
    ensures Balanced(step, OwnMembers(w, types, id, n))
  {
    if id.Some? && !n.isExternal && FindType(types, id.value).Some? {
      TypeContentsBalanced(step, w, FindType(types, id.value).value);
    } else {
      BalancedEmpty(step);
    }
  }

  lemma {:induction false} ItemBalanced<S(!new)>(step: (S, Event) -> Option<S>, w: Writer, types: seq<TypeDef>, id: Option<nat>, n: Node)
    requires Sound(step)
    ensures Balanced(step, Item(w, types, id, n))
    decreases n, 1
  {
    OwnMembersBalanced(step, w, types, id, n);
    DerivedBalanced(step, w, types, n, 0);
    assert WrapsType(step, id);
    var own, derived := OwnMembers(w, types, id, n), Derived(w, types, n, 0);
    BalancedAround(step, [StartType(id), TypeDefinition(id)], own, derived, [EndType(id)]);
    Framed([StartType(id), TypeDefinition(id)], own, derived, [EndType(id)]);
  }

  lemma {:induction false} DerivedBalanced<S(!new)>(step: (S, Event) -> Option<S>, w: Writer, types: seq<TypeDef>, n: Node, i: nat)
    requires Sound(step) && i <= |n.children|
    ensures Balanced(step, Derived(w, types, n, i))
    decreases n, 0, |n.children| - i
  {
    var cs := SymbolHierarchy.Enumerated(n);
    if i == |cs| {
      BalancedEmpty(step);
    } else {
      var c := cs[i];
      ItemBalanced(step, w, types, Some(c.id), c);
      DerivedBalanced(step, w, types, n, i + 1);
      BalancedAppend(step, [TypeSeparator], Item(w, types, Some(c.id), c));
      BalancedAppend(step, [TypeSeparator] + Item(w, types, Some(c.id), c), Derived(w, types, n, i + 1));
    }
  }

  /** The hierarchy closes every type it opens. */
  lemma WriteHierarchyBalanced<S(!new)>(step: (S, Event) -> Option<S>, w: Writer, types: seq<TypeDef>, h: SymbolHierarchy.Hierarchy)
    requires Sound(step)
    ensures Balanced(step, WriteHierarchy(w, types, h))
  {
    var root := Item(w, types, Some(h.root.id), h.root);
    var interfaces := if |h.interfaceRoots| > 0 then Item(w, types, None, InterfaceRoot(h)) else [];
    ItemBalanced(step, w, types, Some(h.root.id), h.root);
    if |h.interfaceRoots| > 0 {
      ItemBalanced(step, w, types, None, InterfaceRoot(h));
    } else {
      BalancedEmpty(step);
    }
    BalancedAround(step, [StartTypes], root, interfaces, [EndTypes]);
    assert [StartTypes] + root + interfaces + [EndTypes] == [StartTypes] + (root + interfaces) + [EndTypes];
  }

  /** The hierarchy holds types and their members and nothing else. */
  lemma WriteHierarchyEvents(w: Writer, types: seq<TypeDef>, h: SymbolHierarchy.Hierarchy)
    ensures forall e :: e in WriteHierarchy(w, types, h) ==> TypeEvent(e)
  {
    ItemEvents(w, types, Some(h.root.id), h.root);
    if |h.interfaceRoots| > 0 {
      ItemEvents(w, types, None, InterfaceRoot(h));
    }
  }

  lemma {:induction false} ItemEvents(w: Writer, types: seq<TypeDef>, id: Option<nat>, n: Node)
    ensures forall e :: e in Item(w, types, id, n) ==> TypeEvent(e)
    decreases n, 1
  {
    if id.Some? && !n.isExternal && FindType(types, id.value).Some? {
      TypeContentsEvents(w, FindType(types, id.value).value);
    }
    DerivedEvents(w, types, n, 0);
  }

  lemma {:induction false} DerivedEvents(w: Writer, types: seq<TypeDef>, n: Node, i: nat)
    requires i <= |n.children|
    ensures forall e :: e in Derived(w, types, n, i) ==> TypeEvent(e)
    decreases n, 0, |n.children| - i
  {
    var cs := SymbolHierarchy.Enumerated(n);
    if i < |cs| {
      ItemEvents(w, types, Some(cs[i].id), cs[i]);
      DerivedEvents(w, types, n, i + 1);
    }
  }

  /** The interface root is written exactly when some interface has no
      base interface among the types, and it stands for no type. */
  lemma InterfaceRootWritten(w: Writer, types: seq<TypeDef>, h: SymbolHierarchy.Hierarchy)
    requires w.format.layout == ListFormat.TypeHierarchy
    ensures var r := WriteHierarchy(w, types, h);
      (StartType(None) in r <==> |h.interfaceRoots| > 0)
  {
    var root := Item(w, types, Some(h.root.id), h.root);
    var r := WriteHierarchy(w, types, h);
    ItemOpensNoRoot(w, types, h.root);
    if |h.interfaceRoots| > 0 {
      var i := Item(w, types, None, InterfaceRoot(h));
      assert r == [StartTypes] + root + i + [EndTypes];
      assert i[0] == StartType(None);
      assert r[1 + |root|] == StartType(None);
    } else {
      assert r == [StartTypes] + root + [] + [EndTypes];
    }
  }

  /** Within the class tree every item stands for a type: under this
      layout a type's own contents are members only. */
  lemma {:induction false} ItemOpensNoRoot(w: Writer, types: seq<TypeDef>, n: Node)
    requires w.format.layout == ListFormat.TypeHierarchy
    ensures StartType(None) !in Item(w, types, Some(n.id), n)
    decreases n, 1
  {
    var own := OwnMembers(w, types, Some(n.id), n);
    var derived := Derived(w, types, n, 0);
    DerivedOpensNoRoot(w, types, n, 0);
    OwnMembersEvents(w, types, Some(n.id), n);
    assert !MemberEvent(StartType(None));
    NotInJoin(StartType(None), [StartType(Some(n.id)), TypeDefinition(Some(n.id))], own, derived, [EndType(Some(n.id))]);
  }

  lemma {:induction false} DerivedOpensNoRoot(w: Writer, types: seq<TypeDef>, n: Node, i: nat)
    requires w.format.layout == ListFormat.TypeHierarchy && i <= |n.children|
    ensures StartType(None) !in Derived(w, types, n, i)
    decreases n, 0, |n.children| - i
  {
    var cs := SymbolHierarchy.Enumerated(n);
    if i < |cs| {
      ItemOpensNoRoot(w, types, cs[i]);
      DerivedOpensNoRoot(w, types, n, i + 1);
    }
  }

  lemma NotInJoin(x: Event, a: seq<Event>, b: seq<Event>, c: seq<Event>, d: seq<Event>)
    requires x !in a && x !in b && x !in c && x !in d
    ensures x !in a + b + c + d
  {
  }
}

=== FILE: type_kind_mapping.dfy ===
/**
 The two type-kind mappings of the documentation extensions: to the symbol
 group of that kind, and to the namespace-documentation part listing types
 of that kind.
 */
module TypeKindMapping {
  import opened Wrappers
  import opened Symbols

  datatype NamespaceDocumentationPart = Classes | Delegates | Enums | Interfaces | Structs

  /** The five kinds of named type a C# program declares. */
  predicate IsDeclarableKind(k: TypeKind)
  {
    k.Class? || k.Delegate? || k.Enum? || k.Interface? || k.Struct?
  }

  function KindName(k: TypeKind): string
  {
    match k
    case Class => "Class"
    case Struct => "Struct"
    case Interface => "Interface"
    case Enum => "Enum"
    case Delegate => "Delegate"
    case ArrayType => "Array"
    case DynamicType => "Dynamic"
    case ErrorType => "Error"
    case PointerType => "Pointer"
    case TypeParameterType => "TypeParameter"
  }

  function ToSymbolGroupFilter(k: TypeKind): (r: Result<SymbolGroup>)
    ensures r.Ok? <==> IsDeclarableKind(k)
    ensures r.Err? ==> r.error == ArgumentException
  {
    match k
    case Class => Ok(SymbolGroup.Class)
    case Delegate => Ok(SymbolGroup.Delegate)
    case Enum => Ok(SymbolGroup.Enum)
    case Interface => Ok(SymbolGroup.Interface)
    case Struct => Ok(SymbolGroup.Struct)
    case _ => Err(ArgumentException)
  }

  function ToNamespaceDocumentationPart(k: TypeKind): (r: Result<NamespaceDocumentationPart>)
    ensures r.Ok? <==> IsDeclarableKind(k)
    ensures r.Err? ==> r.error == InvalidOperationException("Unknown enum value '" + KindName(k) + "'.")
  {
    match k
    case Class => Ok(Classes)
    case Delegate => Ok(Delegates)
    case Enum => Ok(Enums)
    case Interface => Ok(Interfaces)
    case Struct => Ok(Structs)
    case _ => Err(InvalidOperationException("Unknown enum value '" + KindName(k) + "'."))
  }

  /** The type kind a type group stands for; none for member groups. */
  function KindOfGroup(g: SymbolGroup): Option<TypeKind>
  {
    match g
    case Class => Some(TypeKind.Class)
    case Delegate => Some(TypeKind.Delegate)
    case Enum => Some(TypeKind.Enum)
    case Interface => Some(TypeKind.Interface)
    case Struct => Some(TypeKind.Struct)
    case _ => None
  }

  function KindOfPart(p: NamespaceDocumentationPart): TypeKind
  {
    match p
    case Classes => TypeKind.Class
    case Delegates => TypeKind.Delegate
    case Enums => TypeKind.Enum
    case Interfaces => TypeKind.Interface
    case Structs => TypeKind.Struct
  }

  /** Both mappings are undone by the inverse mappings, so each is injective
      on the five declarable kinds, and each lands in the type groups. */
  lemma MappingsRoundTrip(k: TypeKind)
    requires IsDeclarableKind(k)
    ensures KindOfGroup(ToSymbolGroupFilter(k).value) == Some(k)
    ensures KindOfPart(ToNamespaceDocumentationPart(k).value) == k
    ensures ToSymbolGroupFilter(k).value in TypeGroups
  {
  }

  lemma MappingsInjective(k1: TypeKind, k2: TypeKind)
    requires IsDeclarableKind(k1) && IsDeclarableKind(k2) && k1 != k2
    ensures ToSymbolGroupFilter(k1) != ToSymbolGroupFilter(k2)
    ensures ToNamespaceDocumentationPart(k1) != ToNamespaceDocumentationPart(k2)
  {
    MappingsRoundTrip(k1);
    MappingsRoundTrip(k2);
  }

  /** Every type group is the image of the kind it stands for. */
  lemma GroupMappingOnto(g: SymbolGroup)
    requires g in TypeGroups
    ensures KindOfGroup(g).Some? && ToSymbolGroupFilter(KindOfGroup(g).value) == Ok(g)
  {
  }
}

=== FILE: wrappers.dfy ===
/**
 This module provides the failure-compatible datatypes used throughout the
 model: `Option` for values that may be null, and `Result` for operations
 that either return a value or throw one of the .NET exceptions the listing
 engine raises.
 */
module Wrappers {

  datatype Option<+T> = None | Some(value: T)

  /** The exceptions the modelled code throws (or lets escape). */
  datatype Exception =
    | ArgumentException
    | InvalidOperationException(message: string)
    | KeyNotFoundException
    | IndexOutOfRangeException
    | NullReferenceException

  /** Either a value or the exception that replaced it. */
  datatype Result<+T> = Ok(value: T) | Err(error: Exception) {

    predicate IsFailure() {
      Err?
    }

    function PropagateFailure<U>(): Result<U>
      requires Err?
    {
      Err(error)
    }

    function Extract(): T
      requires Ok?
    {
      value
    }
  }
}

=== FILE: writer_events.dfy ===
/**
 The calls a symbol-definition writer receives, as events, and the replay of
 an event sequence on a state machine. A writer that keeps state across the
 calls (a nesting stack, an indentation depth) is such a machine; an event
 sequence is balanced for it when replaying it from any state succeeds and
 comes back to that state.
 */
module WriterEvents {
  import opened Wrappers
  import opened Sequences

  /** A namespace by its path of names; the global namespace is `[]`. */
  type Namespace = seq<string>

  /** One call of the abstract writer, with the identity of its symbol. A
      type event whose symbol is `None` belongs to the symbol-less root of
      the interface forest. */
  datatype Event =
    | StartDocument
    | EndDocument
    | StartAssemblies
    | EndAssemblies
    | StartAssembly(assembly: nat)
    | AssemblyDefinition(assembly: nat)
    | EndAssembly(assembly: nat)
    | AssemblySeparator
    | StartNamespaces
    | EndNamespaces
    | StartNamespace(ns: Namespace)
    | NamespaceDefinition(ns: Namespace)
    | EndNamespace(ns: Namespace)
    | NamespaceSeparator
    | StartTypes
    | EndTypes
    | StartType(typeId: Option<nat>)
    | TypeDefinition(typeId: Option<nat>)
    | EndType(typeId: Option<nat>)
    | TypeSeparator
    | StartMembers
    | EndMembers
    | StartMember(member: nat)
    | MemberDefinition(member: nat)
    | EndMember(member: nat)
    | MemberSeparator
    | StartEnumMembers
    | EndEnumMembers
    | StartEnumMember(member: nat)
    | EnumMemberDefinition(member: nat)
    | EndEnumMember(member: nat)
    | EnumMemberSeparator
    | StartAttributes(ofAssembly: bool)
    | EndAttributes(ofAssembly: bool)
    | StartAttribute(attribute: nat, ofAssembly: bool)
    | AttributeDefinition(attribute: nat)
    | EndAttribute(attribute: nat, ofAssembly: bool)
    | AttributeSeparator(ofAssembly: bool)

  /** Replays `events` from state `s`; `None` once a step refuses. */
  function Run<S>(step: (S, Event) -> Option<S>, events: seq<Event>, s: S): Option<S>
    decreases |events|
  {
    if |events| == 0 then Some(s)
    else
      match step(s, events[0])
      case None => None
      case Some(s1) => Run(step, events[1..], s1)
  }

  lemma {:induction false} RunAppend<S>(step: (S, Event) -> Option<S>, a: seq<Event>, b: seq<Event>, s: S)
    ensures Run(step, a + b, s) == if Run(step, a, s).None? then None else Run(step, b, Run(step, a, s).value)
    decreases |a|
  {
    if |a| == 0 {
      assert a + b == b;
    } else {
      assert (a + b)[0] == a[0];
      assert (a + b)[1..] == a[1..] + b;
      match step(s, a[0]) {
        case None =>
        case Some(s1) => RunAppend(step, a[1..], b, s1);
      }
    }
  }

  /** The values `f` picks out of the events, in order: which members,
      attributes or types a listing shows. */
  function Pick<T>(events: seq<Event>, f: Event -> Option<T>): seq<T>
    decreases |events|
  {
    if |events| == 0 then []
    else (if f(events[0]).Some? then [f(events[0]).value] else []) + Pick(events[1..], f)
  }

  lemma {:induction false} PickAppend<T>(a: seq<Event>, b: seq<Event>, f: Event -> Option<T>)
    ensures Pick(a + b, f) == Pick(a, f) + Pick(b, f)
    decreases |a|
  {
    if |a| == 0 {
      assert a + b == b;
    } else {
      assert (a + b)[0] == a[0];
      assert (a + b)[1..] == a[1..] + b;
      PickAppend(a[1..], b, f);
    }
  }

  /** Picking from joined blocks picks from each block, when the separator
      holds nothing to pick. */
  lemma {:induction false} PickJoin<T>(blocks: seq<seq<Event>>, sep: seq<Event>, f: Event -> Option<T>)
    requires Pick(sep, f) == []
    ensures Pick(Join(blocks, sep), f) == Concat(seq(|blocks|, i requires 0 <= i < |blocks| => Pick(blocks[i], f)))
  {
    var picks := seq(|blocks|, i requires 0 <= i < |blocks| => Pick(blocks[i], f));
    if |blocks| == 1 {
      assert Concat(picks) == picks[0] + Concat(picks[1..]);
    } else if |blocks| > 1 {
      PickJoin(blocks[1..], sep, f);
      PickAppend(blocks[0], sep, f);
      PickAppend(blocks[0] + sep, Join(blocks[1..], sep), f);
      assert picks[1..] == seq(|blocks[1..]|, i requires 0 <= i < |blocks[1..]| => Pick(blocks[1..][i], f));
    }
  }

  /** When block `i` picks exactly `values[i]`, the blocks together pick
      `values`. */
  lemma {:induction false} PickEach<T>(blocks: seq<seq<Event>>, f: Event -> Option<T>, values: seq<T>)
    requires |values| == |blocks|
    requires forall i :: 0 <= i < |blocks| ==> Pick(blocks[i], f) == [values[i]]
    ensures Concat(seq(|blocks|, i requires 0 <= i < |blocks| => Pick(blocks[i], f))) == values
  {
    var picks := seq(|blocks|, i requires 0 <= i < |blocks| => Pick(blocks[i], f));
    if |blocks| > 0 {
      PickEach(blocks[1..], f, values[1..]);
      assert picks[1..] == seq(|blocks[1..]|, i requires 0 <= i < |blocks[1..]| => Pick(blocks[1..][i], f));
      assert values == [values[0]] + values[1..];
    }
  }

  /** Nothing is picked from events `f` ignores. */
  lemma {:induction false} PickNone<T>(events: seq<Event>, f: Event -> Option<T>)
    requires forall e :: e in events ==> f(e).None?
    ensures Pick(events, f) == []
    decreases |events|
  {
    if |events| > 0 {
      assert events[0] in events;
      PickNone(events[1..], f);
    }
  }

  /** A body with nothing to pick adds nothing between `open` and `close`. */
  lemma PickAround<T>(open: seq<Event>, body: seq<Event>, close: seq<Event>, f: Event -> Option<T>)
    requires Pick(body, f) == []
    ensures Pick(open + body + close, f) == Pick(open, f) + Pick(close, f)
  {
    PickAppend(open, body, f);
    PickAppend(open + body, close, f);
  }

  /** Balanced pieces of a body between a matching `open` and `close`. */
  lemma BalancedAround<S(!new)>(step: (S, Event) -> Option<S>, open: seq<Event>, a: seq<Event>, b: seq<Event>, close: seq<Event>)
    requires Wraps(step, open, close) && Balanced(step, a) && Balanced(step, b)
    ensures Balanced(step, open + (a + b) + close)
  {
    BalancedAppend(step, a, b);
    BalancedWrapped(step, open, a + b, close);
  }

  /** Two events that pick nothing around a body add nothing. */
  lemma PickBetween<T>(open: Event, body: seq<Event>, close: Event, f: Event -> Option<T>)
    requires f(open).None? && f(close).None?
    ensures Pick([open] + body + [close], f) == Pick(body, f)
  {
    assert [open] + body + [close] == [open] + (body + [close]);
    PickSkipsFront(open, body + [close], f);
    PickAppend(body, [close], f);
    PickOne(close, f);
  }

  /** An event that picks nothing in front of `s` adds nothing. */
  lemma PickSkipsFront<T>(e: Event, s: seq<Event>, f: Event -> Option<T>)
    requires f(e).None?
    ensures Pick([e] + s, f) == Pick(s, f)
  {
    assert ([e] + s)[1..] == s;
  }

  lemma PickOne<T>(e: Event, f: Event -> Option<T>)
    ensures Pick([e], f) == if f(e).Some? then [f(e).value] else []
  {
    assert [e][1..] == [];
  }

  /** `open`, the blocks joined by `sep`, then `close` picks what the blocks
      pick. */
  lemma WrappedJoinPicks<T>(open: Event, blocks: seq<seq<Event>>, sep: Event, close: Event, f: Event -> Option<T>, values: seq<T>)
    requires f(open).None? && f(sep).None? && f(close).None?
    requires |values| == |blocks|
    requires forall i :: 0 <= i < |blocks| ==> Pick(blocks[i], f) == [values[i]]
    ensures Pick([open] + Join(blocks, [sep]) + [close], f) == values
  {
    var middle := Join(blocks, [sep]);
    assert Pick(middle, f) == values by {
      PickOne(sep, f);
      PickJoin(blocks, [sep], f);
      PickEach(blocks, f, values);
    }
    PickBetween(open, middle, close, f);
  }

  lemma PickThree<T>(a: Event, b: Event, c: Event, f: Event -> Option<T>)
    requires f(a).None? && f(b).Some? && f(c).None?
    ensures Pick([a, b, c], f) == [f(b).value]
  {
    assert [a, b, c][1..] == [b, c];
    assert [b, c][1..] == [c];
    assert [c][1..] == [];
    assert Pick([c], f) == [];
    assert Pick([b, c], f) == [f(b).value];
  }

  lemma CountOne<T>(x: T, e: T)
    ensures Count(x, [e]) == if x == e then 1 else 0
  {
    assert [e][1..] == [];
  }

  /** `n >= 1` blocks joined by `sep` hold `n - 1` separators when no block
      holds one. */
  lemma JoinSeparators(blocks: seq<seq<Event>>, sep: Event)
    requires |blocks| >= 1
    requires forall i :: 0 <= i < |blocks| ==> sep !in blocks[i]
    ensures Count(sep, Join(blocks, [sep])) == |blocks| - 1
  {
    CountOne(sep, sep);
    JoinCount(sep, blocks, [sep]);
    CountInZero(sep, blocks);
  }

  /** `open`, `n >= 1` blocks joined by `sep`, then `close` holds `n - 1`
      separators when nothing else is one. */
  lemma WrappedJoinCount(open: Event, blocks: seq<seq<Event>>, sep: Event, close: Event)
    requires |blocks| >= 1 && open != sep && close != sep
    requires forall i :: 0 <= i < |blocks| ==> sep !in blocks[i]
    ensures Count(sep, [open] + Join(blocks, [sep]) + [close]) == |blocks| - 1
  {
    var middle := Join(blocks, [sep]);
    CountOne(sep, open);
    CountOne(sep, close);
    JoinSeparators(blocks, sep);
    CountAppend(sep, [open], middle);
    CountAppend(sep, [open] + middle, [close]);
  }

  /** Every event of joined blocks is one of theirs or of the separator's. */
  lemma {:induction false} JoinEvents(blocks: seq<seq<Event>>, sep: seq<Event>, p: Event -> bool)
    requires forall e :: e in sep ==> p(e)
    requires forall i :: 0 <= i < |blocks| ==> forall e :: e in blocks[i] ==> p(e)
    ensures forall e :: e in Join(blocks, sep) ==> p(e)
  {
    if |blocks| > 1 {
      JoinEvents(blocks[1..], sep, p);
    }
  }

  lemma AroundEvents(open: Event, body: seq<Event>, close: Event, p: Event -> bool)
    requires p(open) && p(close) && forall e :: e in body ==> p(e)
    ensures forall e :: e in [open] + body + [close] ==> p(e)
  {
  }

  /** Mentions a state, so that the facts about every state apply to it:
      those facts hold for all states, but a proof only needs them for the
      states it names. */
  ghost predicate From<S>(s: S)
  {
    true
  }

  /** Replaying the events from any state comes back to it. */
  ghost predicate Balanced<S(!new)>(step: (S, Event) -> Option<S>, events: seq<Event>)
  {
    forall s {:trigger From(s)} :: Run(step, events, s) == Some(s)
  }

  /** `open`, then anything balanced, then `close` comes back to the state
      it started from. */
  ghost predicate Wraps<S(!new)>(step: (S, Event) -> Option<S>, open: seq<Event>, close: seq<Event>)
  {
    forall s {:trigger From(s)} :: Run(step, open, s).Some? && Run(step, close, Run(step, open, s).value) == Some(s)
  }

  lemma BalancedEmpty<S(!new)>(step: (S, Event) -> Option<S>)
    ensures Balanced(step, [])
  {
    forall s ensures Run(step, [], s) == Some(s) {
    }
  }

  lemma BalancedAppend<S(!new)>(step: (S, Event) -> Option<S>, a: seq<Event>, b: seq<Event>)
    requires Balanced(step, a) && Balanced(step, b)
    ensures Balanced(step, a + b)
  {
    forall s ensures Run(step, a + b, s) == Some(s) {
      assert From(s);
      RunAppend(step, a, b, s);
    }
  }

  lemma BalancedWrapped<S(!new)>(step: (S, Event) -> Option<S>, open: seq<Event>, body: seq<Event>, close: seq<Event>)
    requires Wraps(step, open, close) && Balanced(step, body)
    ensures Balanced(step, open + body + close)
  {
    forall s ensures Run(step, open + body + close, s) == Some(s) {
      assert From(s);
      assert From(Run(step, open, s).value);
      RunAppend(step, open, body, s);
      RunAppend(step, open + body, close, s);
    }
  }

  /** Balanced items joined by a balanced separator are balanced. */
  lemma {:induction false} BalancedJoin<S(!new)>(step: (S, Event) -> Option<S>, blocks: seq<seq<Event>>, sep: seq<Event>)
    requires Balanced(step, sep)
    requires forall i :: 0 <= i < |blocks| ==> Balanced(step, blocks[i])
    ensures Balanced(step, Join(blocks, sep))
  {
    if |blocks| == 0 {
      BalancedEmpty(step);
    } else if |blocks| > 1 {
      BalancedJoin(step, blocks[1..], sep);
      BalancedAppend(step, blocks[0], sep);
      BalancedAppend(step, blocks[0] + sep, Join(blocks[1..], sep));
    }
  }

  /** Balanced items concatenated are balanced. */
  lemma {:induction false} BalancedConcat<S(!new)>(step: (S, Event) -> Option<S>, blocks: seq<seq<Event>>)
    requires forall i :: 0 <= i < |blocks| ==> Balanced(step, blocks[i])
    ensures Balanced(step, Concat(blocks))
  {
    if |blocks| == 0 {
      BalancedEmpty(step);
    } else {
      BalancedConcat(step, blocks[1..]);
      BalancedAppend(step, blocks[0], Concat(blocks[1..]));
    }
  }

  /** `open + close` is balanced when `close` undoes `open`. */
  lemma BalancedBlock<S(!new)>(step: (S, Event) -> Option<S>, open: seq<Event>, close: seq<Event>)
    requires Wraps(step, open, close)
    ensures Balanced(step, open + close)
  {
    BalancedEmpty(step);
    BalancedWrapped(step, open, [], close);
    assert open + [] + close == open + close;
  }

  /** Balanced blocks joined by a balanced separator, between a matching
      `open` and `close`, are balanced. */
  lemma BalancedWrappedJoin<S(!new)>(step: (S, Event) -> Option<S>, open: Event, blocks: seq<seq<Event>>, sep: Event, close: Event)
    requires Wraps(step, [open], [close]) && Balanced(step, [sep])
    requires forall i :: 0 <= i < |blocks| ==> Balanced(step, blocks[i])
    ensures Balanced(step, [open] + Join(blocks, [sep]) + [close])
  {
    BalancedJoin(step, blocks, [sep]);
    BalancedWrapped(step, [open], Join(blocks, [sep]), [close]);
  }

  /* ---------------- which events a sequence holds ---------------- */

  /** A machine that refuses the events `p` holds of and ignores the rest. */
  function Avoid(p: Event -> bool): (bool, Event) -> Option<bool>
  {
    (s: bool, e: Event) => if p(e) then None else Some(s)
  }

  /** A sequence is balanced for `Avoid(p)` exactly when none of its events
      satisfies `p`: the balance lemmas, applied to this machine, say which
      events a writer can produce. */
  lemma {:induction false} AvoidBalanced(p: Event -> bool, events: seq<Event>)
    ensures Balanced(Avoid(p), events) <==> forall e :: e in events ==> !p(e)
    decreases |events|
  {
    if |events| == 0 {
      BalancedEmpty(Avoid(p));
    } else {
      AvoidBalanced(p, events[1..]);
      assert forall e :: e in events <==> e == events[0] || e in events[1..];
      if p(events[0]) {
        assert From(true);
        assert Run(Avoid(p), events, true).None?;
      } else {
        forall s ensures Run(Avoid(p), events, s) == Run(Avoid(p), events[1..], s) {
        }
        if Balanced(Avoid(p), events) {
          forall s ensures Run(Avoid(p), events[1..], s) == Some(s) {
            assert From(s);
          }
        }
        if Balanced(Avoid(p), events[1..]) {
          forall s ensures Run(Avoid(p), events, s) == Some(s) {
            assert From(s);
          }
        }
      }
    }
  }

  /** Events that `p` rejects wrap anything `p` rejects. */
  lemma AvoidWraps(p: Event -> bool, open: seq<Event>, close: seq<Event>)
    requires forall e :: e in open + close ==> !p(e)
    ensures Wraps(Avoid(p), open, close)
  {
    AvoidBalanced(p, open);
    AvoidBalanced(p, close);
    forall s ensures Run(Avoid(p), open, s).Some? && Run(Avoid(p), close, Run(Avoid(p), open, s).value) == Some(s) {
      assert From(s);
    }
  }

  /* ---------------- the pairs every writer relies on ---------------- */

  ghost predicate WrapsAssembly<S(!new)>(step: (S, Event) -> Option<S>, a: nat)
  {
    Wraps(step, [StartAssembly(a), AssemblyDefinition(a)], [EndAssembly(a)])
  }

  ghost predicate WrapsNamespace<S(!new)>(step: (S, Event) -> Option<S>, ns: Namespace)
  {
    Balanced(step, [StartNamespace(ns)]) && Wraps(step, [NamespaceDefinition(ns)], [EndNamespace(ns)])
  }

  ghost predicate WrapsType<S(!new)>(step: (S, Event) -> Option<S>, t: Option<nat>)
  {
    Wraps(step, [StartType(t), TypeDefinition(t)], [EndType(t)])
  }

  ghost predicate WrapsMember<S(!new)>(step: (S, Event) -> Option<S>, m: nat)
  {
    Wraps(step, [StartMember(m), MemberDefinition(m)], [EndMember(m)])
    && Wraps(step, [StartEnumMember(m), EnumMemberDefinition(m)], [EndEnumMember(m)])
  }

  ghost predicate WrapsAttribute<S(!new)>(step: (S, Event) -> Option<S>, a: nat, ofAssembly: bool)
  {
    Wraps(step, [StartAttribute(a, ofAssembly), AttributeDefinition(a)], [EndAttribute(a, ofAssembly)])
    && Wraps(step, [StartAttributes(ofAssembly)], [EndAttributes(ofAssembly)])
    && Balanced(step, [AttributeSeparator(ofAssembly)])
  }

  /** What the traversal needs of a machine: every Start call is undone by
      its End call (for a namespace, the definition by its End call), and
      the separators and `StartNamespace` leave the state alone. */
  ghost predicate Sound<S(!new)>(step: (S, Event) -> Option<S>)
  {
    && Wraps(step, [StartDocument], [EndDocument])
    && Wraps(step, [StartAssemblies], [EndAssemblies])
    && Wraps(step, [StartNamespaces], [EndNamespaces])
    && Wraps(step, [StartTypes], [EndTypes])
    && Wraps(step, [StartMembers], [EndMembers])
    && Wraps(step, [StartEnumMembers], [EndEnumMembers])
    && Balanced(step, [AssemblySeparator])
    && Balanced(step, [NamespaceSeparator])
    && Balanced(step, [TypeSeparator])
    && Balanced(step, [MemberSeparator])
    && Balanced(step, [EnumMemberSeparator])
    && (forall a :: WrapsAssembly(step, a))
    && (forall ns :: WrapsNamespace(step, ns))
    && (forall t :: WrapsType(step, t))
    && (forall m :: WrapsMember(step, m))
    && (forall a, b :: WrapsAttribute(step, a, b))
  }

  /* ---------------- the nesting of Start and End calls ---------------- */

  /** The pairs of calls that bracket a part of the output. */
  datatype Bracket =
    | DocumentBracket
    | AssembliesBracket
    | AssemblyBracket
    | NamespacesBracket
    | NamespaceBracket
    | TypesBracket
    | TypeBracket
    | MembersBracket
    | MemberBracket
    | EnumMembersBracket
    | EnumMemberBracket
    | AttributesBracket
    | AttributeBracket

  /** The bracket an event opens. A namespace is opened by its definition:
      the namespace-hierarchy layout never calls `WriteStartNamespace`. */
  function Opens(e: Event): Option<Bracket>
  {
    match e
    case StartDocument => Some(DocumentBracket)
    case StartAssemblies => Some(AssembliesBracket)
    case StartAssembly(_) => Some(AssemblyBracket)
    case StartNamespaces => Some(NamespacesBracket)
    case NamespaceDefinition(_) => Some(NamespaceBracket)
    case StartTypes => Some(TypesBracket)
    case StartType(_) => Some(TypeBracket)
    case StartMembers => Some(MembersBracket)
    case StartMember(_) => Some(MemberBracket)
    case StartEnumMembers => Some(EnumMembersBracket)
    case StartEnumMember(_) => Some(EnumMemberBracket)
    case StartAttributes(_) => Some(AttributesBracket)
    case StartAttribute(_, _) => Some(AttributeBracket)
    case _ => None
  }

  function Closes(e: Event): Option<Bracket>
  {
    match e
    case EndDocument => Some(DocumentBracket)
    case EndAssemblies => Some(AssembliesBracket)
    case EndAssembly(_) => Some(AssemblyBracket)
    case EndNamespaces => Some(NamespacesBracket)
    case EndNamespace(_) => Some(NamespaceBracket)
    case EndTypes => Some(TypesBracket)
    case EndType(_) => Some(TypeBracket)
    case EndMembers => Some(MembersBracket)
    case EndMember(_) => Some(MemberBracket)
    case EndEnumMembers => Some(EnumMembersBracket)
    case EndEnumMember(_) => Some(EnumMemberBracket)
    case EndAttributes(_) => Some(AttributesBracket)
    case EndAttribute(_, _) => Some(AttributeBracket)
    case _ => None
  }

  /** The stack of open brackets: an End call must close the bracket opened
      last. */
  function Nest(stack: seq<Bracket>, e: Event): (r: Option<seq<Bracket>>)
    ensures Opens(e).Some? ==> r == Some(stack + [Opens(e).value])
    ensures Closes(e).Some? ==> (r.Some? <==> |stack| > 0 && stack[|stack| - 1] == Closes(e).value)
    ensures Opens(e).None? && Closes(e).None? ==> r == Some(stack)
  {
    if Opens(e).Some? then Some(stack + [Opens(e).value])
    else if Closes(e).Some? then
      if |stack| > 0 && stack[|stack| - 1] == Closes(e).value then Some(stack[..|stack| - 1]) else None
    else Some(stack)
  }

  /** A call that neither opens nor closes leaves the stack alone. */
  lemma NestNeutral(e: Event)
    requires Opens(e).None? && Closes(e).None?
    ensures Balanced(Nest, [e])
  {
    forall s ensures Run(Nest, [e], s) == Some(s) {
      assert [e][1..] == [];
    }
  }

  /** A call, or a call followed by a neutral one, that opens a bracket is
      undone by the call that closes that bracket. */
  lemma NestWraps(open: seq<Event>, close: Event)
    requires 1 <= |open| <= 2 && Opens(open[0]).Some? && Closes(close) == Opens(open[0])
    requires |open| == 2 ==> Opens(open[1]).None? && Closes(open[1]).None?
    ensures Wraps(Nest, open, [close])
  {
    var b := Opens(open[0]).value;
    forall s ensures Run(Nest, open, s).Some? && Run(Nest, [close], Run(Nest, open, s).value) == Some(s) {
      assert Run(Nest, open, s) == Some(s + [b]) by {
        assert Nest(s, open[0]) == Some(s + [b]);
        if |open| == 2 {
          assert open[1..][1..] == [];
          assert Nest(s + [b], open[1]) == Some(s + [b]);
          assert Run(Nest, open[1..][1..], s + [b]) == Some(s + [b]);
          assert Run(Nest, open[1..], s + [b]) == Some(s + [b]);
        } else {
          assert open[1..] == [];
          assert Run(Nest, open[1..], s + [b]) == Some(s + [b]);
        }
      }
      assert (s + [b])[..|s|] == s;
      assert [close][1..] == [];
    }
  }

  lemma NestBlocksAreSound()
    ensures Wraps(Nest, [StartDocument], [EndDocument])
    ensures Wraps(Nest, [StartAssemblies], [EndAssemblies])
    ensures Wraps(Nest, [StartNamespaces], [EndNamespaces])
    ensures Wraps(Nest, [StartTypes], [EndTypes])
    ensures Wraps(Nest, [StartMembers], [EndMembers])
    ensures Wraps(Nest, [StartEnumMembers], [EndEnumMembers])
    ensures Balanced(Nest, [AssemblySeparator])
    ensures Balanced(Nest, [NamespaceSeparator])
    ensures Balanced(Nest, [TypeSeparator])
    ensures Balanced(Nest, [MemberSeparator])
    ensures Balanced(Nest, [EnumMemberSeparator])
  {
    NestWraps([StartDocument], EndDocument);
    NestWraps([StartAssemblies], EndAssemblies);
    NestWraps([StartNamespaces], EndNamespaces);
    NestWraps([StartTypes], EndTypes);
    NestWraps([StartMembers], EndMembers);
    NestWraps([StartEnumMembers], EndEnumMembers);
    NestNeutral(AssemblySeparator);
    NestNeutral(NamespaceSeparator);
    NestNeutral(TypeSeparator);
    NestNeutral(MemberSeparator);
    NestNeutral(EnumMemberSeparator);
  }

  lemma NestWrapsAssembly(a: nat)
    ensures WrapsAssembly(Nest, a)
  {
    NestWraps([StartAssembly(a), AssemblyDefinition(a)], EndAssembly(a));
  }

  lemma NestWrapsNamespace(ns: Namespace)
    ensures WrapsNamespace(Nest, ns)
  {
    NestNeutral(StartNamespace(ns));
    NestWraps([NamespaceDefinition(ns)], EndNamespace(ns));
  }

  lemma NestWrapsType(t: Option<nat>)
    ensures WrapsType(Nest, t)
  {
    NestWraps([StartType(t), TypeDefinition(t)], EndType(t));
  }

  lemma NestWrapsMember(m: nat)
    ensures WrapsMember(Nest, m)
  {
    NestWraps([StartMember(m), MemberDefinition(m)], EndMember(m));
    NestWraps([StartEnumMember(m), EnumMemberDefinition(m)], EndEnumMember(m));
  }

  lemma NestWrapsAttribute(a: nat, ofAssembly: bool)
    ensures WrapsAttribute(Nest, a, ofAssembly)
  {
    NestWraps([StartAttribute(a, ofAssembly), AttributeDefinition(a)], EndAttribute(a, ofAssembly));
    NestWraps([StartAttributes(ofAssembly)], EndAttributes(ofAssembly));
    NestNeutral(AttributeSeparator(ofAssembly));
  }

  lemma NestSymbolsAreSound()
    ensures forall a :: WrapsAssembly(Nest, a)
    ensures forall ns :: WrapsNamespace(Nest, ns)
    ensures forall t :: WrapsType(Nest, t)
    ensures forall m :: WrapsMember(Nest, m)
    ensures forall a, b :: WrapsAttribute(Nest, a, b)
  {
    forall a ensures WrapsAssembly(Nest, a) { NestWrapsAssembly(a); }
    forall ns ensures WrapsNamespace(Nest, ns) { NestWrapsNamespace(ns); }
    forall t ensures WrapsType(Nest, t) { NestWrapsType(t); }
    forall m ensures WrapsMember(Nest, m) { NestWrapsMember(m); }
    forall a, b ensures WrapsAttribute(Nest, a, b) { NestWrapsAttribute(a, b); }
  }

  /** Every Start call is closed by its own End call, in nesting order. */
  lemma NestIsSound()
    ensures Sound(Nest)
  {
    NestBlocksAreSound();
    NestSymbolsAreSound();
  }
}

=== FILE: writer_types.dfy ===
/**
 The symbols a definition listing walks (assemblies, types, members,
 attributes), the writer's settings, and the part of the traversal that
 lists one type: its attributes, its members or enum fields, and its nested
 types.
 */
module WriterTypes {
  import opened Wrappers
  import opened Sequences
  import opened WriterEvents
  import Symbols
  import ListFormat

  /** An attribute on a symbol: the identity of its class, the class's place
      in the comparer's order and whether the filter shows that class. */
  datatype Attribute = Attribute(id: nat, rank: int, visible: bool)

  /** A member of a type, with the filter's verdict on it (`visible`), its
      declared accessibility and its declaration kind (the grouping the
      "empty line between member groups" option looks at). */
  datatype Member = Member(
    id: nat,
    kind: Symbols.SymbolKind,
    declarationKind: nat,
    isPublic: bool,
    visible: bool,
    rank: int)

  /** A named type. `id` is its index in the type graph the type hierarchy
      is built from; `nested` are its own type members. */
  datatype TypeDef = TypeDef(
    id: nat,
    namespace: Namespace,
    kind: Symbols.TypeKind,
    rank: int,
    visible: bool,
    members: seq<Member>,
    nested: seq<TypeDef>)

  /** An assembly: its name's and version's place in the ordering of
      assemblies, its attributes and its top-level types. */
  datatype AssemblyDef = AssemblyDef(
    id: nat,
    nameRank: int,
    version: int,
    attributes: seq<Attribute>,
    types: seq<TypeDef>)

  /** The settings of the abstract writer: the list format, the two
      grouping options it reads from the format, the filter's symbol
      groups, and the filter's and the comparer's view of namespaces. */
  datatype Writer = Writer(
    format: ListFormat.DefinitionListFormat,
    groupByAssembly: bool,
    emptyLineBetweenMemberGroups: bool,
    symbolGroups: set<Symbols.SymbolGroup>,
    namespaceVisible: Namespace -> bool,
    namespaceRank: Namespace -> int)
  {
    /** `(Filter.SymbolGroups & SymbolGroupFilter.Type) != 0`. */
    predicate ShowsTypes()
    {
      symbolGroups * Symbols.TypeGroups != {}
    }

    /** `(Filter.SymbolGroups & SymbolGroupFilter.Member) != 0`. */
    predicate ShowsMembers()
    {
      symbolGroups * Symbols.MemberGroups != {}
    }
  }

  /* ---------------- attributes ---------------- */

  function ByAttributeRank(): (Attribute, Attribute) -> bool
  {
    (a: Attribute, b: Attribute) => a.rank <= b.rank
  }

  /** The attributes the filter shows, in the comparer's order of their
      classes. */
  function ShownAttributes(attributes: seq<Attribute>): (r: seq<Attribute>)
    ensures SortedBy(r, ByAttributeRank())
  {
    Sort(Filter(attributes, (a: Attribute) => a.visible), ByAttributeRank())
  }

  /** The shown attributes are the visible ones, each as often as it is
      given. */
  lemma ShownAttributesAreVisible(attributes: seq<Attribute>)
    ensures forall a :: a in ShownAttributes(attributes) <==> a in attributes && a.visible
    ensures |ShownAttributes(attributes)| == |Filter(attributes, (a: Attribute) => a.visible)|
  {
    var shown := Filter(attributes, (a: Attribute) => a.visible);
    var r := ShownAttributes(attributes);
    forall a ensures a in r <==> a in shown {
      assert a in r <==> a in multiset(r);
      assert a in shown <==> a in multiset(shown);
    }
  }

  function AttributeBlock(a: Attribute, ofAssembly: bool): seq<Event>
  {
    [StartAttribute(a.id, ofAssembly), AttributeDefinition(a.id), EndAttribute(a.id, ofAssembly)]
  }

  /** `WriteAttributes`: nothing when no attribute is shown; otherwise the
      shown attributes between `StartAttributes` and `EndAttributes`,
      separated by `AttributeSeparator`. */
  function WriteAttributes(attributes: seq<Attribute>, ofAssembly: bool): seq<Event>
  {
    var shown := ShownAttributes(attributes);
    if |shown| == 0 then []
    else
      [StartAttributes(ofAssembly)]
      + Join(AttributeBlocks(shown, ofAssembly), [AttributeSeparator(ofAssembly)])
      + [EndAttributes(ofAssembly)]
  }

  function AttributeShown(e: Event): Option<nat>
  {
    if e.AttributeDefinition? then Some(e.attribute) else None
  }

  function AttributeIds(attributes: seq<Attribute>): (r: seq<nat>)
    ensures |r| == |attributes| && forall i :: 0 <= i < |r| ==> r[i] == attributes[i].id
  {
    seq(|attributes|, i requires 0 <= i < |attributes| => attributes[i].id)
  }

  /** The blocks `WriteAttributes` joins, one per shown attribute. */
  function AttributeBlocks(shown: seq<Attribute>, ofAssembly: bool): (r: seq<seq<Event>>)
    ensures |r| == |shown|
    ensures forall i :: 0 <= i < |r| ==> r[i] == AttributeBlock(shown[i], ofAssembly)
  {
    seq(|shown|, i requires 0 <= i < |shown| => AttributeBlock(shown[i], ofAssembly))
  }

  /** The definitions written are exactly the shown attributes, in order. */
  lemma WriteAttributesShowsEach(attributes: seq<Attribute>, ofAssembly: bool)
    ensures Pick(WriteAttributes(attributes, ofAssembly), AttributeShown) == AttributeIds(ShownAttributes(attributes))
  {
    var shown := ShownAttributes(attributes);
    if |shown| > 0 {
      var blocks := AttributeBlocks(shown, ofAssembly);
      assert WriteAttributes(attributes, ofAssembly)
        == [StartAttributes(ofAssembly)] + Join(blocks, [AttributeSeparator(ofAssembly)]) + [EndAttributes(ofAssembly)];
      forall i | 0 <= i < |blocks| ensures Pick(blocks[i], AttributeShown) == [shown[i].id] {
        PickThree(StartAttribute(shown[i].id, ofAssembly), AttributeDefinition(shown[i].id), EndAttribute(shown[i].id, ofAssembly), AttributeShown);
      }
      WrappedJoinPicks(StartAttributes(ofAssembly), blocks, AttributeSeparator(ofAssembly), EndAttributes(ofAssembly), AttributeShown, AttributeIds(shown));
    }
  }

  /** One separator stands between each two shown attributes. */
  lemma WriteAttributesSeparators(attributes: seq<Attribute>, ofAssembly: bool)
    ensures var n := |ShownAttributes(attributes)|;
      Count(AttributeSeparator(ofAssembly), WriteAttributes(attributes, ofAssembly)) == if n == 0 then 0 else n - 1
  {
    var shown := ShownAttributes(attributes);
    if |shown| > 0 {
      var blocks := AttributeBlocks(shown, ofAssembly);
      assert WriteAttributes(attributes, ofAssembly)
        == [StartAttributes(ofAssembly)] + Join(blocks, [AttributeSeparator(ofAssembly)]) + [EndAttributes(ofAssembly)];
      AttributeListSeparators(shown, ofAssembly);
    }
  }

  lemma AttributeListSeparators(shown: seq<Attribute>, ofAssembly: bool)
    requires |shown| > 0
    ensures var blocks := AttributeBlocks(shown, ofAssembly);
      Count(AttributeSeparator(ofAssembly), [StartAttributes(ofAssembly)] + Join(blocks, [AttributeSeparator(ofAssembly)]) + [EndAttributes(ofAssembly)])
      == |shown| - 1
  {
    var blocks := AttributeBlocks(shown, ofAssembly);
    forall i | 0 <= i < |blocks| ensures AttributeSeparator(ofAssembly) !in blocks[i] {
      assert blocks[i] == AttributeBlock(shown[i], ofAssembly);
    }
    WrappedJoinCount(StartAttributes(ofAssembly), blocks, AttributeSeparator(ofAssembly), EndAttributes(ofAssembly));
  }

  lemma WriteAttributesBalanced<S(!new)>(step: (S, Event) -> Option<S>, attributes: seq<Attribute>, ofAssembly: bool)
    requires Sound(step)
    ensures Balanced(step, WriteAttributes(attributes, ofAssembly))
  {
    var shown := ShownAttributes(attributes);
    if |shown| == 0 {
      BalancedEmpty(step);
    } else {
      var blocks := AttributeBlocks(shown, ofAssembly);
      forall i | 0 <= i < |blocks| ensures Balanced(step, blocks[i]) {
        AttributeBlockBalanced(step, shown[i], ofAssembly);
      }
      assert WrapsAttribute(step, 0, ofAssembly);
      BalancedWrappedJoin(step, StartAttributes(ofAssembly), blocks, AttributeSeparator(ofAssembly), EndAttributes(ofAssembly));
    }
  }

  lemma AttributeBlockBalanced<S(!new)>(step: (S, Event) -> Option<S>, a: Attribute, ofAssembly: bool)
    requires WrapsAttribute(step, a.id, ofAssembly)
    ensures Balanced(step, AttributeBlock(a, ofAssembly))
  {
    var open := [StartAttribute(a.id, ofAssembly), AttributeDefinition(a.id)];
    var close := [EndAttribute(a.id, ofAssembly)];
    BalancedBlock(step, open, close);
    assert open + close == AttributeBlock(a, ofAssembly);
  }

  /* ---------------- members ---------------- */

  function ByMemberRank(): (Member, Member) -> bool
  {
    (a: Member, b: Member) => a.rank <= b.rank
  }

  /** The members the filter shows, in the comparer's order. */
  function ShownMembers(t: TypeDef): (r: seq<Member>)
    ensures forall m :: m in r <==> m in t.members && m.visible
    ensures SortedBy(r, ByMemberRank())
  {
    var shown := Filter(t.members, (m: Member) => m.visible);
    var r := Sort(shown, ByMemberRank());
    forall m ensures m in r <==> m in shown {
      assert m in r <==> m in multiset(r);
      assert m in shown <==> m in multiset(shown);
    }
    r
  }

  /** An empty line separates member `a` from the member `b` after it when
      every member is set apart, or when member groups are and the two are
      of different declaration kinds. */
  predicate SeparatesMembers(w: Writer, a: Member, b: Member)
  {
    w.format.emptyLineBetweenMembers || (w.emptyLineBetweenMemberGroups && a.declarationKind != b.declarationKind)
  }

  function MemberBlock(m: Member): seq<Event>
  {
    [StartMember(m.id), MemberDefinition(m.id), EndMember(m.id)]
  }

  /** The member loop: each member, then a separator when the member after
      it is set apart from it. */
  function MemberLoop(w: Writer, ms: seq<Member>): seq<Event>
    decreases |ms|
  {
    if |ms| == 0 then []
    else
      MemberBlock(ms[0])
      + (if |ms| > 1 && SeparatesMembers(w, ms[0], ms[1]) then [MemberSeparator] else [])
      + MemberLoop(w, ms[1..])
  }

  /** `WriteMembers` of a class, struct or interface: nothing when no member
      is shown, otherwise the loop between `StartMembers` and `EndMembers`. */
  function WriteMembersOf(w: Writer, t: TypeDef): seq<Event>
  {
    var ms := ShownMembers(t);
    if |ms| == 0 then [] else [StartMembers] + MemberLoop(w, ms) + [EndMembers]
  }

  /** The events that belong to member `i` of the loop: the member and the
      separator between it and the next one, if any. */
  function MemberChunk(w: Writer, ms: seq<Member>, i: nat): seq<Event>
    requires i < |ms|
  {
    MemberBlock(ms[i]) + (if i + 1 < |ms| && SeparatesMembers(w, ms[i], ms[i + 1]) then [MemberSeparator] else [])
  }

  function MemberChunks(w: Writer, ms: seq<Member>): (r: seq<seq<Event>>)
    ensures |r| == |ms| && forall i :: 0 <= i < |ms| ==> r[i] == MemberChunk(w, ms, i)
  {
    seq(|ms|, i requires 0 <= i < |ms| => MemberChunk(w, ms, i))
  }

  /** The loop is the members' chunks one after the other: a separator
      stands between members `i` and `i + 1` exactly when the second is set
      apart from the first. */
  lemma {:induction false} MemberLoopChunks(w: Writer, ms: seq<Member>)
    ensures MemberLoop(w, ms) == Concat(MemberChunks(w, ms))
    decreases |ms|
  {
    if |ms| > 0 {
      MemberLoopChunks(w, ms[1..]);
      var chunks := MemberChunks(w, ms);
      assert chunks[1..] == MemberChunks(w, ms[1..]) by {
        forall i | 0 <= i < |ms| - 1 ensures chunks[1..][i] == MemberChunks(w, ms[1..])[i] {
          assert ms[1..][i] == ms[i + 1];
          if i + 1 < |ms| - 1 {
            assert ms[1..][i + 1] == ms[i + 2];
          }
        }
      }
    }
  }

  function MemberShown(e: Event): Option<nat>
  {
    if e.MemberDefinition? then Some(e.member) else None
  }

  function MemberIds(ms: seq<Member>): (r: seq<nat>)
    ensures |r| == |ms| && forall i :: 0 <= i < |r| ==> r[i] == ms[i].id
  {
    seq(|ms|, i requires 0 <= i < |ms| => ms[i].id)
  }

  /** The loop writes the definitions of the members, in order. */
  lemma {:induction false} MemberLoopShowsEach(w: Writer, ms: seq<Member>)
    ensures Pick(MemberLoop(w, ms), MemberShown) == MemberIds(ms)
    decreases |ms|
  {
    if |ms| > 0 {
      MemberLoopShowsEach(w, ms[1..]);
      var sep := if |ms| > 1 && SeparatesMembers(w, ms[0], ms[1]) then [MemberSeparator] else [];
      MemberStepShows(ms[0], sep, MemberLoop(w, ms[1..]));
      MemberIdsCons(ms);
    }
  }

  /** One member and what follows it show the member, then what follows. */
  lemma MemberStepShows(m: Member, sep: seq<Event>, rest: seq<Event>)
    requires sep == [] || sep == [MemberSeparator]
    ensures Pick(MemberBlock(m) + sep + rest, MemberShown) == [m.id] + Pick(rest, MemberShown)
  {
    PickThree(StartMember(m.id), MemberDefinition(m.id), EndMember(m.id), MemberShown);
    assert Pick(sep, MemberShown) == [] by {
      if sep != [] {
        PickOne(MemberSeparator, MemberShown);
      }
    }
    PickAppend(MemberBlock(m), sep, MemberShown);
    PickAppend(MemberBlock(m) + sep, rest, MemberShown);
  }

  lemma MemberIdsCons(ms: seq<Member>)
    requires |ms| > 0
    ensures MemberIds(ms) == [ms[0].id] + MemberIds(ms[1..])
  {
    assert forall i :: 0 <= i < |ms| - 1 ==> ms[1..][i] == ms[i + 1];
  }

  /** With an empty line between all members there is a separator between
      each two; with neither option there is none. */
  lemma {:induction false} MemberLoopSeparators(w: Writer, ms: seq<Member>)
    ensures w.format.emptyLineBetweenMembers && |ms| > 0 ==> Count(MemberSeparator, MemberLoop(w, ms)) == |ms| - 1
    ensures !w.format.emptyLineBetweenMembers && !w.emptyLineBetweenMemberGroups ==> Count(MemberSeparator, MemberLoop(w, ms)) == 0
    decreases |ms|
  {
    if |ms| > 0 {
      MemberLoopSeparators(w, ms[1..]);
      var sep := if |ms| > 1 && SeparatesMembers(w, ms[0], ms[1]) then [MemberSeparator] else [];
      assert Count(MemberSeparator, MemberBlock(ms[0])) == 0 by {
        CountAbsent(MemberSeparator, MemberBlock(ms[0]));
      }
      CountAppend(MemberSeparator, MemberBlock(ms[0]), sep);
      CountAppend(MemberSeparator, MemberBlock(ms[0]) + sep, MemberLoop(w, ms[1..]));
      if |sep| == 1 {
        CountOne(MemberSeparator, MemberSeparator);
      }
    }
  }

  lemma {:induction false} MemberLoopBalanced<S(!new)>(step: (S, Event) -> Option<S>, w: Writer, ms: seq<Member>)
    requires Sound(step)
    ensures Balanced(step, MemberLoop(w, ms))
    decreases |ms|
  {
    if |ms| == 0 {
      BalancedEmpty(step);
    } else {
      MemberLoopBalanced(step, w, ms[1..]);
      MemberBlockBalanced(step, ms[0]);
      var sep := if |ms| > 1 && SeparatesMembers(w, ms[0], ms[1]) then [MemberSeparator] else [];
      assert Balanced(step, sep) by {
        if |sep| == 0 {
          BalancedEmpty(step);
        }
      }
      BalancedAppend(step, MemberBlock(ms[0]), sep);
      BalancedAppend(step, MemberBlock(ms[0]) + sep, MemberLoop(w, ms[1..]));
    }
  }

  lemma MemberBlockBalanced<S(!new)>(step: (S, Event) -> Option<S>, m: Member)
    requires WrapsMember(step, m.id)
    ensures Balanced(step, MemberBlock(m))
  {
    var open := [StartMember(m.id), MemberDefinition(m.id)];
    var close := [EndMember(m.id)];
    BalancedBlock(step, open, close);
    assert open + close == MemberBlock(m);
  }

  /* ---------------- enum members ---------------- */

  /** The constituents of an enum: its public fields, in declaration order. */
  function EnumFields(t: TypeDef): (r: seq<Member>)
    ensures forall m :: m in r <==> m in t.members && m.kind == Symbols.SymbolKind.Field && m.isPublic
  {
    Filter(t.members, (m: Member) => m.kind == Symbols.SymbolKind.Field && m.isPublic)
  }

  function EnumMemberBlock(m: Member): seq<Event>
  {
    [StartEnumMember(m.id), EnumMemberDefinition(m.id), EndEnumMember(m.id)]
  }

  function EnumMemberBlocks(fields: seq<Member>): (r: seq<seq<Event>>)
    ensures |r| == |fields| && forall i :: 0 <= i < |r| ==> r[i] == EnumMemberBlock(fields[i])
  {
    seq(|fields|, i requires 0 <= i < |fields| => EnumMemberBlock(fields[i]))
  }

  /** `WriteEnumMembers`: nothing for an enum without public fields,
      otherwise the fields between `StartEnumMembers` and `EndEnumMembers`,
      separated by `EnumMemberSeparator`. */
  function WriteEnumMembers(t: TypeDef): seq<Event>
  {
    var fields := EnumFields(t);
    if |fields| == 0 then []
    else [StartEnumMembers] + Join(EnumMemberBlocks(fields), [EnumMemberSeparator]) + [EndEnumMembers]
  }

  function EnumMemberShown(e: Event): Option<nat>
  {
    if e.EnumMemberDefinition? then Some(e.member) else None
  }

  /** The enum's public fields are written in declaration order. */
  lemma WriteEnumMembersShowsEach(t: TypeDef)
    ensures Pick(WriteEnumMembers(t), EnumMemberShown) == MemberIds(EnumFields(t))
  {
    var fields := EnumFields(t);
    if |fields| > 0 {
      var blocks := EnumMemberBlocks(fields);
      assert WriteEnumMembers(t) == [StartEnumMembers] + Join(blocks, [EnumMemberSeparator]) + [EndEnumMembers];
      forall i | 0 <= i < |blocks| ensures Pick(blocks[i], EnumMemberShown) == [fields[i].id] {
        PickThree(StartEnumMember(fields[i].id), EnumMemberDefinition(fields[i].id), EndEnumMember(fields[i].id), EnumMemberShown);
      }
      WrappedJoinPicks(StartEnumMembers, blocks, EnumMemberSeparator, EndEnumMembers, EnumMemberShown, MemberIds(fields));
    }
  }

  /** One separator stands between each two public fields. */
  lemma WriteEnumMembersSeparators(t: TypeDef)
    ensures |EnumFields(t)| > 0 ==> Count(EnumMemberSeparator, WriteEnumMembers(t)) == |EnumFields(t)| - 1
  {
    var fields := EnumFields(t);
    if |fields| > 0 {
      var blocks := EnumMemberBlocks(fields);
      assert WriteEnumMembers(t) == [StartEnumMembers] + Join(blocks, [EnumMemberSeparator]) + [EndEnumMembers];
      EnumListSeparators(fields);
    }
  }

  lemma EnumListSeparators(fields: seq<Member>)
    requires |fields| > 0
    ensures Count(EnumMemberSeparator, [StartEnumMembers] + Join(EnumMemberBlocks(fields), [EnumMemberSeparator]) + [EndEnumMembers])
      == |fields| - 1
  {
    var blocks := EnumMemberBlocks(fields);
    forall i | 0 <= i < |blocks| ensures EnumMemberSeparator !in blocks[i] {
      assert blocks[i] == EnumMemberBlock(fields[i]);
    }
    WrappedJoinCount(StartEnumMembers, blocks, EnumMemberSeparator, EndEnumMembers);
  }

  /** Members declared in two runs keep the order of the runs: the public
      fields of the first run are listed before those of the second. */
  lemma EnumFieldsKeepDeclarationOrder(t: TypeDef, a: seq<Member>, b: seq<Member>)
    requires t.members == a + b
    ensures EnumFields(t) == EnumFields(t.(members := a)) + EnumFields(t.(members := b))
  {
    FilterAppend(a, b, (m: Member) => m.kind == Symbols.SymbolKind.Field && m.isPublic);
  }

  lemma WriteEnumMembersBalanced<S(!new)>(step: (S, Event) -> Option<S>, t: TypeDef)
    requires Sound(step)
    ensures Balanced(step, WriteEnumMembers(t))
  {
    var fields := EnumFields(t);
    if |fields| == 0 {
      BalancedEmpty(step);
    } else {
      var blocks := EnumMemberBlocks(fields);
      forall i | 0 <= i < |blocks| ensures Balanced(step, blocks[i]) {
        EnumMemberBlockBalanced(step, fields[i]);
      }
      BalancedWrappedJoin(step, StartEnumMembers, blocks, EnumMemberSeparator, EndEnumMembers);
    }
  }

  lemma EnumMemberBlockBalanced<S(!new)>(step: (S, Event) -> Option<S>, m: Member)
    requires WrapsMember(step, m.id)
    ensures Balanced(step, EnumMemberBlock(m))
  {
    var open := [StartEnumMember(m.id), EnumMemberDefinition(m.id)];
    var close := [EndEnumMember(m.id)];
    BalancedBlock(step, open, close);
    assert open + close == EnumMemberBlock(m);
  }

  lemma WriteMembersBalanced<S(!new)>(step: (S, Event) -> Option<S>, w: Writer, t: TypeDef)
    requires Sound(step)
    ensures Balanced(step, WriteMembersOf(w, t))
  {
    var ms := ShownMembers(t);
    if |ms| == 0 {
      BalancedEmpty(step);
    } else {
      MemberLoopBalanced(step, w, ms);
      BalancedWrapped(step, [StartMembers], MemberLoop(w, ms), [EndMembers]);
    }
  }

  /* ---------------- types ---------------- */

  /** The positions of the types to list, in the comparer's order: all of
      them, or (for nested types) the ones the filter shows. */
  function TypeOrder(types: seq<TypeDef>, visibleOnly: bool): (r: seq<nat>)
    ensures forall k :: 0 <= k < |r| ==> r[k] < |types|
    ensures forall i :: 0 <= i < |types| ==> (i in r <==> !visibleOnly || types[i].visible)
    ensures Distinct(r)
    ensures forall k, l :: 0 <= k < l < |r| ==> types[r[k]].rank <= types[r[l]].rank
  {
    SortedPositions(types, (t: TypeDef) => !visibleOnly || t.visible, (t: TypeDef) => t.rank)
  }

  /** `WriteStartType`, `WriteType`, the type's contents, `WriteEndType`. */
  function TypeBlock(w: Writer, t: TypeDef): seq<Event>
    decreases t, 2
  {
    [StartType(Some(t.id)), TypeDefinition(Some(t.id))] + TypeContents(w, t) + [EndType(Some(t.id))]
  }

  /** `WriteMembers(type)`: members (or enum fields) when the member group
      is shown, and for a class, struct or interface outside the type
      hierarchy its visible nested types when the type group is. A delegate
      has no contents. */
  function TypeContents(w: Writer, t: TypeDef): seq<Event>
    decreases t, 1
  {
    match t.kind
    case Class | Interface | Struct => MembersPart(w, t) + NestedPart(w, t)
    case Enum => if w.ShowsMembers() then WriteEnumMembers(t) else []
    case _ => []
  }

  function MembersPart(w: Writer, t: TypeDef): seq<Event>
  {
    if w.ShowsMembers() then WriteMembersOf(w, t) else []
  }

  function NestedPart(w: Writer, t: TypeDef): seq<Event>
    decreases t, 0
  {
    if w.format.layout != ListFormat.TypeHierarchy && w.ShowsTypes()
    then TypeList(w, t.nested, TypeOrder(t.nested, true)) else []
  }

  /** `WriteTypes`: nothing for no types, otherwise the types in `order`
      between `StartTypes` and `EndTypes`, separated by `TypeSeparator`. */
  function TypeList(w: Writer, types: seq<TypeDef>, order: seq<nat>): seq<Event>
    requires forall k :: 0 <= k < |order| ==> order[k] < |types|
    decreases types, 1
  {
    if |order| == 0 then []
    else [StartTypes] + Join(TypeBlocks(w, types, order), [TypeSeparator]) + [EndTypes]
  }

  function TypeBlocks(w: Writer, types: seq<TypeDef>, order: seq<nat>): (r: seq<seq<Event>>)
    requires forall k :: 0 <= k < |order| ==> order[k] < |types|
    ensures |r| == |order|
    ensures forall k :: 0 <= k < |order| ==> r[k] == TypeBlock(w, types[order[k]])
    decreases types, 0
  {
    seq(|order|, k requires 0 <= k < |order| => TypeBlock(w, types[order[k]]))
  }

  function TypeShown(e: Event): Option<nat>
  {
    if e.TypeDefinition? && e.typeId.Some? then Some(e.typeId.value) else None
  }

  /** The events of a type's members and enum fields. */
  predicate MemberEvent(e: Event)
  {
    e.StartMembers? || e.StartMember? || e.MemberDefinition? || e.EndMember? || e.MemberSeparator? || e.EndMembers?
    || e.StartEnumMembers? || e.StartEnumMember? || e.EnumMemberDefinition? || e.EndEnumMember?
    || e.EnumMemberSeparator? || e.EndEnumMembers?
  }

  /** Under the type-hierarchy layout a type's contents are its members
      alone: the hierarchy itself places the other types. */
  lemma HierarchyContentsHoldNoType(w: Writer, t: TypeDef)
    requires w.format.layout == ListFormat.TypeHierarchy
    ensures forall e :: e in TypeContents(w, t) ==> MemberEvent(e)
  {
    WriteMembersEvents(w, t);
    WriteEnumMembersEvents(t);
  }

  lemma WriteMembersEvents(w: Writer, t: TypeDef)
    ensures forall e :: e in WriteMembersOf(w, t) ==> MemberEvent(e)
  {
    MemberLoopEvents(w, ShownMembers(t));
  }

  lemma WriteEnumMembersEvents(t: TypeDef)
    ensures forall e :: e in WriteEnumMembers(t) ==> MemberEvent(e)
  {
    var fields := EnumFields(t);
    if |fields| > 0 {
      JoinEvents(EnumMemberBlocks(fields), [EnumMemberSeparator], MemberEvent);
    }
  }

  lemma {:induction false} MemberLoopEvents(w: Writer, ms: seq<Member>)
    ensures forall e :: e in MemberLoop(w, ms) ==> MemberEvent(e)
    decreases |ms|
  {
    if |ms| > 0 {
      MemberLoopEvents(w, ms[1..]);
    }
  }

  /** The visible nested types are listed in the comparer's order, and each
      is listed once. */
  lemma NestedTypesShown(w: Writer, t: TypeDef)
    requires t.kind.Class? || t.kind.Interface? || t.kind.Struct?
    requires w.format.layout != ListFormat.TypeHierarchy && w.ShowsTypes()
    ensures var order := TypeOrder(t.nested, true);
      TypeList(w, t.nested, order) == [] <==> (forall i :: 0 <= i < |t.nested| ==> !t.nested[i].visible)
  {
    var order := TypeOrder(t.nested, true);
    if exists i :: 0 <= i < |t.nested| && t.nested[i].visible {
      var i :| 0 <= i < |t.nested| && t.nested[i].visible;
      assert i in order;
    }
  }

  lemma {:induction false} TypeBlockBalanced<S(!new)>(step: (S, Event) -> Option<S>, w: Writer, t: TypeDef)
    requires Sound(step)
    ensures Balanced(step, TypeBlock(w, t))
    decreases t, 2
  {
    TypeContentsBalanced(step, w, t);
    assert WrapsType(step, Some(t.id));
    BalancedWrapped(step, [StartType(Some(t.id)), TypeDefinition(Some(t.id))], TypeContents(w, t), [EndType(Some(t.id))]);
  }

  lemma {:induction false} TypeContentsBalanced<S(!new)>(step: (S, Event) -> Option<S>, w: Writer, t: TypeDef)
    requires Sound(step)
    ensures Balanced(step, TypeContents(w, t))
    decreases t, 1
  {
    if t.kind.Class? || t.kind.Interface? || t.kind.Struct? {
      MembersPartBalanced(step, w, t);
      NestedPartBalanced(step, w, t);
      BalancedAppend(step, MembersPart(w, t), NestedPart(w, t));
      assert TypeContents(w, t) == MembersPart(w, t) + NestedPart(w, t);
    } else if t.kind.Enum? && w.ShowsMembers() {
      WriteEnumMembersBalanced(step, t);
      assert TypeContents(w, t) == WriteEnumMembers(t);
    } else {
      BalancedEmpty(step);
      assert TypeContents(w, t) == [];
    }
  }

  lemma MembersPartBalanced<S(!new)>(step: (S, Event) -> Option<S>, w: Writer, t: TypeDef)
    requires Sound(step)
    ensures Balanced(step, MembersPart(w, t))
  {
    if w.ShowsMembers() {
      WriteMembersBalanced(step, w, t);
    } else {
      BalancedEmpty(step);
    }
  }

  lemma {:induction false} NestedPartBalanced<S(!new)>(step: (S, Event) -> Option<S>, w: Writer, t: TypeDef)
    requires Sound(step)
    ensures Balanced(step, NestedPart(w, t))
    decreases t, 0
  {
    if w.format.layout != ListFormat.TypeHierarchy && w.ShowsTypes() {
      TypeListBalanced(step, w, t.nested, TypeOrder(t.nested, true));
    } else {
      BalancedEmpty(step);
    }
  }

  lemma {:induction false} TypeListBalanced<S(!new)>(step: (S, Event) -> Option<S>, w: Writer, types: seq<TypeDef>, order: seq<nat>)
    requires Sound(step)
    requires forall k :: 0 <= k < |order| ==> order[k] < |types|
    ensures Balanced(step, TypeList(w, types, order))
    decreases types, 1
  {
    if |order| == 0 {
      BalancedEmpty(step);
    } else {
      var blocks := TypeBlocks(w, types, order);
      forall k | 0 <= k < |blocks| ensures Balanced(step, blocks[k]) {
        TypeBlockBalanced(step, w, types[order[k]]);
      }
      BalancedWrappedJoin(step, StartTypes, blocks, TypeSeparator, EndTypes);
    }
  }

  /** `WriteTypes(types)` for the types of one namespace: all of them, in
      the comparer's order. */
  function WriteTypes(w: Writer, types: seq<TypeDef>): seq<Event>
  {
    TypeList(w, types, TypeOrder(types, false))
  }

  lemma WriteTypesBalanced<S(!new)>(step: (S, Event) -> Option<S>, w: Writer, types: seq<TypeDef>)
    requires Sound(step)
    ensures Balanced(step, WriteTypes(w, types))
  {
    TypeListBalanced(step, w, types, TypeOrder(types, false));
  }

  /** The events of a type listing: types and their members. */
  predicate TypeEvent(e: Event)
  {
    e.StartTypes? || e.EndTypes? || e.StartType? || e.TypeDefinition? || e.EndType? || e.TypeSeparator?
    || MemberEvent(e)
  }

  /** A type listing holds nothing but types and members: no namespace,
      assembly or attribute event. */
  lemma {:induction false} TypeBlockEvents(w: Writer, t: TypeDef)
    ensures forall e :: e in TypeBlock(w, t) ==> TypeEvent(e)
    decreases t, 2
  {
    TypeContentsEvents(w, t);
  }

  lemma {:induction false} TypeContentsEvents(w: Writer, t: TypeDef)
    ensures forall e :: e in TypeContents(w, t) ==> TypeEvent(e)
    decreases t, 1
  {
    if t.kind.Class? || t.kind.Interface? || t.kind.Struct? {
      if w.ShowsMembers() {
        WriteMembersEvents(w, t);
      }
      NestedPartEvents(w, t);
      assert TypeContents(w, t) == MembersPart(w, t) + NestedPart(w, t);
    } else if t.kind.Enum? && w.ShowsMembers() {
      WriteEnumMembersEvents(t);
      assert TypeContents(w, t) == WriteEnumMembers(t);
    } else {
      assert TypeContents(w, t) == [];
    }
  }

  lemma {:induction false} NestedPartEvents(w: Writer, t: TypeDef)
    ensures forall e :: e in NestedPart(w, t) ==> TypeEvent(e)
    decreases t, 0
  {
    if w.format.layout != ListFormat.TypeHierarchy && w.ShowsTypes() {
      TypeListEvents(w, t.nested, TypeOrder(t.nested, true));
    }
  }

  lemma {:induction false} TypeListEvents(w: Writer, types: seq<TypeDef>, order: seq<nat>)
    requires forall k :: 0 <= k < |order| ==> order[k] < |types|
    ensures forall e :: e in TypeList(w, types, order) ==> TypeEvent(e)
    decreases types, 1
  {
    if |order| > 0 {
      var blocks := TypeBlocks(w, types, order);
      forall k | 0 <= k < |blocks| ensures forall e :: e in blocks[k] ==> TypeEvent(e) {
        TypeBlockEvents(w, types[order[k]]);
      }
      JoinEvents(blocks, [TypeSeparator], TypeEvent);
    }
  }
}
